=== FILE: README.md ===
# fizicamd backend — a Dafny model of its HTTP core

The fizicamd backend is the REST service of an educational physics
platform. People register and log in with an e-mail and a password, receive
a short-lived access token and a long-lived refresh token (both HS256 JWTs),
and are then admitted to route groups by role: ADMIN manages users, groups
and server metrics; TEACHER (or ADMIN) authors resources — titled,
categorised entries made of content blocks — manages resource categories and
the members of teaching groups; STUDENT reads the groups they belong to.
Anyone can search and read the published resources and record a site visit.
Every role is mirrored by a system group named `Role: <CODE>`, and a
migration runner brings the PostgreSQL schema up to date at start-up.

This project models that core in Dafny, one module per Go file:

- the database is one object (`Store.Db`) whose fields are the tables;
  every handler is a method that reads and updates those fields and
  returns the reply (status code and body, or status code and message);
- the pure helpers — slugs, tag cleaning, block validation, the Argon2id
  hash format, Base64, integer and date parsing, SQL `LIKE` patterns,
  configuration parsing — are functions with the properties the handlers
  rely on proved about them (round trips, idempotence, order, uniqueness);
- the route table is data, and the middleware chain in front of each group
  (`WithAuth`, `RequireRole`, `RequireAnyRole`) is evaluated on it;
- the status recorder of the request logger and the metrics hub are
  classes, since the source updates them in place;
- the migration runner works on a ledger object (the `schema_migrations`
  table and the scripts run). A successful run is proved to have run exactly
  the pending scripts in version order, each then recorded, and a second run
  finds nothing pending. A failed run is proved to have stopped at the first
  pending migration that could not be applied: every pending migration
  before it ran and was recorded, and none after it ran.

Cryptography, clocks, random identifiers and the SQL engine's choices are
parameters: the Argon2id key derivation, the bcrypt comparison and the JWT
signature check are functions passed in; `now` is a number of seconds;
fresh ids are arguments. The timestamps that `ORDER BY created_at DESC` and
`ORDER BY published_at DESC` sort on are not stored, so a listing handler
takes the result of that ordering as an argument `ordered`: the table's ids,
each exactly once. The public search takes its whole SELECT as an argument
`query` (internal/http/public.go:49-56: PUBLISHED entries whose lower-cased
title or summary, or whose tags as JSON text, match the pattern, newest
first); the model applies the cleaning of the term, the pattern and the
LIMIT of 20. Where a query has no `ORDER BY` and reads a single row
(`Categories.QueryGroupOrder`), the row is a choice the model leaves open.

Some behaviours of the source look surprising; the model keeps them as
written:

- updating or deleting a group with an unknown id answers 204 (the SQL
  statement simply affects no row);
- the reply to a resource update names the caller as author, not the
  entry's stored author (`internal/http/resources_teacher.go:289`);
- a teacher of a group cannot remove a co-teacher directly, but can demote
  them to student and then remove them;
- the teacher resource detail endpoint does not check ownership, unlike
  update and delete;
- a migration named like `V3.sql` has no numeric version for ordering,
  yet its version text "3.sql" still counts when deciding whether it has
  already run;
- the public category list runs the same query as the teacher category
  list and is modelled by `Categories.ListCategories`.

## Model

| member | source | states |
|---|---|---|
| AdminUsers.ListCodes | internal/http/admin_users.go:116 | the role codes of a user come back each exactly once, and a code is listed iff the user holds a role with that code |
| AdminUsers.PrimaryRoleHeld | internal/http/admin_users.go:355-358 | the primary role is STUDENT for a user without roles and otherwise one of the codes the user holds |
| AdminUsers.BuildAdminUser | internal/http/admin_users.go:330-374 | no view for an unknown user; otherwise the view of the users row, its profile (all NULL without one) and exactly the user's role codes |
| AdminUsers.PageNumber | internal/http/admin_users.go:68 | the page is the `page` parameter when it parses to a positive integer, else 1 |
| AdminUsers.PageSize | internal/http/admin_users.go:69-72 | the page size lies in 1..100: the parsed positive `pageSize` capped at 100, else 10 |
| AdminUsers.Matching | internal/http/admin_users.go:73-79 | keeps the listing order and selects exactly the users whose lower-cased e-mail matches the LIKE pattern, or all users for an empty search; a listing without repeats gives a selection without repeats |
| AdminUsers.PageRows | internal/http/admin_users.go:85-93 | a page is the slice of at most `size` rows starting at offset (page-1)*size, empty past the end |
| AdminUsers.EveryMatchOnItsPage | internal/http/admin_users.go:85-93 | paging loses nothing: the k-th matching user is on page k/size+1 at position k%size |
| AdminUsers.Wrap64 | internal/http/admin_users.go:85 | the product as Go's 64-bit int holds it: always within [-2^63, 2^63) |
| AdminUsers.PageRowsAsWritten | internal/http/admin_users.go:85-93 | the query as written fails exactly when the 64-bit wrapped offset is negative |
| AdminUsers.FarPageWrapsToFirst | internal/http/admin_users.go:85 | page 2^62+1 of size 4 wraps to offset 0 and shows the first page again, where the intended paging is empty |
| AdminUsers.PlainSearchIsContainment | internal/http/admin_users.go:76-79 | a search term without LIKE wildcards selects exactly the users whose lower-cased e-mail contains the lower-cased term |
| AdminUsers.ViewRows | internal/http/admin_users.go:113-136 | the loop yields, in order, the view of every selected row with its role codes |
| AdminUsers.ListUsers | internal/http/admin_users.go:67-138 | for a listing of the users table in which each user appears once: status 200; total is the number of users in the table whose e-mail matches, as `count(*)` gives it; the selection has no repeats; the items are the views of the rows of the requested page; page and size are echoed; nothing changes |
| AdminUsers.RoleCode | internal/http/admin_users.go:188 | a normalised role code is already upper case |
| AdminUsers.RequestedRoles | internal/http/admin_users.go:183-186 | the roles asked for are the listed ones, or only STUDENT when the list is empty |
| AdminUsers.NormalStatus | internal/http/admin_users.go:224-228 | no status for a missing or blank value; otherwise the trimmed, upper-cased value, which is non-empty |
| AdminUsers.LinkRole | internal/http/admin_users.go:189-193 | a known code adds exactly one user_roles link and, when the role group exists, the user is in it; other memberships are kept and only this user's are added |
| AdminUsers.GroupsKept | internal/http/admin_users.go:187-194 | memberships in the role groups already joined survive the later grants |
| AdminUsers.GrantRoles | internal/http/admin_users.go:183-194 | the links added are exactly those of the known normalised codes; the user is in the role group of each such code whose group exists; only this user gains memberships |
| AdminUsers.CreatedProfile | internal/http/admin_users.go:179-182 | the inserted profile carries exactly the submitted names, phone, school and grade, and no birth date, gender, bio or avatar |
| AdminUsers.CreatedUser | internal/http/admin_users.go:166-174 | the inserted user has the normalised e-mail, the hash, status ACTIVE or the normalised submitted status, and no login or visit time |
| AdminUsers.CreateUser | internal/http/admin_users.go:140-201 | 400 for a blank e-mail or password and for an e-mail in use, 500 for a hashing failure or a taken id, all without change; otherwise the user, its profile, its role links and memberships exist and the reply is its view |
| AdminUsers.DesiredSet | internal/http/admin_users.go:251-257 | the desired set holds exactly the non-empty normalised codes of the requested roles |
| AdminUsers.AddMissingRoles | internal/http/admin_users.go:258-267 | the links added are exactly those of the known desired codes not yet held; the user joins their existing role groups |
| AdminUsers.DropUndesiredRoles | internal/http/admin_users.go:268-276 | the links removed are exactly those of the known held codes that are not desired |
| AdminUsers.Reconciled | internal/http/admin_users.go:241-276 | after both loops the user holds exactly the desired codes that the roles table knows |
| AdminUsers.UpdatedProfile | internal/http/admin_users.go:230-239 | the five submitted columns overwrite the row's, NULL included; the avatar and other columns stay |
| AdminUsers.UpdatedUser | internal/http/admin_users.go:224-229 | the status becomes the given one when present, else the stored one is kept (COALESCE) |
| AdminUsers.UpdateUser | internal/http/admin_users.go:203-283 | 400 for a blank e-mail, 404 for an unknown user, 400 when the e-mail differs from the stored one ignoring case, all without change; otherwise status, profile and roles are updated and the reply is the new view |
| AdminUsers.ReconcileRoles | internal/http/admin_users.go:241-282 | the user ends holding exactly the known desired codes and the reply is the user's view |
| AdminUsers.AdminAvatarToRemove | internal/http/admin_users.go:287-291 | the asset to delete is the profile's avatar id when it is present and non-empty, otherwise none |
| AdminUsers.DeleteUser | internal/http/admin_users.go:285-294 | the reply is always 204; the users row is gone and the avatar deleted is the profile's non-empty avatar id, if any |
| AdminUsers.AssignRole | internal/http/admin_users.go:296-316 | 400 for a blank role, 404 for an unknown one, without change; otherwise 204 and the user holds the role and is in its group |
| AdminUsers.RemoveRole | internal/http/admin_users.go:318-328 | 404 for an unknown role without change; otherwise 204 and the user no longer holds it, memberships left as they are |
| AdminUsers.AssignThenRemove | internal/http/admin_users.go:296-328 | assigning then removing a role leaves the user without it, whether or not it was held before |
| AuthHandlers.ParseBirthDate | internal/http/auth_handlers.go:204-217 | no date for a missing or blank value or one that is not a valid `2006-01-02` date; otherwise the date the trimmed text spells |
| AuthHandlers.BirthDateRoundTrip | internal/http/auth_handlers.go:204-217 | every calendar date written as YYYY-MM-DD is read back as itself |
| AuthHandlers.RegisteredProfile | internal/http/auth_handlers.go:81-84 | the inserted profile carries the submitted names, phone, school, grade and parsed birth date, and no gender, bio or avatar |
| AuthHandlers.Register | internal/http/auth_handlers.go:42-93 | 400 for a mismatched confirmation, then for a blank e-mail or password, then for an e-mail in use; 500 for a hashing failure or a taken id; every failure changes nothing; success creates an ACTIVE user with the normalised e-mail and the hash, its profile, and answers the id and e-mail |
| AuthHandlers.GrantStudentRole | internal/http/auth_handlers.go:86-91 | when the roles table has STUDENT the user gains exactly that link and joins the STUDENT group if it exists; otherwise nothing changes |
| AuthHandlers.Stamped | internal/services/users.go:40-44 | after a login both the last-login and last-seen times are `now`; e-mail, hash and status are kept |
| AuthHandlers.Login | internal/http/auth_handlers.go:95-152 | 400 for a blank e-mail or password, 401 for an unknown e-mail, 403 when no account with it is ACTIVE, 401 only for a wrong password; failures change nothing; success stamps the admitted user and issues both tokens; an account admitted under every choice always logs in when signing works |
| AuthHandlers.IssueLoginTokens | internal/http/auth_handlers.go:123-151 | a signing failure answers 500 and changes nothing; otherwise the user is stamped and the reply carries an access token, a refresh token, their expiry and the user's view |
| AuthHandlers.RegisteredUserCanLogIn | internal/http/auth_handlers.go:66-76 | after registering, the new account is the only owner of its e-mail, is ACTIVE, and its stored hash matches the password, so Login admits it |
| AuthHandlers.RefreshSubject | internal/http/auth_handlers.go:160-169 | a subject is accepted exactly when the token parses, its `typ` claim is "refresh" and its `sub` claim is a non-empty string |
| AuthHandlers.RefreshTokenAccepted | internal/http/auth_handlers.go:160-169 | a refresh token issued for a user is accepted, for that user, until it expires |
| AuthHandlers.AccessTokenNotRefresh | internal/http/auth_handlers.go:161 | an access token is never accepted as a refresh token |
| AuthHandlers.Refresh | internal/http/auth_handlers.go:154-198 | 401 for a token that is not a valid refresh token; 500 for a subject with no user or a signing failure; otherwise new tokens for the subject with an empty e-mail claim |
| AuthHandlers.Logout | internal/http/auth_handlers.go:200-202 | always 200 with `{"status": "ok"}` |
| AuthMiddleware.BearerToken | internal/http/auth.go:27 | the token is the text after `Bearer `, with the white space around it trimmed |
| AuthMiddleware.BearerTokenReadBack | internal/http/auth.go:27 | a trimmed token sent as `Bearer <token>` is read back unchanged |
| AuthMiddleware.StringElements | internal/http/auth.go:40-46 | the roles kept are string elements of the claim's list, never more than it has |
| AuthMiddleware.AuthGate | internal/http/auth.go:22-50 | a header without the case-sensitive `Bearer ` prefix is refused with 401; every refusal is 401; a request passes exactly when the header has the prefix and its token parses with `typ` "access", and then carries the `sub`, `email` and string `roles` claims as its identity |
| AuthMiddleware.WithAuth | internal/http/auth.go:19-53 | the middleware's outcome is the gate's decision for the header |
| AuthMiddleware.CollectStrings | internal/http/auth.go:39-46 | the loop keeps exactly the string elements of the `roles` claim, in order |
| AuthMiddleware.StringElementsOfList | internal/http/auth.go:40-46 | a roles claim written from a list of strings is read back as that list |
| AuthMiddleware.AccessTokenAdmitted | internal/http/auth.go:19-53 | an access token the service issued, presented as `Bearer <token>` before it expires, passes with the user id, e-mail and roles it was issued for |
| AuthMiddleware.AccessIdentity | internal/services/auth.go:40-55 | the access claims carry the user id as `sub`, the e-mail and the role list, so the middleware reads back exactly these |
| AuthMiddleware.RefreshTokenRefused | internal/http/auth.go:33-36 | a refresh token presented as a bearer token is always refused with 401 |
| AuthMiddleware.CurrentUserId | internal/http/auth.go:55-60 | the user id bound by WithAuth, or "" for a request without one |
| AuthMiddleware.CurrentRoles | internal/http/auth.go:62-67 | the roles bound by WithAuth, or none for a request without them |
| AuthMiddleware.HasRole | internal/http/resources_teacher.go:335-343 | true iff some role equals the required one ignoring ASCII case |
| AuthMiddleware.RequireRole | internal/http/auth.go:69-82 | allows iff the request has an identity holding the role ignoring case; otherwise 403 |
| AuthMiddleware.HasAnyRole | internal/http/auth.go:85-96 | true iff some held role equals some allowed role ignoring case |
| AuthMiddleware.RequireAnyRole | internal/http/auth.go:84-100 | allows iff the identity holds at least one of the allowed roles ignoring case; otherwise 403 |
| Base64.Encode | internal/services/auth.go:100-101 | the unpadded standard encoding: only alphabet characters, and never a length of 1 modulo 4 |
| Base64.Decode | internal/services/auth.go:144-151 | decoding succeeds only on alphabet characters (line breaks are skipped) and yields three bytes per four characters |
| Base64.DecodeEncode | internal/services/auth.go:100-101 | decoding the encoding of any byte string gives it back |
| Base64.DecodeEncodeGroups | internal/services/auth.go:144-151 | group by group, the decoder inverts the encoder on every byte string |
| Base64.EncodeHasNoSeparators | internal/services/auth.go:102-105 | an encoded salt or key never contains `$` or `,`, so the stored hash splits back into its fields |
| Bytes.XorOrZero | internal/services/auth.go:161-165 | accumulating `diff \| (x ^ y)` stays zero exactly when it was zero and the bytes are equal |
| Numbers.FormatNat | internal/services/auth.go:102-104 | decimal text of a natural number: digits only, no leading zero except for 0 itself |
| Numbers.DigitsOfFormat | internal/services/auth.go:102-104 | the decimal text of a number reads back as that number |
| Numbers.FormatNatInjective | internal/services/auth.go:102-104 | distinct numbers have distinct decimal texts |
| Numbers.Atoi | internal/http/admin_users.go:380 | strconv.Atoi: a result lies in the 64-bit range and comes only from text starting with a digit or a sign |
| Numbers.AtoiFormat | internal/http/admin_users.go:380 | the decimal text of any number up to 2^63-1 parses back to it |
| Numbers.AtoiNeedsDigits | internal/http/admin_users.go:380 | a non-digit after the first character makes the parse fail |
| Numbers.ParseUint | internal/services/auth.go:134-141 | the parameter value as read with its error ignored: never above the field's maximum |
| Numbers.ParseUintFormat | internal/services/auth.go:134-141 | the decimal text of a value within the maximum reads back as that value |
| Numbers.ParseInt | internal/http/admin_users.go:376-388 | the parsed value when the text is an integer of at least 1, the fallback otherwise |
| Numbers.ParseIntFormat | internal/http/admin_users.go:376-388 | any positive 64-bit number written in decimal is taken as given |
| Dates.DaysIn | internal/http/auth_handlers.go:212 | a month has 28 to 31 days, and February has 29 exactly in a leap year |
| Dates.ParseDate | internal/http/auth_handlers.go:212 | layout `2006-01-02`: a result is a valid calendar date read from ten characters with dashes at positions 4 and 7 |
| Dates.FormatThenParse | internal/http/auth_handlers.go:212 | every valid date written in the layout parses back to itself |
| Dates.ParseThenFormat | internal/http/auth_handlers.go:212 | every text the layout accepts is exactly the layout's writing of the date it denotes |
| SqlLike.ContainsPattern | internal/http/admin_users.go:78 | the search pattern is the term between a leading and a trailing `%` |
| SqlLike.ContainsPatternMatches | internal/http/admin_users.go:76-79 | with a term free of `%`, `_` and `\`, the pattern matches exactly the values containing the term |
| SqlLike.UnderscoreMatchesAnyCharacter | internal/http/admin_users.go:78 | a search for `_` is not literal: it matches every non-empty value |
| SqlLike.PrefixPattern | internal/http/admin_users.go:78 | a plain text followed by `%` matches exactly the values starting with that text |
| Text.TrimSpaceIdempotent | internal/services/resources.go:98-104 | trimming a trimmed text changes nothing |
| Text.TrimSpaceIsInfix | internal/services/resources.go:98-104 | the trimmed text is a contiguous piece of the original |
| Text.BlankIffAllSpace | internal/http/admin_users.go:147 | a text is blank after trimming exactly when all its characters are white space |
| Text.JoinSplit | internal/services/auth.go:118 | joining the pieces of a split with the separator gives back the text |
| Text.SplitJoin | internal/services/auth.go:118 | splitting a join of separator-free pieces gives back the pieces |
| Text.Cut | internal/services/auth.go:128 | `SplitN(kv, "=", 2)`: no pair without the separator; otherwise a key free of it and the rest |
| Text.CutAfterKey | internal/services/auth.go:128 | `key=value` with a key free of `=` splits into exactly that key and value |
| Text.LessTotal | internal/http/auth_handlers.go:128 | the byte order of texts is total: of two different texts one comes first |
| Text.LessTransitive | internal/http/auth_handlers.go:128 | the byte order of texts is transitive |
| Categories.QueryMaxGroupOrder | internal/http/resource_categories.go:78 | the largest group order of any category, or 0 without categories |
| Categories.QueryMaxSortOrder | internal/http/resource_categories.go:86 | the largest sort order within the group, or 0 for a group without categories |
| Categories.QueryGroupOrder | internal/http/resource_categories.go:75 | no order iff no category has the group label; otherwise the group order of some category of that group |
| Categories.InsertPos | internal/http/resource_categories.go:35 | the place for a new row: every row before it comes no later in (group order, sort order), the row after it comes later |
| Categories.InsertInOrder | internal/http/resource_categories.go:35 | inserting at that place keeps the rows ordered by group order, then sort order |
| Categories.InsertedAt | internal/http/resource_categories.go:35 | the inserted row sits at its place, the rows before it and after it are the old ones shifted |
| Categories.InsertedListing | internal/http/resource_categories.go:39-48 | adding one more category keeps the list ordered, duplicate-free and made of exactly the categories listed so far |
| Categories.ListCategories | internal/http/resource_categories.go:27-50 | 200 with every category exactly once, each row its code, label, group and orders, ordered by group order then sort order |
| Categories.AppendedLast | internal/http/resource_categories.go:73-89 | default orders put a new category after every category of its group and a new group after every group; an empty table starts at 1 and 1 |
| Categories.PlaceInGroup | internal/http/resource_categories.go:73-89 | a given order is kept; otherwise the group's existing order or one past the largest, and one past the group's largest sort order |
| Categories.CreateCategory | internal/http/resource_categories.go:52-99 | 400 for a blank label, then for a blank group; otherwise the outcome is that of the candidate loop over the slug of the trimmed label: the first candidate not in use is the new code, and 500 comes only from a failed code query; failures change nothing; success stores the category under that code with the trimmed label and group and the placed orders, and answers it |
| Categories.UpdateCategory | internal/http/resource_categories.go:101-168 | 400 for a blank label or group, 404 for an unknown code, all without change; staying in its group keeps the unspecified orders, moving places it like a new category; the stored row is the one answered |
| Categories.DeleteCategory | internal/http/resource_categories.go:170-186 | 404 for an unknown code, 400 while a resource uses it, both without change; otherwise 204 and the category is gone; no resource is left with an unknown category |
| Categories.Relabeled | internal/http/resource_categories.go:221 | the same categories; those of the renamed group get the new label and order and keep their label text and sort order; the others are untouched |
| Categories.RelabeledShareOrder | internal/http/resource_categories.go:221 | when the new label was unused, all categories carrying it share one group order |
| Categories.ReportRows | internal/http/resource_categories.go:223-226 | the reply lists each renamed category once with the new label and group order |
| Categories.SelectGroup | internal/http/resource_categories.go:212 | the rows selected are exactly the categories of the group, each once |
| Categories.UpdateGroupLabel | internal/http/resource_categories.go:188-228 | 400 for a blank group in the path or a blank new label, 404 for a group with no category, all without change; otherwise the group is renamed with the given order or the order of one of its rows, and the reply lists its categories as updated |
| Config.MustEnv | internal/config/config.go:36-42 | succeeds iff the variable is not blank, with exactly its trimmed value (non-empty); otherwise the failure `missing env var: <key>` (the panic) |
| Config.EnvOr | internal/config/config.go:44-50 | the fallback for a blank or unset variable, otherwise exactly its trimmed value, which is non-empty |
| Config.EnvOrInt | internal/config/config.go:52-62 | the fallback for a blank variable or one that is not an integer; any other result is the integer the trimmed value spells |
| Config.EnvOrIntReads | internal/config/config.go:52-62 | a variable holding a decimal number (up to 2^63-1) is read as that number |
| Config.ParseCsv | internal/config/config.go:64-77 | no list (nil) exactly for a blank value; the items of the pieces are given by CsvItemsAppend and CsvItemsOne |
| Config.CsvItemsAppend | internal/config/config.go:70-75 | the loop works piece by piece: the items of two runs of pieces are the items of each, in order |
| Config.CsvItemsOne | internal/config/config.go:71-74 | a blank piece gives no item, any other its trimmed text |
| Config.CsvItemsClean | internal/config/config.go:70-75 | every item kept is non-empty, trimmed and free of commas |
| Config.ParseCsvClean | internal/config/config.go:64-77 | every origin read is non-empty, trimmed and free of commas |
| Config.CsvItemsOfClean | internal/config/config.go:70-75 | items that are already non-empty and trimmed are all kept, in order |
| Config.ParseCsvJoin | internal/config/config.go:64-77 | joining clean items with commas and parsing gives back exactly the items |
| Config.Load | internal/config/config.go:22-34 | loading succeeds iff DATABASE_URL and JWT_SECRET are set and not blank; a missing DATABASE_URL is the first failure; issuer and storage paths are never empty |
| Config.LoadDefaults | internal/config/config.go:22-34 | with only the two required variables set, every other setting takes its documented default |
| ServiceErrors.Message | internal/services/errors.go:10-12 | a service error's text is its message; a wrapped error's text ends with the inner error's |
| ServiceErrors.Unwrap | internal/services/errors.go:30-35 | only a wrapped error has an inner one |
| ServiceErrors.ErrNotFound | internal/services/errors.go:14-16 | a service error with status 404 and the message |
| ServiceErrors.ErrBadRequest | internal/services/errors.go:18-20 | a service error with status 400 and the message |
| ServiceErrors.ErrForbidden | internal/services/errors.go:22-24 | a service error with status 403 and the message |
| ServiceErrors.ErrUnauthorized | internal/services/errors.go:26-28 | a service error with status 401 and the message |
| ServiceErrors.WrapError | internal/services/errors.go:30-35 | no error stays no error; otherwise the text is `msg: inner` and unwrapping yields the inner error |
| ServiceErrors.WrappedServiceError | internal/services/errors.go:30-35 | a wrapped service error is no longer a service error, though its text still ends with the message |
| GroupHandlers.MemberRole | internal/http/groups.go:291-295 | the caller's role in the group, or "" when the pair is not a member |
| GroupHandlers.TeacherIsMember | internal/http/groups.go:279-289 | a teacher of a group is a member of it, with role TEACHER |
| GroupHandlers.ListMembers | internal/http/groups.go:246-260 | the members listed are exactly the group's members that have a users row, each once, with their e-mail and role |
| GroupHandlers.GetGroup | internal/http/groups.go:235-262 | no result for an unknown group; otherwise its id, name, grade and year and the listing of its members |
| GroupHandlers.UserGroups | internal/http/groups.go:264-277 | exactly the existing groups the user belongs to, each once, each with its name and members |
| GroupHandlers.MyGroups | internal/http/groups.go:125-133 | 200 with exactly the groups the caller belongs to (TeacherGroups and StudentGroups alike, lines 210-218) |
| GroupHandlers.AdminCreateGroup | internal/http/groups.go:46-62 | 400 for a blank name and 500 for a taken id, both without change; otherwise 201 and a PRIVATE group with the trimmed name, grade and year |
| GroupHandlers.AdminUpdateGroup | internal/http/groups.go:64-76 | the group takes the name, grade and year given; an unknown id changes nothing and still answers 204 |
| GroupHandlers.AdminDeleteGroup | internal/http/groups.go:78-85 | the group is gone and the answer is 204, whether or not it existed |
| GroupHandlers.AdminAddMember | internal/http/groups.go:87-103 | 400 for an empty user id or role without change; otherwise 204 and the user is a member with the upper-cased role, replacing any previous role |
| GroupHandlers.AdminRemoveMember | internal/http/groups.go:105-113 | the membership is gone and the answer is 204 |
| GroupHandlers.AdminGetGroup | internal/http/groups.go:115-123 | 404 exactly for an unknown group; otherwise 200 with the group and its members |
| GroupHandlers.MemberGetGroup | internal/http/groups.go:135-148 | 403 for a caller who is not a member, 404 for an unknown group, else 200 with the group and its members (StudentGetGroup, lines 220-233, is the same) |
| GroupHandlers.TeacherUpdateGroup | internal/http/groups.go:150-167 | 403 without change unless the caller teaches the group; otherwise 204 and the group's fields updated when it exists |
| GroupHandlers.TeacherAddMember | internal/http/groups.go:169-191 | 403 unless the caller teaches the group, 403 when the role asked is TEACHER, both without change; otherwise 204 and the member has the normalised role; no one ever gains the TEACHER role this way |
| GroupHandlers.TeacherRemoveMember | internal/http/groups.go:193-208 | 403 unless the caller teaches the group, 403 unless the member's role is STUDENT, both without change; otherwise 204 and the membership is gone; only STUDENT memberships are ever removed |
| GroupHandlers.CoTeacherRemovableInTwoSteps | internal/http/groups.go:169-208 | a co-teacher cannot be removed directly, but after another teacher sets their role to STUDENT they can be, and the caller stays a teacher |
| MeHandlers.Me | internal/http/me_handlers.go:32-40 | 404 for a caller without a users row, otherwise 200 with the caller's view |
| MeHandlers.EditedProfile | internal/http/me_handlers.go:55-67 | the eight submitted columns overwrite the profile (NULL included, the birth date parsed) and the avatar is kept |
| MeHandlers.EditIdempotent | internal/http/me_handlers.go:42-78 | sending the same profile update twice leaves the same profile as sending it once |
| MeHandlers.EditShown | internal/http/me_handlers.go:72-77 | after an update the caller's view shows the submitted names, school and bio, and an avatar URL iff an avatar was set before |
| MeHandlers.UpdateProfile | internal/http/me_handlers.go:42-78 | the caller's profile row (created when missing) holds the edited columns; 200 with the caller's view, or 500 for a caller without a users row |
| MeHandlers.ChangePassword | internal/http/me_handlers.go:80-113 | 400 for a mismatched confirmation, 404 for an unknown caller, 401 for a wrong current password, 500 for a hashing failure, all without change; otherwise 204 and only the password hash is replaced |
| MeHandlers.NewPasswordMatches | internal/http/me_handlers.go:102-107 | after the change the new password verifies against the stored hash, and e-mail, status and login time are unchanged |
| MeHandlers.AvatarToRemove | internal/http/me_handlers.go:117-121 | the asset to delete is the profile's avatar id when it is present and not blank, otherwise none |
| MeHandlers.DeleteAccount | internal/http/me_handlers.go:115-124 | always 204; the caller's users row is gone and the avatar deleted is the one AvatarToRemove names |
| MeHandlers.Ping | internal/http/me_handlers.go:126-130 | always 204; an existing caller's last-seen time becomes `now`, nothing else changes |
| MeHandlers.ContentTypeOf | internal/http/me_handlers.go:144-147 | the declared content type, or a non-empty default when none is declared |
| MeHandlers.MediaKind | internal/http/me_handlers.go:187-192 | IMAGE iff the type starts with `image/`, DOCUMENT iff it is otherwise `application/pdf` ignoring case, OTHER for everything else |
| MeHandlers.UntypedUploadIsOther | internal/http/me_handlers.go:183-192 | an upload without a content type is stored as OTHER |
| MeHandlers.SaveFailure | internal/http/me_handlers.go:149-155 | a service error answers its own status and message; any other error answers 500 |
| MeHandlers.ReplacedAvatar | internal/http/me_handlers.go:165-167 | the previous avatar is deleted iff it is present, non-empty and different from the new asset |
| MeHandlers.UploadAvatar | internal/http/me_handlers.go:132-169 | 400 without a file and the save's failure when saving fails, both without change; otherwise 200 with the asset id and URL, the profile points at the new asset and the replaced avatar is the one deleted |
| MeHandlers.AvatarKeptAfterUpload | internal/http/me_handlers.go:157-168 | the new avatar is never the one deleted, and its URL names it |
| MeHandlers.UploadResource | internal/http/me_handlers.go:171-203 | 400 without a file; otherwise the asset is saved in the resources bucket with the media kind of its content type, answering its id and URL or the save's failure |
| Media.BuildAssetUrl | internal/services/media.go:67-69 | the URL is the asset id between the fixed `/media/assets/` prefix and `/content` suffix |
| Media.AssetUrlRoundTrip | internal/services/media.go:67-69 | the asset id can be read back from its URL, so distinct assets get distinct URLs |
| Metrics.HistoryLimit | internal/http/metrics.go:16-19 | the limit lies in 1..500: the parsed positive `limit` capped at 500, else 120 |
| Metrics.HistoryLimitOf | internal/http/metrics.go:16-19 | a written positive number is taken up to 500 and capped above; text that is not a positive integer gives 120 |
| Metrics.MetricsHistory | internal/http/metrics.go:15-26 | 200 with the latest samples for the limit, or 500 when reading them fails |
| Metrics.SocketGate | internal/http/metrics.go:29-50 | 401 for a missing token or one that is not a valid access token, 403 for an access token without ADMIN, admission with the token's roles otherwise |
| Metrics.SocketGateAsBearer | internal/http/metrics.go:29-50 | the socket admits a token iff the bearer middleware would pass it and its roles include ADMIN |
| Metrics.AdminTokenAdmitted | internal/http/metrics.go:29-50 | an unexpired access token issued with the ADMIN role is admitted with its roles |
| Metrics.RefreshTokenRejected | internal/http/metrics.go:35-38 | a refresh token never opens the socket |
| Metrics.Hub.constructor | internal/services/metrics.go:120-125 | a new hub has no clients |
| Metrics.Hub.Add | internal/services/metrics.go:147-149 | the connection joins the clients |
| Metrics.Hub.Remove | internal/services/metrics.go:151-153 | the connection leaves the clients |
| Metrics.MetricsSocket | internal/http/metrics.go:28-68 | a refused token answers the gate's status and leaves the hub alone; a failed upgrade leaves the hub alone; a served connection is a client while it reads and is removed when reading fails |
| Middleware.StatusRecorder.constructor | internal/http/middleware.go:32 | a fresh recorder has seen no status and no bytes |
| Middleware.StatusRecorder.WriteHeader | internal/http/middleware.go:15-18 | the status becomes the code, which is passed on; the byte count is unchanged |
| Middleware.StatusRecorder.Write | internal/http/middleware.go:20-27 | a first write without a status records 200; the bytes the writer reports are added and its result returned; the body is passed on |
| Middleware.LoggedStatus | internal/http/middleware.go:34-36 | the status logged is the recorded one, or 200 when none was recorded |
| Middleware.RequestLogger | internal/http/middleware.go:29-39 | the logged status and byte count are those the handler's header and body writes produce |
| Middleware.ReplayBytes | internal/http/middleware.go:20-27 | the logged byte count is the sum of what every write reported |
| Middleware.LastStatusWins | internal/http/middleware.go:15-27 | the last explicit status is logged, whatever writes follow it |
| Middleware.WritesOnlyLog200 | internal/http/middleware.go:20-36 | a handler that only writes a body is logged with status 200 |
| Users.SetLastLogin | internal/services/users.go:40-44 | an existing user's last-login and last-seen times become `now`; nothing else changes |
| Users.TouchLastSeen | internal/services/users.go:35-38 | an existing user's last-seen time becomes `now`; nothing else changes |
| Passwords.HashArgon2id | internal/services/auth.go:87-106 | fails exactly when no salt could be drawn; otherwise the stored form starts with `$argon2id$v=19$m=65536,t=3,p=1$` |
| Passwords.HeaderLiteral | internal/services/auth.go:102-105 | the fixed parameters (memory 65536, 3 iterations, parallelism 1) are written as `m=65536,t=3,p=1` |
| Passwords.HashPassword | internal/services/auth.go:29-31 | with a salt the hash succeeds and starts with `$argon2`, so VerifyPassword takes the argon2 branch; without one it fails |
| Passwords.DecodeArgon2id | internal/services/auth.go:117-155 | the loop over the parameter items computes exactly the decoding specification: six `$` fields, an `argon2` type, the m/t/p values, and the base64 salt and key with their lengths |
| Passwords.SubtleCompare | internal/services/auth.go:157-166 | true iff the two byte strings are equal, and for equal lengths every byte pair is visited |
| Passwords.VerifyArgon2id | internal/services/auth.go:108-115 | true iff the hash decodes and the derived key equals the stored one; an undecodable hash never verifies |
| Passwords.VerifyPassword | internal/services/auth.go:33-38 | a hash starting with `$argon2` is checked with argon2id, any other with bcrypt |
| Passwords.HashFields | internal/services/auth.go:102-105 | the stored hash splits on `$` into exactly six fields: empty, `argon2id`, `v=19`, the parameters, the salt and the key |
| Passwords.SectionItems | internal/services/auth.go:126 | the parameter field splits on `,` into the `m=`, `t=` and `p=` items |
| Passwords.MemoryItem | internal/services/auth.go:133-135 | an `m=` item within 32 bits sets the memory to its value |
| Passwords.IterationsItem | internal/services/auth.go:136-138 | a `t=` item within 32 bits sets the iteration count to its value |
| Passwords.ParallelismItem | internal/services/auth.go:139-141 | a `p=` item within 8 bits sets the parallelism to its value |
| Passwords.ItemsSetParams | internal/services/auth.go:127-143 | the three items together give back the three parameters |
| Passwords.ParamsRoundTrip | internal/services/auth.go:102-104 | parameters written into the hash are read back unchanged |
| Passwords.DecodeHash | internal/services/auth.go:117-155 | a freshly made hash decodes to its parameters, its salt and its key |
| Passwords.HashThenVerify | internal/services/auth.go:108-115 | a password verifies against the hash made from it |
| Passwords.VersionIgnored | internal/services/auth.go:117-125 | the version field is never checked: any other `$`-free text there decodes the same |
| Passwords.WrongFieldCount | internal/services/auth.go:118-121 | a hash without exactly six `$` fields is refused and never verifies |
| Passwords.DecodedFields | internal/services/auth.go:117-155 | a decoded hash had six fields, an `argon2` type, and its salt and key are the base64 of fields 4 and 5, with the lengths recorded |
| Tokens.StringList | internal/services/auth.go:48 | the roles claim is a list of the role strings, in order |
| Tokens.AccessClaims | internal/services/auth.go:40-51 | the access claims are exactly iss, sub, typ=access, email, roles, iat=now and exp=now+access TTL |
| Tokens.RefreshClaims | internal/services/auth.go:57-66 | the refresh claims are exactly iss, sub, typ=refresh, iat=now and exp=now+refresh TTL, with no e-mail or roles |
| Tokens.CreateAccessToken | internal/services/auth.go:40-55 | the reported expiry is now plus the access TTL, the same instant as the token's `exp` claim |
| Tokens.CreateRefreshToken | internal/services/auth.go:57-69 | the token is the signature of the refresh claims under the secret |
| Tokens.ParseToken | internal/services/auth.go:71-77 | claims come back iff the signature checks, the token has not expired and is already valid, and the issuer matches |
| Tokens.AccessTokenParses | internal/services/auth.go:40-77 | an access token parses back to its claims until it expires |
| Tokens.RefreshTokenParses | internal/services/auth.go:57-77 | a refresh token parses back to its claims until it expires |
| Tokens.ExpiredTokenRejected | internal/services/auth.go:71-77 | from its expiry on, an access token no longer parses |
| Tokens.ForeignIssuerRejected | internal/services/auth.go:71-77 | a token issued under another issuer with the same secret does not parse |
| PublicApi.ResolveClientIp | internal/http/public.go:92-99 | the remote address without an X-Forwarded-For header; otherwise the header's first comma-separated entry, trimmed |
| PublicApi.ForwardedIpIsOneEntry | internal/http/public.go:92-99 | an address taken from X-Forwarded-For holds no comma and no surrounding white space |
| PublicApi.TrimString | internal/http/public.go:101-110 | "" for a blank value; otherwise the trimmed value cut to at most `maxLen` characters, whole when it fits |
| Text.NullIfEmpty | internal/migrations/migrations.go:249-254 | NULL exactly for a blank value; otherwise the value as given, untrimmed (internal/http/public.go:112-117 defines the same helper) |
| PublicApi.SearchPattern | internal/http/public.go:48 | the LIKE pattern is the lower-cased term between two `%` |
| PublicApi.ItemOf | internal/http/public.go:62-67 | a search hit carries the entry's id, title and slug with type RESOURCE and no link or parent |
| PublicApi.Limited | internal/http/public.go:55 | at most 20 rows, a prefix of the ordered matches, all of them when there are no more than 20 |
| PublicApi.PublicSearch | internal/http/public.go:36-70 | always 200; an empty list for a query with no term left after cleaning; otherwise the first 20 matches of the term's pattern in order, as search hits |
| PublicApi.VisitOf | internal/http/public.go:75-82 | the stored visit has the client address, user agent (512), path (255) and referrer (512), each cut to its width and NULL when blank |
| PublicApi.VisitCaps | internal/http/public.go:76-78 | no stored user agent or referrer exceeds 512 characters and no path exceeds 255 |
| PublicApi.TrackVisit | internal/http/public.go:72-84 | always 204, and exactly one visit is appended |
| PublicApi.VisitCount | internal/http/public.go:86-90 | 200 with the number of visits recorded |
| ResourceHelpers.FetchCategory | internal/http/resources_helpers.go:10-28 | no category for an unknown code; otherwise its code, label, group and both orders |
| ResourceHelpers.Deref | internal/http/resources_helpers.go:56-61 | "" for a missing value, the value otherwise |
| ResourceHelpers.AuthorDisplayName | internal/http/resources_helpers.go:30-54 | never empty; `Profesor` for an unknown author; a known author without a non-blank name part (or without a profile row) is shown by the e-mail when it is non-empty, else `Profesor` |
| ResourceHelpers.NamedAuthor | internal/http/resources_helpers.go:44-48 | an author with a non-blank first or last name is shown by the full name |
| ResourceHelpers.BlankLastName | internal/http/resources_helpers.go:45 | with a blank last name the full name is the trimmed first name, with no stray space |
| ResourceHelpers.BlankFirstName | internal/http/resources_helpers.go:45 | with a blank first name the full name is the trimmed last name, with no stray space |
| ResourceHelpers.MapServiceError | internal/http/resources_helpers.go:63-72 | a service error is answered with its own status and message; no error, or any other error, is left to the caller |
| PublicResources.PublicLimit | internal/http/resources_public.go:42-46 | the page size is the parsed positive `limit`, else 9; it is always at least 1 |
| PublicResources.PublicPage | internal/http/resources_public.go:43 | the page is the parsed positive `page`, else 1 |
| PublicResources.LimitUncapped | internal/http/resources_public.go:42-46 | any written positive limit is honoured, however large: there is no upper bound |
| PublicResources.ShownIds | internal/http/resources_public.go:50-54 | keeps the listing order and selects exactly the PUBLISHED entries, of the category when one is given; a listing without repeats gives a selection without repeats |
| PublicResources.PageRowsListed | internal/http/resources_public.go:60-67 | every row of a page is one of the rows it was cut from |
| PublicResources.PublicResourceList | internal/http/resources_public.go:40-114 | for a listing of the entries table in which each entry appears once: always 200; total is the number of PUBLISHED entries of the table (of the category when one is given), as `count(*)` gives it, with no repeats among them; the items are the cards of the requested page of them, each a shown entry; page and size are echoed |
| PublicResources.PageStartsAtOffset | internal/http/resources_public.go:47 | a page starts at the entry at position (page-1)*limit, so consecutive pages neither skip nor repeat |
| PublicResources.HugeLimitWrapsNegative | internal/http/resources_public.go:47 | with limit 2^62 the third page's 64-bit offset wraps negative and the query fails, where the intended page is empty |
| PublicResources.PublicResourceDetail | internal/http/resources_public.go:116-171 | 404 iff no entry has the slug, 404 for an entry that is not PUBLISHED, otherwise 200 with the detail of a published entry with the slug; with unique slugs success happens iff such an entry exists |
| TeacherResources.Listed | internal/http/resources_teacher.go:27-49 | keeps the listing order and selects exactly the entries the caller may manage; a listing without repeats gives a selection without repeats |
| TeacherResources.ListedOwnOnly | internal/http/resources_teacher.go:45-48 | a caller without ADMIN sees exactly their own entries |
| TeacherResources.ListedAll | internal/http/resources_teacher.go:27 | an ADMIN sees every entry |
| TeacherResources.AvatarUrl | internal/http/resources_teacher.go:59-63 | a URL iff an avatar is set, and the URL names that avatar |
| TeacherResources.CardOf | internal/http/resources_teacher.go:55-81 | the card carries the entry's id, slug, status and publication time, the category looked up by its code, and its author's display name |
| TeacherResources.DetailOf | internal/http/resources_teacher.go:123-136 | the detail carries the entry's fields, blocks, tags, avatar, category and the author name given |
| TeacherResources.Cards | internal/http/resources_teacher.go:54-82 | one card per row, in order |
| TeacherResources.TeacherListResources | internal/http/resources_teacher.go:25-84 | for a listing of the entries table in which each entry appears once: 200 with the card of every entry of the table the caller may manage, each exactly once (as many cards as such entries), in listing order, and no other |
| TeacherResources.TeacherResourceDetail | internal/http/resources_teacher.go:86-137 | 404 iff the entry is unknown; otherwise 200 with its detail, with no ownership check |
| TeacherResources.CheckFields | internal/http/resources_teacher.go:146-163 | the "title and summary required" message iff after trimming any of category, title or summary is blank; otherwise the unknown-category message, or the block validation's message; success exactly when all checks pass, with the trimmed fields and the validated blocks |
| TeacherResources.Check | internal/http/resources_teacher.go:146-163 | the checks against the database give exactly CheckFields' outcome |
| TeacherResources.StatusOnCreate | internal/http/resources_teacher.go:167-170 | the given status, or PUBLISHED when none is given |
| TeacherResources.PublishedOnCreate | internal/http/resources_teacher.go:178-181 | a publication time (now) exactly for a PUBLISHED entry |
| TeacherResources.StatusOnUpdate | internal/http/resources_teacher.go:266-269 | the given status, or the stored one when none is given |
| TeacherResources.PublishedOnUpdate | internal/http/resources_teacher.go:271-278 | a publication time exactly when PUBLISHED: the stored one when there is one, else now |
| TeacherResources.CreatedEntry | internal/http/resources_teacher.go:182-185 | the new entry belongs to the caller, has the resolved slug, the checked fields and the create status, and its publication time agrees with its status |
| TeacherResources.UpdatedEntry | internal/http/resources_teacher.go:279-283 | the entry keeps its author and slug, takes the checked fields and the update status, and its publication time agrees with its status |
| TeacherResources.RepublishKeepsDate | internal/http/resources_teacher.go:271-275 | editing a published entry that stays published keeps its original publication time |
| TeacherResources.UnpublishThenPublish | internal/http/resources_teacher.go:271-278 | unpublishing clears the publication time, and publishing again stamps the new time |
| TeacherResources.SlugsOf | internal/services/resources.go:63-79 | the set of slugs in use: exactly the slugs of the stored entries |
| TeacherResources.CreateResource | internal/http/resources_teacher.go:139-220 | 400 with CheckFields' message when a check fails, otherwise any failure is 500, and a 500 comes only from a failed slug query or a taken id; failures change nothing; success stores the created entry under the fresh id with the first unused candidate of the title's slug (Slugify's fallback id is a separate fresh id), answered with its detail; publication times stay consistent with statuses |
| TeacherResources.UpdateResource | internal/http/resources_teacher.go:222-314 | 404 for an unknown entry, 404 for an entry the caller may not manage, 400 with CheckFields' message, all without change; otherwise the entry is updated and answered, with the caller's name as author; publication times stay consistent |
| TeacherResources.DeleteResource | internal/http/resources_teacher.go:316-333 | 404 for an unknown entry or one the caller may not manage, without change; otherwise 204 and the entry is gone |
| TeacherResources.OthersEntriesUntouched | internal/http/resources_teacher.go:240-244 | a caller without ADMIN may not manage another author's entry |
| RoleGroups.RoleGroupName | internal/services/groups.go:23 | the role group's name is "Role: " followed by the code, so the code can be read back from it |
| RoleGroups.RoleGroup | internal/services/groups.go:31-34 | a SYSTEM group named after the role, with the generated description and no grade or year |
| RoleGroups.RoleGroupNameInjective | internal/services/groups.go:23 | distinct role codes give distinct group names |
| RoleGroups.EnsureRoleGroup | internal/services/groups.go:22-36 | nothing changes when a group has the name; otherwise the group is inserted under the fresh id, or the insert fails on a taken id; on success the group exists |
| RoleGroups.EnsureRoleGroups | internal/services/groups.go:13-20 | no group is lost or altered and only role groups are added; on success ADMIN, TEACHER and STUDENT each have their group; when they already did, nothing changes |
| RoleGroups.RoleGroupAdded | internal/services/groups.go:14-18 | adding one more role group keeps the two invariants of the loop |
| RoleGroups.NamedGroupKept | internal/services/groups.go:14-18 | a group found by name earlier in the loop is still there afterwards |
| RoleGroups.EnsureMembership | internal/services/groups.go:56-79 | no group with the upper-cased role's name fails with "no rows" and no change; otherwise the user is a member of that group, added with the upper-cased role only if not already one; no other membership changes |
| RoleGroups.EnsureUserMemberships | internal/services/groups.go:38-54 | on success the user is in the role group of every role they hold; a failure is "no rows"; memberships are only added, and only for this user |
| RoleGroups.InRoleGroupKept | internal/services/groups.go:48-52 | a membership established earlier in the loop survives the later steps |
| RoleGroups.EnsureMembershipFor | internal/services/groups.go:81-83 | succeeds iff the role group exists, and then the user is in it; only this user's memberships are added |
| RoleGroups.CreateGroup | internal/services/groups.go:85-92 | the new id is returned; a PRIVATE group with the trimmed name, grade and year is stored under it, or the insert fails on a taken id without change |
| RoleGroups.UpdatedGroup | internal/services/groups.go:97 | the name is replaced only when one is given; grade and year are always replaced (cleared when absent); description and visibility stay |
| RoleGroups.UpdateGroup | internal/services/groups.go:94-101 | the group, when it exists, becomes UpdatedGroup of itself; an unknown id changes nothing |
| RoleGroups.DeleteGroup | internal/services/groups.go:103-106 | the group is gone and nothing else changes |
| RoleGroups.AddMember | internal/services/groups.go:108-116 | the membership is inserted, or its role replaced, with the upper-cased role |
| RoleGroups.RemoveMember | internal/services/groups.go:118-121 | the membership is gone and nothing else changes |
| Routes.NewServer | internal/http/server.go:23-36 | the token service takes its secret, issuer and both lifetimes from the configuration |
| Routes.DefaultLifetimes | internal/http/server.go:23-29 | with only the two required variables set, tokens are issued by "fizicamd" and live 4 hours (access) and 14 days (refresh) |
| Routes.Mount | internal/http/server.go:50-142 | every route of a group lies under its prefix and runs the group's middleware before its own |
| Routes.GuardsOf | internal/http/server.go:38-146 | the guards found belong to a route with that verb and pattern |
| Routes.Admit | internal/http/server.go:57-139 | a request is refused only with 401 or 403; a chain without authentication passes the context through unchanged |
| Routes.OpenRoutes | internal/http/server.go:50-54 | the auth, public and metrics-socket routes have no guard, and a guardless chain serves every request |
| Routes.GroupGuards | internal/http/server.go:56-141 | /me runs authentication; /admin adds ADMIN; /teacher adds TEACHER or ADMIN; /student/groups adds STUDENT; every /media route starts with authentication |
| Routes.MediaUploads | internal/http/server.go:136-141 | resource uploads need TEACHER or ADMIN, avatar uploads only authentication |
| Routes.RoleChain | internal/http/server.go:66-68 | authentication followed by a role check answers 401 for a rejected token, 403 without the role, and serves the caller's identity otherwise |
| Routes.AdminIsNotStudent | internal/http/server.go:88-122 | an ADMIN-only caller is refused the student routes with 403 and admitted to the admin and teacher routes |
| Routes.RoleGateNeedsAuth | internal/http/server.go:68 | a role check placed before authentication always refuses with 403 |
| ResourceText.Build | internal/services/resources.go:25-37 | the built text is never longer than its input |
| ResourceText.BuildShape | internal/services/resources.go:26-37 | the built text never holds two dashes in a row, holds only letters, digits and dashes drawn from the input, has a letter or digit iff the input has one, and the last-dash flag tells whether it ends in a dash |
| ResourceText.TrimDashes | internal/services/resources.go:38 | the result neither starts nor ends with a dash and is the input with its leading and trailing dashes cut |
| ResourceText.TrimDashesKeepsAlnum | internal/services/resources.go:38 | cutting dashes keeps every letter and digit |
| ResourceText.SlugOf | internal/services/resources.go:23-43 | the trimmed build of the lower-cased, trimmed value, or the fresh id when that is empty |
| ResourceText.Slugify | internal/services/resources.go:23-43 | the loop computes SlugOf |
| ResourceText.TrimmedBuild | internal/services/resources.go:24-38 | the trimmed build is non-empty iff the input has a letter or digit, has no double dash and is drawn from the input |
| ResourceText.SlugShape | internal/services/resources.go:23-43 | a value with a letter or digit gives a well-formed slug (non-empty, no dash at either end, no double dash, only letters, digits and dashes); any other gives the fresh id |
| ResourceText.SlugifySlug | internal/services/resources.go:23-43 | a well-formed lower-case slug is its own slug: slugifying is idempotent on its results |
| ResourceText.Candidate | internal/services/resources.go:47-58 | the first candidate is the base, the k-th is the base, a dash and k |
| ResourceText.CandidatesDiffer | internal/services/resources.go:58 | no candidate is tried twice |
| ResourceText.ResolveUnique | internal/services/resources.go:45-79 | the loop stops: every earlier candidate was taken, and the one it stops at is free (returned) or the query failed there (error) |
| ResourceText.FirstFreeUnique | internal/services/resources.go:45-79 | the candidate loop has a single outcome: the first candidate reported free, or the failure of the first query that fails |
| ResourceText.ResolveCategoryCode | internal/services/resources.go:45-61 | the outcome of the candidate loop over the slug of the label: every earlier candidate is taken, and the code is the first free one, or none only because its query failed |
| ResourceText.ResolveResourceSlug | internal/services/resources.go:63-79 | the outcome of the candidate loop over the slug of the title: every earlier candidate is taken, and the slug is the first free one, or none only because its query failed |
| ResourceText.Trimmed | internal/services/resources.go:85 | each tag trimmed, in place |
| ResourceText.Keep | internal/services/resources.go:82-95 | never more tags than given |
| ResourceText.CleanTags | internal/services/resources.go:81-96 | the loop, with its early stop at 12, computes Keep of the trimmed tags |
| ResourceText.KeepShape | internal/services/resources.go:81-96 | at most 12 tags, none empty, all distinct, each one given; fewer than 12 only when every non-empty given tag is kept |
| ResourceText.KeepOrder | internal/services/resources.go:84-90 | the kept tags come in the order of their first appearance |
| ResourceText.NormalizeRequired | internal/services/resources.go:98-104 | fails with the given message iff the value is blank; otherwise the trimmed, non-empty value |
| ResourceText.NormalizeRequiredIdempotent | internal/services/resources.go:98-104 | normalising a normalised value changes nothing |
| ResourceText.CleanBlock | internal/services/resources.go:124-161 | a failure carries the media or the formula message; a kept block is well formed |
| ResourceText.CleanBlockRules | internal/services/resources.go:125-161 | fails iff an IMAGE or PDF block has no asset or a FORMULA block no text; unknown types are dropped; TEXT and LINK blocks are kept iff their text or URL is non-blank, a LINK without title gets "Link"; the type is kept |
| ResourceText.ValidateSpec | internal/services/resources.go:115-122 | no content gives no blocks; malformed JSON gives its decoding error |
| ResourceText.ValidateBlocks | internal/services/resources.go:115-164 | the loop computes ValidateSpec |
| ResourceText.ValidatedShape | internal/services/resources.go:123-163 | fails iff some block fails, with the first failing block's message; otherwise at most as many blocks, all well formed |
| ResourceText.Collapse | internal/services/resources.go:167-169 | empty iff the input is; the first and last non-space characters stay at the ends |
| ResourceText.CollapseCollapsed | internal/services/resources.go:167-169 | the result has no run of two whitespace characters and no tab or newline |
| ResourceText.CollapseFixed | internal/services/resources.go:167-169 | text already collapsed is left alone |
| ResourceText.CleanSearchTerm | internal/services/resources.go:166-171 | empty iff the term is blank |
| ResourceText.CleanSearchTermIdempotent | internal/services/resources.go:166-171 | the cleaned term is trimmed and collapsed, so cleaning it again changes nothing |
| Store.NormalEmail | internal/http/auth_handlers.go:52 | the stored e-mail is already lower case |
| Store.RoleCodes | internal/services/users.go:10-20 | exactly the codes of the roles linked to the user |
| Store.InsertAscending | internal/services/users.go:17 | inserting a new code keeps the listing ascending and adds exactly that code |
| Store.SortedCodes | internal/services/users.go:17 | an ascending listing of exactly the codes |
| Store.AscendingUnique | internal/services/users.go:17 | two ascending listings of the same codes are equal, so `ORDER BY r.code` fixes the order |
| Store.SortCodes | internal/services/users.go:10-20 | the rows, taken in any order, end up as SortedCodes |
| Store.AscendingHeadLeast | internal/http/user_dto.go:67-70 | the first code of an ascending listing is the least |
| UserDtos.PrimaryRole | internal/http/user_dto.go:67-70 | STUDENT when the user has no role, otherwise one of the user's roles |
| UserDtos.PrimaryRoleLeast | internal/http/user_dto.go:58-70 | with the roles in code order, the primary role is the least code |
| UserDtos.ProfileRow | internal/http/user_dto.go:53 | a user without a profile row reads as all NULL columns |
| UserDtos.ProfileView | internal/http/user_dto.go:71-94 | a profile is shown iff some column is set, with the text columns copied, a birth date iff one is stored and an avatar URL iff an avatar is stored |
| UserDtos.ProfileViewReadsBack | internal/http/user_dto.go:71-80 | the shown birth date parses back to the stored day and the avatar URL names the stored avatar |
| UserDtos.UserDtoOf | internal/http/user_dto.go:95-103 | the view carries the user's id, e-mail, status, last login, roles, primary role and profile view |
| UserDtos.BuildUserDto | internal/http/user_dto.go:33-104 | fails with "no rows" iff the user is unknown; otherwise the view of the user with the role codes in ascending order |
| Migrations.BeforeSeparator | internal/migrations/migrations.go:230 | the text up to the first "__", or all of it when there is none |
| Migrations.ParseVersion | internal/migrations/migrations.go:226-235 | empty without a leading "V"; otherwise the trimmed text between the "V" and the first "__" |
| Migrations.ParseVersionNumber | internal/migrations/migrations.go:237-247 | a number iff the version is non-empty and an integer, and then that integer |
| Migrations.BeforeSeparatorOfDigits | internal/migrations/migrations.go:230 | a digit run followed by "__" splits at that "__" |
| Migrations.VersionedName | internal/migrations/migrations.go:226-247 | "V<n>__rest" has version "<n>" and version number n |
| Migrations.KeyOf | internal/migrations/migrations.go:106-117 | the sort key of a file remembers its name |
| Migrations.KeyBeforeIrreflexive | internal/migrations/migrations.go:106-117 | no file sorts before itself |
| Migrations.KeyBeforeTransitive | internal/migrations/migrations.go:106-117 | the sort order is transitive |
| Migrations.KeyBeforeTotal | internal/migrations/migrations.go:106-117 | of two different names exactly one sorts first, so the order is strict and total |
| Migrations.VersionedFirst | internal/migrations/migrations.go:109-113 | a numbered file sorts before every unnumbered one and before every file with a larger number |
| Migrations.Insert | internal/migrations/migrations.go:106-117 | inserting into a sorted listing keeps it sorted and adds just that element |
| Migrations.InsertFront | internal/migrations/migrations.go:106-117 | an element before the head may go in front |
| Migrations.InsertBehind | internal/migrations/migrations.go:106-117 | an element not before the head goes after it, keeping the listing sorted and a permutation |
| Migrations.SortKeys | internal/migrations/migrations.go:106-117 | the result is sorted and a permutation of its input |
| Migrations.Keys | internal/migrations/migrations.go:107-108 | one sort key per name, in order |
| Migrations.NamesOf | internal/migrations/migrations.go:101-104 | one name per sort key, in order |
| Migrations.Ordered | internal/migrations/migrations.go:106-117 | the names in the sort order: as many, sorted, and a permutation |
| Migrations.Eligible | internal/migrations/migrations.go:93-105 | exactly the names of the entries that are not directories and end in ".sql" |
| Migrations.ListMigrations | internal/migrations/migrations.go:87-119 | the eligible names, sorted, as a permutation of them |
| Migrations.AppliedOf | internal/migrations/migrations.go:126-152 | names recorded only when the table has a name column, versions only when it has a version column, and exactly the non-NULL ones |
| Migrations.Pending | internal/migrations/migrations.go:32-36 | the files still to run are never more than the files listed |
| Migrations.PendingMembers | internal/migrations/migrations.go:32-36 | a file is pending exactly when it is listed and neither its name nor its non-empty version is recorded |
| Migrations.PendingAppend | internal/migrations/migrations.go:32-40 | the pending files of two listings are those of each, in order |
| Migrations.RecordFor | internal/migrations/migrations.go:166-174 | no record when the table has neither column; otherwise the name exactly when the name column exists, and the version (NULL when blank) exactly when the version column exists |
| Migrations.SchemaColumns | internal/migrations/migrations.go:204-224 | each flag is set iff that column is listed |
| Migrations.Ledger.Missing | internal/migrations/migrations.go:53-60 | a database without the table: no columns, no rows, no script run yet |
| Migrations.Ledger.Existing | internal/migrations/migrations.go:71-78 | a database whose table has the given columns and rows |
| Migrations.Ledger.EnsureTable | internal/migrations/migrations.go:44-85 | afterwards the table exists with name and version columns; a new table is empty; an existing one keeps its rows and columns |
| Migrations.Ledger.Insert | internal/migrations/migrations.go:168-174 | the insert fails iff it clashes with a unique index; otherwise the record is appended |
| Migrations.Ledger.AppliedMigrations | internal/migrations/migrations.go:126-152 | the recorded names and versions, as AppliedOf the current rows and columns |
| Migrations.Ledger.ApplyMigration | internal/migrations/migrations.go:154-176 | a failing script changes nothing; otherwise it runs and the schema is what it leaves; the record is stored iff the columns allow one and it clashes with no unique index |
| Migrations.PendingStep | internal/migrations/migrations.go:32-40 | one more loop turn extends the pending list by the current file, unless it is skipped |
| Migrations.PendingPrefix | internal/migrations/migrations.go:32-40 | the files pending among the first i listed are a prefix of all pending files |
| Migrations.RunOne | internal/migrations/migrations.go:33-39 | one loop turn: it succeeds iff the file is skipped or applyMigration succeeds on it; on success the scripts run are the pending ones so far, each recorded; on failure the run stops at this file, which is the next pending one, with the rows unchanged; older rows stay in front |
| Migrations.StoppedTurn | internal/migrations/migrations.go:36-38 | a pending file that cannot be applied stops the run there: the pending files before it are recorded, and its own script ran or not |
| Migrations.RunPending | internal/migrations/migrations.go:32-41 | the scripts run are the first `count` pending files in order, all of them on success, and then each has its record; on failure the loop stopped at the first pending file that cannot be applied against the ledger, after applying and recording every earlier one; older rows stay in front |
| Migrations.Apply | internal/migrations/migrations.go:20-42 | afterwards the table exists; the scripts run are a prefix of the files pending against the recorded rows, all of them on success, each then recorded; a failure is a pending file whose script fails, whose record cannot be formed or clashes, with every pending file before it recorded and none after it run; older rows are kept |
| Migrations.SecondRunSkipsAll | internal/migrations/migrations.go:32-36 | after every pending file has been recorded, a second run finds nothing pending: migrating is idempotent |

## Left out

- Middleware.RequestLogger: of the log line only the status and the byte count are modelled; the method, the path and the duration (a clock reading) are not.
- Request decoding: a body that is not valid JSON answers 400 "Invalid payload" in the source; the model starts from the decoded request.
- Database failures: the 500 answers after a failing query are modelled only where a handler's flow depends on them (a taken id, a clashing insert, a failing probe); elsewhere queries succeed.
- Cryptographic primitives: Argon2id key derivation, bcrypt comparison, HMAC-SHA256 signing and the JWT signature and structure check are parameters, not computed.
- Random identifiers (`uuid.NewString`), random salts and the clock (`time.Now`) are parameters.
- MediaContent (internal/http/me_handlers.go:205-225) streams a file from disk; file I/O is not modelled.
- SaveMediaAsset and DeleteAsset (internal/services/media.go:28-86) write and remove files and rows of the media table; saving is a `save` parameter, and the avatar handler returns the id of the asset it would delete.
- CORS (internal/http/server.go:40-48) is a third-party middleware configured from the origins list; not modelled.
- cmd/server/main.go (start-up, seeding, the HTTP server and the metrics ticker) is not part of this model.
- The metrics hub's goroutines (Run, Broadcast) and the sampler (CaptureMetrics, LatestMetrics in internal/services/metrics.go) use concurrency, the operating system and the clock; the hub is modelled as its set of subscribers only.
- CopyMigrations and copyFile (internal/migrations/migrations.go:178-202) copy files; reading a script's text is folded into the `exec` parameter.
- A script that fails half-way leaves whatever it did before failing in the database; the model treats a failing script as changing nothing.
- Failures of the statements that create the migration table or its unique indexes are not modelled.
- The creation and publication timestamps the listings sort on are not stored: the listings take the sorted ids as a parameter; the row a single-row query without `ORDER BY` returns is left as a choice; PostgreSQL's text collation is not modelled, and `ORDER BY` on codes is the ordinal order of characters.
- PublicApi.PublicSearch: the search SELECT (status, LIKE and ILIKE filters, `ORDER BY published_at DESC`) is the parameter `query`; the model does not state which entries it selects, since the tags are matched as JSON text.
- Foreign-key cascades (deleting a user deletes their profile, roles and memberships) live in the schema's SQL and are not modelled.
- Timestamps are whole seconds; RFC 3339 formatting of times in replies is not modelled.
- The tags and content columns are stored as sequences, not JSON text.
- Case mapping (`strings.ToLower`, `strings.ToUpper`) is ASCII-only; Slugify's letter-or-digit test (`unicode.IsLetter`, `unicode.IsDigit`) is a parameter `isAlnum`.
- PublicApi.TrimString: counts characters, where Go's `len` and slicing count bytes, so a non-ASCII value is cut at a different place.
- SqlLike: a pattern that ends in a lone backslash is an error in PostgreSQL; the model makes it match nothing (the handlers' patterns always end in `%`).
- MeHandlers.UpdateProfile: a caller whose users row is gone would make the profile insert fail on its foreign key; the model stores the profile anyway and answers 500.

## Findings

| source | as written | input that shows it | evidently intended | confidence | as-written member | corrected member |
|---|---|---|---|---|---|---|
| internal/http/admin_users.go:85 | `offset := (page - 1) * pageSize` is a 64-bit product, so a huge page number wraps | page=4611686018427387905, pageSize=4: the offset wraps to 0 and the first page is listed again | a page past the end lists no user | not executed | AdminUsers.FarPageWrapsToFirst | AdminUsers.PageRows |
| internal/http/resources_public.go:47 | `offset := (page - 1) * limit` is a 64-bit product, and the limit has no upper bound | limit=4611686018427387904, page=3: the offset wraps to -2^63 and the query fails with 500 | a page past the end lists no entry | not executed | PublicResources.HugeLimitWrapsNegative | PublicResources.PublicResourceList |

=== FILE: admin_users.dfy ===
/**
 * The user administration endpoints under /api/admin/users: the paged
 * listing with its e-mail search, creation, update with the reconciliation
 * of the user's roles, deletion, and granting and withdrawing one role.
 *
 * The role-code queries of these handlers have no ORDER BY, and Go visits
 * the entries of a map in no fixed order; the methods below take such codes
 * in any order the loop picks. The listing's `ORDER BY created_at DESC` is
 * given as the ids of the users in that order.
 */
module AdminUsers {
  import opened Wrappers
  import opened Seqs
  import opened Text
  import opened Numbers
  import opened Base64
  import opened Passwords
  import opened Store
  import opened Replies
  import opened UserDtos
  import opened SqlLike
  import RoleGroups
  import AuthHandlers

  /** A user as the admin endpoints show it. */
  datatype AdminUser = AdminUser(id: string, email: string, status: string, primaryRole: string, roles: seq<string>,
                                 firstName: Option<string>, lastName: Option<string>, phone: Option<string>,
                                 school: Option<string>, gradeLevel: Option<string>,
                                 lastLoginAt: Option<int>, lastSeenAt: Option<int>)

  /** One page of the listing with the number of users the search matches. */
  datatype Paged = Paged(items: seq<AdminUser>, total: int, page: int, pageSize: int)

  datatype CreateUserRequest = CreateUserRequest(
    email: string, password: string, roles: seq<string>,
    firstName: Option<string>, lastName: Option<string>, phone: Option<string>, school: Option<string>,
    gradeLevel: Option<string>, status: Option<string>)

  datatype UpdateUserRequest = UpdateUserRequest(
    email: string, roles: seq<string>,
    firstName: Option<string>, lastName: Option<string>, phone: Option<string>, school: Option<string>,
    gradeLevel: Option<string>, status: Option<string>)

  /* ------------------------------------------------------------ the user view */

  /** The codes listed once each, in some order. */
  ghost predicate Listing(listed: seq<string>, codes: set<string>) {
    && (forall i, j :: 0 <= i < j < |listed| ==> listed[i] != listed[j])
    && (forall c :: c in listed <==> c in codes)
  }

  /** The rows of a role-code query without ORDER BY: the codes, each once, in an order the database picks. */
  method ListCodes(codes: set<string>) returns (listed: seq<string>)
    ensures Listing(listed, codes)
    ensures |listed| == |codes|
  {
    listed := [];
    var rest := codes;
    while rest != {}
      invariant rest <= codes
      invariant Listing(listed, codes - rest)
      invariant |listed| + |rest| == |codes|
      decreases |rest|
    {
      var c :| c in rest;
      listed := listed + [c];
      rest := rest - {c};
    }
    assert codes - rest == codes;
  }

  /** The view of a users row, its profile columns and its role codes as listed. */
  function AdminUserOf(userId: string, u: User, p: Profile, roles: seq<string>): (a: AdminUser)
    ensures a.id == userId && a.roles == roles
  {
    AdminUser(userId, u.email, u.status, PrimaryRole(roles), roles, p.firstName, p.lastName, p.phone, p.school,
              p.gradeLevel, u.lastLoginAt, u.lastSeenAt)
  }

  /** The primary role is STUDENT for a user without roles, and otherwise one of the roles the user holds. */
  lemma PrimaryRoleHeld(listed: seq<string>, codes: set<string>)
    requires Listing(listed, codes)
    ensures codes == {} ==> PrimaryRole(listed) == "STUDENT"
    ensures codes != {} ==> PrimaryRole(listed) in codes
  {
    if codes != {} {
      var c :| c in codes;
      assert c in listed;
    }
  }

  /**
   * buildAdminUser: no row for an unknown user; otherwise the view of the
   * users row, its profile (all NULL without one) and its role codes.
   */
  method BuildAdminUser(db: Db, userId: string) returns (r: Result<AdminUser, DbError>)
    ensures userId !in db.users ==> r == Err(NoRows)
    ensures userId in db.users ==> r.Ok?
    ensures r.Ok? ==> && Listing(r.value.roles, RoleCodes(db.roles, db.userRoles, userId))
                      && r.value == AdminUserOf(userId, db.users[userId], ProfileRow(db.profiles, userId), r.value.roles)
  {
    if userId !in db.users {
      return Err(NoRows);
    }
    var roles := ListCodes(RoleCodes(db.roles, db.userRoles, userId));
    return Ok(AdminUserOf(userId, db.users[userId], ProfileRow(db.profiles, userId), roles));
  }

  /* ------------------------------------------------------------ ListUsers */

  const DefaultPageSize: int := 10
  const MaxPageSize: int := 100

  /** The page number: the `page` parameter when it is a positive integer, otherwise 1. */
  function PageNumber(raw: string): (page: int)
    ensures page >= 1
    ensures Atoi(raw).Some? && Atoi(raw).value >= 1 ==> page == Atoi(raw).value
  {
    ParseInt(raw, 1)
  }

  /** The page size: the `pageSize` parameter when it is a positive integer (default 10), at most 100. */
  function PageSize(raw: string): (size: int)
    ensures 1 <= size <= MaxPageSize
    ensures ParseInt(raw, DefaultPageSize) <= MaxPageSize ==> size == ParseInt(raw, DefaultPageSize)
  {
    var size := ParseInt(raw, DefaultPageSize);
    if size > MaxPageSize then MaxPageSize else size
  }

  /** `WHERE lower(email) LIKE '%' || lower(search) || '%'`, or no condition for an empty search. */
  predicate MatchesSearch(email: string, search: string) {
    search == "" || Like(Lower(email), ContainsPattern(Lower(search)))
  }

  /** The ids of `ordered` whose user matches the search, in the same order, each as often as in `ordered`. */
  function Matching(users: map<string, User>, ordered: seq<string>, search: string): (m: seq<string>)
    ensures |m| <= |ordered|
    ensures forall id :: id in m <==> id in ordered && id in users && MatchesSearch(users[id].email, search)
    ensures Distinct(ordered) ==> Distinct(m)
    decreases |ordered|
  {
    if |ordered| == 0 then []
    else
      var rest := Matching(users, ordered[..|ordered| - 1], search);
      var id := ordered[|ordered| - 1];
      DistinctInit(ordered);
      assert forall x :: x in ordered <==> x in ordered[..|ordered| - 1] || x == id;
      if id in users && MatchesSearch(users[id].email, search) then rest + [id] else rest
  }

  /** `LIMIT size OFFSET (page-1)*size` over the matching rows. */
  function PageRows(m: seq<string>, page: int, size: int): (rows: seq<string>)
    requires page >= 1 && size >= 1
    ensures |rows| <= size
    ensures var offset := (page - 1) * size;
            offset <= |m| ==> rows == m[offset..if offset + size <= |m| then offset + size else |m|]
    ensures (page - 1) * size >= |m| ==> rows == []
  {
    Window(m, Offset(page, size), size)
  }

  /** The OFFSET of a page: the rows of the pages before it. */
  function Offset(page: int, size: int): (offset: nat)
    requires page >= 1 && size >= 1
    ensures offset == (page - 1) * size
  {
    (page - 1) * size
  }

  /** `LIMIT size OFFSET offset`: the rows from `offset` on, at most `size` of them. */
  function Window(m: seq<string>, offset: nat, size: int): (rows: seq<string>)
    requires size >= 1
    ensures |rows| <= size
    ensures offset <= |m| ==> rows == m[offset..if offset + size <= |m| then offset + size else |m|]
    ensures offset >= |m| ==> rows == []
  {
    if offset >= |m| then []
    else if offset + size <= |m| then m[offset..offset + size]
    else m[offset..]
  }

  /** Paging loses nothing: the k-th matching user is listed on page k/size + 1, at position k % size. */
  lemma EveryMatchOnItsPage(m: seq<string>, size: int, k: int)
    requires size >= 1 && 0 <= k < |m|
    ensures var page := k / size + 1;
            k % size < |PageRows(m, page, size)| && PageRows(m, page, size)[k % size] == m[k]
  {
    var page := k / size + 1;
    assert (page - 1) * size == k / size * size;
    assert k == k / size * size + k % size;
  }

  /** Go's 64-bit signed arithmetic: the value reduced into [-2^63, 2^63). */
  function Wrap64(x: int): (r: int)
    ensures MinInt64 <= r <= MaxInt64
  {
    (x - MinInt64) % 0x1_0000_0000_0000_0000 + MinInt64
  }

  /**
   * The paging as written: `(page - 1) * pageSize` is computed in Go's int,
   * which wraps at 64 bits; a negative offset makes the query fail (None).
   */
  function PageRowsAsWritten(m: seq<string>, page: int, size: int): (rows: Option<seq<string>>)
    requires page >= 1 && size >= 1
    ensures rows.None? <==> Wrap64((page - 1) * size) < 0
  {
    var offset := Wrap64((page - 1) * size);
    if offset < 0 then None
    else if offset >= |m| then Some([])
    else if offset + size <= |m| then Some(m[offset..offset + size])
    else Some(m[offset..])
  }

  /**
   * Page 2^62 + 1 of size 4 lies far past the end of any listing, yet the
   * wrapped offset is 0, so the query as written lists the first page again.
   */
  lemma FarPageWrapsToFirst(m: seq<string>)
    requires 0 < |m| <= MaxInt64
    ensures PageRowsAsWritten(m, 0x4000_0000_0000_0001, 4) == Some(PageRows(m, 1, 4))
    ensures PageRows(m, 0x4000_0000_0000_0001, 4) == []
  {
    assert (0x4000_0000_0000_0001 - 1) * 4 == 0x1_0000_0000_0000_0000;
    assert Wrap64(0x1_0000_0000_0000_0000) == 0;
  }

  /** A plain search term lists exactly the users whose lower-cased e-mail contains it. */
  lemma PlainSearchIsContainment(email: string, search: string)
    requires search != "" && Plain(Lower(search))
    ensures MatchesSearch(email, search) <==> Contains(Lower(email), Lower(search))
  {
    ContainsPatternMatches(Lower(email), Lower(search));
  }

  /** The view of each listed user: the users row, its profile and its role codes. */
  ghost predicate Views(db: Db, rows: seq<string>, items: seq<AdminUser>)
    reads db`users, db`profiles, db`roles, db`userRoles
  {
    && |items| == |rows|
    && forall k :: 0 <= k < |rows| ==>
         && rows[k] in db.users
         && Listing(items[k].roles, RoleCodes(db.roles, db.userRoles, rows[k]))
         && items[k] == AdminUserOf(rows[k], db.users[rows[k]], ProfileRow(db.profiles, rows[k]), items[k].roles)
  }

  /** The loop of ListUsers over the selected rows: each row's view with its role codes. */
  method ViewRows(db: Db, rows: seq<string>) returns (items: seq<AdminUser>)
    requires forall id :: id in rows ==> id in db.users
    ensures Views(db, rows, items)
  {
    items := [];
    var i := 0;
    while i < |rows|
      invariant 0 <= i <= |rows|
      invariant Views(db, rows[..i], items)
    {
      var roles := ListCodes(RoleCodes(db.roles, db.userRoles, rows[i]));
      items := items + [AdminUserOf(rows[i], db.users[rows[i]], ProfileRow(db.profiles, rows[i]), roles)];
      i := i + 1;
    }
    assert rows[..i] == rows;
  }

  /**
   * ListUsers: the trimmed search selects the users, `total` counts them, and
   * the page holds the view of each user on it, in the listing's order. The
   * answer echoes the page number and the page size used. `ordered` is the
   * table's ids as `ORDER BY created_at DESC` returns them: each user once.
   */
  method ListUsers(db: Db, rawPage: string, rawPageSize: string, rawSearch: string, ordered: seq<string>)
    returns (reply: Reply<Paged>)
    requires Distinct(ordered)
    requires forall id :: id in ordered <==> id in db.users
    ensures reply.Done? && reply.body.total == |set id | id in db.users && MatchesSearch(db.users[id].email, TrimSpace(rawSearch))|
    ensures Distinct(Matching(db.users, ordered, TrimSpace(rawSearch)))
    ensures var m := Matching(db.users, ordered, TrimSpace(rawSearch));
            && reply.Done? && reply.status == 200
            && reply.body.total == |m| && reply.body.page == PageNumber(rawPage)
            && reply.body.pageSize == PageSize(rawPageSize)
            && Views(db, PageRows(m, PageNumber(rawPage), PageSize(rawPageSize)), reply.body.items)
  {
    var page := PageNumber(rawPage);
    var pageSize := PageSize(rawPageSize);
    var search := TrimSpace(rawSearch);
    var m := Matching(db.users, ordered, search);
    DistinctCount(m, set id | id in db.users && MatchesSearch(db.users[id].email, search));
    var rows := PageRows(m, page, pageSize);
    assert forall id :: id in rows ==> id in m;
    var items := ViewRows(db, rows);
    return Done(200, Paged(items, |m|, page, pageSize));
  }

  /* ------------------------------------------------------------ role codes and links */

  /** A role name as the handlers normalise it: trimmed and upper-cased. */
  function RoleCode(raw: string): (code: string)
    ensures Upper(code) == code
  {
    UpperIdempotent(TrimSpace(raw));
    Upper(TrimSpace(raw))
  }

  /** The roles a request asks for: the listed ones, or STUDENT when the list is empty. */
  function RequestedRoles(roles: seq<string>): (r: seq<string>)
    ensures |r| > 0
    ensures |roles| > 0 ==> r == roles
    ensures |roles| == 0 ==> r == ["STUDENT"]
  {
    if |roles| == 0 then ["STUDENT"] else roles
  }

  /** The normalised codes of a list of role names. */
  ghost function CodesOf(roles: seq<string>): set<string> {
    set r | r in roles :: RoleCode(r)
  }

  /** `SELECT id FROM roles WHERE code = $1` finds a non-empty id. */
  predicate Known(table: map<string, string>, code: string) {
    code in table && table[code] != ""
  }

  /** The user_roles links of the user for the known codes among `codes`. */
  ghost function Links(table: map<string, string>, userId: string, codes: set<string>): set<(string, string)> {
    set c | c in codes && Known(table, c) :: (userId, table[c])
  }

  /** Every role has a non-empty id of its own, as the primary key of `roles` guarantees. */
  ghost predicate KeyedRoles(table: map<string, string>) {
    && (forall c :: c in table ==> table[c] != "")
    && (forall a, b :: a in table && b in table && a != b ==> table[a] != table[b])
  }

  /** The status a request sets: its trimmed, upper-cased value, or none when it is missing or blank. */
  function NormalStatus(status: Option<string>): (r: Option<string>)
    ensures r.None? <==> status.None? || IsBlank(status.value)
    ensures r.Some? ==> r.value == Upper(TrimSpace(status.value))
  {
    if status.Some? && TrimSpace(status.value) != "" then Some(Upper(TrimSpace(status.value))) else None
  }

  /** The user is in the role group of every known code among `codes` whose group exists. */
  ghost predicate InGroupsOf(db: Db, userId: string, codes: set<string>)
    reads db`roles, db`groups, db`members
  {
    forall c :: c in codes && Known(db.roles, c) && RoleGroups.Named(db.groups, RoleGroups.RoleGroupName(c)) ==>
      RoleGroups.InRoleGroup(db.groups, db.members, userId, c)
  }

  /** One link and the role-group membership for a known code; the membership's errors are ignored. */
  method LinkRole(db: Db, userId: string, code: string)
    requires Known(db.roles, code) && Upper(code) == code
    modifies db`userRoles, db`members
    ensures db.userRoles == old(db.userRoles) + {(userId, db.roles[code])}
    ensures RoleGroups.Named(db.groups, RoleGroups.RoleGroupName(code)) ==>
              RoleGroups.InRoleGroup(db.groups, db.members, userId, code)
    ensures RoleGroups.MembersKept(old(db.members), db.members)
    ensures RoleGroups.OnlyAddedFor(old(db.members), db.members, userId)
  {
    db.userRoles := db.userRoles + {(userId, db.roles[code])};
    var ignored := RoleGroups.EnsureMembership(db, userId, code);
  }

  /** A membership kept by later statements keeps the user in the groups already joined. */
  lemma GroupsKept(db: Db, userId: string, codes: set<string>, before: map<(string, string), string>)
    requires RoleGroups.MembersKept(before, db.members)
    requires forall c :: c in codes && Known(db.roles, c) && RoleGroups.Named(db.groups, RoleGroups.RoleGroupName(c)) ==>
               RoleGroups.InRoleGroup(db.groups, before, userId, c)
    ensures InGroupsOf(db, userId, codes)
  {
    forall c | c in codes && Known(db.roles, c) && RoleGroups.Named(db.groups, RoleGroups.RoleGroupName(c))
      ensures RoleGroups.InRoleGroup(db.groups, db.members, userId, c)
    {
      RoleGroups.InRoleGroupKept(db.groups, before, db.members, userId, c);
    }
  }

  /** Links of two sets of codes together are the links of their union. */
  lemma LinksUnion(table: map<string, string>, userId: string, a: set<string>, b: set<string>)
    ensures Links(table, userId, a + b) == Links(table, userId, a) + Links(table, userId, b)
  {
  }

  /** One code of the role loops: a known code is linked and its group joined; an unknown code changes nothing. */
  method GrantRole(db: Db, userId: string, code: string, ghost done: set<string>)
    requires Upper(code) == code
    requires InGroupsOf(db, userId, done)
    modifies db`userRoles, db`members
    ensures db.userRoles == old(db.userRoles) + Links(db.roles, userId, {code})
    ensures InGroupsOf(db, userId, done + {code})
    ensures RoleGroups.MembersKept(old(db.members), db.members)
    ensures RoleGroups.OnlyAddedFor(old(db.members), db.members, userId)
  {
    if code in db.roles && db.roles[code] != "" {
      ghost var before := db.members;
      LinkRole(db, userId, code);
      GroupsKept(db, userId, done, before);
      assert Links(db.roles, userId, {code}) == {(userId, db.roles[code])};
    } else {
      assert Links(db.roles, userId, {code}) == {};
    }
  }

  /**
   * The role loop of CreateUser: each listed role, normalised, is linked and
   * its group joined when the roles table has it.
   */
  method GrantRoles(db: Db, userId: string, roles: seq<string>)
    modifies db`userRoles, db`members
    ensures db.userRoles == old(db.userRoles) + Links(db.roles, userId, CodesOf(roles))
    ensures InGroupsOf(db, userId, CodesOf(roles))
    ensures RoleGroups.MembersKept(old(db.members), db.members)
    ensures RoleGroups.OnlyAddedFor(old(db.members), db.members, userId)
  {
    for i := 0 to |roles|
      invariant db.userRoles == old(db.userRoles) + Links(db.roles, userId, CodesOf(roles[..i]))
      invariant InGroupsOf(db, userId, CodesOf(roles[..i]))
      invariant RoleGroups.MembersKept(old(db.members), db.members)
      invariant RoleGroups.OnlyAddedFor(old(db.members), db.members, userId)
    {
      var code := RoleCode(roles[i]);
      assert CodesOf(roles[..i + 1]) == CodesOf(roles[..i]) + {code} by {
        assert roles[..i + 1] == roles[..i] + [roles[i]];
      }
      GrantRole(db, userId, code, CodesOf(roles[..i]));
      LinksUnion(db.roles, userId, CodesOf(roles[..i]), {code});
    }
    assert roles[..|roles|] == roles;
  }

  /* ------------------------------------------------------------ CreateUser */

  /** The profile row CreateUser inserts: the submitted names, phone, school and grade. */
  function CreatedProfile(req: CreateUserRequest): (p: Profile)
    ensures p.firstName == req.firstName && p.lastName == req.lastName && p.phone == req.phone
    ensures p.school == req.school && p.gradeLevel == req.gradeLevel
    ensures p.birthDate.None? && p.gender.None? && p.bio.None? && p.avatarId.None?
  {
    BlankProfile.(firstName := req.firstName, lastName := req.lastName, phone := req.phone, school := req.school,
                  gradeLevel := req.gradeLevel)
  }

  /** The users row CreateUser inserts. */
  function CreatedUser(req: CreateUserRequest, hash: string): (u: User)
    ensures u.email == NormalEmail(req.email) && u.passwordHash == hash
    ensures NormalStatus(req.status).None? ==> u.status == "ACTIVE"
    ensures NormalStatus(req.status).Some? ==> u.status == NormalStatus(req.status).value
    ensures u.lastLoginAt.None? && u.lastSeenAt.None?
  {
    User(NormalEmail(req.email), hash, NormalStatus(req.status).GetOr("ACTIVE"), None, None)
  }

  /**
   * CreateUser: a blank e-mail or password answers 400, then an e-mail
   * already in use 400; a hashing failure or an id already taken 500.
   * Otherwise the user row, the profile row (its errors ignored), a link and
   * a role-group membership for each known requested role (STUDENT when none
   * is requested), and the new user's view.
   */
  method CreateUser(db: Db, req: CreateUserRequest, salt: Option<seq<byte>>, kdf: Kdf, newId: string)
    returns (reply: Reply<AdminUser>)
    requires salt.Some? ==> |salt.value| == HashParams.saltLength
    modifies db`users, db`profiles, db`userRoles, db`members
    ensures AuthHandlers.MissingCredentials(req.email, req.password) ==> reply == Failure(400, CredentialsRequired)
    ensures !AuthHandlers.MissingCredentials(req.email, req.password) && old(db.EmailTaken(NormalEmail(req.email))) ==>
              reply == Failure(400, UserExists)
    ensures reply.Done? <==> && !AuthHandlers.MissingCredentials(req.email, req.password)
                             && !old(db.EmailTaken(NormalEmail(req.email))) && salt.Some? && newId !in old(db.users)
    ensures reply.Failure? ==> reply.status == 400 || reply == Failure(500, InternalError)
    ensures reply.Failure? ==> && db.users == old(db.users) && db.profiles == old(db.profiles)
                               && db.userRoles == old(db.userRoles) && db.members == old(db.members)
    ensures reply.Done? ==>
              && db.users == old(db.users)[newId := CreatedUser(req, HashPassword(req.password, salt, kdf).value)]
              && db.profiles == (if newId in old(db.profiles) then old(db.profiles)
                                 else old(db.profiles)[newId := CreatedProfile(req)])
              && db.userRoles == old(db.userRoles) + Links(db.roles, newId, CodesOf(RequestedRoles(req.roles)))
              && InGroupsOf(db, newId, CodesOf(RequestedRoles(req.roles)))
              && reply.status == 200
              && Listing(reply.body.roles, RoleCodes(db.roles, db.userRoles, newId))
              && reply.body == AdminUserOf(newId, db.users[newId], ProfileRow(db.profiles, newId), reply.body.roles)
    ensures RoleGroups.MembersKept(old(db.members), db.members)
    ensures RoleGroups.OnlyAddedFor(old(db.members), db.members, newId)
  {
    var email := NormalEmail(req.email);
    if email == "" || TrimSpace(req.password) == "" {
      return Failure(400, CredentialsRequired);
    }
    if exists id :: id in db.users && Lower(db.users[id].email) == email {
      ghost var id :| id in db.users && Lower(db.users[id].email) == email;
      assert EmailOwner(db.users, email, id);
      return Failure(400, UserExists);
    }
    assert !db.EmailTaken(email);
    var hash := HashPassword(req.password, salt, kdf);
    if hash.Err? || newId in db.users {
      return Failure(500, InternalError);
    }
    db.users := db.users[newId := CreatedUser(req, hash.value)];
    if newId !in db.profiles {
      db.profiles := db.profiles[newId := CreatedProfile(req)];
    }
    GrantRoles(db, newId, RequestedRoles(req.roles));
    var view := BuildAdminUser(db, newId);
    return Done(200, view.value);
  }

  /* ------------------------------------------------------------ UpdateUser */

  /** The codes UpdateUser wants the user to hold: the requested roles, normalised, without the empty one. */
  ghost function DesiredCodes(roles: seq<string>): set<string> {
    set r | r in RequestedRoles(roles) && RoleCode(r) != "" :: RoleCode(r)
  }

  /** The loop of UpdateUser that builds the desired set. */
  method DesiredSet(roles: seq<string>) returns (desired: set<string>)
    ensures desired == DesiredCodes(roles)
  {
    var requested := RequestedRoles(roles);
    desired := {};
    for i := 0 to |requested|
      invariant desired == set r | r in requested[..i] && RoleCode(r) != "" :: RoleCode(r)
    {
      assert requested[..i + 1] == requested[..i] + [requested[i]];
      var code := RoleCode(requested[i]);
      if code != "" {
        desired := desired + {code};
      }
    }
    assert requested[..|requested|] == requested;
  }

  /** The first map loop of UpdateUser: each desired code the user does not hold is linked and its group joined. */
  method AddMissingRoles(db: Db, userId: string, desired: set<string>, current: set<string>)
    requires forall c :: c in desired ==> Upper(c) == c
    modifies db`userRoles, db`members
    ensures db.userRoles == old(db.userRoles) + Links(db.roles, userId, desired - current)
    ensures InGroupsOf(db, userId, desired - current)
    ensures RoleGroups.MembersKept(old(db.members), db.members)
    ensures RoleGroups.OnlyAddedFor(old(db.members), db.members, userId)
  {
    var rest := desired;
    while rest != {}
      invariant rest <= desired
      invariant db.userRoles == old(db.userRoles) + Links(db.roles, userId, (desired - rest) - current)
      invariant InGroupsOf(db, userId, (desired - rest) - current)
      invariant RoleGroups.MembersKept(old(db.members), db.members)
      invariant RoleGroups.OnlyAddedFor(old(db.members), db.members, userId)
      decreases |rest|
    {
      var code :| code in rest;
      ghost var done := (desired - rest) - current;
      rest := rest - {code};
      if code in current {
        assert (desired - rest) - current == done;
        continue;
      }
      assert (desired - rest) - current == done + {code};
      GrantRole(db, userId, code, done);
      LinksUnion(db.roles, userId, done, {code});
    }
  }

  /** The second map loop of UpdateUser: the link of each held code that is not desired is deleted. */
  method DropUndesiredRoles(db: Db, userId: string, desired: set<string>, current: set<string>)
    modifies db`userRoles
    ensures db.userRoles == old(db.userRoles) - Links(db.roles, userId, current - desired)
  {
    var rest := current;
    while rest != {}
      invariant rest <= current
      invariant db.userRoles == old(db.userRoles) - Links(db.roles, userId, (current - rest) - desired)
      decreases |rest|
    {
      var code :| code in rest;
      ghost var done := (current - rest) - desired;
      rest := rest - {code};
      if code in desired {
        assert (current - rest) - desired == done;
        continue;
      }
      assert (current - rest) - desired == done + {code};
      if code in db.roles && db.roles[code] != "" {
        db.userRoles := db.userRoles - {(userId, db.roles[code])};
      }
    }
  }

  /**
   * After the reconciliation the user holds exactly the desired codes the
   * roles table knows: held codes that are desired stay, missing desired ones
   * are added, the others are dropped.
   */
  lemma Reconciled(table: map<string, string>, before: set<(string, string)>, userId: string, desired: set<string>)
    requires KeyedRoles(table)
    ensures var current := RoleCodes(table, before, userId);
            var after := (before + Links(table, userId, desired - current)) - Links(table, userId, current - desired);
            RoleCodes(table, after, userId) == desired * table.Keys
  {
    var current := RoleCodes(table, before, userId);
    var added := Links(table, userId, desired - current);
    var dropped := Links(table, userId, current - desired);
    var after := (before + added) - dropped;
    forall c | c in table
      ensures (userId, table[c]) in after <==> c in desired
    {
      var link := (userId, table[c]);
      if c in desired {
        if c !in current {
          assert Known(table, c);
          assert link in added;
        }
      } else {
        if c in current {
          assert Known(table, c);
          assert link in dropped;
        }
      }
    }
  }

  /** The profile row after UpdateUser: the five submitted columns overwrite the row's, NULL included. */
  function UpdatedProfile(p: Profile, req: UpdateUserRequest): (r: Profile)
    ensures r.firstName == req.firstName && r.lastName == req.lastName && r.phone == req.phone
    ensures r.school == req.school && r.gradeLevel == req.gradeLevel
    ensures r.birthDate == p.birthDate && r.gender == p.gender && r.bio == p.bio && r.avatarId == p.avatarId
  {
    p.(firstName := req.firstName, lastName := req.lastName, phone := req.phone, school := req.school,
       gradeLevel := req.gradeLevel)
  }

  /** The users row after UpdateUser: the status when one is given (COALESCE keeps the stored one otherwise). */
  function UpdatedUser(u: User, status: Option<string>): (r: User)
    ensures NormalStatus(status).None? ==> r == u
    ensures NormalStatus(status).Some? ==> r == u.(status := NormalStatus(status).value)
  {
    u.(status := NormalStatus(status).GetOr(u.status))
  }

  /**
   * UpdateUser: a blank e-mail answers 400, an unknown user 404, an e-mail
   * other than the stored one (ignoring case) 400, all without a change.
   * Otherwise the status and the profile columns are written, the user's
   * roles are reconciled toward the desired codes, and the view is returned.
   */
  method UpdateUser(db: Db, userId: string, req: UpdateUserRequest) returns (reply: Reply<AdminUser>)
    modifies db`users, db`profiles, db`userRoles, db`members
    ensures NormalEmail(req.email) == "" ==> reply == Failure(400, EmailRequired)
    ensures NormalEmail(req.email) != "" && userId !in old(db.users) ==> reply == Failure(404, UserNotFound)
    ensures NormalEmail(req.email) != "" && userId in old(db.users) && Lower(old(db.users)[userId].email) != NormalEmail(req.email) ==>
              reply == Failure(400, EmailUnchangeable)
    ensures reply.Done? <==> NormalEmail(req.email) != "" && userId in old(db.users)
                             && Lower(old(db.users)[userId].email) == NormalEmail(req.email)
    ensures reply.Failure? ==> && db.users == old(db.users) && db.profiles == old(db.profiles)
                               && db.userRoles == old(db.userRoles) && db.members == old(db.members)
    ensures reply.Done? ==>
              && db.users == old(db.users)[userId := UpdatedUser(old(db.users)[userId], req.status)]
              && db.profiles == old(db.profiles)[userId := UpdatedProfile(ProfileRow(old(db.profiles), userId), req)]
              && var current := RoleCodes(db.roles, old(db.userRoles), userId);
                 var desired := DesiredCodes(req.roles);
                 && db.userRoles == (old(db.userRoles) + Links(db.roles, userId, desired - current))
                                    - Links(db.roles, userId, current - desired)
                 && (KeyedRoles(db.roles) ==> RoleCodes(db.roles, db.userRoles, userId) == desired * db.roles.Keys)
                 && InGroupsOf(db, userId, desired - current)
                 && reply.status == 200
                 && Listing(reply.body.roles, RoleCodes(db.roles, db.userRoles, userId))
                 && reply.body == AdminUserOf(userId, db.users[userId], ProfileRow(db.profiles, userId), reply.body.roles)
    ensures RoleGroups.MembersKept(old(db.members), db.members)
    ensures RoleGroups.OnlyAddedFor(old(db.members), db.members, userId)
  {
    var email := NormalEmail(req.email);
    if email == "" {
      return Failure(400, EmailRequired);
    }
    if userId !in db.users {
      return Failure(404, UserNotFound);
    }
    if Lower(db.users[userId].email) != email {
      return Failure(400, EmailUnchangeable);
    }
    WriteUserRows(db, userId, req);
    reply := ReconcileRoles(db, userId, req.roles);
  }

  /** The two row writes of UpdateUser: the status (kept when none is given) and the upserted profile. */
  method WriteUserRows(db: Db, userId: string, req: UpdateUserRequest)
    requires userId in db.users
    modifies db`users, db`profiles
    ensures db.users == old(db.users)[userId := UpdatedUser(old(db.users)[userId], req.status)]
    ensures db.profiles == old(db.profiles)[userId := UpdatedProfile(ProfileRow(old(db.profiles), userId), req)]
  {
    db.users := db.users[userId := UpdatedUser(db.users[userId], req.status)];
    if userId !in db.profiles {
      db.profiles := db.profiles[userId := BlankProfile];
    }
    db.profiles := db.profiles[userId := UpdatedProfile(db.profiles[userId], req)];
  }

  /** The role part of UpdateUser and its answer: add the missing desired codes, drop the undesired ones. */
  method ReconcileRoles(db: Db, userId: string, roles: seq<string>) returns (reply: Reply<AdminUser>)
    requires userId in db.users
    modifies db`userRoles, db`members
    ensures var current := RoleCodes(db.roles, old(db.userRoles), userId);
            var desired := DesiredCodes(roles);
            && db.userRoles == (old(db.userRoles) + Links(db.roles, userId, desired - current))
                               - Links(db.roles, userId, current - desired)
            && (KeyedRoles(db.roles) ==> RoleCodes(db.roles, db.userRoles, userId) == desired * db.roles.Keys)
            && InGroupsOf(db, userId, desired - current)
            && reply.Done? && reply.status == 200
            && Listing(reply.body.roles, RoleCodes(db.roles, db.userRoles, userId))
            && reply.body == AdminUserOf(userId, db.users[userId], ProfileRow(db.profiles, userId), reply.body.roles)
    ensures RoleGroups.MembersKept(old(db.members), db.members)
    ensures RoleGroups.OnlyAddedFor(old(db.members), db.members, userId)
  {
    var current := RoleCodes(db.roles, db.userRoles, userId);
    var desired := DesiredSet(roles);
    AddMissingRoles(db, userId, desired, current);
    DropUndesiredRoles(db, userId, desired, current);
    if KeyedRoles(db.roles) {
      Reconciled(db.roles, old(db.userRoles), userId, desired);
    }
    var view := BuildAdminUser(db, userId);
    return Done(200, view.value);
  }

  /* ------------------------------------------------------------ DeleteUser, AssignRole, RemoveRole */

  /** The avatar DeleteUser deletes: the profile's avatar id when it is not the empty string. */
  function AdminAvatarToRemove(profiles: map<string, Profile>, userId: string): (r: Option<string>)
    ensures r.Some? <==> userId in profiles && profiles[userId].avatarId.Some? && profiles[userId].avatarId.value != ""
    ensures r.Some? ==> r == profiles[userId].avatarId
  {
    if userId in profiles && profiles[userId].avatarId.Some? && profiles[userId].avatarId.value != ""
    then profiles[userId].avatarId
    else None
  }

  /** DeleteUser: the avatar asset (if any) is deleted, then the users row; the answer is always 204. */
  method DeleteUser(db: Db, userId: string) returns (reply: Reply<Empty>, removed: Option<string>)
    modifies db`users
    ensures removed == AdminAvatarToRemove(db.profiles, userId)
    ensures db.users == old(db.users) - {userId}
    ensures reply == Done(204, Empty)
  {
    removed := None;
    if userId in db.profiles {
      var avatarId := db.profiles[userId].avatarId;
      if avatarId.Some? && avatarId.value != "" {
        removed := avatarId;
      }
    }
    db.users := db.users - {userId};
    reply := Done(204, Empty);
  }

  /**
   * AssignRole: a blank role answers 400 and an unknown one 404, without a
   * change. Otherwise the link is inserted unless present (ON CONFLICT DO
   * NOTHING), the role group joined, and the answer is 204; the user then
   * holds the role.
   */
  method AssignRole(db: Db, userId: string, role: string) returns (reply: Reply<Empty>)
    modifies db`userRoles, db`members
    ensures RoleCode(role) == "" ==> reply == Failure(400, RoleNotFound)
    ensures RoleCode(role) != "" && RoleCode(role) !in db.roles ==> reply == Failure(404, RoleNotFound)
    ensures reply.Failure? ==> db.userRoles == old(db.userRoles) && db.members == old(db.members)
    ensures reply.Done? <==> RoleCode(role) != "" && RoleCode(role) in db.roles
    ensures reply.Done? ==>
              && reply == Done(204, Empty)
              && db.userRoles == old(db.userRoles) + {(userId, db.roles[RoleCode(role)])}
              && RoleCode(role) in RoleCodes(db.roles, db.userRoles, userId)
              && (RoleGroups.Named(db.groups, RoleGroups.RoleGroupName(RoleCode(role))) ==>
                    RoleGroups.InRoleGroup(db.groups, db.members, userId, RoleCode(role)))
    ensures RoleGroups.MembersKept(old(db.members), db.members)
    ensures RoleGroups.OnlyAddedFor(old(db.members), db.members, userId)
  {
    var code := RoleCode(role);
    if code == "" {
      return Failure(400, RoleNotFound);
    }
    if code !in db.roles {
      return Failure(404, RoleNotFound);
    }
    db.userRoles := db.userRoles + {(userId, db.roles[code])};
    var ignored := RoleGroups.EnsureMembership(db, userId, code);
    return Done(204, Empty);
  }

  /**
   * RemoveRole: an unknown role answers 404 without a change; otherwise the
   * user's link to it is deleted and the answer is 204. Group memberships
   * are left as they are. With keyed roles the user holds the same roles
   * less this one.
   */
  method RemoveRole(db: Db, userId: string, role: string) returns (reply: Reply<Empty>)
    modifies db`userRoles
    ensures RoleCode(role) !in db.roles ==> reply == Failure(404, RoleNotFound) && db.userRoles == old(db.userRoles)
    ensures RoleCode(role) in db.roles ==>
              && reply == Done(204, Empty)
              && db.userRoles == old(db.userRoles) - {(userId, db.roles[RoleCode(role)])}
              && RoleCode(role) !in RoleCodes(db.roles, db.userRoles, userId)
              && (KeyedRoles(db.roles) ==>
                    RoleCodes(db.roles, db.userRoles, userId) == RoleCodes(db.roles, old(db.userRoles), userId) - {RoleCode(role)})
  {
    var code := RoleCode(role);
    if code !in db.roles {
      return Failure(404, RoleNotFound);
    }
    db.userRoles := db.userRoles - {(userId, db.roles[code])};
    return Done(204, Empty);
  }

  /** Assigning a role that is then removed leaves the user without it, whether or not it was held before. */
  lemma AssignThenRemove(table: map<string, string>, before: set<(string, string)>, userId: string, code: string)
    requires code in table && KeyedRoles(table)
    ensures var after := (before + {(userId, table[code])}) - {(userId, table[code])};
            RoleCodes(table, after, userId) == RoleCodes(table, before, userId) - {code}
  {
    var after := (before + {(userId, table[code])}) - {(userId, table[code])};
    forall c | c in table && c != code
      ensures (userId, table[c]) in after <==> (userId, table[c]) in before
    {
      assert table[c] != table[code];
    }
  }
}

=== FILE: auth_handlers.dfy ===
/**
 * The public authentication endpoints: Register, Login, Refresh and Logout,
 * each a sequence of checks with early answers followed by the writes and
 * the tokens. Passwords are hashed with a salt drawn by the caller (None
 * when the random source fails); user ids come from the caller as well.
 */
module AuthHandlers {
  import opened Wrappers
  import opened Text
  import opened Numbers
  import opened Dates
  import opened Base64
  import opened Passwords
  import opened Tokens
  import opened AuthMiddleware
  import opened Store
  import opened Replies
  import opened Users
  import opened UserDtos
  import RoleGroups

  datatype RegisterRequest = RegisterRequest(
    email: string, password: string, confirmPassword: Option<string>,
    firstName: Option<string>, lastName: Option<string>, phone: Option<string>,
    birthDate: Option<string>, school: Option<string>, gradeLevel: Option<string>)

  datatype LoginRequest = LoginRequest(email: string, password: string)

  datatype TokenResponse = TokenResponse(accessToken: string, refreshToken: string, expiresAt: int, user: UserDto)

  /** The (userId, email) pair Register answers with. */
  datatype Registered = Registered(userId: string, email: string)

  /* ------------------------------------------------------------ parseBirthDate */

  /** parseBirthDate: nothing for a missing or blank value or one that is not YYYY-MM-DD, else the parsed date. */
  function ParseBirthDate(raw: Option<string>): (r: Option<Day>)
    ensures raw.None? ==> r.None?
    ensures raw.Some? && TrimSpace(raw.value) == "" ==> r.None?
    ensures r.Some? <==> raw.Some? && ParseDate(TrimSpace(raw.value)).Some?
    ensures r.Some? ==> ParseDate(TrimSpace(raw.value)) == Some(r.value)
  {
    match raw
    case None => None
    case Some(text) =>
      var value := TrimSpace(text);
      if value == "" then None
      else match ParseDate(value)
        case None => None
        case Some(d) => Some(d)
  }

  /** A date written as YYYY-MM-DD is read back as that date. */
  lemma BirthDateRoundTrip(d: Day)
    ensures ParseBirthDate(Some(FormatDate(d))) == Some(d)
  {
    var s := FormatDate(d);
    var year, day := Padded(d.year, 4), Padded(d.day, 2);
    assert s[0] == year[0] && s[9] == day[1];
    assert IsDigit(s[0]) && IsDigit(s[9]);
    TrimmedFixed(s);
    FormatThenParse(d);
  }

  /* ------------------------------------------------------------ Register */

  /** A confirmation was sent and differs from the password. */
  predicate ConfirmMismatch(req: RegisterRequest) {
    req.confirmPassword.Some? && req.password != req.confirmPassword.value
  }

  /** The normalised e-mail is empty or the password is blank. */
  predicate MissingCredentials(email: string, password: string) {
    NormalEmail(email) == "" || TrimSpace(password) == ""
  }

  /** The profile row Register inserts: the submitted names, phone, school, grade and birth date. */
  function RegisteredProfile(req: RegisterRequest): (p: Profile)
    ensures p.firstName == req.firstName && p.lastName == req.lastName && p.phone == req.phone
    ensures p.school == req.school && p.gradeLevel == req.gradeLevel && p.birthDate == ParseBirthDate(req.birthDate)
    ensures p.gender.None? && p.bio.None? && p.avatarId.None?
  {
    Profile(req.firstName, req.lastName, ParseBirthDate(req.birthDate), None, req.phone, req.school, req.gradeLevel, None, None)
  }

  /** The roles table has a STUDENT row with a non-empty id. */
  predicate HasStudentRole(roles: map<string, string>) {
    "STUDENT" in roles && roles["STUDENT"] != ""
  }

  /**
   * Register: the confirmation check, then the blank check, then the e-mail
   * check, each answering 400; then the ACTIVE user row with the normalised
   * e-mail and the password hash, the profile row (its errors ignored), and
   * when a STUDENT role exists the STUDENT link and role-group membership.
   * A hashing failure or an insert that reuses an id answers 500.
   */
  method Register(db: Db, req: RegisterRequest, salt: Option<seq<byte>>, kdf: Kdf, newId: string)
    returns (reply: Reply<Registered>)
    requires salt.Some? ==> |salt.value| == HashParams.saltLength
    modifies db`users, db`profiles, db`userRoles, db`members
    ensures ConfirmMismatch(req) ==> reply == Failure(400, PasswordMismatch)
    ensures !ConfirmMismatch(req) && MissingCredentials(req.email, req.password) ==>
              reply == Failure(400, CredentialsRequired)
    ensures !ConfirmMismatch(req) && !MissingCredentials(req.email, req.password) && old(db.EmailTaken(NormalEmail(req.email))) ==>
              reply == Failure(400, UserExists)
    ensures reply.Done? <==> && !ConfirmMismatch(req) && !MissingCredentials(req.email, req.password)
                             && !old(db.EmailTaken(NormalEmail(req.email))) && salt.Some? && newId !in old(db.users)
    ensures reply.Failure? ==> reply.status == 400 || reply == Failure(500, InternalError)
    ensures reply.Failure? ==> && db.users == old(db.users) && db.profiles == old(db.profiles)
                               && db.userRoles == old(db.userRoles) && db.members == old(db.members)
    ensures reply.Done? ==>
              && reply == Done(200, Registered(newId, NormalEmail(req.email)))
              && db.users == old(db.users)[newId := User(NormalEmail(req.email), HashPassword(req.password, salt, kdf).value,
                                                         "ACTIVE", None, None)]
              && db.profiles == (if newId in old(db.profiles) then old(db.profiles)
                                 else old(db.profiles)[newId := RegisteredProfile(req)])
    ensures reply.Done? && HasStudentRole(db.roles) ==>
              && db.userRoles == old(db.userRoles) + {(newId, db.roles["STUDENT"])}
              && (RoleGroups.Named(db.groups, RoleGroups.RoleGroupName("STUDENT")) ==>
                    RoleGroups.InRoleGroup(db.groups, db.members, newId, "STUDENT"))
    ensures !(reply.Done? && HasStudentRole(db.roles)) ==> db.userRoles == old(db.userRoles) && db.members == old(db.members)
    ensures RoleGroups.MembersKept(old(db.members), db.members) && RoleGroups.OnlyAddedFor(old(db.members), db.members, newId)
  {
    if req.confirmPassword.Some? && req.password != req.confirmPassword.value {
      return Failure(400, PasswordMismatch);
    }
    var email := NormalEmail(req.email);
    if email == "" || TrimSpace(req.password) == "" {
      return Failure(400, CredentialsRequired);
    }
    if exists id :: id in db.users && Lower(db.users[id].email) == email {
      ghost var id :| id in db.users && Lower(db.users[id].email) == email;
      assert EmailOwner(db.users, email, id);
      return Failure(400, UserExists);
    }
    assert !db.EmailTaken(email);
    var hash := HashPassword(req.password, salt, kdf);
    if hash.Err? {
      return Failure(500, InternalError);
    }
    var userId := newId;
    if userId in db.users {
      return Failure(500, InternalError);
    }
    db.users := db.users[userId := User(email, hash.value, "ACTIVE", None, None)];
    if userId !in db.profiles {
      db.profiles := db.profiles[userId := RegisteredProfile(req)];
    }
    GrantStudentRole(db, userId);
    return Done(200, Registered(userId, email));
  }

  /** The end of Register: when a STUDENT role exists, the user gets it and its role-group membership (errors ignored). */
  method GrantStudentRole(db: Db, userId: string)
    modifies db`userRoles, db`members
    ensures HasStudentRole(db.roles) ==>
              && db.userRoles == old(db.userRoles) + {(userId, db.roles["STUDENT"])}
              && (RoleGroups.Named(db.groups, RoleGroups.RoleGroupName("STUDENT")) ==>
                    RoleGroups.InRoleGroup(db.groups, db.members, userId, "STUDENT"))
    ensures !HasStudentRole(db.roles) ==> db.userRoles == old(db.userRoles) && db.members == old(db.members)
    ensures RoleGroups.MembersKept(old(db.members), db.members) && RoleGroups.OnlyAddedFor(old(db.members), db.members, userId)
  {
    if "STUDENT" in db.roles && db.roles["STUDENT"] != "" {
      db.userRoles := db.userRoles + {(userId, db.roles["STUDENT"])};
      assert Upper("STUDENT") == "STUDENT";
      var ignored := RoleGroups.EnsureMembership(db, userId, "STUDENT");
    }
  }

  /* ------------------------------------------------------------ Login */

  predicate MissingLogin(req: LoginRequest) {
    MissingCredentials(req.email, req.password)
  }

  /** The 200 answer with tokens signed for `userId` (the access token carrying `email` and the role codes in ascending order) and the user's view. */
  ghost predicate TokensIssued(db: Db, reply: Reply<TokenResponse>, ts: TokenService, userId: string, email: string,
                               now: int, sign: Signer)
    reads db
  {
    && userId in db.users
    && var roles := SortedCodes(RoleCodes(db.roles, db.userRoles, userId));
       var access := CreateAccessToken(ts, userId, email, roles, now, sign);
       var refresh := CreateRefreshToken(ts, userId, now, sign);
       && access.token.Some? && refresh.Some?
       && reply == Done(200, TokenResponse(access.token.value, refresh.value, access.expiresAt,
                                           UserDtoOf(userId, db.users[userId], ProfileRow(db.profiles, userId), roles)))
  }

  /** The users row after a login at `now`. */
  function Stamped(u: User, now: int): (r: User)
    ensures r.lastLoginAt == Some(now) && r.lastSeenAt == Some(now)
    ensures r.email == u.email && r.passwordHash == u.passwordHash && r.status == u.status
  {
    u.(lastLoginAt := Some(now), lastSeenAt := Some(now))
  }

  /** A signer that never fails for the secret. */
  ghost predicate AlwaysSigns(sign: Signer, secret: string) {
    forall c: Claims :: sign(secret, c).Some?
  }

  /** Row `id` is one Login may select for the request, and it passes the status and password checks. */
  ghost predicate Admits(users: map<string, User>, req: LoginRequest, id: string, kdf: Kdf, bcrypt: BcryptMatches) {
    && EmailOwner(users, NormalEmail(req.email), id)
    && users[id].status == "ACTIVE"
    && Matches(req.password, users[id].passwordHash, kdf, bcrypt)
  }

  /** Every row with the request's e-mail passes the status and password checks. */
  ghost predicate AllAdmit(users: map<string, User>, req: LoginRequest, kdf: Kdf, bcrypt: BcryptMatches) {
    forall id :: EmailOwner(users, NormalEmail(req.email), id) ==> Admits(users, req, id, kdf, bcrypt)
  }

  /** No row with the e-mail is ACTIVE. */
  ghost predicate NoneActive(users: map<string, User>, email: string) {
    forall id :: EmailOwner(users, email, id) ==> users[id].status != "ACTIVE"
  }

  /** Some row with the e-mail is ACTIVE and the password does not match it. */
  ghost predicate WrongPassword(users: map<string, User>, req: LoginRequest, kdf: Kdf, bcrypt: BcryptMatches) {
    exists id :: && EmailOwner(users, NormalEmail(req.email), id) && users[id].status == "ACTIVE"
                 && !Matches(req.password, users[id].passwordHash, kdf, bcrypt)
  }

  /**
   * Login: blank input answers 400; no row for the normalised e-mail 401; a
   * row whose status is not ACTIVE 403, before the password is looked at; a
   * wrong password 401. Then the access token (with the request's normalised
   * e-mail and the user's role codes in ascending order), the refresh token,
   * the login time and the user view.
   */
  method Login(db: Db, req: LoginRequest, ts: TokenService, now: int, sign: Signer, kdf: Kdf, bcrypt: BcryptMatches)
    returns (reply: Reply<TokenResponse>)
    modifies db`users
    ensures reply.Failure? ==> db.users == old(db.users)
    ensures reply.Failure? ==> (reply.status in {400, 401, 403} && reply.message == AuthenticationFailed) || reply == Failure(500, InternalError)
    ensures MissingLogin(req) ==> reply == Failure(400, AuthenticationFailed)
    ensures !MissingLogin(req) && !old(db.EmailTaken(NormalEmail(req.email))) ==> reply == Failure(401, AuthenticationFailed)
    ensures !MissingLogin(req) && old(db.EmailTaken(NormalEmail(req.email))) && NoneActive(old(db.users), NormalEmail(req.email))
            ==> reply == Failure(403, AuthenticationFailed)
    ensures reply == Failure(401, AuthenticationFailed) && !MissingLogin(req) && old(db.EmailTaken(NormalEmail(req.email)))
            ==> WrongPassword(old(db.users), req, kdf, bcrypt)
    ensures reply.Done? ==>
              exists id :: && Admits(old(db.users), req, id, kdf, bcrypt)
                           && db.users == old(db.users)[id := Stamped(old(db.users)[id], now)]
                           && TokensIssued(db, reply, ts, id, NormalEmail(req.email), now, sign)
    ensures && !MissingLogin(req) && old(db.EmailTaken(NormalEmail(req.email)))
            && AllAdmit(old(db.users), req, kdf, bcrypt) && AlwaysSigns(sign, ts.secret)
            ==> reply.Done?
  {
    ghost var before := db.users;
    var email := NormalEmail(req.email);
    if email == "" || TrimSpace(req.password) == "" {
      return Failure(400, AuthenticationFailed);
    }
    if !exists id :: id in db.users && Lower(db.users[id].email) == email {
      return Failure(401, AuthenticationFailed);
    }
    var userId :| userId in db.users && Lower(db.users[userId].email) == email;
    assert EmailOwner(db.users, email, userId);
    var row := db.users[userId];
    if row.status != "ACTIVE" {
      return Failure(403, AuthenticationFailed);
    }
    var ok := VerifyPassword(req.password, row.passwordHash, kdf, bcrypt);
    if !ok {
      assert WrongPassword(before, req, kdf, bcrypt);
      return Failure(401, AuthenticationFailed);
    }
    assert Admits(before, req, userId, kdf, bcrypt);
    reply := IssueLoginTokens(db, userId, email, ts, now, sign);
  }

  /**
   * The end of Login for an admitted user: the access token, the refresh
   * token (either signing error answers 500 before anything is written), the
   * login time, and the user view.
   */
  method IssueLoginTokens(db: Db, userId: string, email: string, ts: TokenService, now: int, sign: Signer)
    returns (reply: Reply<TokenResponse>)
    requires userId in db.users
    modifies db`users
    ensures reply.Failure? ==> reply == Failure(500, InternalError) && db.users == old(db.users)
    ensures reply.Done? ==> && db.users == old(db.users)[userId := Stamped(old(db.users)[userId], now)]
                            && TokensIssued(db, reply, ts, userId, email, now, sign)
    ensures AlwaysSigns(sign, ts.secret) ==> reply.Done?
  {
    var roles := SortCodes(RoleCodes(db.roles, db.userRoles, userId));
    var access := CreateAccessToken(ts, userId, email, roles, now, sign);
    if access.token.None? {
      return Failure(500, InternalError);
    }
    var refresh := CreateRefreshToken(ts, userId, now, sign);
    if refresh.None? {
      return Failure(500, InternalError);
    }
    SetLastLogin(db, userId, now);
    var dto := BuildUserDto(db, userId);
    if dto.Err? {
      return Failure(500, InternalError);
    }
    reply := Done(200, TokenResponse(access.token.value, refresh.value, access.expiresAt, dto.value));
  }

  /** After a successful Register, the new user is the only one with that e-mail, is ACTIVE and matches the password. */
  lemma RegisteredUserCanLogIn(users: map<string, User>, newId: string, req: RegisterRequest, salt: seq<byte>,
                               kdf: Kdf, bcrypt: BcryptMatches)
    requires newId !in users
    requires forall id :: !EmailOwner(users, NormalEmail(req.email), id)
    requires |salt| == HashParams.saltLength && |kdf(req.password, salt, 3, 65536, 1, 32)| == 32
    ensures var after := users[newId := User(NormalEmail(req.email), HashPassword(req.password, Some(salt), kdf).value,
                                             "ACTIVE", None, None)];
            && (forall id :: EmailOwner(after, NormalEmail(req.email), id) <==> id == newId)
            && after[newId].status == "ACTIVE"
            && Matches(req.password, after[newId].passwordHash, kdf, bcrypt)
  {
    HashThenVerify(req.password, salt, kdf);
    var after := users[newId := User(NormalEmail(req.email), HashPassword(req.password, Some(salt), kdf).value,
                                     "ACTIVE", None, None)];
    forall id
      ensures EmailOwner(after, NormalEmail(req.email), id) <==> id == newId
    {
      if id != newId {
        assert !EmailOwner(users, NormalEmail(req.email), id);
      }
    }
  }

  /* ------------------------------------------------------------ Refresh and Logout */

  /** The user a refresh request names: the non-empty `sub` of a valid token whose `typ` is "refresh"; None answers 401. */
  function RefreshSubject(ts: TokenService, token: string, now: int, verify: Verifier): (r: Option<string>)
    ensures r.Some? ==> r.value != ""
    ensures r.Some? <==> && ParseToken(ts, token, now, verify).Some?
                         && "typ" in ParseToken(ts, token, now, verify).value
                         && ParseToken(ts, token, now, verify).value["typ"] == CStr("refresh")
                         && StringClaim(ParseToken(ts, token, now, verify).value, "sub") != ""
  {
    match ParseToken(ts, token, now, verify)
    case None => None
    case Some(c) =>
      if !("typ" in c && c["typ"] == CStr("refresh")) then None
      else
        var sub := StringClaim(c, "sub");
        if sub == "" then None else Some(sub)
  }

  /** A refresh token the service issued names its user until it expires. */
  lemma RefreshTokenAccepted(ts: TokenService, userId: string, now: int, t: int, sign: Signer, verify: Verifier)
    requires Sound(sign, verify) && userId != ""
    requires CreateRefreshToken(ts, userId, now, sign).Some?
    requires t < now + ts.refreshTtl
    ensures RefreshSubject(ts, CreateRefreshToken(ts, userId, now, sign).value, t, verify) == Some(userId)
  {
    RefreshTokenParses(ts, userId, now, t, sign, verify);
  }

  /** An access token is refused by Refresh even though it parses. */
  lemma AccessTokenNotRefresh(ts: TokenService, userId: string, email: string, roles: seq<string>, now: int, t: int,
                              sign: Signer, verify: Verifier)
    requires Sound(sign, verify)
    requires CreateAccessToken(ts, userId, email, roles, now, sign).token.Some?
    ensures RefreshSubject(ts, CreateAccessToken(ts, userId, email, roles, now, sign).token.value, t, verify) == None
  {
    var c := AccessClaims(ts, userId, email, roles, now);
    assert verify(sign(ts.secret, c).value, ts.secret) == Some(c);
  }

  /**
   * Refresh: 401 unless the token names a user; then the role codes are read
   * again, an access token with an empty e-mail and a new refresh token are
   * signed, and the user view is built (500 when the user no longer exists).
   * Nothing is written: the old refresh token stays valid.
   */
  method Refresh(db: Db, refreshToken: string, ts: TokenService, now: int, sign: Signer, verify: Verifier)
    returns (reply: Reply<TokenResponse>)
    ensures RefreshSubject(ts, refreshToken, now, verify).None? ==> reply == Failure(401, AuthenticationFailed)
    ensures reply.Failure? ==> reply == Failure(401, AuthenticationFailed) || reply == Failure(500, InternalError)
    ensures RefreshSubject(ts, refreshToken, now, verify).Some? && RefreshSubject(ts, refreshToken, now, verify).value !in db.users
            ==> reply == Failure(500, InternalError)
    ensures reply.Done? ==>
              && RefreshSubject(ts, refreshToken, now, verify).Some?
              && TokensIssued(db, reply, ts, RefreshSubject(ts, refreshToken, now, verify).value, "", now, sign)
    ensures (&& RefreshSubject(ts, refreshToken, now, verify).Some?
             && RefreshSubject(ts, refreshToken, now, verify).value in db.users
             && AlwaysSigns(sign, ts.secret))
            ==> reply.Done?
  {
    var parsed := ParseToken(ts, refreshToken, now, verify);
    if parsed.None? || !("typ" in parsed.value && parsed.value["typ"] == CStr("refresh")) {
      return Failure(401, AuthenticationFailed);
    }
    var userId := StringClaim(parsed.value, "sub");
    if userId == "" {
      return Failure(401, AuthenticationFailed);
    }
    var roles := SortCodes(RoleCodes(db.roles, db.userRoles, userId));
    var access := CreateAccessToken(ts, userId, "", roles, now, sign);
    if access.token.None? {
      return Failure(500, InternalError);
    }
    var refresh := CreateRefreshToken(ts, userId, now, sign);
    if refresh.None? {
      return Failure(500, InternalError);
    }
    var dto := BuildUserDto(db, userId);
    if dto.Err? {
      return Failure(500, InternalError);
    }
    return Done(200, TokenResponse(access.token.value, refresh.value, access.expiresAt, dto.value));
  }

  /** Logout: always 200 with status "ok"; tokens are not revoked. */
  function Logout(): (r: Reply<map<string, string>>)
    ensures r.Done? && r.status == 200 && r.body == map["status" := "ok"]
  {
    Done(200, map["status" := "ok"])
  }
}

=== FILE: base64.dfy ===
/**
 * base64.RawStdEncoding: the alphabet of section 4 of RFC 4648 with the
 * padding omitted (section 3.2), and Go's non-strict decoder, which skips
 * '\r' and '\n', refuses every other character outside the alphabet ('='
 * included), refuses a final group of one character and ignores the unused
 * low bits of a final group of two or three characters.
 */
module Base64 {
  import opened Wrappers
  import Bytes

  /** An octet, as Go's `byte`. */
  type byte = Bytes.byte

  /** The 64 characters of the standard alphabet. */
  predicate IsAlphabet(c: char) {
    ('A' <= c <= 'Z') || ('a' <= c <= 'z') || ('0' <= c <= '9') || c == '+' || c == '/'
  }

  predicate AllAlphabet(s: string) {
    forall i :: 0 <= i < |s| ==> IsAlphabet(s[i])
  }

  /** The 6-bit value a character of the alphabet stands for. */
  function ValueOf(c: char): (v: nat)
    requires IsAlphabet(c)
    ensures v < 64
  {
    if 'A' <= c <= 'Z' then c as int - 'A' as int
    else if 'a' <= c <= 'z' then c as int - 'a' as int + 26
    else if '0' <= c <= '9' then c as int - '0' as int + 52
    else if c == '+' then 62
    else 63
  }

  /** The character that stands for the 6-bit value `v`. */
  function CharOf(v: nat): (c: char)
    requires v < 64
    ensures IsAlphabet(c) && ValueOf(c) == v
  {
    if v < 26 then ('A' as int + v) as char
    else if v < 52 then ('a' as int + v - 26) as char
    else if v < 62 then ('0' as int + v - 52) as char
    else if v == 62 then '+'
    else '/'
  }

  function ToByte(n: nat): (b: byte)
    requires n < 256
    ensures b as int == n
  {
    n as byte
  }

  /** The four characters that carry three bytes. */
  function EncodeGroup(x: byte, y: byte, z: byte): (g: string)
    ensures |g| == 4 && AllAlphabet(g)
  {
    var x, y, z := x as int, y as int, z as int;
    [CharOf(x / 4), CharOf(x % 4 * 16 + y / 16), CharOf(y % 16 * 4 + z / 64), CharOf(z % 64)]
  }

  /** EncodeToString: every three bytes become four characters; a final one or two bytes become two or three. */
  function Encode(b: seq<byte>): (s: string)
    ensures AllAlphabet(s)
    ensures |s| % 4 != 1
    decreases |b|
  {
    if |b| == 0 then ""
    else if |b| == 1 then
      var x := b[0] as int;
      [CharOf(x / 4), CharOf(x % 4 * 16)]
    else if |b| == 2 then
      var x, y := b[0] as int, b[1] as int;
      [CharOf(x / 4), CharOf(x % 4 * 16 + y / 16), CharOf(y % 16 * 4)]
    else
      EncodeGroup(b[0], b[1], b[2]) + Encode(b[3..])
  }

  /** The input with the line breaks the decoder skips removed. */
  function DropLineBreaks(s: string): (t: string)
    ensures |t| <= |s|
    ensures forall i :: 0 <= i < |t| ==> t[i] != '\r' && t[i] != '\n'
    ensures (forall i :: 0 <= i < |s| ==> s[i] != '\r' && s[i] != '\n') ==> t == s
  {
    if |s| == 0 then ""
    else if s[0] == '\r' || s[0] == '\n' then DropLineBreaks(s[1..])
    else [s[0]] + DropLineBreaks(s[1..])
  }

  /** The first byte of a group: six bits of `a` and the top two bits of `b`. */
  function FirstByte(a: char, b: char): byte
    requires IsAlphabet(a) && IsAlphabet(b)
  {
    ToByte(ValueOf(a) * 4 + ValueOf(b) / 16)
  }

  /** The second byte of a group: the low four bits of `b` and the top four bits of `c`. */
  function SecondByte(b: char, c: char): byte
    requires IsAlphabet(b) && IsAlphabet(c)
  {
    ToByte(ValueOf(b) % 16 * 16 + ValueOf(c) / 4)
  }

  /** The third byte of a group: the low two bits of `c` and six bits of `d`. */
  function ThirdByte(c: char, d: char): byte
    requires IsAlphabet(c) && IsAlphabet(d)
  {
    ToByte(ValueOf(c) % 4 * 64 + ValueOf(d))
  }

  /** The three bytes four characters carry. */
  function DecodeGroup(a: char, b: char, c: char, d: char): (r: seq<byte>)
    requires IsAlphabet(a) && IsAlphabet(b) && IsAlphabet(c) && IsAlphabet(d)
    ensures |r| == 3
  {
    [FirstByte(a, b), SecondByte(b, c), ThirdByte(c, d)]
  }

  /** Decoding of alphabet characters, four at a time; a final group of two or three yields one or two bytes. */
  function DecodeGroups(t: string): (r: seq<byte>)
    requires AllAlphabet(t) && |t| % 4 != 1
    ensures |r| == |t| * 3 / 4
    decreases |t|
  {
    if |t| == 0 then []
    else if |t| == 2 then [FirstByte(t[0], t[1])]
    else if |t| == 3 then [FirstByte(t[0], t[1]), SecondByte(t[1], t[2])]
    else
      assert |t| >= 4;
      var rest := t[4..];
      AlphabetSuffix(t, 4);
      GroupLength(|rest|);
      DecodeGroup(t[0], t[1], t[2], t[3]) + DecodeGroups(rest)
  }

  lemma AlphabetSuffix(t: string, k: nat)
    requires AllAlphabet(t) && k <= |t|
    ensures AllAlphabet(t[k..])
  {
    assert forall i :: 0 <= i < |t| - k ==> t[k..][i] == t[i + k];
  }

  /** One more group of four characters carries three more bytes, and leaves the length's remainder alone. */
  lemma GroupLength(n: nat)
    ensures (n + 4) * 3 / 4 == n * 3 / 4 + 3
    ensures (n + 4) % 4 == n % 4
  {
  }

  /** DecodeString: None stands for the CorruptInputError. */
  function Decode(s: string): (r: Option<seq<byte>>)
    ensures r.Some? ==> forall i :: 0 <= i < |s| ==> IsAlphabet(s[i]) || s[i] == '\r' || s[i] == '\n'
    ensures r.Some? ==> |r.value| == |DropLineBreaks(s)| * 3 / 4
  {
    var t := DropLineBreaks(s);
    if AllAlphabet(t) && |t| % 4 != 1 then
      DropLineBreaksKeeps(s);
      Some(DecodeGroups(t))
    else None
  }

  /** Every character that survives DropLineBreaks occurs in the input, and every other one is a line break. */
  lemma {:induction false} DropLineBreaksKeeps(s: string)
    ensures AllAlphabet(DropLineBreaks(s)) ==> forall i :: 0 <= i < |s| ==> IsAlphabet(s[i]) || s[i] == '\r' || s[i] == '\n'
    decreases |s|
  {
    if |s| > 0 {
      DropLineBreaksKeeps(s[1..]);
      var t := DropLineBreaks(s);
      if AllAlphabet(t) {
        if s[0] != '\r' && s[0] != '\n' {
          assert t[0] == s[0];
          assert t[1..] == DropLineBreaks(s[1..]);
        }
        assert forall i :: 1 <= i < |s| ==> s[i] == s[1..][i - 1];
      }
    }
  }

  /** The unused bits arithmetic of one full group: four characters give back the three bytes. */
  lemma GroupOfThree(x: nat, y: nat, z: nat)
    requires x < 256 && y < 256 && z < 256
    ensures (x / 4) * 4 + (x % 4 * 16 + y / 16) / 16 == x
    ensures (x % 4 * 16 + y / 16) % 16 * 16 + (y % 16 * 4 + z / 64) / 4 == y
    ensures (y % 16 * 4 + z / 64) % 4 * 64 + z % 64 == z
  {
  }

  lemma GroupOfTwo(x: nat, y: nat)
    requires x < 256 && y < 256
    ensures (x / 4) * 4 + (x % 4 * 16 + y / 16) / 16 == x
    ensures (x % 4 * 16 + y / 16) % 16 * 16 + (y % 16 * 4) / 4 == y
  {
  }

  lemma GroupOfOne(x: nat)
    requires x < 256
    ensures (x / 4) * 4 + (x % 4 * 16) / 16 == x
  {
  }

  /** Four characters written for three bytes decode to those bytes. */
  lemma DecodeEncodeGroup(x: byte, y: byte, z: byte)
    ensures var g := EncodeGroup(x, y, z); DecodeGroup(g[0], g[1], g[2], g[3]) == [x, y, z]
  {
    GroupOfThree(x as int, y as int, z as int);
  }

  /** Decoding the two characters written for one final byte gives the byte. */
  lemma DecodeEncodeOne(b: seq<byte>)
    requires |b| == 1
    ensures DecodeGroups(Encode(b)) == b
  {
    var x := b[0] as int;
    var s := Encode(b);
    assert s == [CharOf(x / 4), CharOf(x % 4 * 16)];
    GroupOfOne(x);
    assert DecodeGroups(s) == [FirstByte(s[0], s[1])];
  }

  /** Decoding the three characters written for two final bytes gives the bytes. */
  lemma DecodeEncodeTwo(b: seq<byte>)
    requires |b| == 2
    ensures DecodeGroups(Encode(b)) == b
  {
    var x, y := b[0] as int, b[1] as int;
    var s := Encode(b);
    assert s == [CharOf(x / 4), CharOf(x % 4 * 16 + y / 16), CharOf(y % 16 * 4)];
    GroupOfTwo(x, y);
    assert DecodeGroups(s) == [FirstByte(s[0], s[1]), SecondByte(s[1], s[2])];
  }

  lemma {:induction false} DecodeEncodeGroups(b: seq<byte>)
    ensures DecodeGroups(Encode(b)) == b
    decreases |b|
  {
    if |b| == 1 {
      DecodeEncodeOne(b);
    } else if |b| == 2 {
      DecodeEncodeTwo(b);
    } else if |b| >= 3 {
      var g := EncodeGroup(b[0], b[1], b[2]);
      var rest := Encode(b[3..]);
      var s := Encode(b);
      assert s == g + rest;
      assert s[..4] == g && s[4..] == rest;
      DecodeEncodeGroup(b[0], b[1], b[2]);
      DecodeEncodeGroups(b[3..]);
      assert DecodeGroups(s) == DecodeGroup(g[0], g[1], g[2], g[3]) + DecodeGroups(rest);
      assert b == [b[0], b[1], b[2]] + b[3..];
    }
  }

  /** Round trip: decoding what the encoder produced gives back the bytes. */
  lemma DecodeEncode(b: seq<byte>)
    ensures Decode(Encode(b)) == Some(b)
  {
    var s := Encode(b);
    assert forall i :: 0 <= i < |s| ==> s[i] != '\r' && s[i] != '\n';
    assert DropLineBreaks(s) == s;
    DecodeEncodeGroups(b);
  }

  /** The encoder never produces the '$' and ',' separators of the argon2 hash string. */
  lemma EncodeHasNoSeparators(b: seq<byte>)
    ensures '$' !in Encode(b) && ',' !in Encode(b)
  {
  }
}

=== FILE: bytes.dfy ===
/** Go's `byte`, and its reading as eight bits for the bitwise operators. */
module Bytes {
  /** An octet. */
  newtype byte = x: int | 0 <= x < 256

  /** The byte as an 8-bit vector, the operand type of `^` and `|` on bytes. */
  function Bits(x: byte): (b: bv8)
    ensures b as int == x as int
  {
    if x == 0 then 0 else Bits(x - 1) + 1
  }

  lemma OrXorZero(d: bv8, u: bv8, v: bv8)
    ensures (d | (u ^ v)) == 0 <==> d == 0 && u == v
  {
  }

  /** OR-ing in the XOR of two bytes keeps an accumulator zero exactly when it was zero and the bytes agree. */
  lemma XorOrZero(diff: bv8, x: byte, y: byte)
    ensures (diff | (Bits(x) ^ Bits(y))) == 0 <==> diff == 0 && x == y
  {
    OrXorZero(diff, Bits(x), Bits(y));
  }
}

=== FILE: categories.dfy ===
/**
 * The resource category endpoints: the ordered list, create and update with
 * their group and sort order rules, the guarded delete, and the relabelling
 * of a whole group.
 *
 * Categories are kept in groups (by group label). Each category has a sort
 * order inside its group and a group order that places the group; the list
 * is ordered by group order, then sort order. A new category, or one moved
 * to another group, goes after every category already in its group unless
 * an order is given, and a group that does not exist yet goes after every
 * group.
 *
 * The aggregate queries (`MAX(...)`, `LIMIT 1`) are computed by methods
 * over the table; the new category's code is chosen by ResolveCategoryCode
 * through `probe`, which stands for the `EXISTS` query on the codes.
 */
module Categories {
  import opened Wrappers
  import opened Text
  import opened Store
  import opened Replies
  import opened ResourceText
  import opened ResourceHelpers

  const LabelRequired: string := "Denumirea categoriei este obligatorie."
  const GroupRequired: string := "Denumirea grupului este obligatorie."
  const GroupInvalid: string := "Grupul selectat este invalid."

  /** The create and update body; the orders are optional. */
  datatype UpsertRequest = UpsertRequest(labelText: string, group: string, sortOrder: Option<int>, groupOrder: Option<int>)

  /** The body of a group relabelling. */
  datatype GroupRequest = GroupRequest(labelText: string, groupOrder: Option<int>)

  /** The view of the category stored under `code`. */
  function DtoOf(code: string, c: Category): (d: CategoryDto)
    ensures d.code == code && d.labelText == c.labelText && d.group == c.groupLabel
    ensures d.sortOrder == c.sortOrder && d.groupOrder == c.groupOrder
  {
    CategoryDto(code, c.labelText, c.groupLabel, c.sortOrder, c.groupOrder)
  }

  /* ------------------------------------------------------------ the aggregate queries */

  /** `m` is `COALESCE(MAX(group_order), 0)` over the table. */
  ghost predicate MaxGroupOrder(cats: map<string, Category>, m: int) {
    && (cats == map[] ==> m == 0)
    && (cats != map[] ==> && (exists c :: c in cats && cats[c].groupOrder == m)
                          && (forall c :: c in cats ==> cats[c].groupOrder <= m))
  }

  /** `m` is `COALESCE(MAX(sort_order), 0)` over the categories of `group`. */
  ghost predicate MaxSortOrder(cats: map<string, Category>, group: string, m: int) {
    && ((forall c :: c in cats ==> cats[c].groupLabel != group) ==> m == 0)
    && ((exists c :: c in cats && cats[c].groupLabel == group) ==>
          && (exists c :: c in cats && cats[c].groupLabel == group && cats[c].sortOrder == m)
          && (forall c :: c in cats && cats[c].groupLabel == group ==> cats[c].sortOrder <= m))
  }

  /** `SELECT COALESCE(MAX(group_order), 0) FROM resource_categories`. */
  method QueryMaxGroupOrder(cats: map<string, Category>) returns (m: int)
    ensures MaxGroupOrder(cats, m)
  {
    var rest := cats.Keys;
    m := 0;
    while rest != {}
      invariant rest <= cats.Keys
      invariant rest == cats.Keys ==> m == 0
      invariant rest != cats.Keys ==> exists c :: c in cats && c !in rest && cats[c].groupOrder == m
      invariant forall c :: c in cats && c !in rest ==> cats[c].groupOrder <= m
      decreases |rest|
    {
      var c :| c in rest;
      if rest == cats.Keys || cats[c].groupOrder > m {
        m := cats[c].groupOrder;
      }
      rest := rest - {c};
    }
  }

  /** `SELECT COALESCE(MAX(sort_order), 0) FROM resource_categories WHERE group_label = $1`. */
  method QueryMaxSortOrder(cats: map<string, Category>, group: string) returns (m: int)
    ensures MaxSortOrder(cats, group, m)
  {
    var rest := set c | c in cats && cats[c].groupLabel == group;
    var seen := false;
    m := 0;
    while rest != {}
      invariant forall c :: c in rest ==> c in cats && cats[c].groupLabel == group
      invariant !seen ==> m == 0 && forall c :: c in cats && cats[c].groupLabel == group ==> c in rest
      invariant seen ==> exists c :: c in cats && cats[c].groupLabel == group && cats[c].sortOrder == m
      invariant forall c :: c in cats && cats[c].groupLabel == group && c !in rest ==> cats[c].sortOrder <= m
      decreases |rest|
    {
      var c :| c in rest;
      if !seen || cats[c].sortOrder > m {
        m := cats[c].sortOrder;
      }
      seen := true;
      rest := rest - {c};
    }
  }

  /** `SELECT group_order FROM resource_categories WHERE group_label = $1 LIMIT 1`: the order of some category of the group. */
  method QueryGroupOrder(cats: map<string, Category>, group: string) returns (order: Option<int>)
    ensures order.None? <==> forall c :: c in cats ==> cats[c].groupLabel != group
    ensures order.Some? ==> exists c :: c in cats && cats[c].groupLabel == group && cats[c].groupOrder == order.value
  {
    if c :| c in cats && cats[c].groupLabel == group {
      return Some(cats[c].groupOrder);
    }
    return None;
  }

  /* ------------------------------------------------------------ ListCategories */

  /** `a` may come before `b` under `ORDER BY group_order ASC, sort_order ASC`. */
  predicate NotAfter(a: CategoryDto, b: CategoryDto) {
    a.groupOrder < b.groupOrder || (a.groupOrder == b.groupOrder && a.sortOrder <= b.sortOrder)
  }

  predicate InOrder(s: seq<CategoryDto>) {
    forall i, j :: 0 <= i < j < |s| ==> NotAfter(s[i], s[j])
  }

  /** The place of `d` in an ordered list: after every row not after it. */
  function InsertPos(s: seq<CategoryDto>, d: CategoryDto): (k: nat)
    ensures k <= |s|
    ensures forall i :: 0 <= i < k ==> NotAfter(s[i], d)
    ensures k < |s| ==> !NotAfter(s[k], d)
    decreases |s|
  {
    if |s| == 0 || !NotAfter(s[0], d) then 0 else 1 + InsertPos(s[1..], d)
  }

  /** Putting a row at its place keeps the list in order. */
  lemma InsertInOrder(s: seq<CategoryDto>, d: CategoryDto)
    requires InOrder(s)
    ensures InOrder(s[..InsertPos(s, d)] + [d] + s[InsertPos(s, d)..])
  {
    var k := InsertPos(s, d);
    var r := s[..k] + [d] + s[k..];
    forall i, j | 0 <= i < j < |r|
      ensures NotAfter(r[i], r[j])
    {
      if j > k && i == k {
        assert NotAfter(d, s[k]);
        assert r[j] == s[j - 1];
      }
    }
  }

  /** `s` with `d` at its place in the order. */
  function Inserted(s: seq<CategoryDto>, d: CategoryDto): (r: seq<CategoryDto>)
    ensures |r| == |s| + 1
  {
    s[..InsertPos(s, d)] + [d] + s[InsertPos(s, d)..]
  }

  /** `items` lists the categories of `done`, each once, in order. */
  ghost predicate Listing(cats: map<string, Category>, done: set<string>, items: seq<CategoryDto>) {
    && InOrder(items)
    && (forall i, j :: 0 <= i < j < |items| ==> items[i].code != items[j].code)
    && (forall i :: 0 <= i < |items| ==> && items[i].code in cats && items[i].code in done
                                          && items[i] == DtoOf(items[i].code, cats[items[i].code]))
    && (forall code :: code in done ==> exists i :: 0 <= i < |items| && items[i].code == code)
  }

  /** Where the rows of `s` sit after an insertion. */
  lemma InsertedAt(s: seq<CategoryDto>, d: CategoryDto)
    ensures var k := InsertPos(s, d);
            && Inserted(s, d)[k] == d
            && (forall i :: 0 <= i < k ==> Inserted(s, d)[i] == s[i])
            && (forall i :: k < i <= |s| ==> Inserted(s, d)[i] == s[i - 1])
  {
  }

  /** Inserting one more category at its place extends the listing by that category. */
  lemma InsertedListing(cats: map<string, Category>, done: set<string>, items: seq<CategoryDto>, code: string)
    requires Listing(cats, done, items) && code in cats && code !in done
    ensures Listing(cats, done + {code}, Inserted(items, DtoOf(code, cats[code])))
  {
    InsertInOrder(items, DtoOf(code, cats[code]));
    InsertedRows(cats, done, items, code);
    InsertedDistinct(cats, done, items, code);
    InsertedCovers(cats, done, items, code);
  }

  /** After the insertion every row is still the row of a category listed so far. */
  lemma InsertedRows(cats: map<string, Category>, done: set<string>, items: seq<CategoryDto>, code: string)
    requires Listing(cats, done, items) && code in cats
    ensures var r := Inserted(items, DtoOf(code, cats[code]));
            forall i :: 0 <= i < |r| ==> r[i].code in cats && r[i].code in done + {code} && r[i] == DtoOf(r[i].code, cats[r[i].code])
  {
    var d := DtoOf(code, cats[code]);
    var k := InsertPos(items, d);
    InsertedAt(items, d);
    var r := Inserted(items, d);
    forall i | 0 <= i < |r|
      ensures r[i].code in cats && r[i].code in done + {code} && r[i] == DtoOf(r[i].code, cats[r[i].code])
    {
      if i > k {
        assert r[i] == items[i - 1];
      }
    }
  }

  /** A category not yet listed does not repeat a code. */
  lemma InsertedDistinct(cats: map<string, Category>, done: set<string>, items: seq<CategoryDto>, code: string)
    requires Listing(cats, done, items) && code in cats && code !in done
    ensures var r := Inserted(items, DtoOf(code, cats[code]));
            forall i, j :: 0 <= i < j < |r| ==> r[i].code != r[j].code
  {
    var d := DtoOf(code, cats[code]);
    var k := InsertPos(items, d);
    InsertedAt(items, d);
    var r := Inserted(items, d);
    forall i, j | 0 <= i < j < |r|
      ensures r[i].code != r[j].code
    {
      if i != k && j != k {
        var i', j' := if i < k then i else i - 1, if j < k then j else j - 1;
        assert r[i] == items[i'] && r[j] == items[j'];
      } else if i == k {
        assert r[j] == items[j - 1];
      }
    }
  }

  /** Every category listed so far, and the new one, has a row after the insertion. */
  lemma InsertedCovers(cats: map<string, Category>, done: set<string>, items: seq<CategoryDto>, code: string)
    requires Listing(cats, done, items) && code in cats
    ensures var r := Inserted(items, DtoOf(code, cats[code]));
            forall x :: x in done + {code} ==> exists i :: 0 <= i < |r| && r[i].code == x
  {
    var d := DtoOf(code, cats[code]);
    var k := InsertPos(items, d);
    InsertedAt(items, d);
    var r := Inserted(items, d);
    forall x | x in done + {code}
      ensures exists i :: 0 <= i < |r| && r[i].code == x
    {
      if x == code {
        assert r[k].code == x;
      } else {
        var i :| 0 <= i < |items| && items[i].code == x;
        if i < k {
          assert r[i].code == x;
        } else {
          assert r[i + 1].code == x;
        }
      }
    }
  }

  /**
   * ListCategories: every category once, in group order, then sort order
   * (rows with equal orders in any order).
   */
  method ListCategories(db: Db) returns (reply: Reply<seq<CategoryDto>>)
    ensures reply.Done? && reply.status == 200
    ensures InOrder(reply.body)
    ensures forall i, j :: 0 <= i < j < |reply.body| ==> reply.body[i].code != reply.body[j].code
    ensures forall i :: 0 <= i < |reply.body| ==>
              reply.body[i].code in db.categories && reply.body[i] == DtoOf(reply.body[i].code, db.categories[reply.body[i].code])
    ensures forall code :: code in db.categories ==> exists i :: 0 <= i < |reply.body| && reply.body[i].code == code
  {
    var cats := db.categories;
    var rest := cats.Keys;
    var items: seq<CategoryDto> := [];
    while rest != {}
      invariant rest <= cats.Keys
      invariant Listing(cats, cats.Keys - rest, items)
      decreases |rest|
    {
      var code :| code in rest;
      InsertedListing(cats, cats.Keys - rest, items, code);
      items := Inserted(items, DtoOf(code, cats[code]));
      assert cats.Keys - rest + {code} == cats.Keys - (rest - {code});
      rest := rest - {code};
    }
    assert cats.Keys - rest == cats.Keys;
    return Done(200, items);
  }

  /* ------------------------------------------------------------ create and update */

  /** The code a new category receives: one no category has. */
  ghost predicate CodeProbe(cats: map<string, Category>, probe: string -> Option<bool>) {
    forall c :: probe(c).Some? ==> (probe(c).value <==> c in cats)
  }

  /** The group order a category gets in `group`: given, or the group's, or after every group. */
  ghost predicate GroupOrderFor(cats: map<string, Category>, group: string, requested: Option<int>, order: int) {
    && (requested.Some? ==> order == requested.value)
    && (requested.None? && (exists c :: c in cats && cats[c].groupLabel == group) ==>
          exists c :: c in cats && cats[c].groupLabel == group && cats[c].groupOrder == order)
    && (requested.None? && (forall c :: c in cats ==> cats[c].groupLabel != group) ==> MaxGroupOrder(cats, order - 1))
  }

  /** The sort order a category appended to `group` gets: given, or one past the group's greatest. */
  ghost predicate SortOrderFor(cats: map<string, Category>, group: string, requested: Option<int>, order: int) {
    && (requested.Some? ==> order == requested.value)
    && (requested.None? ==> MaxSortOrder(cats, group, order - 1))
  }

  /** A category placed without orders goes last in its group, and a new group goes after every group. */
  lemma AppendedLast(cats: map<string, Category>, group: string, groupOrder: int, sortOrder: int)
    requires GroupOrderFor(cats, group, None, groupOrder) && SortOrderFor(cats, group, None, sortOrder)
    ensures forall c :: c in cats && cats[c].groupLabel == group ==> cats[c].sortOrder < sortOrder
    ensures (forall c :: c in cats ==> cats[c].groupLabel != group) ==>
              forall c :: c in cats ==> cats[c].groupOrder < groupOrder
    ensures (forall c :: c in cats ==> cats[c].groupLabel != group) ==> sortOrder == 1
    ensures cats == map[] ==> groupOrder == 1 && sortOrder == 1
  {
  }

  /** The orders of a category placed in `group`, computed as the handlers do: the given ones, else the queries. */
  method PlaceInGroup(cats: map<string, Category>, group: string, req: UpsertRequest)
    returns (groupOrder: int, sortOrder: int)
    ensures GroupOrderFor(cats, group, req.groupOrder, groupOrder)
    ensures SortOrderFor(cats, group, req.sortOrder, sortOrder)
  {
    var order := req.groupOrder;
    if order.None? {
      order := QueryGroupOrder(cats, group);
      if order.None? {
        var maxGroup := QueryMaxGroupOrder(cats);
        order := Some(maxGroup + 1);
      }
    }
    groupOrder := order.value;
    var sort := req.sortOrder;
    if sort.None? {
      var maxSort := QueryMaxSortOrder(cats, group);
      sort := Some(maxSort + 1);
    }
    sortOrder := sort.value;
  }

  /**
   * CreateCategory: a blank label or group is 400; otherwise the category is
   * stored under a new code with the trimmed label and group and the orders
   * of PlaceInGroup; a failed code query is 500.
   */
  method CreateCategory(db: Db, req: UpsertRequest, isAlnum: char -> bool, slugFallback: string, probe: string -> Option<bool>)
    returns (reply: Reply<CategoryDto>)
    modifies db`categories
    requires CodeProbe(db.categories, probe)
    ensures IsBlank(req.labelText) ==> reply == Failure(400, Raw(LabelRequired))
    ensures !IsBlank(req.labelText) && IsBlank(req.group) ==> reply == Failure(400, Raw(GroupRequired))
    ensures reply.Failure? ==> db.categories == old(db.categories)
    ensures reply.Failure? && !IsBlank(req.labelText) && !IsBlank(req.group) ==> reply == Failure(500, InternalError)
    ensures !IsBlank(req.labelText) && !IsBlank(req.group) ==>
              FirstFree(SlugOf(TrimSpace(req.labelText), isAlnum, slugFallback), probe,
                        if reply.Done? then Some(reply.body.code) else None)
    ensures reply.Done? ==>
              && !IsBlank(req.labelText) && !IsBlank(req.group)
              && reply.status == 200
              && reply.body.code !in old(db.categories)
              && reply.body.labelText == TrimSpace(req.labelText) && reply.body.group == TrimSpace(req.group)
              && GroupOrderFor(old(db.categories), reply.body.group, req.groupOrder, reply.body.groupOrder)
              && SortOrderFor(old(db.categories), reply.body.group, req.sortOrder, reply.body.sortOrder)
              && db.categories == old(db.categories)[reply.body.code := Category(reply.body.labelText, reply.body.group,
                                                                                 reply.body.sortOrder, reply.body.groupOrder)]
  {
    var name := NormalizeRequired(req.labelText, LabelRequired);
    if name.Err? {
      return Failure(400, Raw(name.error));
    }
    var group := NormalizeRequired(req.group, GroupRequired);
    if group.Err? {
      return Failure(400, Raw(group.error));
    }
    var code := ResolveCategoryCode(name.value, isAlnum, slugFallback, probe, db.categories.Keys);
    if code.None? {
      return Failure(500, InternalError);
    }
    var groupOrder, sortOrder := PlaceInGroup(db.categories, group.value, req);
    db.categories := db.categories[code.value := Category(name.value, group.value, sortOrder, groupOrder)];
    return Done(200, CategoryDto(code.value, name.value, group.value, sortOrder, groupOrder));
  }

  /**
   * UpdateCategory: a blank label or group is 400, an unknown code 404.
   * A category that stays in its group keeps the orders not given; one that
   * moves takes the orders PlaceInGroup gives in the target group. The code
   * never changes.
   */
  method UpdateCategory(db: Db, code: string, req: UpsertRequest) returns (reply: Reply<CategoryDto>)
    modifies db`categories
    ensures IsBlank(req.labelText) ==> reply == Failure(400, Raw(LabelRequired))
    ensures !IsBlank(req.labelText) && IsBlank(req.group) ==> reply == Failure(400, Raw(GroupRequired))
    ensures !IsBlank(req.labelText) && !IsBlank(req.group) && code !in old(db.categories) ==>
              reply == Failure(404, CategoryMissing)
    ensures reply.Failure? ==> db.categories == old(db.categories)
    ensures reply.Done? <==> !IsBlank(req.labelText) && !IsBlank(req.group) && code in old(db.categories)
    ensures reply.Done? ==>
              var stored := old(db.categories)[code];
              && reply.status == 200 && reply.body.code == code
              && reply.body.labelText == TrimSpace(req.labelText) && reply.body.group == TrimSpace(req.group)
              && (stored.groupLabel == reply.body.group ==>
                    && reply.body.groupOrder == (if req.groupOrder.Some? then req.groupOrder.value else stored.groupOrder)
                    && reply.body.sortOrder == (if req.sortOrder.Some? then req.sortOrder.value else stored.sortOrder))
              && (stored.groupLabel != reply.body.group ==>
                    && GroupOrderFor(old(db.categories), reply.body.group, req.groupOrder, reply.body.groupOrder)
                    && SortOrderFor(old(db.categories), reply.body.group, req.sortOrder, reply.body.sortOrder))
              && db.categories == old(db.categories)[code := Category(reply.body.labelText, reply.body.group,
                                                                      reply.body.sortOrder, reply.body.groupOrder)]
  {
    var name := NormalizeRequired(req.labelText, LabelRequired);
    if name.Err? {
      return Failure(400, Raw(name.error));
    }
    var group := NormalizeRequired(req.group, GroupRequired);
    if group.Err? {
      return Failure(400, Raw(group.error));
    }
    if code !in db.categories {
      return Failure(404, CategoryMissing);
    }
    var stored := db.categories[code];
    var groupOrder, sortOrder;
    if stored.groupLabel != group.value {
      groupOrder, sortOrder := PlaceInGroup(db.categories, group.value, req);
    } else {
      groupOrder := if req.groupOrder.Some? then req.groupOrder.value else stored.groupOrder;
      sortOrder := if req.sortOrder.Some? then req.sortOrder.value else stored.sortOrder;
    }
    db.categories := db.categories[code := Category(name.value, group.value, sortOrder, groupOrder)];
    return Done(200, CategoryDto(code, name.value, group.value, sortOrder, groupOrder));
  }

  /* ------------------------------------------------------------ delete */

  /** Every resource entry names a stored category. */
  ghost predicate CategoriesKnown(cats: map<string, Category>, resources: map<string, Resource>) {
    forall id :: id in resources ==> resources[id].categoryCode in cats
  }

  /**
   * DeleteCategory: 404 for an unknown code, 400 while any resource entry
   * uses it; otherwise only that category goes, and no entry is left naming
   * a missing category.
   */
  method DeleteCategory(db: Db, code: string) returns (reply: Reply<Empty>)
    modifies db`categories
    ensures code !in old(db.categories) ==> reply == Failure(404, CategoryMissing)
    ensures code in old(db.categories) && (exists id :: id in db.resources && db.resources[id].categoryCode == code) ==>
              reply == Failure(400, CategoryInUse)
    ensures reply.Failure? ==> db.categories == old(db.categories)
    ensures reply.Done? <==> code in old(db.categories) && forall id :: id in db.resources ==> db.resources[id].categoryCode != code
    ensures reply.Done? ==> reply == Done(204, Empty) && db.categories == old(db.categories) - {code}
    ensures CategoriesKnown(old(db.categories), db.resources) ==> CategoriesKnown(db.categories, db.resources)
  {
    if code !in db.categories {
      return Failure(404, CategoryMissing);
    }
    if exists id :: id in db.resources && db.resources[id].categoryCode == code {
      return Failure(400, CategoryInUse);
    }
    db.categories := db.categories - {code};
    return Done(204, Empty);
  }

  /* ------------------------------------------------------------ UpdateGroupLabel */

  /** The table after every category of `current` moves to `newLabel` with group order `order`. */
  function Relabeled(cats: map<string, Category>, current: string, newLabel: string, order: int)
    : (r: map<string, Category>)
    ensures r.Keys == cats.Keys
    ensures forall c :: c in cats && cats[c].groupLabel != current ==> r[c] == cats[c]
    ensures forall c :: c in cats && cats[c].groupLabel == current ==>
              && r[c].groupLabel == newLabel && r[c].groupOrder == order
              && r[c].labelText == cats[c].labelText && r[c].sortOrder == cats[c].sortOrder
  {
    map c | c in cats :: if cats[c].groupLabel == current then cats[c].(groupLabel := newLabel, groupOrder := order) else cats[c]
  }

  /** After a relabelling the renamed group's categories share one group order. */
  lemma RelabeledShareOrder(cats: map<string, Category>, current: string, newLabel: string, order: int)
    requires forall c :: c in cats ==> cats[c].groupLabel != newLabel
    ensures forall c, d :: c in Relabeled(cats, current, newLabel, order) && d in Relabeled(cats, current, newLabel, order)
                           && Relabeled(cats, current, newLabel, order)[c].groupLabel == newLabel
                           && Relabeled(cats, current, newLabel, order)[d].groupLabel == newLabel
                           ==> Relabeled(cats, current, newLabel, order)[c].groupOrder
                               == Relabeled(cats, current, newLabel, order)[d].groupOrder
  {
  }

  /** The rows of `current`, as the relabelling reports them. */
  ghost predicate RelabelReport(cats: map<string, Category>, current: string, newLabel: string, order: int,
                                items: seq<CategoryDto>)
  {
    && (forall i, j :: 0 <= i < j < |items| ==> items[i].code != items[j].code)
    && (forall i :: 0 <= i < |items| ==>
          && items[i].code in cats && cats[items[i].code].groupLabel == current
          && items[i] == CategoryDto(items[i].code, cats[items[i].code].labelText, newLabel,
                                     cats[items[i].code].sortOrder, order))
    && (forall c :: c in cats && cats[c].groupLabel == current ==> exists i :: 0 <= i < |items| && items[i].code == c)
  }

  /** The relabelling's report loop over the selected rows. */
  method ReportRows(cats: map<string, Category>, current: string, newLabel: string, order: int, rows: seq<string>)
    returns (items: seq<CategoryDto>)
    requires forall i, j :: 0 <= i < j < |rows| ==> rows[i] != rows[j]
    requires forall i :: 0 <= i < |rows| ==> rows[i] in cats && cats[rows[i]].groupLabel == current
    requires forall c :: c in cats && cats[c].groupLabel == current ==> c in rows
    ensures RelabelReport(cats, current, newLabel, order, items)
  {
    items := [];
    for k := 0 to |rows|
      invariant |items| == k
      invariant forall i :: 0 <= i < k ==> items[i] == CategoryDto(rows[i], cats[rows[i]].labelText, newLabel,
                                                                   cats[rows[i]].sortOrder, order)
    {
      items := items + [CategoryDto(rows[k], cats[rows[k]].labelText, newLabel, cats[rows[k]].sortOrder, order)];
    }
    forall c | c in cats && cats[c].groupLabel == current
      ensures exists i :: 0 <= i < |items| && items[i].code == c
    {
      var i :| 0 <= i < |rows| && rows[i] == c;
      assert items[i].code == c;
    }
  }

  /** The selected rows of `current`, one code each, in whatever order the table gives them. */
  method SelectGroup(cats: map<string, Category>, current: string) returns (rows: seq<string>)
    ensures forall i, j :: 0 <= i < j < |rows| ==> rows[i] != rows[j]
    ensures forall i :: 0 <= i < |rows| ==> rows[i] in cats && cats[rows[i]].groupLabel == current
    ensures forall c :: c in cats && cats[c].groupLabel == current ==> c in rows
  {
    var rest := set c | c in cats && cats[c].groupLabel == current;
    rows := [];
    while rest != {}
      invariant forall c :: c in rest ==> c in cats && cats[c].groupLabel == current
      invariant forall i, j :: 0 <= i < j < |rows| ==> rows[i] != rows[j]
      invariant forall i :: 0 <= i < |rows| ==> rows[i] in cats && cats[rows[i]].groupLabel == current && rows[i] !in rest
      invariant forall c :: c in cats && cats[c].groupLabel == current ==> c in rows || c in rest
      decreases |rest|
    {
      var c :| c in rest;
      rows := rows + [c];
      rest := rest - {c};
    }
  }

  /**
   * UpdateGroupLabel: a blank current or new label is 400, a group without
   * categories 404; otherwise every category of the group takes the new
   * label and one group order (the given one, or the first row's), and
   * nothing else changes.
   */
  method UpdateGroupLabel(db: Db, rawGroupLabel: string, req: GroupRequest) returns (reply: Reply<seq<CategoryDto>>)
    modifies db`categories
    ensures IsBlank(rawGroupLabel) ==> reply == Failure(400, Raw(GroupInvalid))
    ensures !IsBlank(rawGroupLabel) && IsBlank(req.labelText) ==> reply == Failure(400, Raw(GroupRequired))
    ensures !IsBlank(rawGroupLabel) && !IsBlank(req.labelText)
            && (forall c :: c in old(db.categories) ==> old(db.categories)[c].groupLabel != TrimSpace(rawGroupLabel)) ==>
              reply == Failure(404, GroupMissing)
    ensures reply.Failure? ==> db.categories == old(db.categories)
    ensures reply.Done? ==>
              var current := TrimSpace(rawGroupLabel);
              && reply.status == 200
              && (exists order ::
                    && (req.groupOrder.Some? ==> order == req.groupOrder.value)
                    && (req.groupOrder.None? ==> exists c :: c in old(db.categories) && old(db.categories)[c].groupLabel == current
                                                             && old(db.categories)[c].groupOrder == order)
                    && db.categories == Relabeled(old(db.categories), current, TrimSpace(req.labelText), order)
                    && RelabelReport(old(db.categories), current, TrimSpace(req.labelText), order, reply.body))
  {
    var current := NormalizeRequired(TrimSpace(rawGroupLabel), GroupInvalid);
    TrimSpaceIdempotent(rawGroupLabel);
    if current.Err? {
      return Failure(400, Raw(current.error));
    }
    var newLabel := NormalizeRequired(req.labelText, GroupRequired);
    if newLabel.Err? {
      return Failure(400, Raw(newLabel.error));
    }
    var rows := SelectGroup(db.categories, current.value);
    if |rows| == 0 {
      return Failure(404, GroupMissing);
    }
    assert rows[0] in db.categories && db.categories[rows[0]].groupLabel == current.value;
    var order := if req.groupOrder.Some? then req.groupOrder.value else db.categories[rows[0]].groupOrder;
    var items := ReportRows(db.categories, current.value, newLabel.value, order, rows);
    db.categories := Relabeled(db.categories, current.value, newLabel.value, order);
    return Done(200, items);
  }
}

=== FILE: config.dfy ===
/**
 * Runtime configuration read from environment variables: two mandatory
 * values, the rest with defaults, and a comma-separated list of CORS origins.
 * The environment is a map; a missing variable reads as "" like os.Getenv.
 */
module Config {
  import opened Wrappers
  import opened Text
  import opened Numbers

  type Env = map<string, string>

  /** Config: the fields Load fills. CorsOrigins nil is the empty list. */
  datatype Cfg = Cfg(
    databaseUrl: string,
    jwtSecret: string,
    jwtIssuer: string,
    accessTtlSeconds: int,
    refreshTtlSeconds: int,
    mediaStoragePath: string,
    metricsDiskPath: string,
    metricsSampleSeconds: int,
    corsOrigins: seq<string>)

  /** os.Getenv. */
  function Getenv(env: Env, key: string): string {
    if key in env then env[key] else ""
  }

  /** mustEnv: the trimmed value, or the panic message when it is blank. */
  function MustEnv(env: Env, key: string): (r: Result<string, string>)
    ensures r.Ok? <==> !IsBlank(Getenv(env, key))
    ensures r.Ok? ==> r.value != "" && IsTrimmed(r.value) && r.value == TrimSpace(Getenv(env, key))
    ensures r.Err? ==> r.error == "missing env var: " + key
  {
    var value := TrimSpace(Getenv(env, key));
    TrimSpaceEnds(Getenv(env, key));
    if value == "" then Err("missing env var: " + key) else Ok(value)
  }

  /** envOr: the trimmed value, or the fallback when it is blank. */
  function EnvOr(env: Env, key: string, fallback: string): (r: string)
    ensures IsBlank(Getenv(env, key)) ==> r == fallback
    ensures !IsBlank(Getenv(env, key)) ==> r != "" && IsTrimmed(r) && r == TrimSpace(Getenv(env, key))
    ensures fallback != "" ==> r != ""
  {
    var value := TrimSpace(Getenv(env, key));
    TrimSpaceEnds(Getenv(env, key));
    if value == "" then fallback else value
  }

  /** envOrInt: the trimmed value read by strconv.Atoi, or the fallback when it is blank or not an integer. */
  function EnvOrInt(env: Env, key: string, fallback: int): (r: int)
    ensures IsBlank(Getenv(env, key)) ==> r == fallback
    ensures Atoi(TrimSpace(Getenv(env, key))).None? ==> r == fallback
    ensures r != fallback ==> Atoi(TrimSpace(Getenv(env, key))) == Some(r)
  {
    var value := TrimSpace(Getenv(env, key));
    if value == "" then fallback
    else match Atoi(value)
      case None => fallback
      case Some(n) => n
  }

  /** A variable holding a decimal int64 value, possibly padded with spaces, is read as that value. */
  lemma EnvOrIntReads(env: Env, key: string, fallback: int, n: nat)
    requires n <= MaxInt64
    requires key in env && TrimSpace(env[key]) == FormatNat(n)
    ensures EnvOrInt(env, key, fallback) == n
  {
    AtoiFormat(n);
  }

  /** The loop of parseCSV: the trimmed non-empty pieces, in order. */
  function CsvItems(parts: seq<string>): (items: seq<string>)
    ensures |items| <= |parts|
    decreases |parts|
  {
    if |parts| == 0 then []
    else
      var value := TrimSpace(parts[0]);
      (if value != "" then [value] else []) + CsvItems(parts[1..])
  }

  /** The item loop works piece by piece: the items of two runs of pieces are those of each, in order. */
  lemma {:induction false} CsvItemsAppend(a: seq<string>, b: seq<string>)
    ensures CsvItems(a + b) == CsvItems(a) + CsvItems(b)
    decreases |a|
  {
    if |a| > 0 {
      var head := if TrimSpace(a[0]) != "" then [TrimSpace(a[0])] else [];
      assert (a + b)[0] == a[0] && (a + b)[1..] == a[1..] + b;
      assert CsvItems(a + b) == head + CsvItems(a[1..] + b);
      assert CsvItems(a) == head + CsvItems(a[1..]);
      CsvItemsAppend(a[1..], b);
    } else {
      assert a + b == b;
    }
  }

  /** One piece gives nothing when it is blank, otherwise its trimmed text. */
  lemma CsvItemsOne(piece: string)
    ensures CsvItems([piece]) == if IsBlank(piece) then [] else [TrimSpace(piece)]
  {
    assert [piece][1..] == [];
  }

  /** parseCSV: nil (None) for blank input, otherwise the trimmed non-empty comma-separated items. */
  function ParseCsv(raw: string): (r: Option<seq<string>>)
    ensures r.None? <==> IsBlank(raw)
  {
    if IsBlank(raw) then None else Some(CsvItems(Split(raw, ',')))
  }

  /** Every item parseCSV returns is non-empty, trimmed and free of commas. */
  lemma {:induction false} CsvItemsClean(parts: seq<string>)
    requires forall k :: 0 <= k < |parts| ==> ',' !in parts[k]
    ensures forall k :: 0 <= k < |CsvItems(parts)| ==>
              CsvItems(parts)[k] != "" && IsTrimmed(CsvItems(parts)[k]) && ',' !in CsvItems(parts)[k]
    decreases |parts|
  {
    if |parts| > 0 {
      CsvItemsClean(parts[1..]);
      TrimSpaceEnds(parts[0]);
      TrimSpaceIsInfix(parts[0]);
    }
  }

  lemma ParseCsvClean(raw: string)
    ensures ParseCsv(raw).Some? ==> forall k :: 0 <= k < |ParseCsv(raw).value| ==>
              ParseCsv(raw).value[k] != "" && IsTrimmed(ParseCsv(raw).value[k]) && ',' !in ParseCsv(raw).value[k]
  {
    SplitPartsFree(raw, ',');
    CsvItemsClean(Split(raw, ','));
  }

  /** Items that are already clean survive the item loop unchanged. */
  lemma {:induction false} CsvItemsOfClean(items: seq<string>)
    requires forall k :: 0 <= k < |items| ==> items[k] != "" && IsTrimmed(items[k])
    ensures CsvItems(items) == items
    decreases |items|
  {
    if |items| > 0 {
      CsvItemsOfClean(items[1..]);
      CsvItemsCons(items);
    }
  }

  /** One step of CsvItemsOfClean: a clean head is kept as it is. */
  lemma CsvItemsCons(items: seq<string>)
    requires |items| > 0 && items[0] != "" && IsTrimmed(items[0])
    requires CsvItems(items[1..]) == items[1..]
    ensures CsvItems(items) == items
  {
    TrimmedFixed(items[0]);
    assert CsvItems(items) == [items[0]] + CsvItems(items[1..]);
  }

  /** Round trip: parseCSV of the comma-joined clean items gives the items back. */
  lemma ParseCsvJoin(items: seq<string>)
    requires |items| >= 1
    requires forall k :: 0 <= k < |items| ==> items[k] != "" && IsTrimmed(items[k]) && ',' !in items[k]
    ensures ParseCsv(Join(items, ',')) == Some(items)
  {
    var raw := Join(items, ',');
    JoinStartsWith(items, ',');
    BlankIffAllSpace(raw);
    assert !IsSpace(raw[0]);
    SplitJoin(items, ',');
    CsvItemsOfClean(items);
  }

  /** A join starts with its first piece. */
  lemma JoinStartsWith(parts: seq<string>, sep: char)
    requires |parts| >= 1
    ensures |Join(parts, sep)| >= |parts[0]| && Join(parts, sep)[..|parts[0]|] == parts[0]
  {
  }

  const DefaultIssuer: string := "fizicamd"
  const DefaultAccessTtl: int := 14400
  const DefaultRefreshTtl: int := 1209600
  const DefaultMediaPath: string := "storage/media"
  const DefaultSampleSeconds: int := 5

  /** Load: fails (panics) on the first missing mandatory variable, DATABASE_URL before JWT_SECRET. */
  function Load(env: Env): (r: Result<Cfg, string>)
    ensures r.Ok? <==> !IsBlank(Getenv(env, "DATABASE_URL")) && !IsBlank(Getenv(env, "JWT_SECRET"))
    ensures IsBlank(Getenv(env, "DATABASE_URL")) ==> r == Err("missing env var: " + "DATABASE_URL")
    ensures r.Ok? ==> r.value.jwtIssuer != "" && r.value.mediaStoragePath != "" && r.value.metricsDiskPath != ""
  {
    match MustEnv(env, "DATABASE_URL")
    case Err(e) => Err(e)
    case Ok(databaseUrl) =>
      match MustEnv(env, "JWT_SECRET")
      case Err(e) => Err(e)
      case Ok(jwtSecret) =>
        var cors := ParseCsv(EnvOr(env, "CORS_ORIGINS", ""));
        Ok(Cfg(
          databaseUrl,
          jwtSecret,
          EnvOr(env, "JWT_ISSUER", DefaultIssuer),
          EnvOrInt(env, "ACCESS_TTL_SECONDS", DefaultAccessTtl),
          EnvOrInt(env, "REFRESH_TTL_SECONDS", DefaultRefreshTtl),
          EnvOr(env, "MEDIA_STORAGE_PATH", DefaultMediaPath),
          EnvOr(env, "METRICS_DISK_PATH", DefaultMediaPath),
          EnvOrInt(env, "METRICS_SAMPLE_INTERVAL", DefaultSampleSeconds),
          if cors.Some? then cors.value else []))
  }

  /** With only the two mandatory variables set, every other field takes its default. */
  lemma LoadDefaults(databaseUrl: string, jwtSecret: string)
    requires databaseUrl != "" && IsTrimmed(databaseUrl) && jwtSecret != "" && IsTrimmed(jwtSecret)
    ensures Load(map["DATABASE_URL" := databaseUrl, "JWT_SECRET" := jwtSecret])
            == Ok(Cfg(databaseUrl, jwtSecret, "fizicamd", 14400, 1209600, "storage/media", "storage/media", 5, []))
  {
    var env := map["DATABASE_URL" := databaseUrl, "JWT_SECRET" := jwtSecret];
    TrimmedFixed(databaseUrl);
    TrimmedFixed(jwtSecret);
    assert Getenv(env, "JWT_ISSUER") == "";
    assert Getenv(env, "CORS_ORIGINS") == "";
    assert Getenv(env, "ACCESS_TTL_SECONDS") == "";
    assert Getenv(env, "REFRESH_TTL_SECONDS") == "";
    assert Getenv(env, "MEDIA_STORAGE_PATH") == "";
    assert Getenv(env, "METRICS_DISK_PATH") == "";
    assert Getenv(env, "METRICS_SAMPLE_INTERVAL") == "";
  }
}

=== FILE: dates.dfy ===
/**
 * Calendar dates in the "2006-01-02" layout of Go's time package, which is
 * the full-date production of section 5.6 of RFC 3339: four year digits, two
 * month digits and two day digits, the day checked against the month's
 * length in the proleptic Gregorian calendar.
 */
module Dates {
  import opened Wrappers
  import opened Numbers

  datatype Date = Date(year: int, month: int, day: int)

  predicate LeapYear(y: int) {
    y % 4 == 0 && (y % 100 != 0 || y % 400 == 0)
  }

  function DaysIn(month: int, year: int): (n: int)
    requires 1 <= month <= 12
    ensures 28 <= n <= 31
    ensures month == 2 ==> (n == 29 <==> LeapYear(year))
  {
    if month == 2 then (if LeapYear(year) then 29 else 28)
    else if month == 4 || month == 6 || month == 9 || month == 11 then 30
    else 31
  }

  /** A date the four-digit layout can spell. */
  predicate ValidDate(d: Date) {
    && 0 <= d.year <= 9999
    && 1 <= d.month <= 12
    && 1 <= d.day <= DaysIn(d.month, d.year)
  }

  /** A date the layout can spell; the only dates the model stores are parsed ones. */
  type Day = d: Date | ValidDate(d) witness Date(1970, 1, 1)

  /** The value of a fixed-width run of digits. */
  function FixedDigits(s: string): (n: nat)
    requires AllDigits(s)
  {
    DigitsFrom(s, 0)
  }

  /**
   * time.Parse("2006-01-02", s): exactly ten characters, digits in the year,
   * month and day fields, '-' between them, a month from 1 to 12 and a day
   * that exists in that month. Anything else is an error (None).
   */
  function ParseDate(s: string): (r: Option<Date>)
    ensures r.Some? ==> ValidDate(r.value)
    ensures r.Some? ==> |s| == 10 && s[4] == '-' && s[7] == '-'
  {
    if |s| != 10 || s[4] != '-' || s[7] != '-' then None
    else if !AllDigits(s[..4]) || !AllDigits(s[5..7]) || !AllDigits(s[8..]) then None
    else
      assert DigitsFrom(s[..4], 0) <= 9999 by { FixedBound(s[..4]); }
      var d := Date(FixedDigits(s[..4]), FixedDigits(s[5..7]), FixedDigits(s[8..]));
      if 1 <= d.month <= 12 && 1 <= d.day <= DaysIn(d.month, d.year) then Some(d) else None
  }

  /** `n` written with exactly `width` digits, zero-padded on the left. */
  function Padded(n: nat, width: nat): (s: string)
    ensures |s| == width && AllDigits(s)
    decreases width
  {
    if width == 0 then "" else Padded(n / 10, width - 1) + [DigitChar(n % 10)]
  }

  /** Time.Format("2006-01-02") of a date. */
  function FormatDate(d: Date): (s: string)
    requires ValidDate(d)
    ensures |s| == 10 && s[4] == '-' && s[7] == '-'
  {
    Padded(d.year, 4) + "-" + Padded(d.month, 2) + "-" + Padded(d.day, 2)
  }

  lemma {:induction false} FixedBound(s: string)
    requires AllDigits(s)
    ensures DigitsFrom(s, 0) < Pow10(|s|)
  {
    FixedBoundFrom(s, 0);
  }

  function Pow10(k: nat): (p: nat)
    ensures p >= 1
  {
    if k == 0 then 1 else 10 * Pow10(k - 1)
  }

  lemma {:induction false} FixedBoundFrom(s: string, acc: nat)
    requires AllDigits(s)
    ensures DigitsFrom(s, acc) < (acc + 1) * Pow10(|s|)
    decreases |s|
  {
    if |s| > 0 {
      var next := acc * 10 + DigitValue(s[0]);
      var p := Pow10(|s| - 1);
      FixedBoundFrom(s[1..], next);
      assert next + 1 <= (acc + 1) * 10;
      MulMonotone(next + 1, (acc + 1) * 10, p);
      assert (acc + 1) * 10 * p == (acc + 1) * Pow10(|s|);
    }
  }

  lemma MulMonotone(a: nat, b: nat, c: nat)
    requires a <= b
    ensures a * c <= b * c
  {
  }

  /** Reading back a zero-padded number that fits its width gives the number. */
  lemma {:induction false} ReadPadded(n: nat, width: nat)
    requires n < Pow10(width)
    ensures DigitsFrom(Padded(n, width), 0) == n
    decreases width
  {
    if width > 0 {
      ReadPadded(n / 10, width - 1);
      DigitsFromAppend(Padded(n / 10, width - 1), [DigitChar(n % 10)], 0);
    }
  }

  /** A digit string is the zero-padded spelling of its own value at its own width. */
  lemma {:induction false} PaddedOfDigits(s: string)
    requires AllDigits(s)
    ensures Padded(DigitsFrom(s, 0), |s|) == s
    decreases |s|
  {
    if |s| > 0 {
      var t, c := s[..|s| - 1], s[|s| - 1];
      assert s == t + [c];
      PaddedOfDigits(t);
      DigitsFromAppend(t, [c], 0);
      var v := DigitsFrom(s, 0);
      assert v == DigitsFrom(t, 0) * 10 + DigitValue(c);
      assert v / 10 == DigitsFrom(t, 0) && v % 10 == DigitValue(c);
    }
  }

  /** Parsing a formatted date gives the date back. */
  lemma FormatThenParse(d: Date)
    requires ValidDate(d)
    ensures ParseDate(FormatDate(d)) == Some(d)
  {
    var s := FormatDate(d);
    ReadPadded(d.year, 4);
    ReadPadded(d.month, 2);
    ReadPadded(d.day, 2);
    assert s[..4] == Padded(d.year, 4);
    assert s[5..7] == Padded(d.month, 2);
    assert s[8..] == Padded(d.day, 2);
  }

  /** Formatting a parsed date gives back the accepted text. */
  lemma ParseThenFormat(s: string)
    requires ParseDate(s).Some?
    ensures FormatDate(ParseDate(s).value) == s
  {
    PaddedOfDigits(s[..4]);
    PaddedOfDigits(s[5..7]);
    PaddedOfDigits(s[8..]);
    assert s == s[..4] + "-" + s[5..7] + "-" + s[8..];
  }
}

=== FILE: errors.dfy ===
/**
 * The error values of the services package: ServiceError carries an HTTP
 * status and a message, the Err* constructors fix the status, and WrapError
 * prefixes a context message the way fmt.Errorf("%s: %w") does.
 */
module ServiceErrors {
  import opened Wrappers
  import opened Text

  /** A Go error as the code distinguishes it: a ServiceError, a %w wrapper, or any other error text. */
  datatype Error = ServiceError(status: int, message: string) | Wrapped(context: string, inner: Error) | Other(text: string)

  /** The Error() text; for a ServiceError it is its Message. */
  function Message(e: Error): (r: string)
    ensures e.ServiceError? ==> r == e.message
    ensures e.Wrapped? ==> HasSuffix(r, Message(e.inner))
  {
    match e
    case ServiceError(_, m) => m
    case Wrapped(c, inner) => c + ": " + Message(inner)
    case Other(t) => t
  }

  /** errors.Unwrap: the wrapped error of a %w wrapper. */
  function Unwrap(e: Error): (r: Option<Error>)
    ensures r.Some? <==> e.Wrapped?
  {
    if e.Wrapped? then Some(e.inner) else None
  }

  function ErrNotFound(msg: string): (e: Error)
    ensures e.ServiceError? && e.status == 404 && Message(e) == msg
  {
    ServiceError(404, msg)
  }

  function ErrBadRequest(msg: string): (e: Error)
    ensures e.ServiceError? && e.status == 400 && Message(e) == msg
  {
    ServiceError(400, msg)
  }

  function ErrForbidden(msg: string): (e: Error)
    ensures e.ServiceError? && e.status == 403 && Message(e) == msg
  {
    ServiceError(403, msg)
  }

  function ErrUnauthorized(msg: string): (e: Error)
    ensures e.ServiceError? && e.status == 401 && Message(e) == msg
  {
    ServiceError(401, msg)
  }

  /** WrapError: nil stays nil; otherwise the text is "msg: <err>" and the original can be unwrapped. */
  function WrapError(err: Option<Error>, msg: string): (r: Option<Error>)
    ensures r.None? <==> err.None?
    ensures r.Some? ==> Message(r.value) == msg + ": " + Message(err.value)
    ensures r.Some? ==> Unwrap(r.value) == err
  {
    match err
    case None => None
    case Some(e) => Some(Wrapped(msg, e))
  }

  /**
   * A wrapped error is no longer a ServiceError: a plain type assertion, as
   * mapServiceError makes, does not see through WrapError, although the text
   * still ends with the service message.
   */
  lemma WrappedServiceError(status: int, msg: string, context: string)
    ensures var w := WrapError(Some(ServiceError(status, msg)), context);
            w.Some? && !w.value.ServiceError? && HasSuffix(Message(w.value), msg)
  {
  }
}

=== FILE: group_handlers.dfy ===
/**
 * The group endpoints: the admin operations, the teacher operations on the
 * teacher's own groups, and the member views of groups.
 *
 * A teacher manages a group when the teacher's membership row in it has
 * member role TEACHER; reading a group needs a membership of any role. The
 * update and delete statements report no error for an id without a row, so
 * an unknown group id answers 204 there.
 */
module GroupHandlers {
  import opened Wrappers
  import opened Text
  import opened Store
  import opened Replies
  import RoleGroups

  datatype CreateGroupRequest = CreateGroupRequest(name: string, grade: Option<int>, year: Option<int>)
  datatype UpdateGroupRequest = UpdateGroupRequest(name: Option<string>, grade: Option<int>, year: Option<int>)
  datatype AddMemberRequest = AddMemberRequest(userId: string, memberRole: string)

  /** A member as a group view lists it. */
  datatype MemberView = MemberView(userId: string, email: string, memberRole: string)

  /** A group with its members. */
  datatype GroupView = GroupView(id: string, name: string, grade: Option<int>, year: Option<int>, members: seq<MemberView>)

  /* ------------------------------------------------------------ membership queries */

  /** isGroupMember: the user has a membership row in the group. */
  predicate IsGroupMember(members: map<(string, string), string>, groupId: string, userId: string) {
    (groupId, userId) in members
  }

  /** isTeacherInGroup: the user's membership row in the group has member role TEACHER. */
  predicate IsTeacherInGroup(members: map<(string, string), string>, groupId: string, userId: string) {
    (groupId, userId) in members && members[(groupId, userId)] == "TEACHER"
  }

  /** memberRole: the member role of the user in the group, or "" without a membership row. */
  function MemberRole(members: map<(string, string), string>, groupId: string, userId: string): (role: string)
    ensures (groupId, userId) !in members ==> role == ""
    ensures (groupId, userId) in members ==> role == members[(groupId, userId)]
  {
    if (groupId, userId) in members then members[(groupId, userId)] else ""
  }

  /** A teacher of a group is a member of it. */
  lemma TeacherIsMember(members: map<(string, string), string>, groupId: string, userId: string)
    requires IsTeacherInGroup(members, groupId, userId)
    ensures IsGroupMember(members, groupId, userId)
    ensures MemberRole(members, groupId, userId) == "TEACHER"
  {
  }

  /* ------------------------------------------------------------ getGroup and userGroups */

  /** The member rows of a group that join a users row. */
  ghost function MemberIds(db: Db, groupId: string): set<string>
    reads db`members, db`users
  {
    set u | u in db.users && (groupId, u) in db.members
  }

  /** The member views listed once each, in the order the database returns them. */
  ghost predicate MembersListed(db: Db, groupId: string, views: seq<MemberView>)
    reads db`members, db`users
  {
    && (forall i, j :: 0 <= i < j < |views| ==> views[i].userId != views[j].userId)
    && (forall u :: u in MemberIds(db, groupId) <==> exists i :: 0 <= i < |views| && views[i].userId == u)
    && (forall i :: 0 <= i < |views| ==>
          && (groupId, views[i].userId) in db.members && views[i].userId in db.users
          && views[i] == MemberView(views[i].userId, db.users[views[i].userId].email, db.members[(groupId, views[i].userId)]))
  }

  /** The view of a member row that joins a users row. */
  ghost predicate MemberShown(db: Db, groupId: string, v: MemberView)
    reads db`members, db`users
  {
    && (groupId, v.userId) in db.members && v.userId in db.users
    && v == MemberView(v.userId, db.users[v.userId].email, db.members[(groupId, v.userId)])
  }

  /** The state of the member loop: `views` lists once each the group's members not left in `rest`. */
  ghost predicate MembersSoFar(db: Db, groupId: string, rest: set<string>, views: seq<MemberView>)
    reads db`members, db`users
  {
    && rest <= MemberIds(db, groupId)
    && (forall i, j :: 0 <= i < j < |views| ==> views[i].userId != views[j].userId)
    && (forall u :: u in MemberIds(db, groupId) && u !in rest <==> exists i :: 0 <= i < |views| && views[i].userId == u)
    && (forall i :: 0 <= i < |views| ==> views[i].userId !in rest && MemberShown(db, groupId, views[i]))
  }

  /** One turn of the member loop: the member `u` is appended with its e-mail and role. */
  method AddMemberView(db: Db, groupId: string, rest: set<string>, views: seq<MemberView>, u: string)
    returns (next: seq<MemberView>)
    requires u in rest && MembersSoFar(db, groupId, rest, views)
    ensures MembersSoFar(db, groupId, rest - {u}, next)
  {
    next := views + [MemberView(u, db.users[u].email, db.members[(groupId, u)])];
    forall x | x in MemberIds(db, groupId) && x !in rest - {u}
      ensures exists i :: 0 <= i < |next| && next[i].userId == x
    {
      if x == u {
        assert next[|next| - 1].userId == x;
      } else {
        var i :| 0 <= i < |views| && views[i].userId == x;
        assert next[i].userId == x;
      }
    }
  }

  /** The member query of getGroup and its loop: one view per member row that joins a user. */
  method ListMembers(db: Db, groupId: string) returns (views: seq<MemberView>)
    ensures MembersListed(db, groupId, views)
  {
    var rest := set k | k in db.members && k.0 == groupId && k.1 in db.users :: k.1;
    forall u | u in MemberIds(db, groupId)
      ensures u in rest
    {
      var k := (groupId, u);
      assert k in db.members && k.0 == groupId && k.1 in db.users;
    }
    views := [];
    while rest != {}
      invariant MembersSoFar(db, groupId, rest, views)
      decreases |rest|
    {
      var u :| u in rest;
      views := AddMemberView(db, groupId, rest, views, u);
      rest := rest - {u};
    }
    assert forall i :: 0 <= i < |views| ==> MemberShown(db, groupId, views[i]);
  }

  /** getGroup: no row for an unknown group; otherwise the group's columns and its members. */
  method GetGroup(db: Db, groupId: string) returns (r: Result<GroupView, DbError>)
    ensures groupId !in db.groups ==> r == Err(NoRows)
    ensures groupId in db.groups ==> && r.Ok? && r.value.id == groupId && r.value.name == db.groups[groupId].name
                                     && r.value.grade == db.groups[groupId].grade && r.value.year == db.groups[groupId].year
                                     && MembersListed(db, groupId, r.value.members)
  {
    if groupId !in db.groups {
      return Err(NoRows);
    }
    var g := db.groups[groupId];
    var members := ListMembers(db, groupId);
    return Ok(GroupView(groupId, g.name, g.grade, g.year, members));
  }

  /** The groups a user has a membership row in: `SELECT DISTINCT group_id FROM group_members WHERE user_id = $1`. */
  ghost function GroupIdsOf(db: Db, userId: string): set<string>
    reads db`groups, db`members
  {
    set g | g in db.groups && (g, userId) in db.members
  }

  /** The view of an existing group, with its members. */
  ghost predicate GroupShown(db: Db, v: GroupView)
    reads db`groups, db`members, db`users
  {
    v.id in db.groups && v.name == db.groups[v.id].name && MembersListed(db, v.id, v.members)
  }

  /** The state of userGroups' loop: `views` shows once each the user's groups not left in `rest`. */
  ghost predicate GroupsSoFar(db: Db, userId: string, rest: set<string>, views: seq<GroupView>)
    reads db`groups, db`members, db`users
  {
    && (forall i, j :: 0 <= i < j < |views| ==> views[i].id != views[j].id)
    && (forall g :: g in rest ==> (g, userId) in db.members)
    && (forall i :: 0 <= i < |views| ==> (views[i].id, userId) in db.members && views[i].id !in rest && GroupShown(db, views[i]))
    && (forall g :: g in GroupIdsOf(db, userId) && g !in rest <==> exists i :: 0 <= i < |views| && views[i].id == g)
  }

  /** One turn of userGroups' loop: the group `id` is looked up and its view appended when the group exists. */
  method AddUserGroup(db: Db, userId: string, rest: set<string>, views: seq<GroupView>, id: string)
    returns (next: seq<GroupView>)
    requires id in rest && GroupsSoFar(db, userId, rest, views)
    ensures GroupsSoFar(db, userId, rest - {id}, next)
  {
    var group := GetGroup(db, id);
    next := views;
    if group.Ok? {
      next := views + [group.value];
    }
    forall g | g in GroupIdsOf(db, userId) && g !in rest - {id}
      ensures exists i :: 0 <= i < |next| && next[i].id == g
    {
      if g == id {
        assert next[|next| - 1].id == g;
      } else {
        var i :| 0 <= i < |views| && views[i].id == g;
        assert next[i].id == g;
      }
    }
  }

  /**
   * userGroups: the view of each group the user belongs to, once each; a
   * membership whose group row is missing is skipped.
   */
  method UserGroups(db: Db, userId: string) returns (views: seq<GroupView>)
    ensures forall i, j :: 0 <= i < j < |views| ==> views[i].id != views[j].id
    ensures forall g :: g in GroupIdsOf(db, userId) <==> exists i :: 0 <= i < |views| && views[i].id == g
    ensures forall i :: 0 <= i < |views| ==> && views[i].id in db.groups && views[i].name == db.groups[views[i].id].name
                                             && MembersListed(db, views[i].id, views[i].members)
  {
    var rest := set k | k in db.members && k.1 == userId :: k.0;
    forall g | g in GroupIdsOf(db, userId)
      ensures g in rest
    {
      var k := (g, userId);
      assert k in db.members && k.1 == userId;
    }
    views := [];
    while rest != {}
      invariant GroupsSoFar(db, userId, rest, views)
      decreases |rest|
    {
      var id :| id in rest;
      views := AddUserGroup(db, userId, rest, views, id);
      rest := rest - {id};
    }
    assert forall i :: 0 <= i < |views| ==> GroupShown(db, views[i]);
  }

  /** TeacherGroups and StudentGroups: the user's groups. */
  method MyGroups(db: Db, userId: string) returns (reply: Reply<seq<GroupView>>)
    ensures reply.Done? && reply.status == 200
    ensures forall g :: g in GroupIdsOf(db, userId) <==> exists i :: 0 <= i < |reply.body| && reply.body[i].id == g
  {
    var views := UserGroups(db, userId);
    return Done(200, views);
  }

  /* ------------------------------------------------------------ admin */

  /** AdminCreateGroup: a blank name answers 400; otherwise a PRIVATE group with the trimmed name and 201. */
  method AdminCreateGroup(db: Db, req: CreateGroupRequest, newId: string) returns (reply: Reply<Empty>)
    modifies db`groups
    ensures IsBlank(req.name) ==> reply == Failure(400, NameRequired) && db.groups == old(db.groups)
    ensures !IsBlank(req.name) && newId in old(db.groups) ==> reply == Failure(500, InternalError) && db.groups == old(db.groups)
    ensures !IsBlank(req.name) && newId !in old(db.groups) ==>
              && reply == Done(201, Empty)
              && db.groups == old(db.groups)[newId := Group(TrimSpace(req.name), None, req.grade, req.year, "PRIVATE")]
  {
    if TrimSpace(req.name) == "" {
      return Failure(400, NameRequired);
    }
    var id, err := RoleGroups.CreateGroup(db, req.name, req.grade, req.year, newId);
    if err.Some? {
      return Failure(500, InternalError);
    }
    return Done(201, Empty);
  }

  /** AdminUpdateGroup: the name when given, grade and year always; 204 whether or not the group exists. */
  method AdminUpdateGroup(db: Db, groupId: string, req: UpdateGroupRequest) returns (reply: Reply<Empty>)
    modifies db`groups
    ensures groupId in old(db.groups) ==>
              db.groups == old(db.groups)[groupId := RoleGroups.UpdatedGroup(old(db.groups)[groupId], req.name, req.grade, req.year)]
    ensures groupId !in old(db.groups) ==> db.groups == old(db.groups)
    ensures reply == Done(204, Empty)
  {
    RoleGroups.UpdateGroup(db, groupId, req.name, req.grade, req.year);
    return Done(204, Empty);
  }

  /** AdminDeleteGroup: the group row is removed; 204. */
  method AdminDeleteGroup(db: Db, groupId: string) returns (reply: Reply<Empty>)
    modifies db`groups
    ensures db.groups == old(db.groups) - {groupId}
    ensures reply == Done(204, Empty)
  {
    RoleGroups.DeleteGroup(db, groupId);
    return Done(204, Empty);
  }

  /** AdminAddMember: an empty user id or member role answers 400; otherwise the upsert and 204. */
  method AdminAddMember(db: Db, groupId: string, req: AddMemberRequest) returns (reply: Reply<Empty>)
    modifies db`members
    ensures req.userId == "" || req.memberRole == "" ==> reply == Failure(400, InvalidPayload) && db.members == old(db.members)
    ensures req.userId != "" && req.memberRole != "" ==>
              reply == Done(204, Empty) && db.members == old(db.members)[(groupId, req.userId) := Upper(req.memberRole)]
  {
    if req.userId == "" || req.memberRole == "" {
      return Failure(400, InvalidPayload);
    }
    RoleGroups.AddMember(db, groupId, req.userId, req.memberRole);
    return Done(204, Empty);
  }

  /** AdminRemoveMember: the membership row is removed; 204. */
  method AdminRemoveMember(db: Db, groupId: string, userId: string) returns (reply: Reply<Empty>)
    modifies db`members
    ensures db.members == old(db.members) - {(groupId, userId)}
    ensures reply == Done(204, Empty)
  {
    RoleGroups.RemoveMember(db, groupId, userId);
    return Done(204, Empty);
  }

  /** AdminGetGroup: 404 for an unknown group, otherwise its view. */
  method AdminGetGroup(db: Db, groupId: string) returns (reply: Reply<GroupView>)
    ensures groupId !in db.groups <==> reply == Failure(404, GroupNotFound)
    ensures reply.Done? <==> groupId in db.groups
    ensures reply.Done? ==> reply.status == 200 && reply.body.id == groupId && MembersListed(db, groupId, reply.body.members)
  {
    var group := GetGroup(db, groupId);
    if group.Err? {
      return Failure(404, GroupNotFound);
    }
    return Done(200, group.value);
  }

  /* ------------------------------------------------------------ teacher and student */

  /**
   * TeacherGetGroup and StudentGetGroup: a caller without a membership row in
   * the group answers 403, an unknown group 404, otherwise its view.
   */
  method MemberGetGroup(db: Db, groupId: string, callerId: string) returns (reply: Reply<GroupView>)
    ensures !IsGroupMember(db.members, groupId, callerId) ==> reply == Failure(403, NotAllowed)
    ensures IsGroupMember(db.members, groupId, callerId) && groupId !in db.groups ==> reply == Failure(404, GroupNotFound)
    ensures reply.Done? <==> IsGroupMember(db.members, groupId, callerId) && groupId in db.groups
    ensures reply.Done? ==> reply.status == 200 && reply.body.id == groupId && MembersListed(db, groupId, reply.body.members)
  {
    if !IsGroupMember(db.members, groupId, callerId) {
      return Failure(403, NotAllowed);
    }
    reply := AdminGetGroup(db, groupId);
  }

  /** TeacherUpdateGroup: a caller who is not a TEACHER member of the group answers 403 before anything else. */
  method TeacherUpdateGroup(db: Db, groupId: string, callerId: string, req: UpdateGroupRequest) returns (reply: Reply<Empty>)
    modifies db`groups
    ensures !IsTeacherInGroup(db.members, groupId, callerId) ==> reply == Failure(403, NotAllowed) && db.groups == old(db.groups)
    ensures IsTeacherInGroup(db.members, groupId, callerId) ==>
              && reply == Done(204, Empty)
              && db.groups == (if groupId in old(db.groups)
                               then old(db.groups)[groupId := RoleGroups.UpdatedGroup(old(db.groups)[groupId], req.name, req.grade, req.year)]
                               else old(db.groups))
  {
    if !IsTeacherInGroup(db.members, groupId, callerId) {
      return Failure(403, NotAllowed);
    }
    reply := AdminUpdateGroup(db, groupId, req);
  }

  /**
   * TeacherAddMember: a caller who is not a TEACHER member answers 403; a
   * member role that normalises to TEACHER answers 403; otherwise the upsert
   * with the normalised role and 204. No teacher membership is ever created.
   */
  method TeacherAddMember(db: Db, groupId: string, callerId: string, req: AddMemberRequest) returns (reply: Reply<Empty>)
    modifies db`members
    ensures !IsTeacherInGroup(old(db.members), groupId, callerId) ==>
              reply == Failure(403, OwnGroupsOnly) && db.members == old(db.members)
    ensures IsTeacherInGroup(old(db.members), groupId, callerId) && Upper(TrimSpace(req.memberRole)) == "TEACHER" ==>
              reply == Failure(403, NoTeacherGrant) && db.members == old(db.members)
    ensures IsTeacherInGroup(old(db.members), groupId, callerId) && Upper(TrimSpace(req.memberRole)) != "TEACHER" ==>
              && reply == Done(204, Empty)
              && db.members == old(db.members)[(groupId, req.userId) := Upper(TrimSpace(req.memberRole))]
    ensures forall k :: k in db.members && db.members[k] == "TEACHER" ==> k in old(db.members) && old(db.members)[k] == "TEACHER"
  {
    if !IsTeacherInGroup(db.members, groupId, callerId) {
      return Failure(403, OwnGroupsOnly);
    }
    var role := Upper(TrimSpace(req.memberRole));
    if role == "TEACHER" {
      return Failure(403, NoTeacherGrant);
    }
    UpperIdempotent(TrimSpace(req.memberRole));
    RoleGroups.AddMember(db, groupId, req.userId, role);
    return Done(204, Empty);
  }

  /**
   * TeacherRemoveMember: a caller who is not a TEACHER member answers 403;
   * a member whose role is not exactly STUDENT (or who is not a member)
   * answers 403; otherwise the membership row is removed and 204.
   */
  method TeacherRemoveMember(db: Db, groupId: string, callerId: string, memberId: string) returns (reply: Reply<Empty>)
    modifies db`members
    ensures !IsTeacherInGroup(old(db.members), groupId, callerId) ==>
              reply == Failure(403, OwnGroupsOnly) && db.members == old(db.members)
    ensures IsTeacherInGroup(old(db.members), groupId, callerId) && MemberRole(old(db.members), groupId, memberId) != "STUDENT" ==>
              reply == Failure(403, StudentsOnly) && db.members == old(db.members)
    ensures reply.Done? <==> IsTeacherInGroup(old(db.members), groupId, callerId)
                             && MemberRole(old(db.members), groupId, memberId) == "STUDENT"
    ensures reply.Done? ==> reply == Done(204, Empty) && db.members == old(db.members) - {(groupId, memberId)}
    ensures forall k :: k in old(db.members) && k !in db.members ==> old(db.members)[k] == "STUDENT"
  {
    if !IsTeacherInGroup(db.members, groupId, callerId) {
      return Failure(403, OwnGroupsOnly);
    }
    if MemberRole(db.members, groupId, memberId) != "STUDENT" {
      return Failure(403, StudentsOnly);
    }
    RoleGroups.RemoveMember(db, groupId, memberId);
    return Done(204, Empty);
  }

  /**
   * The upsert lets a teacher change a co-teacher's member role to STUDENT,
   * after which the co-teacher can be removed: two teacher requests take a
   * teacher out of the group although one request cannot.
   */
  lemma CoTeacherRemovableInTwoSteps(members: map<(string, string), string>, groupId: string, callerId: string,
                                     otherId: string)
    requires callerId != otherId
    requires IsTeacherInGroup(members, groupId, callerId) && IsTeacherInGroup(members, groupId, otherId)
    ensures MemberRole(members, groupId, otherId) != "STUDENT"
    ensures var demoted := members[(groupId, otherId) := Upper(TrimSpace("STUDENT"))];
            && IsTeacherInGroup(demoted, groupId, callerId)
            && MemberRole(demoted, groupId, otherId) == "STUDENT"
  {
    var s := "STUDENT";
    assert TrimSpace(s) == s by {
      TrimLeftNoSpace(s);
      TrimRightNoSpace(s);
    }
    assert Upper(s) == s;
  }
}

=== FILE: http_auth.dfy ===
/**
 * The bearer-token middleware and the role gates of the HTTP layer
 * (section 2.1 of RFC 6750, with a case-sensitive "Bearer " prefix).
 *
 * A request context is `Option<Identity>`: the identity WithAuth binds, or
 * None for a request that did not pass through WithAuth.
 */
module AuthMiddleware {
  import opened Wrappers
  import opened Text
  import opened Tokens

  /** The values WithAuth puts into the request context. */
  datatype Identity = Identity(userId: string, email: string, roles: seq<string>)

  /** The outcome of WithAuth: an error status, or the next handler runs with the identity. */
  datatype Gate = Reject(status: int) | Pass(id: Identity)

  /** The outcome of a role gate. */
  datatype Decision = Allow | Deny(status: int)

  const BearerPrefix: string := "Bearer "

  /** The token text: the header with the prefix removed and surrounding white space trimmed. */
  function BearerToken(header: string): (token: string)
    ensures IsTrimmed(token)
    ensures HasPrefix(header, BearerPrefix) ==> token == TrimSpace(header[|BearerPrefix|..])
    ensures !HasPrefix(header, BearerPrefix) ==> token == TrimSpace(header)
  {
    TrimSpaceEnds(TrimPrefix(header, BearerPrefix));
    TrimSpace(TrimPrefix(header, BearerPrefix))
  }

  /** The token a client sends as `Bearer <token>` is read back unchanged. */
  lemma BearerTokenReadBack(token: string)
    requires IsTrimmed(token)
    ensures BearerToken(BearerPrefix + token) == token
  {
    var header := BearerPrefix + token;
    assert header[..|BearerPrefix|] == BearerPrefix;
    assert header[|BearerPrefix|..] == token;
    TrimmedFixed(token);
  }

  /** The string elements of a JSON array, in order; other elements are skipped. */
  function StringElements(items: seq<Claim>): (r: seq<string>)
    ensures |r| <= |items|
    ensures forall k :: 0 <= k < |r| ==> CStr(r[k]) in items
    decreases |items|
  {
    if |items| == 0 then []
    else
      var last := items[|items| - 1];
      StringElements(items[..|items| - 1]) + (if last.CStr? then [last.s] else [])
  }

  /** A claim read with a failed string assertion giving "". */
  function StringClaim(c: Claims, key: string): string {
    if key in c && c[key].CStr? then c[key].s else ""
  }

  /** The roles claim: its string elements when it is an array, otherwise no roles. */
  function RolesClaim(c: Claims): seq<string> {
    if "roles" in c && c["roles"].CList? then StringElements(c["roles"].items) else []
  }

  /** The decision of WithAuth for an Authorization header at time `now`. */
  function AuthGate(ts: TokenService, header: string, now: int, verify: Verifier): (g: Gate)
    ensures !HasPrefix(header, BearerPrefix) ==> g == Reject(401)
    ensures g.Reject? ==> g.status == 401
    ensures var c := ParseToken(ts, BearerToken(header), now, verify);
            g.Pass? <==> HasPrefix(header, BearerPrefix) && c.Some? && "typ" in c.value && c.value["typ"] == CStr("access")
    ensures g.Pass? ==> var c := ParseToken(ts, BearerToken(header), now, verify).value;
                        g.id == Identity(StringClaim(c, "sub"), StringClaim(c, "email"), RolesClaim(c))
  {
    if header == "" || !HasPrefix(header, BearerPrefix) then Reject(401)
    else match ParseToken(ts, BearerToken(header), now, verify)
      case None => Reject(401)
      case Some(c) =>
        if !("typ" in c && c["typ"] == CStr("access")) then Reject(401)
        else Pass(Identity(StringClaim(c, "sub"), StringClaim(c, "email"), RolesClaim(c)))
  }

  /** WithAuth: checks the header, parses the token and collects the string roles in a loop. */
  method WithAuth(ts: TokenService, header: string, now: int, verify: Verifier) returns (g: Gate)
    ensures g == AuthGate(ts, header, now, verify)
  {
    if header == "" || !HasPrefix(header, BearerPrefix) {
      return Reject(401);
    }
    var tokenStr := BearerToken(header);
    var parsed := ParseToken(ts, tokenStr, now, verify);
    if parsed.None? {
      return Reject(401);
    }
    var claims := parsed.value;
    if !("typ" in claims && claims["typ"] == CStr("access")) {
      return Reject(401);
    }
    var userId := StringClaim(claims, "sub");
    var email := StringClaim(claims, "email");
    var roles: seq<string> := [];
    if "roles" in claims && claims["roles"].CList? {
      roles := CollectStrings(claims["roles"].items);
    }
    return Pass(Identity(userId, email, roles));
  }

  /** The loop of WithAuth that appends each string element of the roles claim. */
  method CollectStrings(rawRoles: seq<Claim>) returns (roles: seq<string>)
    ensures roles == StringElements(rawRoles)
  {
    roles := [];
    var i := 0;
    while i < |rawRoles|
      invariant 0 <= i <= |rawRoles|
      invariant roles == StringElements(rawRoles[..i])
    {
      if rawRoles[i].CStr? {
        roles := roles + [rawRoles[i].s];
      }
      assert rawRoles[..i + 1][..i] == rawRoles[..i];
      i := i + 1;
    }
    assert rawRoles[..i] == rawRoles;
  }

  /** Reading back a string array gives the strings. */
  lemma {:induction false} StringElementsOfList(roles: seq<string>)
    ensures StringElements(StringList(roles).items) == roles
    decreases |roles|
  {
    if |roles| > 0 {
      var n := |roles| - 1;
      assert StringList(roles).items[..n] == StringList(roles[..n]).items;
      StringElementsOfList(roles[..n]);
      assert roles == roles[..n] + [roles[n]];
    }
  }

  /** A header carrying an unexpired access token of the service admits its subject, e-mail and roles. */
  lemma AccessTokenAdmitted(ts: TokenService, userId: string, email: string, roles: seq<string>, now: int, t: int,
                            sign: Signer, verify: Verifier)
    requires Sound(sign, verify)
    requires CreateAccessToken(ts, userId, email, roles, now, sign).token.Some?
    requires TrimSpace(CreateAccessToken(ts, userId, email, roles, now, sign).token.value)
             == CreateAccessToken(ts, userId, email, roles, now, sign).token.value
    requires t < now + ts.accessTtl
    ensures AuthGate(ts, BearerPrefix + CreateAccessToken(ts, userId, email, roles, now, sign).token.value, t, verify)
            == Pass(Identity(userId, email, roles))
  {
    var token := CreateAccessToken(ts, userId, email, roles, now, sign).token.value;
    var header := BearerPrefix + token;
    assert header[..|BearerPrefix|] == BearerPrefix && header[|BearerPrefix|..] == token;
    assert BearerToken(header) == token;
    AccessTokenParses(ts, userId, email, roles, now, t, sign, verify);
    AccessIdentity(ts, userId, email, roles, now);
  }

  /** The identity WithAuth reads from the access claims is the one they were issued for. */
  lemma AccessIdentity(ts: TokenService, userId: string, email: string, roles: seq<string>, now: int)
    ensures var c := AccessClaims(ts, userId, email, roles, now);
            StringClaim(c, "sub") == userId && StringClaim(c, "email") == email && RolesClaim(c) == roles
  {
    StringElementsOfList(roles);
  }

  /** A refresh token is refused by WithAuth even though it parses. */
  lemma RefreshTokenRefused(ts: TokenService, userId: string, now: int, t: int, sign: Signer, verify: Verifier)
    requires Sound(sign, verify)
    requires CreateRefreshToken(ts, userId, now, sign).Some?
    requires TrimSpace(CreateRefreshToken(ts, userId, now, sign).value) == CreateRefreshToken(ts, userId, now, sign).value
    ensures AuthGate(ts, BearerPrefix + CreateRefreshToken(ts, userId, now, sign).value, t, verify) == Reject(401)
  {
    var token := CreateRefreshToken(ts, userId, now, sign).value;
    var c := RefreshClaims(ts, userId, now);
    assert verify(sign(ts.secret, c).value, ts.secret) == Some(c);
    var header := BearerPrefix + token;
    assert header[..|BearerPrefix|] == BearerPrefix;
    assert header[|BearerPrefix|..] == token;
    assert BearerToken(header) == token;
  }

  /** CurrentUserID: the bound user id, or "" outside WithAuth. */
  function CurrentUserId(ctx: Option<Identity>): (r: string)
    ensures ctx.None? ==> r == ""
    ensures ctx.Some? ==> r == ctx.value.userId
  {
    match ctx
    case None => ""
    case Some(id) => id.userId
  }

  /** CurrentRoles: the bound roles, or none outside WithAuth. */
  function CurrentRoles(ctx: Option<Identity>): (r: seq<string>)
    ensures ctx.None? ==> r == []
    ensures ctx.Some? ==> r == ctx.value.roles
  {
    match ctx
    case None => []
    case Some(id) => id.roles
  }

  /** The search of RequireRole and hasRole: some role equals `role` after upper-casing both. */
  function HasRole(roles: seq<string>, role: string): (r: bool)
    ensures r <==> exists i :: 0 <= i < |roles| && Upper(roles[i]) == Upper(role)
    decreases |roles|
  {
    if |roles| == 0 then false
    else if Upper(roles[0]) == Upper(role) then true
    else
      var rest := HasRole(roles[1..], role);
      assert forall i :: 1 <= i < |roles| ==> roles[i] == roles[1..][i - 1];
      rest
  }

  /** RequireRole(role): the next handler runs iff one of the bound roles is `role`, case-insensitively; otherwise 403. */
  function RequireRole(role: string, ctx: Option<Identity>): (d: Decision)
    ensures d == Allow <==> ctx.Some? && exists i :: 0 <= i < |ctx.value.roles| && Upper(ctx.value.roles[i]) == Upper(role)
    ensures d.Deny? ==> d.status == 403
  {
    if HasRole(CurrentRoles(ctx), role) then Allow else Deny(403)
  }

  /** Some role equals one of `allowed` after upper-casing both. */
  function HasAnyRole(roles: seq<string>, allowed: seq<string>): (r: bool)
    ensures r <==> exists i, j :: 0 <= i < |roles| && 0 <= j < |allowed| && Upper(roles[i]) == Upper(allowed[j])
    decreases |allowed|
  {
    if |allowed| == 0 then false
    else if HasRole(roles, allowed[0]) then true
    else
      var rest := HasAnyRole(roles, allowed[1..]);
      assert forall j :: 1 <= j < |allowed| ==> allowed[j] == allowed[1..][j - 1];
      rest
  }

  /** RequireAnyRole(allowed...): builds the upper-cased allowed set, then looks for a bound role in it. */
  method RequireAnyRole(allowedRoles: seq<string>, ctx: Option<Identity>) returns (d: Decision)
    ensures d == Allow <==> ctx.Some? && exists i, j :: 0 <= i < |ctx.value.roles| && 0 <= j < |allowedRoles|
                                                      && Upper(ctx.value.roles[i]) == Upper(allowedRoles[j])
    ensures d == Allow <==> HasAnyRole(CurrentRoles(ctx), allowedRoles)
    ensures d.Deny? ==> d.status == 403
  {
    var allowed: set<string> := {};
    for k := 0 to |allowedRoles|
      invariant allowed == set j | 0 <= j < k :: Upper(allowedRoles[j])
    {
      allowed := allowed + {Upper(allowedRoles[k])};
    }
    var roles := CurrentRoles(ctx);
    for i := 0 to |roles|
      invariant forall m :: 0 <= m < i ==> Upper(roles[m]) !in allowed
    {
      if Upper(roles[i]) in allowed {
        return Allow;
      }
    }
    return Deny(403);
  }
}

=== FILE: like.dfy ===
/**
 * The SQL `LIKE` operator as PostgreSQL evaluates it with its default escape
 * character: `%` matches any run of characters, `_` exactly one, a backslash
 * makes the next pattern character literal, and the pattern must cover the
 * whole value. A pattern that ends in a lone backslash is an error in
 * PostgreSQL; here it matches nothing (the handlers' patterns always end in
 * `%`, so it does not arise).
 */
module SqlLike {

  /** `s LIKE p`. */
  predicate Like(s: string, p: string)
    decreases |p|, |s|
  {
    if |p| == 0 then |s| == 0
    else if p[0] == '%' then Like(s, p[1..]) || (|s| > 0 && Like(s[1..], p))
    else if |s| == 0 then false
    else if p[0] == '_' then Like(s[1..], p[1..])
    else if p[0] == '\\' then |p| >= 2 && s[0] == p[1] && Like(s[1..], p[2..])
    else s[0] == p[0] && Like(s[1..], p[1..])
  }

  /** A text with none of the characters LIKE treats specially. */
  predicate Plain(t: string) {
    forall i :: 0 <= i < |t| ==> t[i] != '%' && t[i] != '_' && t[i] != '\\'
  }

  /** `t` occurs in `s` starting at position `i`. */
  predicate OccursAt(s: string, t: string, i: nat) {
    i + |t| <= |s| && s[i..i + |t|] == t
  }

  /** `t` occurs in `s` as a contiguous piece. */
  ghost predicate Contains(s: string, t: string) {
    exists i: nat :: OccursAt(s, t, i)
  }

  /** The pattern a search box builds: the term between two `%`. */
  function ContainsPattern(t: string): (p: string)
    ensures |p| == |t| + 2 && p[0] == '%' && p[|p| - 1] == '%'
  {
    "%" + t + "%"
  }

  /** A lone `%` matches every value. */
  lemma {:induction false} PercentMatchesAll(s: string)
    ensures Like(s, "%")
    decreases |s|
  {
    assert "%"[1..] == "";
    if |s| > 0 {
      PercentMatchesAll(s[1..]);
    }
  }

  /** A plain text followed by `%` matches exactly the values that start with that text. */
  lemma {:induction false} PrefixPattern(s: string, t: string)
    requires Plain(t)
    ensures Like(s, t + "%") <==> |t| <= |s| && s[..|t|] == t
    decreases |t|
  {
    if |t| == 0 {
      assert t + "%" == "%";
      PercentMatchesAll(s);
    } else {
      var p := t + "%";
      assert p[0] == t[0] && p[1..] == t[1..] + "%";
      assert Plain(t[1..]);
      if |s| == 0 {
      } else {
        PrefixPattern(s[1..], t[1..]);
        if |t| <= |s| && s[..|t|] == t {
          assert s[1..][..|t| - 1] == t[1..];
        }
        if |t| <= |s| && s[0] == t[0] && s[1..][..|t| - 1] == t[1..] {
          assert s[..|t|] == [s[0]] + s[1..][..|t| - 1];
        }
      }
    }
  }

  /** A leading `%` lets the rest of the pattern match any suffix. */
  lemma {:induction false} LeadingPercent(s: string, q: string)
    ensures Like(s, "%" + q) <==> exists i :: 0 <= i <= |s| && Like(s[i..], q)
    decreases |s|
  {
    var p := "%" + q;
    assert p[0] == '%' && p[1..] == q;
    assert s[0..] == s;
    if |s| > 0 {
      LeadingPercent(s[1..], q);
      if exists i :: 0 <= i <= |s| - 1 && Like(s[1..][i..], q) {
        var i :| 0 <= i <= |s| - 1 && Like(s[1..][i..], q);
        assert s[1..][i..] == s[i + 1..];
      }
      if exists i :: 0 < i <= |s| && Like(s[i..], q) {
        var i :| 0 < i <= |s| && Like(s[i..], q);
        assert s[1..][i - 1..] == s[i..];
      }
    }
  }

  /** With a plain term, the search pattern `%term%` matches exactly the values that contain the term. */
  lemma ContainsPatternMatches(s: string, t: string)
    requires Plain(t)
    ensures Like(s, ContainsPattern(t)) <==> Contains(s, t)
  {
    assert ContainsPattern(t) == "%" + (t + "%");
    LeadingPercent(s, t + "%");
    if Like(s, ContainsPattern(t)) {
      var i :| 0 <= i <= |s| && Like(s[i..], t + "%");
      PrefixPattern(s[i..], t);
      assert s[i..][..|t|] == s[i..i + |t|];
      assert OccursAt(s, t, i);
    }
    if Contains(s, t) {
      var i: nat :| OccursAt(s, t, i);
      PrefixPattern(s[i..], t);
      assert s[i..][..|t|] == s[i..i + |t|];
    }
  }

  /** `_` stands for any one character, so `%_%` matches every non-empty value. */
  lemma UnderscoreMatchesAnyCharacter(s: string)
    ensures Like(s, "%_%") <==> |s| > 0
  {
    LeadingPercent(s, "_%");
    if |s| > 0 {
      assert "_%"[1..] == "%";
      PercentMatchesAll(s[1..]);
      assert s[0..] == s;
    }
  }
}

=== FILE: me_handlers.dfy ===
/**
 * The endpoints of the signed-in user (/api/me and the uploads): the user
 * view, the profile edit, the password change, account deletion, the
 * presence ping and the avatar and resource uploads. The user id is the one
 * the bearer middleware put in the request context.
 *
 * A media asset the handler deletes (DeleteAsset, whose errors are ignored)
 * is returned as the id it is called with.
 */
module MeHandlers {
  import opened Wrappers
  import opened Text
  import opened Base64
  import opened Passwords
  import opened Store
  import opened Replies
  import opened Users
  import opened UserDtos
  import opened Media
  import opened AuthHandlers
  import opened ResourceHelpers

  datatype ProfileUpdateRequest = ProfileUpdateRequest(
    firstName: Option<string>, lastName: Option<string>, birthDate: Option<string>, gender: Option<string>,
    phone: Option<string>, school: Option<string>, gradeLevel: Option<string>, bio: Option<string>)

  datatype ChangePasswordRequest = ChangePasswordRequest(currentPassword: string, newPassword: string, confirmPassword: string)

  /** The file part of a multipart upload: its Content-Type header ("" when absent) and its file name. */
  datatype Upload = Upload(contentType: string, filename: string)

  /** The body of a successful upload. */
  datatype AssetRef = AssetRef(assetId: string, url: string)

  /* ------------------------------------------------------------ Me and UpdateProfile */

  /** The view of a known user, with the role codes in ascending order. */
  ghost function ViewOf(db: Db, userId: string): UserDto
    requires userId in db.users
    reads db
  {
    UserDtoOf(userId, db.users[userId], ProfileRow(db.profiles, userId), SortedCodes(RoleCodes(db.roles, db.userRoles, userId)))
  }

  /** Me: 404 for a user that no longer exists, otherwise the user view. */
  method Me(db: Db, userId: string) returns (reply: Reply<UserDto>)
    ensures userId !in db.users ==> reply == Failure(404, UserNotFound)
    ensures userId in db.users ==> reply == Done(200, ViewOf(db, userId))
  {
    var dto := BuildUserDto(db, userId);
    if dto.Err? {
      return Failure(404, UserNotFound);
    }
    return Done(200, dto.value);
  }

  /**
   * The profile row after the UPDATE of UpdateProfile: the eight submitted
   * columns replace the stored ones (a missing value writes NULL), the birth
   * date as parseBirthDate reads it; the avatar is kept.
   */
  function EditedProfile(p: Profile, req: ProfileUpdateRequest): (r: Profile)
    ensures r.firstName == req.firstName && r.lastName == req.lastName && r.gender == req.gender
    ensures r.phone == req.phone && r.school == req.school && r.gradeLevel == req.gradeLevel && r.bio == req.bio
    ensures r.birthDate == ParseBirthDate(req.birthDate)
    ensures r.avatarId == p.avatarId
  {
    Profile(req.firstName, req.lastName, ParseBirthDate(req.birthDate), req.gender, req.phone, req.school,
            req.gradeLevel, req.bio, p.avatarId)
  }

  /** Submitting the same edit twice leaves the row as the first edit left it. */
  lemma EditIdempotent(p: Profile, req: ProfileUpdateRequest)
    ensures EditedProfile(EditedProfile(p, req), req) == EditedProfile(p, req)
  {
  }

  /** The edited row is shown back with the submitted values and the stored avatar. */
  lemma EditShown(p: Profile, req: ProfileUpdateRequest)
    requires req.firstName.Some?
    ensures var v := ProfileView(EditedProfile(p, req));
            && v.Some? && v.value.firstName == req.firstName && v.value.lastName == req.lastName
            && v.value.school == req.school && v.value.bio == req.bio
            && (v.value.avatarUrl.Some? <==> p.avatarId.Some?)
  {
  }

  /**
   * UpdateProfile: the profile row is created when missing (a row of NULLs)
   * and then overwritten by the edit; the answer is the new user view, or
   * 500 when the user no longer exists.
   */
  method UpdateProfile(db: Db, userId: string, req: ProfileUpdateRequest) returns (reply: Reply<UserDto>)
    modifies db`profiles
    ensures db.profiles == old(db.profiles)[userId := EditedProfile(ProfileRow(old(db.profiles), userId), req)]
    ensures userId !in db.users ==> reply == Failure(500, InternalError)
    ensures userId in db.users ==> reply == Done(200, ViewOf(db, userId))
  {
    if userId !in db.profiles {
      db.profiles := db.profiles[userId := BlankProfile];
    }
    db.profiles := db.profiles[userId := EditedProfile(db.profiles[userId], req)];
    var dto := BuildUserDto(db, userId);
    if dto.Err? {
      return Failure(500, InternalError);
    }
    return Done(200, dto.value);
  }

  /* ------------------------------------------------------------ ChangePassword */

  /**
   * ChangePassword: a confirmation that differs answers 400 before the user
   * is looked up; an unknown user 404; a current password that does not
   * match the stored hash 401; a hashing failure 500. Otherwise the stored
   * hash becomes the hash of the new password and the answer is 204.
   */
  method ChangePassword(db: Db, userId: string, req: ChangePasswordRequest, salt: Option<seq<byte>>, kdf: Kdf,
                        bcrypt: BcryptMatches)
    returns (reply: Reply<Empty>)
    requires salt.Some? ==> |salt.value| == HashParams.saltLength
    modifies db`users
    ensures req.newPassword != req.confirmPassword ==> reply == Failure(400, PasswordMismatch)
    ensures req.newPassword == req.confirmPassword && userId !in old(db.users) ==> reply == Failure(404, UserNotFound)
    ensures && req.newPassword == req.confirmPassword && userId in old(db.users)
            && !Matches(req.currentPassword, old(db.users)[userId].passwordHash, kdf, bcrypt)
            ==> reply == Failure(401, AuthenticationFailed)
    ensures reply.Done? <==> && req.newPassword == req.confirmPassword && userId in old(db.users)
                             && Matches(req.currentPassword, old(db.users)[userId].passwordHash, kdf, bcrypt)
                             && salt.Some?
    ensures reply.Failure? ==> db.users == old(db.users)
    ensures reply.Done? ==> && reply == Done(204, Empty)
                            && db.users == old(db.users)[userId := old(db.users)[userId].(
                                 passwordHash := HashPassword(req.newPassword, salt, kdf).value)]
  {
    if req.newPassword != req.confirmPassword {
      return Failure(400, PasswordMismatch);
    }
    if userId !in db.users {
      return Failure(404, UserNotFound);
    }
    var ok := VerifyPassword(req.currentPassword, db.users[userId].passwordHash, kdf, bcrypt);
    if !ok {
      return Failure(401, AuthenticationFailed);
    }
    var hash := HashPassword(req.newPassword, salt, kdf);
    if hash.Err? {
      return Failure(500, InternalError);
    }
    db.users := db.users[userId := db.users[userId].(passwordHash := hash.value)];
    return Done(204, Empty);
  }

  /** After a password change, the new password matches the stored hash and the old row is otherwise unchanged. */
  lemma NewPasswordMatches(u: User, newPassword: string, salt: seq<byte>, kdf: Kdf, bcrypt: BcryptMatches)
    requires |salt| == HashParams.saltLength && |kdf(newPassword, salt, 3, 65536, 1, 32)| == 32
    ensures var v := u.(passwordHash := HashPassword(newPassword, Some(salt), kdf).value);
            && Matches(newPassword, v.passwordHash, kdf, bcrypt)
            && v.email == u.email && v.status == u.status && v.lastLoginAt == u.lastLoginAt
  {
    HashThenVerify(newPassword, salt, kdf);
  }

  /* ------------------------------------------------------------ DeleteAccount and Ping */

  /** The avatar DeleteAccount removes: the stored avatar id when it is not blank. */
  function AvatarToRemove(profiles: map<string, Profile>, userId: string): (r: Option<string>)
    ensures r.Some? <==> userId in profiles && profiles[userId].avatarId.Some? && !IsBlank(profiles[userId].avatarId.value)
    ensures r.Some? ==> r == profiles[userId].avatarId
  {
    if userId in profiles && profiles[userId].avatarId.Some? && TrimSpace(profiles[userId].avatarId.value) != ""
    then profiles[userId].avatarId
    else None
  }

  /**
   * DeleteAccount: the avatar asset is removed when its id is not blank,
   * the users row is deleted, and the answer is always 204. The rows that
   * refer to the user are left to the schema's foreign keys.
   */
  method DeleteAccount(db: Db, userId: string) returns (reply: Reply<Empty>, removed: Option<string>)
    modifies db`users
    ensures removed == AvatarToRemove(db.profiles, userId)
    ensures db.users == old(db.users) - {userId}
    ensures userId !in db.users
    ensures reply == Done(204, Empty)
  {
    removed := None;
    if userId in db.profiles {
      var avatarId := db.profiles[userId].avatarId;
      if avatarId.Some? && TrimSpace(avatarId.value) != "" {
        removed := avatarId;
      }
    }
    db.users := db.users - {userId};
    reply := Done(204, Empty);
  }

  /** Ping: last_seen_at becomes now for a known user; the answer is always 204. */
  method Ping(db: Db, userId: string, now: int) returns (reply: Reply<Empty>)
    modifies db`users
    ensures userId in old(db.users) ==> db.users == old(db.users)[userId := old(db.users)[userId].(lastSeenAt := Some(now))]
    ensures userId !in old(db.users) ==> db.users == old(db.users)
    ensures reply == Done(204, Empty)
  {
    TouchLastSeen(db, userId, now);
    reply := Done(204, Empty);
  }

  /* ------------------------------------------------------------ Uploads */

  /** The content type stored for an upload: the part's header, or application/octet-stream when it has none. */
  function ContentTypeOf(file: Upload): (t: string)
    ensures file.contentType != "" ==> t == file.contentType
    ensures t != ""
  {
    if file.contentType == "" then "application/octet-stream" else file.contentType
  }

  /** The media type of a resource upload: IMAGE for image/…, DOCUMENT for a PDF (case-insensitively), else OTHER. */
  function MediaKind(contentType: string): (kind: string)
    ensures kind == "IMAGE" <==> HasPrefix(contentType, "image/")
    ensures kind == "DOCUMENT" <==> !HasPrefix(contentType, "image/") && EqualFold(contentType, "application/pdf")
    ensures kind == "OTHER" <==> !HasPrefix(contentType, "image/") && !EqualFold(contentType, "application/pdf")
  {
    if HasPrefix(contentType, "image/") then "IMAGE"
    else if EqualFold(contentType, "application/pdf") then "DOCUMENT"
    else "OTHER"
  }

  /** An upload without a content type is stored as OTHER. */
  lemma UntypedUploadIsOther(file: Upload)
    requires file.contentType == ""
    ensures MediaKind(ContentTypeOf(file)) == "OTHER"
  {
    var t := ContentTypeOf(file);
    assert t[0] == 'a';
    assert Upper(t)[0] == 'A' && Upper("application/pdf")[0] == 'A';
    assert Upper(t)[11] == '/' && Upper("application/pdf")[11] == '/';
    assert t[12] == 'o';
    assert Upper(t)[12] != Upper("application/pdf")[12];
  }

  /** The answer to a failed save: a ServiceError's own status and message, any other error 500. */
  function SaveFailure<T>(err: ServiceErrors.Error): (r: Reply<T>)
    ensures err.ServiceError? ==> r == Failure(err.status, Raw(err.message))
    ensures !err.ServiceError? ==> r == Failure(500, InternalError)
  {
    match MapServiceError(Some(err))
    case Some(f) => f
    case None => Failure(500, InternalError)
  }

  /** The avatar UploadAvatar removes: the previous one, when it is not empty and is not the new asset. */
  function ReplacedAvatar(previous: Option<string>, assetId: string): (r: Option<string>)
    ensures r.Some? <==> previous.Some? && previous.value != "" && previous.value != assetId
    ensures r.Some? ==> r == previous
  {
    if previous.Some? && previous.value != "" && previous.value != assetId then previous else None
  }

  /**
   * UploadAvatar: a request without a file part answers 400; the file is
   * saved in the users bucket as an AVATAR owned by the user (a save error
   * answers with its ServiceError or 500, and nothing else happens). Then the
   * profile row is created when missing and its avatar set to the new asset,
   * the previous avatar is removed when it is not empty and is another
   * asset, and the answer carries the asset id and address.
   */
  method UploadAvatar(db: Db, userId: string, file: Option<Upload>, save: Saver)
    returns (reply: Reply<AssetRef>, removed: Option<string>)
    modifies db`profiles
    ensures file.None? ==> reply == Failure(400, EmptyFile) && removed.None? && db.profiles == old(db.profiles)
    ensures file.Some? ==>
              var saved := save(SaveRequest(BucketUsers, ContentTypeOf(file.value), file.value.filename, "AVATAR", userId));
              && (saved.Err? ==> reply == SaveFailure(saved.error) && removed.None? && db.profiles == old(db.profiles))
              && (saved.Ok? ==>
                    && reply == Done(200, AssetRef(saved.value, BuildAssetUrl(saved.value)))
                    && db.profiles == old(db.profiles)[userId := ProfileRow(old(db.profiles), userId).(avatarId := Some(saved.value))]
                    && removed == ReplacedAvatar(ProfileRow(old(db.profiles), userId).avatarId, saved.value))
  {
    if file.None? {
      return Failure(400, EmptyFile), None;
    }
    var saved := save(SaveRequest(BucketUsers, ContentTypeOf(file.value), file.value.filename, "AVATAR", userId));
    if saved.Err? {
      return SaveFailure(saved.error), None;
    }
    var assetId := saved.value;
    var previous := if userId in db.profiles then db.profiles[userId].avatarId else None;
    removed := None;
    if userId !in db.profiles {
      db.profiles := db.profiles[userId := BlankProfile];
    }
    db.profiles := db.profiles[userId := db.profiles[userId].(avatarId := Some(assetId))];
    if previous.Some? && previous.value != "" && previous.value != assetId {
      removed := previous;
    }
    reply := Done(200, AssetRef(assetId, BuildAssetUrl(assetId)));
  }

  /** Uploading an avatar never removes the asset just stored, and the new address names it. */
  lemma AvatarKeptAfterUpload(previous: Option<string>, assetId: string)
    ensures ReplacedAvatar(previous, assetId) != Some(assetId)
    ensures AssetIdOf(BuildAssetUrl(assetId)) == assetId
  {
    AssetUrlRoundTrip(assetId);
  }

  /**
   * UploadResource: a request without a file part answers 400; the file is
   * saved in the resources bucket with its media type; a save error answers
   * with its ServiceError or 500. Nothing in the tables this model holds
   * changes.
   */
  method UploadResource(userId: string, file: Option<Upload>, save: Saver) returns (reply: Reply<AssetRef>)
    ensures file.None? ==> reply == Failure(400, EmptyFile)
    ensures file.Some? ==>
              var contentType := ContentTypeOf(file.value);
              var saved := save(SaveRequest(BucketResources, contentType, file.value.filename, MediaKind(contentType), userId));
              && (saved.Err? ==> reply == SaveFailure(saved.error))
              && (saved.Ok? ==> reply == Done(200, AssetRef(saved.value, BuildAssetUrl(saved.value))))
  {
    if file.None? {
      return Failure(400, EmptyFile);
    }
    var contentType := ContentTypeOf(file.value);
    var saved := save(SaveRequest(BucketResources, contentType, file.value.filename, MediaKind(contentType), userId));
    if saved.Err? {
      return SaveFailure(saved.error);
    }
    return Done(200, AssetRef(saved.value, BuildAssetUrl(saved.value)));
  }
}

=== FILE: media.dfy ===
/**
 * Stored media assets: the public address of an asset, and SaveMediaAsset
 * as the handlers see it. Writing the file, hashing it and inserting the
 * media_assets row happen behind `Saver`, which yields the new asset id or
 * the error; an empty upload is one of its ServiceErrors.
 */
module Media {
  import opened Wrappers
  import opened Text
  import ServiceErrors

  const BucketUsers: string := "users"
  const BucketResources: string := "resources"

  /** The arguments of a SaveMediaAsset call. */
  datatype SaveRequest = SaveRequest(bucket: string, contentType: string, filename: string, kind: string, ownerId: string)

  /** SaveMediaAsset: the id of the stored asset, or the error. */
  type Saver = SaveRequest -> Result<string, ServiceErrors.Error>

  const AssetPrefix: string := "/media/assets/"
  const AssetSuffix: string := "/content"

  /** BuildAssetURL: "/media/assets/<id>/content". */
  function BuildAssetUrl(assetId: string): (url: string)
    ensures HasPrefix(url, AssetPrefix) && HasSuffix(url, AssetSuffix)
    ensures |url| == |AssetPrefix| + |assetId| + |AssetSuffix|
  {
    AssetPrefix + assetId + AssetSuffix
  }

  /** The asset id between the prefix and the suffix of an asset address. */
  function AssetIdOf(url: string): (id: string)
    requires |url| >= |AssetPrefix| + |AssetSuffix|
  {
    url[|AssetPrefix|..|url| - |AssetSuffix|]
  }

  /** The asset id can be read back from its address, so distinct assets have distinct addresses. */
  lemma AssetUrlRoundTrip(assetId: string)
    ensures AssetIdOf(BuildAssetUrl(assetId)) == assetId
  {
    var url := BuildAssetUrl(assetId);
    assert url[|AssetPrefix|..|url| - |AssetSuffix|] == assetId;
  }
}

=== FILE: metrics.dfy ===
/**
 * The metrics endpoints: the history read with its limit rule, and the
 * websocket feed with its admission gate and the hub registration that
 * brackets the connection's read loop.
 *
 * The stored samples are read through a parameter standing for
 * LatestMetrics; the websocket upgrade and the read loop are given as the
 * upgrade's outcome and the number of reads that succeed before one fails.
 */
module Metrics {
  import opened Wrappers
  import opened Numbers
  import opened Tokens
  import opened AuthMiddleware
  import opened Replies

  /** One stored sample; the CPU loads are the float64 columns. */
  datatype MetricSample = MetricSample(capturedAt: int, heapUsedBytes: int, heapMaxBytes: int,
                                       systemMemoryTotal: int, systemMemoryUsed: int,
                                       diskTotalBytes: int, diskUsedBytes: int,
                                       processCpuLoad: real, systemCpuLoad: real)

  /** LatestMetrics for a limit: the newest samples, or None for a query error. */
  type LatestMetrics = int -> Option<seq<MetricSample>>

  const DefaultHistory: int := 120
  const MaxHistory: int := 500

  /* ------------------------------------------------------------ MetricsHistory */

  /** The history limit: the `limit` parameter when it is a positive integer (default 120), at most 500. */
  function HistoryLimit(raw: string): (limit: int)
    ensures 1 <= limit <= MaxHistory
    ensures ParseInt(raw, DefaultHistory) <= MaxHistory ==> limit == ParseInt(raw, DefaultHistory)
    ensures ParseInt(raw, DefaultHistory) > MaxHistory ==> limit == MaxHistory
  {
    var limit := ParseInt(raw, DefaultHistory);
    if limit > MaxHistory then MaxHistory else limit
  }

  /** A written positive limit is honoured up to 500; a value that is not a positive integer gives 120. */
  lemma HistoryLimitOf(n: nat, raw: string)
    requires 1 <= n <= MaxInt64
    ensures HistoryLimit(FormatNat(n)) == if n <= MaxHistory then n else MaxHistory
    ensures (Atoi(raw).None? || Atoi(raw).value < 1) ==> HistoryLimit(raw) == DefaultHistory
  {
    ParseIntFormat(n, DefaultHistory);
  }

  /** MetricsHistory: 500 when the read fails, otherwise the samples for the limit. */
  method MetricsHistory(raw: string, latest: LatestMetrics) returns (reply: Reply<seq<MetricSample>>)
    ensures latest(HistoryLimit(raw)).None? ==> reply == Failure(500, InternalError)
    ensures latest(HistoryLimit(raw)).Some? ==> reply == Done(200, latest(HistoryLimit(raw)).value)
  {
    var limit := HistoryLimit(raw);
    var items := latest(limit);
    if items.None? {
      return Failure(500, InternalError);
    }
    return Done(200, items.value);
  }

  /* ------------------------------------------------------------ the socket gate */

  /** The gate's verdict: an error reply, or admission with the token's roles. */
  datatype Admission = Refuse(status: int, message: Message) | Admit(roles: seq<string>)

  /** An access token: its `typ` claim is the string "access". */
  predicate IsAccess(c: Claims) {
    "typ" in c && c["typ"] == CStr("access")
  }

  /**
   * The admission rule of MetricsSocket for the `token` query parameter:
   * 401 when it is missing, does not parse or is not an access token; 403
   * when its roles do not include ADMIN (case-insensitively).
   */
  function SocketGate(ts: TokenService, token: string, now: int, verify: Verifier): (a: Admission)
    ensures token == "" ==> a == Refuse(401, AuthenticationFailed)
    ensures a.Refuse? ==> a == Refuse(401, AuthenticationFailed) || a == Refuse(403, NotAllowed)
    ensures a.Admit? <==> && token != "" && ParseToken(ts, token, now, verify).Some?
                          && IsAccess(ParseToken(ts, token, now, verify).value)
                          && HasRole(RolesClaim(ParseToken(ts, token, now, verify).value), "ADMIN")
    ensures a.Admit? ==> a.roles == RolesClaim(ParseToken(ts, token, now, verify).value)
    ensures a == Refuse(403, NotAllowed) <==> && token != "" && ParseToken(ts, token, now, verify).Some?
                                              && IsAccess(ParseToken(ts, token, now, verify).value)
                                              && !HasRole(RolesClaim(ParseToken(ts, token, now, verify).value), "ADMIN")
  {
    if token == "" then Refuse(401, AuthenticationFailed)
    else match ParseToken(ts, token, now, verify)
      case None => Refuse(401, AuthenticationFailed)
      case Some(c) =>
        if !IsAccess(c) then Refuse(401, AuthenticationFailed)
        else if !HasRole(RolesClaim(c), "ADMIN") then Refuse(403, NotAllowed)
        else Admit(RolesClaim(c))
  }

  /**
   * The socket takes the same tokens as the bearer middleware: a token the
   * socket admits is one WithAuth would pass, with ADMIN among the bound roles,
   * and the other way round.
   */
  lemma SocketGateAsBearer(ts: TokenService, token: string, now: int, verify: Verifier)
    requires token != "" && BearerToken(BearerPrefix + token) == token
    ensures SocketGate(ts, token, now, verify).Admit?
            <==> var g := AuthGate(ts, BearerPrefix + token, now, verify);
                 g.Pass? && HasRole(g.id.roles, "ADMIN")
  {
    var header := BearerPrefix + token;
    assert header[..|BearerPrefix|] == BearerPrefix;
  }

  /** An unexpired access token issued for roles that include ADMIN opens the socket. */
  lemma AdminTokenAdmitted(ts: TokenService, userId: string, email: string, roles: seq<string>, now: int, t: int,
                           sign: Signer, verify: Verifier)
    requires Sound(sign, verify)
    requires CreateAccessToken(ts, userId, email, roles, now, sign).token.Some?
    requires CreateAccessToken(ts, userId, email, roles, now, sign).token.value != ""
    requires HasRole(roles, "ADMIN")
    requires t < now + ts.accessTtl
    ensures SocketGate(ts, CreateAccessToken(ts, userId, email, roles, now, sign).token.value, t, verify) == Admit(roles)
  {
    AccessTokenParses(ts, userId, email, roles, now, t, sign, verify);
    AccessIdentity(ts, userId, email, roles, now);
  }

  /** A refresh token never opens the socket, whatever its subject's roles. */
  lemma RefreshTokenRejected(ts: TokenService, userId: string, now: int, t: int, sign: Signer, verify: Verifier)
    requires Sound(sign, verify)
    requires CreateRefreshToken(ts, userId, now, sign).Some?
    ensures SocketGate(ts, CreateRefreshToken(ts, userId, now, sign).value, t, verify).Refuse?
  {
    var token := CreateRefreshToken(ts, userId, now, sign).value;
    assert verify(token, ts.secret) == Some(RefreshClaims(ts, userId, now));
  }

  /* ------------------------------------------------------------ the hub */

  /** A websocket connection, by identity. */
  datatype Conn = Conn(id: nat)

  /** MetricsHub: the set of connected clients the broadcaster writes to. */
  class Hub {
    var clients: set<Conn>

    /** NewMetricsHub: no clients. */
    constructor()
      ensures clients == {}
    {
      clients := {};
    }

    /** Add: the connection is a client. */
    method Add(conn: Conn)
      modifies this
      ensures clients == old(clients) + {conn}
    {
      clients := clients + {conn};
    }

    /** Remove: the connection is no longer a client; the others stay. */
    method Remove(conn: Conn)
      modifies this
      ensures clients == old(clients) - {conn}
    {
      clients := clients - {conn};
    }
  }

  /** What became of a socket request. */
  datatype SocketOutcome = Refused(status: int, message: Message) | UpgradeFailed | Served(conn: Conn, readCount: nat)

  /**
   * MetricsSocket: a refused request or a failed upgrade never touches the
   * hub. An admitted connection is added to the hub, stays there while its
   * reads succeed, and is removed when a read fails; the other clients are
   * left as they were.
   */
  method MetricsSocket(hub: Hub, ts: TokenService, token: string, now: int, verify: Verifier,
                       upgrade: Option<Conn>, readsBeforeFailure: nat)
    returns (out: SocketOutcome)
    modifies hub
    ensures SocketGate(ts, token, now, verify).Refuse? ==>
              && out == Refused(SocketGate(ts, token, now, verify).status, SocketGate(ts, token, now, verify).message)
              && hub.clients == old(hub.clients)
    ensures SocketGate(ts, token, now, verify).Admit? && upgrade.None? ==>
              out == UpgradeFailed && hub.clients == old(hub.clients)
    ensures SocketGate(ts, token, now, verify).Admit? && upgrade.Some? ==>
              && out == Served(upgrade.value, readsBeforeFailure)
              && hub.clients == old(hub.clients) - {upgrade.value}
  {
    var gate := SocketGate(ts, token, now, verify);
    if gate.Refuse? {
      return Refused(gate.status, gate.message);
    }
    if upgrade.None? {
      return UpgradeFailed;
    }
    var conn := upgrade.value;
    hub.Add(conn);
    var done := 0;
    while done < readsBeforeFailure
      invariant done <= readsBeforeFailure
      invariant hub.clients == old(hub.clients) + {conn}
    {
      done := done + 1;
    }
    hub.Remove(conn);
    return Served(conn, done);
  }
}

=== FILE: middleware.dfy ===
/**
 * The request logger's response recorder: it remembers the last status code
 * written and counts the body bytes the wrapped writer reports, forwarding
 * every call unchanged.
 */
module Middleware {
  import opened Wrappers
  import Bytes

  /** A call forwarded to the wrapped http.ResponseWriter. */
  datatype Forwarded = Header(code: int) | Body(data: seq<Bytes.byte>)

  /** statusRecorder. */
  class StatusRecorder {
    var status: int
    var bytes: int
    /** The calls passed on to the wrapped writer, in order. */
    var forwarded: seq<Forwarded>

    /** `&statusRecorder{ResponseWriter: w}`: no status and no bytes yet. */
    constructor ()
      ensures status == 0 && bytes == 0 && forwarded == []
    {
      status := 0;
      bytes := 0;
      forwarded := [];
    }

    /** WriteHeader records the code, replacing any earlier one, and forwards it. */
    method WriteHeader(code: int)
      modifies this
      ensures status == code && bytes == old(bytes)
      ensures forwarded == old(forwarded) + [Header(code)]
    {
      status := code;
      forwarded := forwarded + [Header(code)];
    }

    /**
     * Write: an implicit 200 when no status was recorded; `n` and `err` are
     * what the wrapped writer reports for `p`, and are returned unchanged.
     */
    method Write(p: seq<Bytes.byte>, n: int, err: Option<string>) returns (written: int, e: Option<string>)
      modifies this
      ensures status == (if old(status) == 0 then 200 else old(status))
      ensures bytes == old(bytes) + n
      ensures written == n && e == err
      ensures forwarded == old(forwarded) + [Body(p)]
    {
      if status == 0 {
        status := 200;
      }
      forwarded := forwarded + [Body(p)];
      bytes := bytes + n;
      return n, err;
    }
  }

  /** What a handler does to the writer: set a status, or write bytes of which the wrapped writer reports `n`. */
  datatype Action = SetStatus(code: int) | WriteBody(data: seq<Bytes.byte>, n: int)

  /** The recorder's (status, bytes) after the actions, from the initial (0, 0). */
  function Replay(actions: seq<Action>): (r: (int, int))
    decreases |actions|
  {
    if |actions| == 0 then (0, 0)
    else
      var prev := Replay(actions[..|actions| - 1]);
      match actions[|actions| - 1]
      case SetStatus(code) => (code, prev.1)
      case WriteBody(_, n) => (if prev.0 == 0 then 200 else prev.0, prev.1 + n)
  }

  /** The status RequestLogger reports: 200 when the handler left none. */
  function LoggedStatus(status: int): (r: int)
    ensures status != 0 ==> r == status
    ensures r != 0
  {
    if status == 0 then 200 else status
  }

  /** RequestLogger: runs the handler's actions against a fresh recorder and reports its status and byte count. */
  method RequestLogger(actions: seq<Action>) returns (status: int, bytes: int)
    ensures status == LoggedStatus(Replay(actions).0) && bytes == Replay(actions).1
  {
    var recorder := new StatusRecorder();
    for i := 0 to |actions|
      invariant (recorder.status, recorder.bytes) == Replay(actions[..i])
    {
      assert actions[..i + 1][..i] == actions[..i];
      match actions[i]
      case SetStatus(code) =>
        recorder.WriteHeader(code);
      case WriteBody(data, n) =>
        var _, _ := recorder.Write(data, n, None);
    }
    assert actions[..|actions|] == actions;
    if recorder.status == 0 {
      recorder.status := 200;
    }
    return recorder.status, recorder.bytes;
  }

  /** The byte count is the sum of what the writer reported. */
  function Reported(actions: seq<Action>): int
    decreases |actions|
  {
    if |actions| == 0 then 0
    else Reported(actions[..|actions| - 1]) + (if actions[|actions| - 1].WriteBody? then actions[|actions| - 1].n else 0)
  }

  lemma {:induction false} ReplayBytes(actions: seq<Action>)
    ensures Replay(actions).1 == Reported(actions)
    decreases |actions|
  {
    if |actions| > 0 {
      ReplayBytes(actions[..|actions| - 1]);
    }
  }

  /** The last non-zero status a handler sets is the one logged, whatever it writes afterwards. */
  lemma {:induction false} LastStatusWins(before: seq<Action>, code: int, after: seq<Action>)
    requires code != 0
    requires forall k :: 0 <= k < |after| ==> after[k].WriteBody?
    ensures Replay(before + [SetStatus(code)] + after).0 == code
    decreases |after|
  {
    var all := before + [SetStatus(code)] + after;
    if |after| == 0 {
      assert all[..|all| - 1] == before;
    } else {
      var n := |after| - 1;
      assert all[..|all| - 1] == before + [SetStatus(code)] + after[..n];
      LastStatusWins(before, code, after[..n]);
    }
  }

  /** A handler that only writes a body is logged as 200. */
  lemma {:induction false} WritesOnlyLog200(actions: seq<Action>)
    requires forall k :: 0 <= k < |actions| ==> actions[k].WriteBody?
    ensures LoggedStatus(Replay(actions).0) == 200
    ensures |actions| > 0 ==> Replay(actions).0 == 200
    decreases |actions|
  {
    if |actions| > 0 {
      WritesOnlyLog200(actions[..|actions| - 1]);
    }
  }
}

=== FILE: migrations.dfy ===
/**
 * The schema migration runner: which files of the migrations directory are
 * migrations, the order they run in, which of them are skipped because the
 * ledger table already records them, and the ledger row written after each.
 *
 * A migration's version is the text between a leading `V` and the first
 * `__`; files with a numeric version run first, by number, and the rest
 * follow by name. Reading the directory, executing a script and the schema
 * a script leaves behind are given as parameters: `entries` (the directory
 * listing), `exec` (whether the script of a file runs without error) and
 * `columnsAfter` (which ledger columns exist once a file has run).
 */
module Migrations {
  import opened Wrappers
  import opened Text
  import opened Numbers

  const SqlSuffix: string := ".sql"

  /** A directory entry as the listing gives it. */
  datatype Entry = Entry(name: string, isDir: bool)

  /** Which of the ledger's `name` and `version` columns exist. */
  datatype Columns = Columns(hasName: bool, hasVersion: bool)

  /** A row of schema_migrations: its nullable version and name. */
  datatype Record = Record(version: Option<string>, name: Option<string>)

  /** The recorded names and versions, as appliedMigrations collects them. */
  datatype Applied = Applied(names: set<string>, versions: set<string>)

  /* ------------------------------------------------------------ versions */

  /** The first part of `strings.SplitN(s, "__", 2)`: the text before the first `__`, or all of it. */
  function BeforeSeparator(s: string): (r: string)
    ensures |r| <= |s| && r == s[..|r|]
    ensures |r| < |s| ==> |r| + 2 <= |s| && s[|r|] == '_' && s[|r| + 1] == '_'
    ensures forall i :: 0 <= i < |r| && i + 1 < |s| ==> !(s[i] == '_' && s[i + 1] == '_')
    decreases |s|
  {
    if |s| < 2 then s
    else if s[0] == '_' && s[1] == '_' then ""
    else [s[0]] + BeforeSeparator(s[1..])
  }

  /** parseVersion: "" unless the name starts with `V`; otherwise the trimmed text after it up to the first `__`. */
  function ParseVersion(name: string): (v: string)
    ensures !HasPrefix(name, "V") ==> v == ""
    ensures HasPrefix(name, "V") ==> v == TrimSpace(BeforeSeparator(name[1..]))
  {
    if !HasPrefix(name, "V") then "" else TrimSpace(BeforeSeparator(name[1..]))
  }

  /** parseVersionNumber: the version as a 64-bit integer, when there is one and it parses. */
  function ParseVersionNumber(name: string): (r: Option<int>)
    ensures r.Some? <==> ParseVersion(name) != "" && Atoi(ParseVersion(name)).Some?
    ensures r.Some? ==> r.value == Atoi(ParseVersion(name)).value
  {
    var raw := ParseVersion(name);
    if raw == "" then None else Atoi(raw)
  }

  /** A run of digits ends where the separator starts. */
  lemma {:induction false} BeforeSeparatorOfDigits(d: string, rest: string)
    requires AllDigits(d)
    ensures BeforeSeparator(d + "__" + rest) == d
    decreases |d|
  {
    var s := d + "__" + rest;
    if |d| > 0 {
      assert s[1..] == d[1..] + "__" + rest;
      BeforeSeparatorOfDigits(d[1..], rest);
      assert [d[0]] + d[1..] == d;
    }
  }

  /** A name `V<n>__<description>` carries the version n, whatever the description. */
  lemma VersionedName(n: nat, rest: string)
    requires n <= MaxInt64
    ensures ParseVersion("V" + FormatNat(n) + "__" + rest) == FormatNat(n)
    ensures ParseVersionNumber("V" + FormatNat(n) + "__" + rest) == Some(n)
  {
    var d := FormatNat(n);
    var name := "V" + d + "__" + rest;
    assert name[..1] == "V";
    assert name[1..] == d + "__" + rest;
    BeforeSeparatorOfDigits(d, rest);
    TrimLeftNoSpace(d);
    TrimRightNoSpace(d);
    AtoiFormat(n);
  }

  /* ------------------------------------------------------------ listMigrations */

  /** What listMigrations' comparison looks at: the numeric version, when there is one, and the name. */
  datatype SortKey = SortKey(version: Option<int>, name: string)

  function KeyOf(name: string): (k: SortKey)
    ensures k.name == name
  {
    SortKey(ParseVersionNumber(name), name)
  }

  /**
   * The comparison of listMigrations' sort: two versions that differ decide
   * by number, a versioned name precedes an unversioned one, and otherwise
   * the names decide.
   */
  predicate KeyBefore(a: SortKey, b: SortKey) {
    if a.version.Some? && b.version.Some? && a.version.value != b.version.value then a.version.value < b.version.value
    else if a.version.Some? != b.version.Some? then a.version.Some?
    else Less(a.name, b.name)
  }

  predicate Before(a: string, b: string) {
    KeyBefore(KeyOf(a), KeyOf(b))
  }

  lemma KeyBeforeIrreflexive(a: SortKey)
    ensures !KeyBefore(a, a)
  {
    LessIrreflexive(a.name);
  }

  lemma KeyBeforeTransitive(a: SortKey, b: SortKey, c: SortKey)
    requires KeyBefore(a, b) && KeyBefore(b, c)
    ensures KeyBefore(a, c)
  {
    if Less(a.name, b.name) && Less(b.name, c.name) {
      LessTransitive(a.name, b.name, c.name);
    }
  }

  /** Keys of distinct names are always ordered one way and not the other: the order is strict and total. */
  lemma KeyBeforeTotal(a: SortKey, b: SortKey)
    requires a.name != b.name
    ensures KeyBefore(a, b) || KeyBefore(b, a)
    ensures !(KeyBefore(a, b) && KeyBefore(b, a))
  {
    LessTotal(a.name, b.name);
    if KeyBefore(a, b) && KeyBefore(b, a) {
      KeyBeforeTransitive(a, b, a);
      KeyBeforeIrreflexive(a);
    }
  }

  /** Numerically versioned names come first, by number; the others follow. */
  lemma VersionedFirst(a: string, b: string)
    requires ParseVersionNumber(a).Some?
    ensures ParseVersionNumber(b).None? ==> Before(a, b)
    ensures ParseVersionNumber(b).Some? && ParseVersionNumber(a).value < ParseVersionNumber(b).value ==> Before(a, b)
  {
  }

  /** No later key sorts before an earlier one. */
  predicate Sorted(s: seq<SortKey>) {
    forall i, j :: 0 <= i < j < |s| ==> !KeyBefore(s[j], s[i])
  }

  /** `s` with `x` placed before the first key that sorts after it. */
  function Insert(s: seq<SortKey>, x: SortKey): (r: seq<SortKey>)
    requires Sorted(s)
    ensures Sorted(r)
    ensures multiset(r) == multiset(s) + multiset{x}
    decreases |s|
  {
    if |s| == 0 then [x]
    else if KeyBefore(x, s[0]) then
      InsertFront(s, x);
      [x] + s
    else
      var rest := Insert(s[1..], x);
      InsertBehind(s, x, rest);
      [s[0]] + rest
  }

  lemma InsertFront(s: seq<SortKey>, x: SortKey)
    requires Sorted(s) && |s| > 0 && KeyBefore(x, s[0])
    ensures Sorted([x] + s)
  {
    forall j | 0 <= j < |s|
      ensures !KeyBefore(s[j], x)
    {
      if KeyBefore(s[j], x) {
        KeyBeforeTransitive(s[j], x, s[0]);
        if j == 0 {
          KeyBeforeIrreflexive(s[0]);
        }
      }
    }
    var r := [x] + s;
    forall i, j | 0 <= i < j < |r|
      ensures !KeyBefore(r[j], r[i])
    {
      if i > 0 {
        assert r[i] == s[i - 1] && r[j] == s[j - 1];
      }
    }
  }

  lemma InsertBehind(s: seq<SortKey>, x: SortKey, rest: seq<SortKey>)
    requires Sorted(s) && |s| > 0 && !KeyBefore(x, s[0])
    requires Sorted(rest) && multiset(rest) == multiset(s[1..]) + multiset{x}
    ensures Sorted([s[0]] + rest)
    ensures multiset([s[0]] + rest) == multiset(s) + multiset{x}
  {
    assert s == [s[0]] + s[1..];
    forall j | 0 <= j < |rest|
      ensures !KeyBefore(rest[j], s[0])
    {
      assert rest[j] in multiset(rest);
      if rest[j] != x {
        assert rest[j] in multiset(s[1..]);
        var k :| 0 <= k < |s[1..]| && s[1..][k] == rest[j];
        assert s[k + 1] == rest[j];
      }
    }
    var r := [s[0]] + rest;
    forall i, j | 0 <= i < j < |r|
      ensures !KeyBefore(r[j], r[i])
    {
      if i > 0 {
        assert r[i] == rest[i - 1] && r[j] == rest[j - 1];
      } else {
        assert r[j] == rest[j - 1];
      }
    }
  }

  /** The keys in sorted order. */
  function SortKeys(s: seq<SortKey>): (r: seq<SortKey>)
    ensures Sorted(r)
    ensures multiset(r) == multiset(s)
    decreases |s|
  {
    if |s| == 0 then []
    else
      assert s == s[..|s| - 1] + [s[|s| - 1]];
      Insert(SortKeys(s[..|s| - 1]), s[|s| - 1])
  }

  function Keys(names: seq<string>): (ks: seq<SortKey>)
    ensures |ks| == |names| && forall i :: 0 <= i < |names| ==> ks[i] == KeyOf(names[i])
  {
    seq(|names|, i requires 0 <= i < |names| => KeyOf(names[i]))
  }

  function NamesOf(ks: seq<SortKey>): (names: seq<string>)
    ensures |names| == |ks| && forall i :: 0 <= i < |ks| ==> names[i] == ks[i].name
  {
    seq(|ks|, i requires 0 <= i < |ks| => ks[i].name)
  }

  /**
   * The names in the order listMigrations sorts them: their keys are sorted
   * and are the keys of the given names, once each. A key holds its name,
   * so this is a rearrangement of the names; as the order is strict and
   * total (KeyBeforeTotal), it is the only sorted one.
   */
  function Ordered(names: seq<string>): (r: seq<string>)
    ensures |r| == |names|
    ensures Sorted(Keys(r))
    ensures multiset(Keys(r)) == multiset(Keys(names))
  {
    var ks := SortKeys(Keys(names));
    forall k | k in ks
      ensures k == KeyOf(k.name)
    {
      assert k in multiset(Keys(names));
      var i :| 0 <= i < |names| && Keys(names)[i] == k;
    }
    assert Keys(NamesOf(ks)) == ks;
    NamesOf(ks)
  }

  /** The entries listMigrations keeps: files (not directories) whose names end in `.sql`, in listing order. */
  function Eligible(entries: seq<Entry>): (names: seq<string>)
    ensures forall n :: n in names <==> exists i :: 0 <= i < |entries| && !entries[i].isDir && HasSuffix(entries[i].name, SqlSuffix)
                                                  && entries[i].name == n
    decreases |entries|
  {
    if |entries| == 0 then []
    else
      var e := entries[|entries| - 1];
      var rest := Eligible(entries[..|entries| - 1]);
      assert forall i :: 0 <= i < |entries| - 1 ==> entries[..|entries| - 1][i] == entries[i];
      if !e.isDir && HasSuffix(e.name, SqlSuffix) then rest + [e.name] else rest
  }

  /** listMigrations: the eligible names, filtered in a loop and then sorted by their keys. */
  method ListMigrations(entries: seq<Entry>) returns (migs: seq<string>)
    ensures migs == Ordered(Eligible(entries))
    ensures Sorted(Keys(migs))
    ensures multiset(Keys(migs)) == multiset(Keys(Eligible(entries)))
  {
    var names: seq<string> := [];
    for i := 0 to |entries|
      invariant names == Eligible(entries[..i])
    {
      assert entries[..i + 1][..i] == entries[..i];
      if !entries[i].isDir && HasSuffix(entries[i].name, SqlSuffix) {
        names := names + [entries[i].name];
      }
    }
    assert entries[..|entries|] == entries;
    var keys: seq<SortKey> := [];
    for i := 0 to |names|
      invariant keys == SortKeys(Keys(names[..i]))
    {
      assert Keys(names[..i + 1])[..i] == Keys(names[..i]);
      keys := Insert(keys, KeyOf(names[i]));
    }
    assert names[..|names|] == names;
    migs := NamesOf(keys);
  }

  /* ------------------------------------------------------------ the ledger */

  /** The recorded names and versions, each read only when its column exists. */
  function AppliedOf(rows: seq<Record>, cols: Columns): (a: Applied)
    ensures forall n :: n in a.names <==> cols.hasName && exists r :: r in rows && r.name == Some(n)
    ensures forall v :: v in a.versions <==> cols.hasVersion && exists r :: r in rows && r.version == Some(v)
  {
    var names := if cols.hasName then (set r | r in rows && r.name.Some? :: r.name.value) else {};
    var versions := if cols.hasVersion then (set r | r in rows && r.version.Some? :: r.version.value) else {};
    Applied(names, versions)
  }

  /** Apply's skip test: the name is recorded, or the version is non-empty and recorded. */
  predicate Skipped(name: string, applied: Applied) {
    name in applied.names || (ParseVersion(name) != "" && ParseVersion(name) in applied.versions)
  }

  /** The migrations Apply runs, in order: those not skipped. */
  function Pending(migs: seq<string>, applied: Applied): (p: seq<string>)
    ensures |p| <= |migs|
    decreases |migs|
  {
    if |migs| == 0 then []
    else
      var rest := Pending(migs[..|migs| - 1], applied);
      var m := migs[|migs| - 1];
      if Skipped(m, applied) then rest else rest + [m]
  }

  /** A migration is pending iff it is listed and not skipped. */
  lemma {:induction false} PendingMembers(migs: seq<string>, applied: Applied)
    ensures forall m :: m in Pending(migs, applied) <==> m in migs && !Skipped(m, applied)
    decreases |migs|
  {
    if |migs| > 0 {
      PendingMembers(migs[..|migs| - 1], applied);
      assert forall x :: x in migs <==> x in migs[..|migs| - 1] || x == migs[|migs| - 1];
    }
  }

  /** The last migration of a listing is pending after the others, unless it is skipped. */
  lemma PendingLast(migs: seq<string>, applied: Applied)
    requires |migs| > 0
    ensures Pending(migs, applied) == Pending(migs[..|migs| - 1], applied)
                                      + (if Skipped(migs[|migs| - 1], applied) then [] else [migs[|migs| - 1]])
  {
  }

  lemma {:induction false} PendingAppend(a: seq<string>, b: seq<string>, applied: Applied)
    ensures Pending(a + b, applied) == Pending(a, applied) + Pending(b, applied)
    decreases |b|
  {
    if |b| > 0 {
      var c := a + b;
      assert c[..|c| - 1] == a + b[..|b| - 1];
      assert c[|c| - 1] == b[|b| - 1];
      PendingAppend(a, b[..|b| - 1], applied);
      PendingLast(c, applied);
      PendingLast(b, applied);
    } else {
      assert a + b == a;
    }
  }

  /**
   * applyMigration's ledger row: version (NULL when empty) and name when both
   * columns exist, only the version when only that column exists, otherwise
   * only the name; nothing can be written when neither column exists.
   */
  function RecordFor(name: string, cols: Columns): (r: Option<Record>)
    ensures r.None? <==> !cols.hasName && !cols.hasVersion
    ensures r.Some? ==> (r.value.name == Some(name) <==> cols.hasName) && (r.value.name.None? <==> !cols.hasName)
    ensures r.Some? && cols.hasVersion ==> r.value.version == NullIfEmpty(ParseVersion(name))
    ensures r.Some? && !cols.hasVersion ==> r.value.version.None?
  {
    if cols.hasName && cols.hasVersion then Some(Record(NullIfEmpty(ParseVersion(name)), Some(name)))
    else if cols.hasVersion then Some(Record(NullIfEmpty(ParseVersion(name)), None))
    else if cols.hasName then Some(Record(None, Some(name)))
    else None
  }

  /** A row the unique indexes on name and version (where not NULL) refuse. */
  predicate Clashes(rows: seq<Record>, rec: Record) {
    exists i :: 0 <= i < |rows| && ((rec.version.Some? && rows[i].version == rec.version) || (rec.name.Some? && rows[i].name == rec.name))
  }

  /** The columns a column list names, as schemaColumns reads them. */
  function ColumnsIn(names: seq<string>): Columns {
    Columns("name" in names, "version" in names)
  }

  /** schemaColumns: the loop over the ledger's column names, looking for `name` and `version`. */
  method SchemaColumns(names: seq<string>) returns (cols: Columns)
    ensures cols.hasName <==> "name" in names
    ensures cols.hasVersion <==> "version" in names
  {
    var hasName, hasVersion := false, false;
    for i := 0 to |names|
      invariant hasName <==> "name" in names[..i]
      invariant hasVersion <==> "version" in names[..i]
    {
      assert names[..i + 1] == names[..i] + [names[i]];
      if names[i] == "name" {
        hasName := true;
      }
      if names[i] == "version" {
        hasVersion := true;
      }
    }
    assert names[..|names|] == names;
    return Columns(hasName, hasVersion);
  }

  /** The schema_migrations table, if it exists, and the scripts run against the database so far. */
  class Ledger {
    var present: bool
    var columns: seq<string>
    var rows: seq<Record>
    var ran: seq<string>

    /** A database without the ledger table. */
    constructor Missing()
      ensures !present && columns == [] && rows == [] && ran == []
    {
      present := false;
      columns := [];
      rows := [];
      ran := [];
    }

    /** A database whose ledger table has `columns` and holds `rows`, with nothing run yet. */
    constructor Existing(columns: seq<string>, rows: seq<Record>)
      ensures present && this.columns == columns && this.rows == rows && ran == []
    {
      present := true;
      this.columns := columns;
      this.rows := rows;
      ran := [];
    }

    /**
     * ensureTable: creates the table with both columns when it is missing;
     * otherwise adds whichever of `name` and `version` it lacks, keeping its
     * rows. Either way both columns exist afterwards.
     */
    method EnsureTable()
      modifies this
      ensures present && "name" in columns && "version" in columns
      ensures old(present) ==> rows == old(rows) && forall c :: c in old(columns) ==> c in columns
      ensures !old(present) ==> rows == []
      ensures ran == old(ran)
    {
      if !present {
        present := true;
        columns := ["id", "version", "name", "applied_at"];
        rows := [];
        return;
      }
      if "name" !in columns {
        columns := columns + ["name"];
      }
      if "version" !in columns {
        columns := columns + ["version"];
      }
    }

    /** The INSERT of a ledger row: refused by the unique indexes when it repeats a recorded name or version. */
    method Insert(rec: Record) returns (ok: bool)
      modifies this`rows
      ensures ok <==> !Clashes(old(rows), rec)
      ensures ok ==> rows == old(rows) + [rec]
      ensures !ok ==> rows == old(rows)
    {
      if exists i :: 0 <= i < |rows| && ((rec.version.Some? && rows[i].version == rec.version) || (rec.name.Some? && rows[i].name == rec.name)) {
        return false;
      }
      rows := rows + [rec];
      return true;
    }

    /** appliedMigrations: schemaColumns, then the loops collecting the recorded names and versions. */
    method AppliedMigrations() returns (applied: Applied)
      ensures applied == AppliedOf(rows, ColumnsIn(columns))
    {
      var cols := SchemaColumns(columns);
      var names: set<string> := {};
      var versions: set<string> := {};
      for i := 0 to |rows|
        invariant names == if cols.hasName then (set r | r in rows[..i] && r.name.Some? :: r.name.value) else {}
        invariant versions == if cols.hasVersion then (set r | r in rows[..i] && r.version.Some? :: r.version.value) else {}
      {
        assert rows[..i + 1] == rows[..i] + [rows[i]];
        if cols.hasName && rows[i].name.Some? {
          names := names + {rows[i].name.value};
        }
        if cols.hasVersion && rows[i].version.Some? {
          versions := versions + {rows[i].version.value};
        }
      }
      assert rows[..|rows|] == rows;
      return Applied(names, versions);
    }

    /**
     * applyMigration: run the script; on success read the columns again and
     * write the ledger row. A failing script changes nothing; a row that
     * cannot be written fails after the script has run.
     */
    method ApplyMigration(name: string, exec: string -> bool, columnsAfter: string -> seq<string>) returns (ok: bool)
      modifies this
      ensures !exec(name) ==> !ok && rows == old(rows) && columns == old(columns) && ran == old(ran)
      ensures exec(name) ==> ran == old(ran) + [name] && columns == columnsAfter(name)
      ensures ok <==> Applies(name, old(rows), exec, columnsAfter)
      ensures ok ==> rows == old(rows) + [RecordFor(name, ColumnsIn(columnsAfter(name))).value]
      ensures !ok ==> rows == old(rows)
      ensures present == old(present)
    {
      if !exec(name) {
        return false;
      }
      ran := ran + [name];
      columns := columnsAfter(name);
      var cols := SchemaColumns(columns);
      var rec := RecordFor(name, cols);
      if rec.None? {
        return false;
      }
      ok := Insert(rec.value);
    }
  }

  /**
   * applyMigration succeeds on `name` against the ledger rows `rows`: the
   * script runs, the columns it leaves give a record, and that record does
   * not repeat a recorded name or version.
   */
  predicate Applies(name: string, rows: seq<Record>, exec: string -> bool, columnsAfter: string -> seq<string>) {
    && exec(name) && RecordFor(name, ColumnsIn(columnsAfter(name))).Some?
    && !Clashes(rows, RecordFor(name, ColumnsIn(columnsAfter(name))).value)
  }

  /** The ledger holds the row applyMigration writes for `name`. */
  predicate HasRow(rows: seq<Record>, name: string, columns: seq<string>) {
    RecordFor(name, ColumnsIn(columns)).Some? && RecordFor(name, ColumnsIn(columns)).value in rows
  }

  /** One more migration extends the pending list by itself, unless it is skipped. */
  lemma PendingStep(migs: seq<string>, i: nat, applied: Applied)
    requires i < |migs|
    ensures Pending(migs[..i + 1], applied) == Pending(migs[..i], applied) + (if Skipped(migs[i], applied) then [] else [migs[i]])
  {
    PendingLast(migs[..i + 1], applied);
    assert migs[..i + 1][..i] == migs[..i];
  }

  /** `q` is a prefix of `p`. */
  predicate PrefixOf(q: seq<string>, p: seq<string>) {
    |q| <= |p| && p[..|q|] == q
  }

  /** Every migration of `done` has its row in `rows`. */
  ghost predicate AllRecorded(rows: seq<Record>, done: seq<string>, columnsAfter: string -> seq<string>) {
    forall m :: m in done ==> HasRow(rows, m, columnsAfter(m))
  }

  /** The pending migrations of a prefix of the listing start the pending migrations of the whole. */
  lemma PendingPrefix(migs: seq<string>, i: nat, applied: Applied)
    requires i <= |migs|
    ensures PrefixOf(Pending(migs[..i], applied), Pending(migs, applied))
  {
    var pre := migs[..i];
    assert pre + migs[i..] == migs;
    PendingAppend(pre, migs[i..], applied);
    var q := Pending(pre, applied);
    assert Pending(migs, applied)[..|q|] == (q + Pending(migs[i..], applied))[..|q|] == q;
  }

  /** Appending the row of `name` keeps the older rows in front and gives `name` its row. */
  lemma RowsAppended(rows0: seq<Record>, before: seq<Record>, done: seq<string>, name: string,
                     columnsAfter: string -> seq<string>)
    requires |rows0| <= |before| && before[..|rows0|] == rows0
    requires RecordFor(name, ColumnsIn(columnsAfter(name))).Some?
    requires AllRecorded(before, done, columnsAfter)
    ensures var after := before + [RecordFor(name, ColumnsIn(columnsAfter(name))).value];
            && |rows0| <= |after| && after[..|rows0|] == rows0
            && AllRecorded(after, done + [name], columnsAfter)
  {
    var after := before + [RecordFor(name, ColumnsIn(columnsAfter(name))).value];
    assert after[..|rows0|] == before[..|rows0|];
    forall m | m in done + [name]
      ensures HasRow(after, m, columnsAfter(m))
    {
      if m != name {
        assert HasRow(before, m, columnsAfter(m));
      }
    }
  }

  /** The ledger after running `done`: those scripts were run, the older rows kept in front, and each has its row. */
  ghost predicate Progress(ran: seq<string>, rows: seq<Record>, ran0: seq<string>, rows0: seq<Record>,
                           done: seq<string>, columnsAfter: string -> seq<string>) {
    && ran == ran0 + done
    && |rows0| <= |rows| && rows[..|rows0|] == rows0
    && AllRecorded(rows, done, columnsAfter)
  }

  /**
   * A run over the pending migrations `p` that stopped at `p[k]`: every one
   * before it was applied and has its row, `p[k]` cannot be applied against
   * the ledger as it stands, and the scripts run are those before it plus
   * its own when that one ran.
   */
  ghost predicate StoppedAt(p: seq<string>, k: nat, rows: seq<Record>, ran: seq<string>, ran0: seq<string>,
                            exec: string -> bool, columnsAfter: string -> seq<string>) {
    && k < |p| && AllRecorded(rows, p[..k], columnsAfter)
    && !Applies(p[k], rows, exec, columnsAfter)
    && ran == ran0 + p[..k] + (if exec(p[k]) then [p[k]] else [])
  }

  /** A turn that cannot apply the pending `migs[i]` stops the run at the pending migration after `done`. */
  lemma StoppedTurn(migs: seq<string>, i: nat, applied: Applied, done: seq<string>, rows: seq<Record>,
                    ran: seq<string>, ran0: seq<string>, exec: string -> bool, columnsAfter: string -> seq<string>)
    requires i < |migs| && done == Pending(migs[..i], applied) && !Skipped(migs[i], applied)
    requires AllRecorded(rows, done, columnsAfter) && !Applies(migs[i], rows, exec, columnsAfter)
    requires ran == ran0 + done + (if exec(migs[i]) then [migs[i]] else [])
    ensures StoppedAt(Pending(migs, applied), |done|, rows, ran, ran0, exec, columnsAfter)
    ensures Pending(migs, applied)[|done|] == migs[i]
    ensures ran == ran0 + Pending(migs, applied)[..if exec(migs[i]) then |done| + 1 else |done|]
  {
    PendingStep(migs, i, applied);
    PendingPrefix(migs, i + 1, applied);
    var p := Pending(migs, applied);
    assert p[..|done| + 1] == done + [migs[i]];
    assert p[..|done|] == done && p[|done|] == migs[i];
    assert AllRecorded(rows, p[..|done|], columnsAfter);
  }

  /**
   * One turn of Apply's loop, over `migs[i]`: a skipped migration is passed
   * over, any other is applied. `done` is what the earlier turns ran; on
   * success `next` is what has run after this turn. A turn fails exactly
   * when `migs[i]` is pending and cannot be applied; `migs[i]` is then the
   * pending migration after `done`, the rows are unchanged, and `count` is
   * how many of the pending migrations had their script run.
   */
  method RunOne(ledger: Ledger, migs: seq<string>, i: nat, applied: Applied, exec: string -> bool,
                columnsAfter: string -> seq<string>, ghost ran0: seq<string>, ghost rows0: seq<Record>,
                ghost done: seq<string>)
    returns (ok: bool, ghost next: seq<string>, ghost count: nat)
    requires i < |migs| && done == Pending(migs[..i], applied)
    requires Progress(ledger.ran, ledger.rows, ran0, rows0, done, columnsAfter)
    modifies ledger
    ensures ledger.present == old(ledger.present)
    ensures ok <==> Skipped(migs[i], applied) || Applies(migs[i], old(ledger.rows), exec, columnsAfter)
    ensures ok ==> next == Pending(migs[..i + 1], applied) && Progress(ledger.ran, ledger.rows, ran0, rows0, next, columnsAfter)
    ensures !ok ==> && StoppedAt(Pending(migs, applied), |done|, ledger.rows, ledger.ran, ran0, exec, columnsAfter)
                    && Pending(migs, applied)[|done|] == migs[i] && ledger.rows == old(ledger.rows)
                    && count == (if exec(migs[i]) then |done| + 1 else |done|)
                    && ledger.ran == ran0 + Pending(migs, applied)[..count]
  {
    var name := migs[i];
    PendingStep(migs, i, applied);
    if Skipped(name, applied) {
      return true, done, 0;
    }
    ghost var before := ledger.rows;
    ok := ledger.ApplyMigration(name, exec, columnsAfter);
    if !ok {
      StoppedTurn(migs, i, applied, done, ledger.rows, ledger.ran, ran0, exec, columnsAfter);
      count := if exec(name) then |done| + 1 else |done|;
      return false, done, count;
    }
    RowsAppended(rows0, before, done, name, columnsAfter);
    return true, done + [name], 0;
  }

  /**
   * Apply's loop: run each of `migs` not skipped by `applied`, in order,
   * stopping at the first failure. `count` is how many of the pending
   * migrations had their script run. On failure the run stopped at the
   * pending migration `stop`: the ones before it were all applied and
   * recorded, and it could not be applied against the ledger as it stands.
   */
  method RunPending(ledger: Ledger, migs: seq<string>, applied: Applied, exec: string -> bool, columnsAfter: string -> seq<string>)
    returns (ok: bool, ghost count: nat, ghost stop: nat)
    modifies ledger
    ensures count <= |Pending(migs, applied)|
    ensures ledger.ran == old(ledger.ran) + Pending(migs, applied)[..count]
    ensures ok ==> count == |Pending(migs, applied)| && AllRecorded(ledger.rows, Pending(migs, applied), columnsAfter)
    ensures !ok ==> StoppedAt(Pending(migs, applied), stop, ledger.rows, ledger.ran, old(ledger.ran), exec, columnsAfter)
    ensures |old(ledger.rows)| <= |ledger.rows| && ledger.rows[..|old(ledger.rows)|] == old(ledger.rows)
    ensures ledger.present == old(ledger.present)
  {
    ghost var rows0 := ledger.rows;
    ghost var ran0 := ledger.ran;
    ghost var done: seq<string> := [];
    for i := 0 to |migs|
      invariant done == Pending(migs[..i], applied)
      invariant Progress(ledger.ran, ledger.rows, ran0, rows0, done, columnsAfter)
      invariant ledger.present == old(ledger.present)
    {
      var stepped;
      ghost var before := done;
      stepped, done, count := RunOne(ledger, migs, i, applied, exec, columnsAfter, ran0, rows0, done);
      if !stepped {
        return false, count, |before|;
      }
    }
    assert migs[..|migs|] == migs;
    ghost var p := Pending(migs, applied);
    assert p[..|p|] == p;
    return true, |p|, 0;
  }

  /**
   * Apply: make sure the ledger exists, list the migrations, read what is
   * recorded, then run in sorted order every migration not skipped, stopping
   * at the first failure. The scripts run are always a prefix of the pending
   * ones (all of them on success), the ledger only grows, and on success
   * each pending migration has its row. A failure comes from the first
   * pending migration that cannot be applied: every one before it ran and
   * has its row, its own script ran or not, and nothing after it ran.
   */
  method Apply(ledger: Ledger, entries: seq<Entry>, exec: string -> bool, columnsAfter: string -> seq<string>)
    returns (ok: bool)
    modifies ledger
    ensures var rows0 := if old(ledger.present) then old(ledger.rows) else [];
            var p := Pending(Ordered(Eligible(entries)), AppliedOf(rows0, Columns(true, true)));
            && (exists k :: 0 <= k <= |p| && ledger.ran == old(ledger.ran) + p[..k] && (ok ==> k == |p|))
            && (ok ==> forall m :: m in p ==> HasRow(ledger.rows, m, columnsAfter(m)))
            && (!ok ==> exists k :: StoppedAt(p, k, ledger.rows, ledger.ran, old(ledger.ran), exec, columnsAfter))
            && |rows0| <= |ledger.rows| && ledger.rows[..|rows0|] == rows0
    ensures ledger.present
  {
    ledger.EnsureTable();
    var migs := ListMigrations(entries);
    var applied := ledger.AppliedMigrations();
    ghost var count, stop;
    ok, count, stop := RunPending(ledger, migs, applied, exec, columnsAfter);
  }

  /**
   * A second Apply after a successful one runs nothing, as long as the
   * scripts leave the `name` column in place: every migration is then
   * recorded by name, either from before or by the first run.
   */
  lemma {:induction false} SecondRunSkipsAll(migs: seq<string>, oldRows: seq<Record>, newRows: seq<Record>,
                                             columnsAfter: string -> seq<string>)
    requires forall r :: r in oldRows ==> r in newRows
    requires forall m :: m in Pending(migs, AppliedOf(oldRows, Columns(true, true))) ==>
               HasRow(newRows, m, columnsAfter(m))
    requires forall m :: m in migs ==> "name" in columnsAfter(m)
    ensures Pending(migs, AppliedOf(newRows, Columns(true, true))) == []
    decreases |migs|
  {
    var both := Columns(true, true);
    if |migs| > 0 {
      var init := migs[..|migs| - 1];
      var m := migs[|migs| - 1];
      var before, after := AppliedOf(oldRows, both), AppliedOf(newRows, both);
      assert forall x :: x in init ==> x in migs;
      PendingLast(migs, before);
      PendingLast(migs, after);
      SecondRunSkipsAll(init, oldRows, newRows, columnsAfter);
      if Skipped(m, before) {
        if m in before.names {
          var r :| r in oldRows && r.name == Some(m);
          assert r in newRows;
        } else {
          var r :| r in oldRows && r.version == Some(ParseVersion(m));
          assert r in newRows;
        }
      } else {
        assert m in Pending(migs, before);
        var rec := RecordFor(m, ColumnsIn(columnsAfter(m))).value;
        assert rec in newRows && rec.name == Some(m);
      }
      assert Skipped(m, after);
    }
  }
}

=== FILE: numbers.dfy ===
/**
 * Decimal conversions from Go's `strconv` package as the code uses them:
 * FormatUint / %d for non-negative values, Atoi for signed 64-bit input and
 * ParseUint with an explicit bit size (whose result the argon2 decoder keeps
 * even when it reports an error).
 */
module Numbers {
  import opened Wrappers

  const MaxInt64: int := 0x7FFF_FFFF_FFFF_FFFF
  const MinInt64: int := -0x8000_0000_0000_0000

  predicate IsDigit(c: char) {
    '0' <= c <= '9'
  }

  predicate AllDigits(s: string) {
    forall i :: 0 <= i < |s| ==> IsDigit(s[i])
  }

  function DigitValue(c: char): nat
    requires IsDigit(c)
  {
    c as int - '0' as int
  }

  function DigitChar(d: nat): (c: char)
    requires d < 10
    ensures IsDigit(c) && DigitValue(c) == d
  {
    ('0' as int + d) as char
  }

  /** The value of the digit string `s` read left to right, starting from `acc`. */
  function DigitsFrom(s: string, acc: nat): nat
    requires AllDigits(s)
    decreases |s|
  {
    if |s| == 0 then acc else DigitsFrom(s[1..], acc * 10 + DigitValue(s[0]))
  }

  lemma {:induction false} DigitsFromAtLeast(s: string, acc: nat)
    requires AllDigits(s)
    ensures DigitsFrom(s, acc) >= acc
    decreases |s|
  {
    if |s| > 0 {
      DigitsFromAtLeast(s[1..], acc * 10 + DigitValue(s[0]));
    }
  }

  lemma {:induction false} DigitsFromAppend(a: string, b: string, acc: nat)
    requires AllDigits(a) && AllDigits(b)
    ensures AllDigits(a + b)
    ensures DigitsFrom(a + b, acc) == DigitsFrom(b, DigitsFrom(a, acc))
    decreases |a|
  {
    if |a| == 0 {
      assert a + b == b;
    } else {
      assert (a + b)[1..] == a[1..] + b;
      DigitsFromAppend(a[1..], b, acc * 10 + DigitValue(a[0]));
    }
  }

  /** strconv.FormatUint(n, 10): the shortest decimal spelling of `n`. */
  function FormatNat(n: nat): (s: string)
    ensures |s| >= 1 && AllDigits(s)
    ensures s[0] == '0' ==> n == 0
    decreases n
  {
    if n < 10 then [DigitChar(n)] else FormatNat(n / 10) + [DigitChar(n % 10)]
  }

  /** Reading back a formatted number gives the number. */
  lemma {:induction false} DigitsOfFormat(n: nat)
    ensures DigitsFrom(FormatNat(n), 0) == n
    decreases n
  {
    if n >= 10 {
      DigitsOfFormat(n / 10);
      DigitsFromAppend(FormatNat(n / 10), [DigitChar(n % 10)], 0);
    }
  }

  /** Different numbers are formatted differently. */
  lemma FormatNatInjective(a: nat, b: nat)
    requires FormatNat(a) == FormatNat(b)
    ensures a == b
  {
    DigitsOfFormat(a);
    DigitsOfFormat(b);
  }

  /**
   * strconv.Atoi for a 64-bit int: an optional '+' or '-', then one or more
   * decimal digits, within the int64 range; anything else is an error (None).
   */
  function Atoi(s: string): (r: Option<int>)
    ensures r.Some? ==> MinInt64 <= r.value <= MaxInt64
    ensures r.Some? ==> |s| >= 1 && (IsDigit(s[0]) || s[0] == '+' || s[0] == '-')
  {
    if |s| == 0 then None
    else
      var neg := s[0] == '-';
      var body := if s[0] == '-' || s[0] == '+' then s[1..] else s;
      if |body| == 0 || !AllDigits(body) then None
      else
        var magnitude: int := DigitsFrom(body, 0);
        var v: int := if neg then -magnitude else magnitude;
        if MinInt64 <= v <= MaxInt64 then Some(v) else None
  }

  /** Atoi reads back every formatted int64 value. */
  lemma AtoiFormat(n: nat)
    requires n <= MaxInt64
    ensures Atoi(FormatNat(n)) == Some(n)
  {
    DigitsOfFormat(n);
  }

  /** Atoi accepts a string only when every character after an optional sign is a digit. */
  lemma AtoiNeedsDigits(s: string, i: nat)
    requires 0 < i < |s| && !IsDigit(s[i])
    ensures Atoi(s) == None
  {
  }

  /** The left-to-right digit loop of strconv.ParseUint (base 10) from `acc`, saturating at `max`. */
  function ParseUintFrom(s: string, acc: nat, max: nat): (r: nat)
    requires acc <= max
    ensures r <= max
    decreases |s|
  {
    if |s| == 0 then acc
    else if !IsDigit(s[0]) then 0
    else
      var n := acc * 10 + DigitValue(s[0]);
      if n > max then max else ParseUintFrom(s[1..], n, max)
  }

  /**
   * The value strconv.ParseUint(s, 10, bits) returns, whether or not it also
   * reports an error: 0 on a syntax error (including ""), the largest value
   * `max` = 2^bits - 1 as soon as the digits read so far exceed it.
   */
  function ParseUint(s: string, max: nat): (r: nat)
    ensures r <= max
  {
    if |s| == 0 then 0 else ParseUintFrom(s, 0, max)
  }

  lemma {:induction false} ParseUintFromDigits(s: string, acc: nat, max: nat)
    requires AllDigits(s) && acc <= max && DigitsFrom(s, acc) <= max
    ensures ParseUintFrom(s, acc, max) == DigitsFrom(s, acc)
    decreases |s|
  {
    if |s| > 0 {
      var n := acc * 10 + DigitValue(s[0]);
      DigitsFromAtLeast(s[1..], n);
      ParseUintFromDigits(s[1..], n, max);
    }
  }

  /** ParseUint reads back every formatted value that fits in the bit size. */
  lemma ParseUintFormat(n: nat, max: nat)
    requires n <= max
    ensures ParseUint(FormatNat(n), max) == n
  {
    DigitsOfFormat(n);
    ParseUintFromDigits(FormatNat(n), 0, max);
  }

  /**
   * parseInt of the HTTP handlers: the query value when Atoi reads it as an
   * integer of at least 1, otherwise the fallback (also for "").
   */
  function ParseInt(raw: string, fallback: int): (r: int)
    ensures Atoi(raw).Some? && Atoi(raw).value >= 1 ==> r == Atoi(raw).value
    ensures !(Atoi(raw).Some? && Atoi(raw).value >= 1) ==> r == fallback
    ensures r >= 1 || r == fallback
  {
    if raw == "" then fallback
    else match Atoi(raw)
      case None => fallback
      case Some(v) => if v < 1 then fallback else v
  }

  /** parseInt reads back every positive formatted value. */
  lemma ParseIntFormat(n: nat, fallback: int)
    requires 1 <= n <= MaxInt64
    ensures ParseInt(FormatNat(n), fallback) == n
  {
    AtoiFormat(n);
  }
}

=== FILE: password.dfy ===
/**
 * Password hashing and checking of the token service (internal/services/auth.go):
 * the argon2id encoded-hash string, its decoder, the dispatch between argon2id
 * and bcrypt hashes, and the constant-time byte comparison.
 *
 * The key derivation function (argon2.IDKey), the bcrypt comparison and the
 * random salt are not modelled; they are parameters.
 */
module Passwords {
  import opened Wrappers
  import opened Text
  import opened Numbers
  import opened Base64

  /** argon2Params: memory in KiB, passes, lanes, and the salt and key lengths in bytes. */
  datatype Params = Params(memory: nat, iterations: nat, parallelism: nat, saltLength: nat, keyLength: nat)

  /** A decoded hash string: the parameters, the salt and the stored key. */
  datatype Decoded = Decoded(params: Params, salt: seq<byte>, key: seq<byte>)

  /** Why decodeArgon2id refused a string. */
  datatype DecodeError = InvalidFormat | InvalidType | BadSalt | BadKey

  /** argon2.IDKey(password, salt, time, memory, threads, keyLen). */
  type Kdf = (string, seq<byte>, nat, nat, nat, nat) -> seq<byte>

  /** bcrypt.CompareHashAndPassword(hash, password) == nil. */
  type BcryptMatches = (string, string) -> bool

  const MaxUint32: nat := 0xFFFF_FFFF
  const MaxUint8: nat := 0xFF

  /** The parameters hashArgon2id uses for every new hash. */
  const HashParams: Params := Params(65536, 3, 1, 16, 32)

  /** The text of a hash string up to the salt, as hashArgon2id assembles it. */
  function HashHeader(p: Params): string {
    "$argon2id$v=19$m=" + FormatNat(p.memory) + ",t=" + FormatNat(p.iterations)
      + ",p=" + FormatNat(p.parallelism) + "$"
  }

  /**
   * hashArgon2id with the random salt as a parameter: None stands for a failed
   * read from crypto/rand, which is returned as an error.
   */
  function HashArgon2id(raw: string, salt: Option<seq<byte>>, kdf: Kdf): (r: Result<string, string>)
    requires salt.Some? ==> |salt.value| == HashParams.saltLength
    ensures salt.None? <==> r.Err?
    ensures r.Ok? ==> HasPrefix(r.value, "$argon2id$v=19$m=65536,t=3,p=1$")
  {
    match salt
    case None => Err("crypto/rand read failed")
    case Some(s) =>
      var key := kdf(raw, s, HashParams.iterations, HashParams.memory, HashParams.parallelism, HashParams.keyLength);
      HeaderLiteral();
      Ok(HashHeader(HashParams) + Encode(s) + "$" + Encode(key))
  }

  lemma HeaderLiteral()
    ensures HashHeader(HashParams) == "$argon2id$v=19$m=65536,t=3,p=1$"
  {
    assert FormatNat(65536) == "65536";
    assert FormatNat(3) == "3";
    assert FormatNat(1) == "1";
  }

  /** HashPassword delegates to hashArgon2id. */
  function HashPassword(raw: string, salt: Option<seq<byte>>, kdf: Kdf): (r: Result<string, string>)
    requires salt.Some? ==> |salt.value| == HashParams.saltLength
    ensures salt.Some? ==> r.Ok? && HasPrefix(r.value, "$argon2")
    ensures salt.None? ==> r.Err?
  {
    var r := HashArgon2id(raw, salt, kdf);
    if r.Ok? then assert HasPrefix(r.value, "$argon2") by { assert r.value[..7] == r.value[..31][..7]; } r else r
  }

  /** One `key=value` item of the parameter section; items without '=' and unknown keys change nothing. */
  function ApplyParam(p: Params, kv: string): Params {
    match Cut(kv, '=')
    case None => p
    case Some((k, v)) =>
      if k == "m" then p.(memory := ParseUint(v, MaxUint32))
      else if k == "t" then p.(iterations := ParseUint(v, MaxUint32))
      else if k == "p" then p.(parallelism := ParseUint(v, MaxUint8))
      else p
  }

  /** The parameters after the loop over the comma-separated items, applied in order. */
  function ParamsOf(p: Params, items: seq<string>): Params
    decreases |items|
  {
    if |items| == 0 then p else ApplyParam(ParamsOf(p, items[..|items| - 1]), items[|items| - 1])
  }

  const NoParams: Params := Params(0, 0, 0, 0, 0)

  /** What decodeArgon2id returns for an encoded hash. */
  function DecodeSpec(encoded: string): Result<Decoded, DecodeError> {
    var parts := Split(encoded, '$');
    if |parts| != 6 then Err(InvalidFormat)
    else if !HasPrefix(parts[1], "argon2") then Err(InvalidType)
    else
      var params := ParamsOf(NoParams, Split(parts[3], ','));
      match Base64.Decode(parts[4])
      case None => Err(BadSalt)
      case Some(salt) =>
        match Base64.Decode(parts[5])
        case None => Err(BadKey)
        case Some(key) => Ok(Decoded(params.(saltLength := |salt|, keyLength := |key|), salt, key))
  }

  /** decodeArgon2id: the parameter section is read item by item. */
  method DecodeArgon2id(encoded: string) returns (r: Result<Decoded, DecodeError>)
    ensures r == DecodeSpec(encoded)
  {
    var parts := Split(encoded, '$');
    if |parts| != 6 {
      return Err(InvalidFormat);
    }
    var params := NoParams;
    if !HasPrefix(parts[1], "argon2") {
      return Err(InvalidType);
    }
    var paramValues := Split(parts[3], ',');
    var i := 0;
    while i < |paramValues|
      invariant 0 <= i <= |paramValues|
      invariant params == ParamsOf(NoParams, paramValues[..i])
    {
      assert paramValues[..i + 1][..i] == paramValues[..i];
      var pair := Cut(paramValues[i], '=');
      if pair.Some? {
        var (k, v) := pair.value;
        if k == "m" {
          params := params.(memory := ParseUint(v, MaxUint32));
        } else if k == "t" {
          params := params.(iterations := ParseUint(v, MaxUint32));
        } else if k == "p" {
          params := params.(parallelism := ParseUint(v, MaxUint8));
        }
      }
      i := i + 1;
    }
    assert paramValues[..i] == paramValues;
    var salt := Base64.Decode(parts[4]);
    if salt.None? {
      return Err(BadSalt);
    }
    var hash := Base64.Decode(parts[5]);
    if hash.None? {
      return Err(BadKey);
    }
    params := params.(saltLength := |salt.value|, keyLength := |hash.value|);
    return Ok(Decoded(params, salt.value, hash.value));
  }

  /** The argon2id check verifyArgon2id performs: decodable, and the derived key equals the stored one. */
  predicate Argon2Matches(raw: string, encoded: string, kdf: Kdf) {
    var d := DecodeSpec(encoded);
    d.Ok? && kdf(raw, d.value.salt, d.value.params.iterations, d.value.params.memory,
                 d.value.params.parallelism, d.value.params.keyLength) == d.value.key
  }

  /**
   * subtleCompare: false for different lengths; otherwise the XOR of every
   * pair of bytes is OR-ed into `diff` with no early exit. `steps` counts the
   * loop iterations.
   */
  method SubtleCompare(a: seq<byte>, b: seq<byte>) returns (eq: bool, ghost steps: nat)
    ensures eq <==> a == b
    ensures |a| == |b| ==> steps == |a|
  {
    steps := 0;
    if |a| != |b| {
      return false, steps;
    }
    var diff: bv8 := 0;
    var i := 0;
    while i < |a|
      invariant 0 <= i <= |a|
      invariant steps == i
      invariant diff == 0 <==> a[..i] == b[..i]
    {
      Bytes.XorOrZero(diff, a[i], b[i]);
      assert a[..i + 1] == a[..i] + [a[i]] && b[..i + 1] == b[..i] + [b[i]];
      diff := diff | (Bytes.Bits(a[i]) ^ Bytes.Bits(b[i]));
      i := i + 1;
      steps := steps + 1;
    }
    assert a[..i] == a && b[..i] == b;
    eq := diff == 0;
  }

  /** verifyArgon2id: a hash that does not decode never matches. */
  method VerifyArgon2id(raw: string, encoded: string, kdf: Kdf) returns (ok: bool)
    ensures ok <==> Argon2Matches(raw, encoded, kdf)
    ensures DecodeSpec(encoded).Err? ==> !ok
  {
    var d := DecodeArgon2id(encoded);
    if d.Err? {
      return false;
    }
    var p := d.value.params;
    var key := kdf(raw, d.value.salt, p.iterations, p.memory, p.parallelism, p.keyLength);
    ghost var steps;
    ok, steps := SubtleCompare(d.value.key, key);
  }

  /** Whether a password matches a stored hash under VerifyPassword's dispatch on the "$argon2" prefix. */
  predicate Matches(raw: string, hashed: string, kdf: Kdf, bcrypt: BcryptMatches) {
    if HasPrefix(hashed, "$argon2") then Argon2Matches(raw, hashed, kdf) else bcrypt(hashed, raw)
  }

  /** VerifyPassword: argon2id exactly when the stored hash starts with "$argon2", bcrypt otherwise. */
  method VerifyPassword(raw: string, hashed: string, kdf: Kdf, bcrypt: BcryptMatches) returns (ok: bool)
    ensures HasPrefix(hashed, "$argon2") ==> (ok <==> Argon2Matches(raw, hashed, kdf))
    ensures !HasPrefix(hashed, "$argon2") ==> ok == bcrypt(hashed, raw)
    ensures ok == Matches(raw, hashed, kdf, bcrypt)
  {
    if HasPrefix(hashed, "$argon2") {
      ok := VerifyArgon2id(raw, hashed, kdf);
    } else {
      ok := bcrypt(hashed, raw);
    }
  }

  /** The six '$'-separated fields of a hash string assembled from a header, salt and key. */
  lemma HashFields(p: Params, salt: seq<byte>, key: seq<byte>)
    ensures Split(HashHeader(p) + Encode(salt) + "$" + Encode(key), '$')
         == ["", "argon2id", "v=19", Section(p), Encode(salt), Encode(key)]
  {
    var a, b := Encode(salt), Encode(key);
    var parts := ["", "argon2id", "v=19", Section(p), a, b];
    DigitsHaveNoSeparators(p);
    EncodeHasNoSeparators(salt);
    EncodeHasNoSeparators(key);
    JoinSix(parts, '$');
    HeaderShape(p);
    SplitJoin(parts, '$');
  }

  /** The parameter section of a hash string. */
  function Section(p: Params): string {
    "m=" + FormatNat(p.memory) + ",t=" + FormatNat(p.iterations) + ",p=" + FormatNat(p.parallelism)
  }

  lemma JoinSix(parts: seq<string>, sep: char)
    requires |parts| == 6
    ensures Join(parts, sep) == parts[0] + [sep] + parts[1] + [sep] + parts[2] + [sep] + parts[3]
                                + [sep] + parts[4] + [sep] + parts[5]
  {
    assert parts[5..] == [parts[5]];
    assert parts[4..][1..] == parts[5..];
    assert parts[3..][1..] == parts[4..];
    assert parts[2..][1..] == parts[3..];
    assert parts[1..][1..] == parts[2..];
    assert Join(parts[4..], sep) == parts[4] + [sep] + parts[5];
    assert Join(parts[3..], sep) == parts[3] + [sep] + (parts[4] + [sep] + parts[5]);
    assert Join(parts[2..], sep) == parts[2] + [sep] + (parts[3] + [sep] + (parts[4] + [sep] + parts[5]));
    assert Join(parts[1..], sep)
        == parts[1] + [sep] + (parts[2] + [sep] + (parts[3] + [sep] + (parts[4] + [sep] + parts[5])));
  }

  lemma HeaderShape(p: Params)
    ensures HashHeader(p) == "" + "$" + "argon2id" + "$" + "v=19" + "$" + Section(p) + "$"
  {
    var f1, f2, f3 := FormatNat(p.memory), FormatNat(p.iterations), FormatNat(p.parallelism);
    assert "$argon2id$v=19$m=" == "" + "$" + "argon2id" + "$" + "v=19" + "$" + "m=";
  }

  lemma DigitsHaveNoSeparators(p: Params)
    ensures forall c :: c in FormatNat(p.memory) ==> c != '$' && c != ',' && c != '='
    ensures forall c :: c in FormatNat(p.iterations) ==> c != '$' && c != ',' && c != '='
    ensures forall c :: c in FormatNat(p.parallelism) ==> c != '$' && c != ',' && c != '='
  {
  }

  /** The parameter section splits at its commas into the three key=value items. */
  lemma SectionItems(p: Params)
    ensures Split(Section(p), ',') == ["m=" + FormatNat(p.memory), "t=" + FormatNat(p.iterations), "p=" + FormatNat(p.parallelism)]
  {
    var m, t, l := "m=" + FormatNat(p.memory), "t=" + FormatNat(p.iterations), "p=" + FormatNat(p.parallelism);
    DigitsHaveNoSeparators(p);
    assert ",t=" == "," + "t=" && ",p=" == "," + "p=";
    assert Section(p) == m + "," + t + "," + l;
    assert Join([m, t, l][2..], ',') == l;
    assert Join([m, t, l][1..], ',') == t + "," + l;
    assert Join([m, t, l], ',') == m + "," + t + "," + l;
    SplitJoin([m, t, l], ',');
  }

  /** The item m=<n> sets the memory. */
  lemma MemoryItem(q: Params, n: nat)
    requires n <= MaxUint32
    ensures ApplyParam(q, "m=" + FormatNat(n)) == q.(memory := n)
  {
    assert "m=" + FormatNat(n) == "m" + ['='] + FormatNat(n);
    CutAfterKey("m", '=', FormatNat(n));
    ParseUintFormat(n, MaxUint32);
  }

  /** The item t=<n> sets the iterations. */
  lemma IterationsItem(q: Params, n: nat)
    requires n <= MaxUint32
    ensures ApplyParam(q, "t=" + FormatNat(n)) == q.(iterations := n)
  {
    assert "t=" + FormatNat(n) == "t" + ['='] + FormatNat(n);
    CutAfterKey("t", '=', FormatNat(n));
    ParseUintFormat(n, MaxUint32);
  }

  /** The item p=<n> sets the parallelism. */
  lemma ParallelismItem(q: Params, n: nat)
    requires n <= MaxUint8
    ensures ApplyParam(q, "p=" + FormatNat(n)) == q.(parallelism := n)
  {
    assert "p=" + FormatNat(n) == "p" + ['='] + FormatNat(n);
    CutAfterKey("p", '=', FormatNat(n));
    ParseUintFormat(n, MaxUint8);
  }

  /** Applying the items m=…, t=…, p=… in turn sets the three values they carry. */
  lemma ItemsSetParams(p: Params)
    requires p.memory <= MaxUint32 && p.iterations <= MaxUint32 && p.parallelism <= MaxUint8
    ensures var q := ParamsOf(NoParams, ["m=" + FormatNat(p.memory), "t=" + FormatNat(p.iterations), "p=" + FormatNat(p.parallelism)]);
            q.memory == p.memory && q.iterations == p.iterations && q.parallelism == p.parallelism
  {
    var m, t, l := "m=" + FormatNat(p.memory), "t=" + FormatNat(p.iterations), "p=" + FormatNat(p.parallelism);
    MemoryItem(NoParams, p.memory);
    var q1 := NoParams.(memory := p.memory);
    IterationsItem(q1, p.iterations);
    var q2 := q1.(iterations := p.iterations);
    ParallelismItem(q2, p.parallelism);
    assert [m][..0] == [];
    assert ParamsOf(NoParams, [m]) == q1;
    assert [m, t][..1] == [m];
    assert ParamsOf(NoParams, [m, t]) == q2;
    assert [m, t, l][..2] == [m, t];
  }

  /** Reading the parameter section hashArgon2id writes gives back its three values. */
  lemma ParamsRoundTrip(p: Params)
    requires p.memory <= MaxUint32 && p.iterations <= MaxUint32 && p.parallelism <= MaxUint8
    ensures var q := ParamsOf(NoParams, Split(Section(p), ','));
            q.memory == p.memory && q.iterations == p.iterations && q.parallelism == p.parallelism
  {
    SectionItems(p);
    ItemsSetParams(p);
  }

  /**
   * Round trip: decoding a hash string written by hashArgon2id gives the
   * parameters m=65536, t=3, p=1, the salt's length, the key's length, and
   * the same salt and key.
   */
  lemma {:induction false} DecodeHash(raw: string, salt: seq<byte>, kdf: Kdf)
    requires |salt| == HashParams.saltLength
    ensures var key := kdf(raw, salt, 3, 65536, 1, 32);
            DecodeSpec(HashArgon2id(raw, Some(salt), kdf).value)
              == Ok(Decoded(Params(65536, 3, 1, 16, |key|), salt, key))
  {
    var key := kdf(raw, salt, 3, 65536, 1, 32);
    HashFields(HashParams, salt, key);
    ParamsRoundTrip(HashParams);
    DecodeEncode(salt);
    DecodeEncode(key);
    assert HasPrefix("argon2id", "argon2");
  }

  /**
   * With a key derivation that returns the 32 bytes asked for, a password
   * matches the hash made from it.
   */
  lemma {:induction false} HashThenVerify(raw: string, salt: seq<byte>, kdf: Kdf)
    requires |salt| == HashParams.saltLength
    requires |kdf(raw, salt, 3, 65536, 1, 32)| == 32
    ensures HashPassword(raw, Some(salt), kdf).Ok?
    ensures Argon2Matches(raw, HashPassword(raw, Some(salt), kdf).value, kdf)
  {
    DecodeHash(raw, salt, kdf);
  }

  /** The version field (the third '$'-separated field) is never looked at. */
  lemma {:induction false} VersionIgnored(parts: seq<string>, version: string)
    requires |parts| == 6 && '$' !in version
    requires forall k :: 0 <= k < 6 ==> '$' !in parts[k]
    ensures DecodeSpec(Join(parts, '$')) == DecodeSpec(Join(parts[2 := version], '$'))
  {
    SplitJoin(parts, '$');
    SplitJoin(parts[2 := version], '$');
  }

  /** A hash string that does not split into exactly six '$'-separated fields never matches. */
  lemma WrongFieldCount(raw: string, encoded: string, kdf: Kdf)
    requires |Split(encoded, '$')| != 6
    ensures DecodeSpec(encoded) == Err(InvalidFormat)
    ensures !Argon2Matches(raw, encoded, kdf)
  {
  }

  /** The decoded salt and key are the base64 decodings of the fifth and sixth fields. */
  lemma {:induction false} DecodedFields(encoded: string)
    requires DecodeSpec(encoded).Ok?
    ensures var parts := Split(encoded, '$');
            var d := DecodeSpec(encoded).value;
            |parts| == 6 && HasPrefix(parts[1], "argon2")
            && Base64.Decode(parts[4]) == Some(d.salt) && Base64.Decode(parts[5]) == Some(d.key)
            && d.params.saltLength == |d.salt| && d.params.keyLength == |d.key|
  {
  }
}

=== FILE: public_api.dfy ===
/**
 * The public site endpoints of public.go: the search box, the visit
 * tracker and the visit counter, with their string helpers.
 *
 * The search SELECT is a parameter: for a LIKE pattern it yields the
 * matching published entries in its ORDER BY order; the model applies the
 * LIMIT. Lengths are counted in characters.
 */
module PublicApi {
  import opened Wrappers
  import opened Text
  import opened ResourceText
  import opened Store
  import opened Replies
  import opened ResourceHelpers

  /** One row of the search SELECT. */
  datatype SearchRow = SearchRow(id: string, title: string, slug: string)

  /** A search hit as the response lists it. */
  datatype SearchItem = SearchItem(id: string, title: string, slug: string, href: Option<string>, kind: string,
                                   parentId: Option<string>)

  /** The search SELECT for a LIKE pattern, without its LIMIT. */
  type SearchQuery = string -> seq<SearchRow>

  const SearchLimit: nat := 20

  /* ------------------------------------------------------------ helpers */

  /**
   * resolveClientIP: the first comma-separated entry of X-Forwarded-For,
   * trimmed, when that header is not empty; the connection's address
   * otherwise.
   */
  function ResolveClientIp(forwarded: string, remoteAddr: string): (ip: string)
    ensures forwarded == "" ==> ip == remoteAddr
    ensures forwarded != "" ==> ip == TrimSpace(Split(forwarded, ',')[0])
  {
    if forwarded != "" then TrimSpace(Split(forwarded, ',')[0]) else remoteAddr
  }

  /** The address taken from X-Forwarded-For is a single trimmed entry: it holds no comma. */
  lemma ForwardedIpIsOneEntry(forwarded: string, remoteAddr: string)
    requires forwarded != ""
    ensures ',' !in ResolveClientIp(forwarded, remoteAddr)
    ensures IsTrimmed(ResolveClientIp(forwarded, remoteAddr))
  {
    var first := Split(forwarded, ',')[0];
    SplitPartsFree(forwarded, ',');
    TrimSpaceEnds(first);
    TrimSpaceIsInfix(first);
    var i, j :| 0 <= i <= j <= |first| && TrimSpace(first) == first[i..j];
    assert forall c :: c in first[i..j] ==> c in first;
  }

  /** trimString: "" for a blank value, otherwise the trimmed value cut to at most maxLen characters. */
  function TrimString(value: string, maxLen: nat): (r: string)
    ensures IsBlank(value) ==> r == ""
    ensures HasPrefix(TrimSpace(value), r) && |r| <= maxLen
    ensures |TrimSpace(value)| <= maxLen ==> r == TrimSpace(value)
    ensures |TrimSpace(value)| > maxLen ==> |r| == maxLen
  {
    var trimmed := TrimSpace(value);
    if trimmed == "" then ""
    else if |trimmed| > maxLen then trimmed[..maxLen]
    else trimmed
  }

  /* ------------------------------------------------------------ PublicSearch */

  /** The LIKE pattern for a cleaned term: the lower-cased term between two `%`. */
  function SearchPattern(term: string): (like: string)
    ensures |like| == |term| + 2 && like[0] == '%' && like[|like| - 1] == '%'
    ensures like[1..|like| - 1] == Lower(term)
  {
    "%" + Lower(term) + "%"
  }

  /** The item of a search row. */
  function ItemOf(row: SearchRow): (item: SearchItem)
    ensures item.id == row.id && item.title == row.title && item.slug == row.slug
    ensures item.kind == "RESOURCE" && item.href.None? && item.parentId.None?
  {
    SearchItem(row.id, row.title, row.slug, None, "RESOURCE", None)
  }

  /** The rows LIMIT 20 keeps: the first twenty. */
  function Limited(rows: seq<SearchRow>): (r: seq<SearchRow>)
    ensures |r| <= SearchLimit && |r| <= |rows| && r == rows[..|r|]
    ensures |rows| <= SearchLimit ==> r == rows
  {
    if |rows| <= SearchLimit then rows else rows[..SearchLimit]
  }

  /**
   * PublicSearch: the query parameter is trimmed and cleaned; an empty term
   * answers an empty list without querying; otherwise the first twenty rows
   * for the term's pattern, each as a RESOURCE item, in the query's order.
   */
  method PublicSearch(q: string, query: SearchQuery) returns (reply: Reply<seq<SearchItem>>)
    ensures reply.Done? && reply.status == 200
    ensures IsBlank(q) ==> reply.body == []
    ensures var term := CleanSearchTerm(TrimSpace(q));
            term != "" ==> && |reply.body| == |Limited(query(SearchPattern(term)))|
                           && forall k :: 0 <= k < |reply.body| ==> reply.body[k] == ItemOf(query(SearchPattern(term))[k])
    ensures |reply.body| <= SearchLimit
  {
    var term := CleanSearchTerm(TrimSpace(q));
    if term == "" {
      TrimSpaceIdempotent(q);
      return Done(200, []);
    }
    var rows := Limited(query(SearchPattern(term)));
    var items: seq<SearchItem> := [];
    var i := 0;
    while i < |rows|
      invariant 0 <= i <= |rows|
      invariant |items| == i
      invariant forall k :: 0 <= k < i ==> items[k] == ItemOf(rows[k])
    {
      items := items + [ItemOf(rows[i])];
      i := i + 1;
    }
    TrimSpaceIdempotent(q);
    return Done(200, items);
  }

  /* ------------------------------------------------------------ TrackVisit and VisitCount */

  /** The site_visits row TrackVisit inserts. */
  function VisitOf(forwarded: string, remoteAddr: string, userAgent: string, path: Option<string>,
                   referrer: Option<string>): (v: Visit)
    ensures v.ip == NullIfEmpty(ResolveClientIp(forwarded, remoteAddr))
    ensures v.userAgent == NullIfEmpty(TrimString(userAgent, 512))
    ensures v.path == NullIfEmpty(TrimString(Deref(path), 255))
    ensures v.referrer == NullIfEmpty(TrimString(Deref(referrer), 512))
  {
    Visit(NullIfEmpty(ResolveClientIp(forwarded, remoteAddr)), NullIfEmpty(TrimString(userAgent, 512)),
          NullIfEmpty(TrimString(Deref(path), 255)), NullIfEmpty(TrimString(Deref(referrer), 512)))
  }

  /** The stored text columns of a visit are within their caps: 512 for the user agent and referrer, 255 for the path. */
  lemma VisitCaps(forwarded: string, remoteAddr: string, userAgent: string, path: Option<string>, referrer: Option<string>)
    ensures var v := VisitOf(forwarded, remoteAddr, userAgent, path, referrer);
            && (v.userAgent.Some? ==> |v.userAgent.value| <= 512)
            && (v.path.Some? ==> |v.path.value| <= 255)
            && (v.referrer.Some? ==> |v.referrer.value| <= 512)
  {
  }

  /**
   * TrackVisit: the visit is recorded with the client address, the capped
   * user agent, path and referrer (blank ones as NULL); a body that does
   * not decode counts as one without path and referrer. The answer is
   * always 204.
   */
  method TrackVisit(db: Db, forwarded: string, remoteAddr: string, userAgent: string, path: Option<string>,
                    referrer: Option<string>)
    returns (reply: Reply<Empty>)
    modifies db`visits
    ensures db.visits == old(db.visits) + [VisitOf(forwarded, remoteAddr, userAgent, path, referrer)]
    ensures reply == Done(204, Empty)
  {
    var ip := ResolveClientIp(forwarded, remoteAddr);
    var ua := TrimString(userAgent, 512);
    var p := TrimString(Deref(path), 255);
    var ref := TrimString(Deref(referrer), 512);
    db.visits := db.visits + [Visit(NullIfEmpty(ip), NullIfEmpty(ua), NullIfEmpty(p), NullIfEmpty(ref))];
    reply := Done(204, Empty);
  }

  /** VisitCount: the number of recorded visits. */
  method VisitCount(db: Db) returns (reply: Reply<int>)
    ensures reply == Done(200, |db.visits|)
  {
    reply := Done(200, |db.visits|);
  }
}

=== FILE: public_resources.dfy ===
/**
 * The public resource endpoints: the paged list of published entries,
 * optionally of one category, and the detail of a published entry by slug.
 * The category list is the same query as ListCategories.
 *
 * `ordered` stands for the entries' ids as `ORDER BY published_at DESC`
 * returns them.
 */
module PublicResources {
  import opened Wrappers
  import opened Seqs
  import opened Text
  import opened Numbers
  import opened Store
  import opened Replies
  import opened ResourceHelpers
  import opened TeacherResources
  import AdminUsers

  const DefaultLimit: int := 9
  const DefaultPage: int := 1

  /** The list response: one page of cards, the number of matching entries, the page and its size. */
  datatype ResourcePage = ResourcePage(items: seq<CardView>, total: int, page: int, size: int)

  /** The page size: the `limit` parameter when it is a positive integer, else 9; there is no upper bound. */
  function PublicLimit(raw: string): (limit: int)
    ensures limit >= 1
    ensures Atoi(raw).Some? && Atoi(raw).value >= 1 ==> limit == Atoi(raw).value
    ensures !(Atoi(raw).Some? && Atoi(raw).value >= 1) ==> limit == DefaultLimit
  {
    var limit := ParseInt(raw, DefaultLimit);
    if limit < 1 then DefaultLimit else limit
  }

  /** The page number: the `page` parameter when it is a positive integer, else 1. */
  function PublicPage(raw: string): (page: int)
    ensures page >= 1
    ensures Atoi(raw).Some? && Atoi(raw).value >= 1 ==> page == Atoi(raw).value
  {
    ParseInt(raw, DefaultPage)
  }

  /** Any written positive limit is honoured, however large. */
  lemma LimitUncapped(n: nat)
    requires 1 <= n <= MaxInt64
    ensures PublicLimit(FormatNat(n)) == n
  {
    ParseIntFormat(n, DefaultLimit);
  }

  /** The entry is listed: PUBLISHED, and of the category when one is asked for. */
  predicate Shown(e: Resource, category: string) {
    e.status == Published && (category == "" || e.categoryCode == category)
  }

  /** The ids of `ordered` whose entry is shown, in the same order. */
  function ShownIds(resources: map<string, Resource>, ordered: seq<string>, category: string): (ids: seq<string>)
    ensures |ids| <= |ordered|
    ensures forall id :: id in ids <==> id in ordered && id in resources && Shown(resources[id], category)
    ensures Distinct(ordered) ==> Distinct(ids)
    decreases |ordered|
  {
    if |ordered| == 0 then []
    else
      var rest := ShownIds(resources, ordered[..|ordered| - 1], category);
      var id := ordered[|ordered| - 1];
      DistinctInit(ordered);
      assert forall x :: x in ordered <==> x in ordered[..|ordered| - 1] || x == id;
      if id in resources && Shown(resources[id], category) then rest + [id] else rest
  }

  /** `items` are the cards of `rows`, all of them shown entries. */
  ghost predicate CardsOfShown(db: Db, category: string, rows: seq<string>, items: seq<CardView>)
    reads db`categories, db`users, db`profiles, db`resources
  {
    && |items| == |rows|
    && forall k :: 0 <= k < |rows| ==>
         rows[k] in db.resources && Shown(db.resources[rows[k]], category) && items[k] == CardOf(db, rows[k])
  }

  /** A page holds only rows of the listing it is cut from. */
  lemma PageRowsListed(m: seq<string>, page: int, size: int)
    requires page >= 1 && size >= 1
    ensures forall k :: 0 <= k < |AdminUsers.PageRows(m, page, size)| ==> AdminUsers.PageRows(m, page, size)[k] in m
  {
    var rows := AdminUsers.PageRows(m, page, size);
    var offset := (page - 1) * size;
    if offset < |m| {
      forall k | 0 <= k < |rows|
        ensures rows[k] in m
      {
        assert rows[k] == m[offset + k];
      }
    }
  }

  /**
   * PublicResources: the cards of one page of the shown entries, newest
   * first, with their number, the page and the size. The offset is taken
   * as the mathematical (page - 1) * limit. `ordered` is the table's ids as
   * `ORDER BY published_at DESC` returns them: each entry once.
   */
  method PublicResourceList(db: Db, rawCategory: string, rawLimit: string, rawPage: string, ordered: seq<string>)
    returns (reply: Reply<ResourcePage>)
    requires Distinct(ordered)
    requires forall id :: id in ordered <==> id in db.resources
    ensures reply.Done? && reply.body.total == |set id | id in db.resources && Shown(db.resources[id], TrimSpace(rawCategory))|
    ensures Distinct(ShownIds(db.resources, ordered, TrimSpace(rawCategory)))
    ensures var shown := ShownIds(db.resources, ordered, TrimSpace(rawCategory));
            && reply.Done? && reply.status == 200
            && reply.body.total == |shown|
            && reply.body.page == PublicPage(rawPage) && reply.body.size == PublicLimit(rawLimit)
            && CardsOfShown(db, TrimSpace(rawCategory), AdminUsers.PageRows(shown, PublicPage(rawPage), PublicLimit(rawLimit)),
                            reply.body.items)
  {
    var category := TrimSpace(rawCategory);
    var limit := PublicLimit(rawLimit);
    var page := PublicPage(rawPage);
    var shown := ShownIds(db.resources, ordered, category);
    DistinctCount(shown, set id | id in db.resources && Shown(db.resources[id], category));
    var rows := AdminUsers.PageRows(shown, page, limit);
    PageRowsListed(shown, page, limit);
    var items := Cards(db, rows);
    return Done(200, ResourcePage(items, |shown|, page, limit));
  }

  /**
   * The first row a page shows is the entry at position (page - 1) * limit
   * of the shown entries, so consecutive pages neither skip nor repeat one.
   */
  lemma PageStartsAtOffset(shown: seq<string>, page: int, limit: int)
    requires page >= 1 && limit >= 1 && (page - 1) * limit < |shown|
    ensures AdminUsers.PageRows(shown, page, limit)[0] == shown[(page - 1) * limit]
  {
  }

  /**
   * As written, the offset is a 64-bit product: with a limit of 2^62 the
   * third page's offset wraps to -2^63, which the database refuses, so the
   * request fails instead of giving an empty page.
   */
  lemma HugeLimitWrapsNegative(shown: seq<string>)
    requires |shown| <= MaxInt64
    ensures AdminUsers.PageRowsAsWritten(shown, 3, 0x4000_0000_0000_0000).None?
    ensures AdminUsers.PageRows(shown, 3, 0x4000_0000_0000_0000) == []
  {
    assert (3 - 1) * 0x4000_0000_0000_0000 == 0x8000_0000_0000_0000;
    assert AdminUsers.Wrap64(0x8000_0000_0000_0000) == MinInt64;
  }

  /* ------------------------------------------------------------ detail */

  /** No two entries share a slug. */
  ghost predicate SlugsUnique(resources: map<string, Resource>) {
    forall a, b :: a in resources && b in resources && resources[a].slug == resources[b].slug ==> a == b
  }

  /**
   * PublicResourceDetail: 404 when no entry has the slug, 404 when the entry
   * found is not PUBLISHED, otherwise its detail.
   */
  method PublicResourceDetail(db: Db, slug: string) returns (reply: Reply<DetailView>)
    ensures (forall id :: id in db.resources ==> db.resources[id].slug != slug) <==> reply == Failure(404, ResourceAbsent)
    ensures reply.Failure? ==> reply == Failure(404, ResourceAbsent) || reply == Failure(404, ResourceNotPublic)
    ensures reply == Failure(404, ResourceNotPublic) ==>
              exists id :: id in db.resources && db.resources[id].slug == slug && db.resources[id].status != Published
    ensures reply.Done? ==>
              exists id :: && id in db.resources && db.resources[id].slug == slug && db.resources[id].status == Published
                           && reply == Done(200, DetailOf(db.categories, id, db.resources[id],
                                                          AuthorDisplayName(db.users, db.profiles, db.resources[id].authorId)))
    ensures SlugsUnique(db.resources) ==>
              (reply.Done? <==> exists id :: id in db.resources && db.resources[id].slug == slug && db.resources[id].status == Published)
  {
    if id :| id in db.resources && db.resources[id].slug == slug {
      var e := db.resources[id];
      if e.status != Published {
        return Failure(404, ResourceNotPublic);
      }
      return Done(200, DetailOf(db.categories, id, e, AuthorDisplayName(db.users, db.profiles, e.authorId)));
    }
    return Failure(404, ResourceAbsent);
  }
}

=== FILE: replies.dfy ===
/**
 * What a handler writes back: WriteError's status with a `{"message": …}`
 * body, or a success status with the handler's payload.
 *
 * The messages the handlers write are named by the constructors of Message;
 * Text gives the words the body carries. A ServiceError's own message is
 * passed through as Raw.
 */
module Replies {

  datatype Message =
    | InternalError | InvalidPayload | AuthenticationFailed | NotAllowed
    | PasswordMismatch | CredentialsRequired | UserExists | EmailRequired | EmailUnchangeable
    | UserNotFound | RoleNotFound | NameRequired | GroupNotFound | GroupMissing
    | OwnGroupsOnly | NoTeacherGrant | StudentsOnly
    | ResourceNotFound | ResourceGone | ResourceAbsent | ResourceNotPublic | MediaMissing
    | EmptyFile | TitleRequired | CategoryMissing | CategoryUnknown | CategoryInUse
    | Raw(text: string)

  /** The `message` field of the error body. */
  function Text(m: Message): string {
    match m
    case InternalError => "Internal server error"
    case InvalidPayload => "Invalid payload"
    case AuthenticationFailed => "Authentication failed"
    case NotAllowed => "Not allowed"
    case PasswordMismatch => "Password confirmation does not match"
    case CredentialsRequired => "Email and password are required"
    case UserExists => "User already exists"
    case EmailRequired => "Email is required"
    case EmailUnchangeable => "Email-ul nu poate fi modificat."
    case UserNotFound => "User not found"
    case RoleNotFound => "Role not found"
    case NameRequired => "Name is required"
    case GroupNotFound => "Group not found"
    case GroupMissing => "Grupul nu există."
    case OwnGroupsOnly => "Teacher can manage only own groups"
    case NoTeacherGrant => "Teacher cannot grant TEACHER role"
    case StudentsOnly => "Teacher can remove only students"
    case ResourceNotFound => "Resource not found"
    case ResourceGone => "Resursa nu a fost găsită."
    case ResourceAbsent => "Resursa nu există"
    case ResourceNotPublic => "Resursa nu este publică"
    case MediaMissing => "Media negăsită"
    case EmptyFile => "Fișierul este gol."
    case TitleRequired => "Titlul și descrierea sunt obligatorii."
    case CategoryMissing => "Categoria nu există."
    case CategoryUnknown => "Categoria selectată nu există."
    case CategoryInUse => "Nu poți șterge această categorie deoarece există resurse asociate."
    case Raw(t) => t
  }

  datatype Reply<+T> = Failure(status: int, message: Message) | Done(status: int, body: T)

  /** A success without a body (204 No Content). */
  datatype Empty = Empty
}

=== FILE: resource_helpers.dfy ===
/**
 * The small helpers the resource handlers share: the category view, the
 * author's display name, nil-to-empty dereferencing and the mapping of a
 * service error to its answer.
 */
module ResourceHelpers {
  import opened Wrappers
  import opened Text
  import opened Store
  import opened Replies
  import ServiceErrors

  /** The category as the resource views show it. */
  datatype CategoryDto = CategoryDto(code: string, labelText: string, group: string, sortOrder: int, groupOrder: int)

  /** fetchCategory: nothing for an unknown code, otherwise the row under that code. */
  function FetchCategory(categories: map<string, Category>, code: string): (r: Option<CategoryDto>)
    ensures r.None? <==> code !in categories
    ensures r.Some? ==> && r.value.code == code && r.value.labelText == categories[code].labelText
                        && r.value.group == categories[code].groupLabel
                        && r.value.sortOrder == categories[code].sortOrder
                        && r.value.groupOrder == categories[code].groupOrder
  {
    if code !in categories then None
    else
      var row := categories[code];
      Some(CategoryDto(code, row.labelText, row.groupLabel, row.sortOrder, row.groupOrder))
  }

  /** deref: a missing value reads as the empty string. */
  function Deref(value: Option<string>): (r: string)
    ensures value.None? ==> r == ""
    ensures value.Some? ==> r == value.value
  {
    if value.None? then "" else value.value
  }

  /** The name used when nothing better is known. */
  const Anonymous: string := "Profesor"

  /** A name part that is present and not blank. */
  predicate NamePart(part: Option<string>) {
    part.Some? && TrimSpace(part.value) != ""
  }

  /** The joined name: both parts trimmed, one space between them, the whole trimmed again. */
  function FullName(first: Option<string>, last: Option<string>): string {
    TrimSpace(TrimSpace(Deref(first)) + " " + TrimSpace(Deref(last)))
  }

  /**
   * authorDisplayName: "Profesor" for an unknown user; otherwise the joined
   * name when a part is not blank, else the e-mail, else "Profesor". The
   * name parts come from the LEFT-JOINed profile row and are missing when
   * there is none.
   */
  function AuthorDisplayName(users: map<string, User>, profiles: map<string, Profile>, authorId: string): (r: string)
    ensures r != ""
    ensures authorId !in users ==> r == Anonymous
    ensures authorId in users
            && (authorId !in profiles || (!NamePart(profiles[authorId].firstName) && !NamePart(profiles[authorId].lastName)))
            ==> r == (if users[authorId].email != "" then users[authorId].email else Anonymous)
  {
    if authorId !in users then Anonymous
    else
      var first := if authorId in profiles then profiles[authorId].firstName else None;
      var last := if authorId in profiles then profiles[authorId].lastName else None;
      var name := FullName(first, last);
      if (NamePart(first) || NamePart(last)) && name != "" then name
      else if users[authorId].email != "" then users[authorId].email
      else Anonymous
  }

  /** A known author with a non-blank name part is shown by the joined name, which is never empty. */
  lemma NamedAuthor(users: map<string, User>, profiles: map<string, Profile>, authorId: string)
    requires authorId in users && authorId in profiles
    requires NamePart(profiles[authorId].firstName) || NamePart(profiles[authorId].lastName)
    ensures AuthorDisplayName(users, profiles, authorId) == FullName(profiles[authorId].firstName, profiles[authorId].lastName)
  {
    var f, l := TrimSpace(Deref(profiles[authorId].firstName)), TrimSpace(Deref(profiles[authorId].lastName));
    TrimSpaceEnds(Deref(profiles[authorId].firstName));
    TrimSpaceEnds(Deref(profiles[authorId].lastName));
    var s := f + " " + l;
    if f != "" {
      assert s[0] == f[0];
      TrimLeftNoSpace(s);
      KeepsFirst(s);
    } else {
      assert s == " " + l;
      assert TrimLeft(s) == TrimLeft(l);
      TrimLeftNoSpace(l);
      TrimRightNoSpace(l);
    }
  }

  /** Trimming the right end of a value that starts with a non-space keeps that character. */
  lemma KeepsFirst(s: string)
    requires |s| > 0 && !IsSpace(s[0])
    ensures TrimRight(s) != ""
  {
    TrimRightShape(s);
  }

  /** A blank last name contributes nothing: the name is the trimmed first name. */
  lemma BlankLastName(first: string, last: Option<string>)
    requires !NamePart(last)
    ensures FullName(Some(first), last) == TrimSpace(first)
  {
    var f := TrimSpace(first);
    TrimSpaceEnds(first);
    assert TrimSpace(Deref(last)) == "" by {
      if last.Some? {
        assert !NamePart(last);
      }
    }
    assert f + " " + "" == f + " ";
    if f == "" {
      assert TrimLeft(" ") == TrimLeft("");
    } else {
      TrimLeftNoSpace(f + " ");
      assert (f + " ")[..|f|] == f;
      TrimRightNoSpace(f);
    }
  }

  /** A blank first name contributes nothing: the name is the trimmed last name. */
  lemma BlankFirstName(first: Option<string>, last: string)
    requires !NamePart(first)
    ensures FullName(first, Some(last)) == TrimSpace(last)
  {
    var l := TrimSpace(last);
    TrimSpaceEnds(last);
    assert TrimSpace(Deref(first)) == "" by {
      if first.Some? {
        assert !NamePart(first);
      }
    }
    assert "" + " " + l == " " + l;
    assert TrimLeft(" " + l) == TrimLeft(l);
    TrimLeftNoSpace(l);
    TrimRightNoSpace(l);
  }

  /**
   * mapServiceError: no error and an error that is not a ServiceError are not
   * answered here; a ServiceError is answered with its own status and message.
   */
  function MapServiceError<T>(err: Option<ServiceErrors.Error>): (r: Option<Reply<T>>)
    ensures r.Some? <==> err.Some? && err.value.ServiceError?
    ensures r.Some? ==> r.value == Failure(err.value.status, Raw(ServiceErrors.Message(err.value)))
  {
    if err.Some? && err.value.ServiceError? then Some(Failure(err.value.status, Raw(err.value.message))) else None
  }
}

=== FILE: resource_text.dfy ===
/**
 * The text normalisers and validators of the resource service: slugs and
 * their unique resolution by counter suffix, tag cleaning, required-field
 * trimming, content-block validation and search-term cleaning.
 *
 * unicode.IsLetter || unicode.IsDigit is the parameter `isAlnum`, and the
 * uuid.NewString() value Slugify falls back to is the parameter `newId`. The existence probes of the Resolve* loops are the parameter
 * `probe`: Some(found), or None when the query fails.
 */
module ResourceText {
  import opened Wrappers
  import opened Seqs
  import opened Text
  import opened Numbers

  /* ---------------------------------------------------------------- Slugify */

  /**
   * The builder of Slugify after reading `s`: the text written so far and the
   * lastDash flag. Letters and digits are copied; any other character writes
   * one '-' unless the previous write was a '-'.
   */
  function Build(s: string, isAlnum: char -> bool): (st: (string, bool))
    ensures |st.0| <= |s|
    decreases |s|
  {
    if |s| == 0 then ("", false)
    else
      var prev := Build(s[..|s| - 1], isAlnum);
      var c := s[|s| - 1];
      if isAlnum(c) then (prev.0 + [c], false)
      else if !prev.1 then (prev.0 + ['-'], true)
      else prev
  }

  /** No two '-' in a row. */
  predicate NoDoubleDash(b: string) {
    forall i :: 0 <= i < |b| - 1 ==> !(b[i] == '-' && b[i + 1] == '-')
  }

  /** Every character is a '-' or a letter or digit of `s`. */
  predicate DrawnFrom(b: string, s: string, isAlnum: char -> bool) {
    forall i :: 0 <= i < |b| ==> b[i] == '-' || (isAlnum(b[i]) && b[i] in s)
  }

  predicate HasAlnum(s: string, isAlnum: char -> bool) {
    exists i :: 0 <= i < |s| && isAlnum(s[i])
  }

  /** What the builder writes: the flag tells whether it ends in '-', no '-' is doubled, and a letter or digit is written iff one is read. */
  lemma {:induction false} BuildShape(s: string, isAlnum: char -> bool)
    requires !isAlnum('-')
    ensures var (b, lastDash) := Build(s, isAlnum);
            && lastDash == (b != [] && b[|b| - 1] == '-')
            && NoDoubleDash(b)
            && DrawnFrom(b, s, isAlnum)
            && (HasAlnum(b, isAlnum) <==> HasAlnum(s, isAlnum))
    decreases |s|
  {
    if |s| > 0 {
      var p := s[..|s| - 1];
      var c := s[|s| - 1];
      BuildShape(p, isAlnum);
      var (b, _) := Build(s, isAlnum);
      var (pb, _) := Build(p, isAlnum);
      assert forall x :: x in p ==> x in s;
      if HasAlnum(s, isAlnum) && !isAlnum(c) {
        var i :| 0 <= i < |s| && isAlnum(s[i]);
        assert p[i] == s[i];
      }
      if HasAlnum(b, isAlnum) && b != pb {
        var i :| 0 <= i < |b| && isAlnum(b[i]);
        if i < |pb| {
          assert b[i] == pb[i];
        }
      }
      if !isAlnum(c) && HasAlnum(pb, isAlnum) {
        var i :| 0 <= i < |pb| && isAlnum(pb[i]);
        assert b[i] == pb[i];
      }
    }
  }

  /** The number of '-' that strings.TrimLeft(s, "-") removes. */
  function LeadingDashes(s: string): (k: nat)
    ensures k <= |s| && (k == |s| || s[k] != '-')
    ensures forall i :: 0 <= i < k ==> s[i] == '-'
    decreases |s|
  {
    if |s| > 0 && s[0] == '-' then 1 + LeadingDashes(s[1..]) else 0
  }

  /** strings.TrimRight(s, "-"). */
  function TrimDashRight(s: string): (r: string)
    ensures |r| <= |s| && r == s[..|r|]
    ensures r == [] || r[|r| - 1] != '-'
    ensures forall i :: |r| <= i < |s| ==> s[i] == '-'
    decreases |s|
  {
    if |s| > 0 && s[|s| - 1] == '-' then TrimDashRight(s[..|s| - 1]) else s
  }

  /** strings.Trim(s, "-"): the piece of `s` left when every leading and trailing '-' is removed. */
  function TrimDashes(s: string): (r: string)
    ensures r == [] || (r[0] != '-' && r[|r| - 1] != '-')
    ensures var k := LeadingDashes(s);
            && k + |r| <= |s| && r == s[k..k + |r|]
            && forall i :: k + |r| <= i < |s| ==> s[i] == '-'
  {
    var k := LeadingDashes(s);
    var r := TrimDashRight(s[k..]);
    assert forall i :: k + |r| <= i < |s| ==> s[i] == s[k..][i - k];
    r
  }

  /** A letter or digit survives the trim, and nothing else is removed. */
  lemma TrimDashesKeepsAlnum(s: string, isAlnum: char -> bool)
    requires !isAlnum('-')
    ensures HasAlnum(TrimDashes(s), isAlnum) <==> HasAlnum(s, isAlnum)
  {
    var r := TrimDashes(s);
    var k := LeadingDashes(s);
    if HasAlnum(s, isAlnum) {
      var i :| 0 <= i < |s| && isAlnum(s[i]);
      assert k <= i < k + |r|;
      assert r[i - k] == s[i];
    }
    if HasAlnum(r, isAlnum) {
      var i :| 0 <= i < |r| && isAlnum(r[i]);
      assert r[i] == s[k + i];
    }
  }

  /** The text Slugify works on: trimmed, then lower-cased. */
  function SlugInput(value: string): string {
    Lower(TrimSpace(value))
  }

  /** Slugify(value): the trimmed builder output, or the new identifier when that is empty. */
  function SlugOf(value: string, isAlnum: char -> bool, newId: string): (slug: string)
    ensures TrimDashes(Build(SlugInput(value), isAlnum).0) == "" ==> slug == newId
    ensures TrimDashes(Build(SlugInput(value), isAlnum).0) != "" ==> slug == TrimDashes(Build(SlugInput(value), isAlnum).0)
  {
    var trimmed := TrimDashes(Build(SlugInput(value), isAlnum).0);
    if trimmed == "" then newId else trimmed
  }

  /** The loop of Slugify with its lastDash flag. */
  method Slugify(value: string, isAlnum: char -> bool, newId: string) returns (slug: string)
    ensures slug == SlugOf(value, isAlnum, newId)
  {
    var lower := Lower(TrimSpace(value));
    var b := "";
    var lastDash := false;
    for i := 0 to |lower|
      invariant (b, lastDash) == Build(lower[..i], isAlnum)
    {
      assert lower[..i + 1][..i] == lower[..i];
      var r := lower[i];
      if isAlnum(r) {
        b := b + [r];
        lastDash := false;
      } else if !lastDash {
        b := b + ['-'];
        lastDash := true;
      }
    }
    assert lower[..|lower|] == lower;
    slug := TrimDashes(b);
    if slug == "" {
      return newId;
    }
  }

  /** A slug: non-empty, lower-case letters and digits and single inner dashes. */
  predicate IsSlug(t: string, isAlnum: char -> bool) {
    && t != []
    && t[0] != '-' && t[|t| - 1] != '-'
    && NoDoubleDash(t)
    && forall i :: 0 <= i < |t| ==> t[i] == '-' || (isAlnum(t[i]) && LowerChar(t[i]) == t[i])
  }

  /** A character of a lower-cased text is its own lower case. */
  lemma LowerFixed(s: string, c: char)
    requires c in Lower(s)
    ensures LowerChar(c) == c
  {
    var j :| 0 <= j < |s| && Lower(s)[j] == c;
  }

  /** The trimmed builder output of a text with a letter or digit has no '-' at either end, none doubled, and only letters and digits of the text besides. */
  lemma TrimmedBuild(s: string, isAlnum: char -> bool)
    requires !isAlnum('-')
    ensures var t := TrimDashes(Build(s, isAlnum).0);
            && (HasAlnum(s, isAlnum) <==> t != [])
            && NoDoubleDash(t)
            && DrawnFrom(t, s, isAlnum)
  {
    BuildShape(s, isAlnum);
    TrimmedShape(Build(s, isAlnum).0, s, isAlnum);
  }

  /** Trimming the dashes off a piece of builder output keeps its shape and its letters and digits. */
  lemma TrimmedShape(b: string, s: string, isAlnum: char -> bool)
    requires !isAlnum('-') && NoDoubleDash(b) && DrawnFrom(b, s, isAlnum)
    ensures var t := TrimDashes(b);
            && (HasAlnum(b, isAlnum) <==> t != [])
            && NoDoubleDash(t)
            && DrawnFrom(t, s, isAlnum)
  {
    var t := TrimDashes(b);
    TrimDashesKeepsAlnum(b, isAlnum);
    InfixShape(b, LeadingDashes(b), t, s, isAlnum);
    EdgeHasAlnum(t, s, isAlnum);
  }

  /** A piece drawn from `s` that does not start with '-' is non-empty iff it has a letter or digit. */
  lemma EdgeHasAlnum(t: string, s: string, isAlnum: char -> bool)
    requires !isAlnum('-') && DrawnFrom(t, s, isAlnum) && (t == [] || t[0] != '-')
    ensures t != [] <==> HasAlnum(t, isAlnum)
  {
    if t != [] {
      assert isAlnum(t[0]);
    }
  }

  /** A piece of the builder output keeps its shape. */
  lemma InfixShape(b: string, k: nat, t: string, s: string, isAlnum: char -> bool)
    requires k + |t| <= |b| && t == b[k..k + |t|]
    requires NoDoubleDash(b) && DrawnFrom(b, s, isAlnum)
    ensures NoDoubleDash(t) && DrawnFrom(t, s, isAlnum)
  {
    assert forall i :: 0 <= i < |t| ==> t[i] == b[k + i];
  }

  /** Slugify gives a slug when the input has a letter or digit, and the new identifier otherwise. */
  lemma SlugShape(value: string, isAlnum: char -> bool, newId: string)
    requires !isAlnum('-')
    ensures HasAlnum(SlugInput(value), isAlnum) ==> IsSlug(SlugOf(value, isAlnum, newId), isAlnum)
    ensures !HasAlnum(SlugInput(value), isAlnum) ==> SlugOf(value, isAlnum, newId) == newId
  {
    var s := SlugInput(value);
    var t := TrimDashes(Build(s, isAlnum).0);
    TrimmedBuild(s, isAlnum);
    forall i | 0 <= i < |t| && t[i] != '-'
      ensures LowerChar(t[i]) == t[i]
    {
      LowerFixed(TrimSpace(value), t[i]);
    }
  }

  /** A slug is read back unchanged: Slugify is idempotent on its own non-newId output. */
  lemma SlugifySlug(t: string, isAlnum: char -> bool, newId: string)
    requires !isAlnum('-')
    requires forall c :: isAlnum(c) ==> !IsSpace(c)
    requires IsSlug(t, isAlnum)
    ensures SlugOf(t, isAlnum, newId) == t
  {
    TrimmedFixed(t);
    assert Lower(t) == t;
    BuildOfSlug(t, isAlnum);
    assert LeadingDashes(t) == 0;
    assert t[0..] == t;
  }

  lemma {:induction false} BuildOfSlug(t: string, isAlnum: char -> bool)
    requires !isAlnum('-')
    requires t == [] || t[0] != '-'
    requires NoDoubleDash(t)
    requires forall i :: 0 <= i < |t| ==> t[i] == '-' || isAlnum(t[i])
    ensures Build(t, isAlnum).0 == t
    ensures Build(t, isAlnum).1 == (t != [] && t[|t| - 1] == '-')
    decreases |t|
  {
    if |t| > 0 {
      var p := t[..|t| - 1];
      assert forall i :: 0 <= i < |p| ==> p[i] == t[i];
      BuildOfSlug(p, isAlnum);
      assert t == p + [t[|t| - 1]];
    }
  }

  /* ---------------------------------------------- unique code and slug resolution */

  /** The k-th candidate of the Resolve* loops: the base, then base-2, base-3, … */
  function Candidate(base: string, k: nat): (c: string)
    requires k >= 1
    ensures k == 1 ==> c == base
    ensures k >= 2 ==> c == base + "-" + FormatNat(k)
  {
    if k == 1 then base else base + "-" + FormatNat(k)
  }

  /** Different counters give different candidates. */
  lemma CandidatesDiffer(base: string, j: nat, k: nat)
    requires 1 <= j < k
    ensures Candidate(base, j) != Candidate(base, k)
  {
    if j >= 2 && Candidate(base, j) == Candidate(base, k) {
      var a, b := Candidate(base, j), Candidate(base, k);
      assert |FormatNat(j)| == |FormatNat(k)|;
      assert FormatNat(j) == a[|base| + 1..] == FormatNat(k);
      FormatNatInjective(j, k);
    }
  }

  /** The candidates before the n-th. */
  ghost function Tried(base: string, n: nat): set<string> {
    set j | 1 <= j < n :: Candidate(base, j)
  }

  /** The n-th candidate is new, and adding it gives the candidates before the next one. */
  lemma TriedGrows(base: string, n: nat)
    requires n >= 1
    ensures Candidate(base, n) !in Tried(base, n)
    ensures Tried(base, n) + {Candidate(base, n)} == Tried(base, n + 1)
  {
    if Candidate(base, n) in Tried(base, n) {
      var j :| 1 <= j < n && Candidate(base, j) == Candidate(base, n);
      CandidatesDiffer(base, j, n);
    }
  }

  lemma {:induction false} ProperSubsetSmaller(a: set<string>, b: set<string>)
    requires a < b
    ensures |a| < |b|
    decreases |b|
  {
    var x :| x in b && x !in a;
    var rest := b - {x};
    if a != rest {
      ProperSubsetSmaller(a, rest);
    }
  }

  /** A taken candidate that is tried shrinks the set of taken values not yet tried. */
  lemma TriedProgress(base: string, taken: set<string>, n: nat)
    requires n >= 1 && Tried(base, n) <= taken && Candidate(base, n) in taken
    ensures Tried(base, n + 1) <= taken
    ensures |taken - Tried(base, n + 1)| < |taken - Tried(base, n)|
  {
    TriedGrows(base, n);
    ProperSubsetSmaller(taken - Tried(base, n + 1), taken - Tried(base, n));
  }

  /** The loop shared by ResolveCategoryCode and ResolveResourceSlug: the first candidate the probe reports free. */
  method ResolveUnique(base: string, probe: string -> Option<bool>, ghost taken: set<string>) returns (r: Option<string>)
    requires forall c :: probe(c) == Some(true) ==> c in taken
    ensures r.Some? ==> probe(r.value) == Some(false)
    ensures exists k :: k >= 1 && (forall j :: 1 <= j < k ==> probe(Candidate(base, j)) == Some(true))
                      && (if r.Some? then r.value == Candidate(base, k) else probe(Candidate(base, k)).None?)
  {
    var candidate := base;
    var counter := 2;
    while true
      invariant counter >= 2 && candidate == Candidate(base, counter - 1)
      invariant forall j :: 1 <= j < counter - 1 ==> probe(Candidate(base, j)) == Some(true)
      invariant Tried(base, counter - 1) <= taken
      decreases |taken - Tried(base, counter - 1)|
    {
      var found := probe(candidate);
      if found.None? {
        return None;
      }
      if !found.value {
        return Some(candidate);
      }
      TriedProgress(base, taken, counter - 1);
      candidate := base + "-" + FormatNat(counter);
      counter := counter + 1;
    }
  }

  /**
   * `r` is the outcome of the candidate loop over `base`: the candidates
   * before the k-th are all reported taken, and the k-th is either reported
   * free and returned, or its query failed and nothing is returned.
   */
  ghost predicate FirstFree(base: string, probe: string -> Option<bool>, r: Option<string>) {
    exists k :: && k >= 1 && (forall j :: 1 <= j < k ==> probe(Candidate(base, j)) == Some(true))
                && (if r.Some? then r.value == Candidate(base, k) && probe(r.value) == Some(false)
                    else probe(Candidate(base, k)).None?)
  }

  /** The candidate loop has one outcome: FirstFree determines the code or slug, and whether the query failed. */
  lemma FirstFreeUnique(base: string, probe: string -> Option<bool>, r1: Option<string>, r2: Option<string>)
    requires FirstFree(base, probe, r1) && FirstFree(base, probe, r2)
    ensures r1 == r2
  {
    var k1 :| && k1 >= 1 && (forall j :: 1 <= j < k1 ==> probe(Candidate(base, j)) == Some(true))
               && (if r1.Some? then r1.value == Candidate(base, k1) && probe(r1.value) == Some(false)
                   else probe(Candidate(base, k1)).None?);
    var k2 :| && k2 >= 1 && (forall j :: 1 <= j < k2 ==> probe(Candidate(base, j)) == Some(true))
               && (if r2.Some? then r2.value == Candidate(base, k2) && probe(r2.value) == Some(false)
                   else probe(Candidate(base, k2)).None?);
    assert probe(Candidate(base, k1)) != Some(true);
    assert probe(Candidate(base, k2)) != Some(true);
    assert k1 == k2;
  }

  /** ResolveCategoryCode: the first unused candidate of the label's slug, or none when a query fails. */
  method ResolveCategoryCode(categoryLabel: string, isAlnum: char -> bool, slugFallback: string,
                             probe: string -> Option<bool>, ghost taken: set<string>) returns (r: Option<string>)
    requires forall c :: probe(c) == Some(true) ==> c in taken
    ensures FirstFree(SlugOf(categoryLabel, isAlnum, slugFallback), probe, r)
  {
    var base := Slugify(categoryLabel, isAlnum, slugFallback);
    r := ResolveUnique(base, probe, taken);
  }

  /** ResolveResourceSlug: the first unused candidate of the title's slug, or none when a query fails. */
  method ResolveResourceSlug(title: string, isAlnum: char -> bool, slugFallback: string,
                             probe: string -> Option<bool>, ghost taken: set<string>) returns (r: Option<string>)
    requires forall c :: probe(c) == Some(true) ==> c in taken
    ensures FirstFree(SlugOf(title, isAlnum, slugFallback), probe, r)
  {
    var base := Slugify(title, isAlnum, slugFallback);
    r := ResolveUnique(base, probe, taken);
  }

  /* -------------------------------------------------------------- CleanTags */

  /** CleanTags keeps at most this many tags. */
  const MaxTags: nat := 12

  /** The tags with surrounding white space trimmed. */
  function Trimmed(tags: seq<string>): (ts: seq<string>)
    ensures |ts| == |tags|
    ensures forall i :: 0 <= i < |tags| ==> ts[i] == TrimSpace(tags[i])
  {
    seq(|tags|, i requires 0 <= i < |tags| => TrimSpace(tags[i]))
  }

  /**
   * The values CleanTags keeps after reading the trimmed values `ts`: a value
   * is appended unless it is empty or already kept, and reading stops once
   * twelve are kept.
   */
  function Keep(ts: seq<string>): (r: seq<string>)
    ensures |r| <= |ts|
    decreases |ts|
  {
    if |ts| == 0 then []
    else
      var kept := Keep(ts[..|ts| - 1]);
      var value := ts[|ts| - 1];
      if |kept| >= MaxTags || value == "" || value in kept then kept else kept + [value]
  }

  /** Once twelve values are kept, reading more changes nothing: the `break` of the loop. */
  lemma {:induction false} KeepFull(ts: seq<string>, m: nat)
    requires m <= |ts| && |Keep(ts[..m])| >= MaxTags
    ensures Keep(ts) == Keep(ts[..m])
    decreases |ts|
  {
    if |ts| > m {
      var p := ts[..|ts| - 1];
      assert p[..m] == ts[..m];
      KeepFull(p, m);
    } else {
      assert ts[..m] == ts;
    }
  }

  /** One more value read while fewer than twelve are kept: it is kept unless it is empty or already kept. */
  lemma KeepStep(ts: seq<string>, i: nat)
    requires i < |ts| && |Keep(ts[..i])| < MaxTags
    ensures Keep(ts[..i + 1]) == if ts[i] == "" || ts[i] in Keep(ts[..i]) then Keep(ts[..i]) else Keep(ts[..i]) + [ts[i]]
  {
    assert ts[..i + 1][..i] == ts[..i] && ts[..i + 1][i] == ts[i];
  }

  /** CleanTags: the loop with its `seen` set and its early exit at twelve values. */
  method CleanTags(tags: seq<string>) returns (cleaned: seq<string>)
    ensures cleaned == Keep(Trimmed(tags))
  {
    var ts := Trimmed(tags);
    var seen: set<string> := {};
    cleaned := [];
    var i := 0;
    while i < |tags|
      invariant 0 <= i <= |tags|
      invariant cleaned == Keep(ts[..i])
      invariant |cleaned| < MaxTags
      invariant forall x :: x in seen <==> x in cleaned
    {
      var value := TrimSpace(tags[i]);
      assert value == ts[i];
      KeepStep(ts, i);
      if value == "" || value in seen {
        i := i + 1;
        continue;
      }
      seen := seen + {value};
      cleaned := cleaned + [value];
      if |cleaned| >= MaxTags {
        KeepFull(ts, i + 1);
        return;
      }
      i := i + 1;
    }
    assert ts[..i] == ts;
  }

  /** CleanTags keeps at most twelve distinct non-empty input values, and every non-empty value when it keeps fewer. */
  lemma {:induction false} KeepShape(ts: seq<string>)
    ensures var r := Keep(ts);
            && |r| <= MaxTags
            && (forall i :: 0 <= i < |r| ==> r[i] != "" && r[i] in ts)
            && Distinct(r)
            && (|r| < MaxTags ==> forall i :: 0 <= i < |ts| && ts[i] != "" ==> ts[i] in r)
    decreases |ts|
  {
    if |ts| > 0 {
      var p := ts[..|ts| - 1];
      KeepShape(p);
      assert forall x :: x in p ==> x in ts;
      assert ts == p + [ts[|ts| - 1]];
    }
  }

  /** The position of the first occurrence of `v`. */
  function FirstPos(ts: seq<string>, v: string): (k: nat)
    requires v in ts
    ensures k < |ts| && ts[k] == v
    ensures forall j :: 0 <= j < k ==> ts[j] != v
    decreases |ts|
  {
    if ts[0] == v then 0 else 1 + FirstPos(ts[1..], v)
  }

  /** Appending a value does not move the first occurrence of a value already present. */
  lemma FirstPosAppend(p: seq<string>, v: string, x: string)
    requires x in p
    ensures FirstPos(p + [v], x) == FirstPos(p, x)
  {
    var b := FirstPos(p, x);
    assert (p + [v])[b] == x;
  }

  /** The kept values are in the order of their first occurrences in the input. */
  lemma {:induction false} KeepOrder(ts: seq<string>)
    ensures forall a :: 0 <= a < |Keep(ts)| ==> Keep(ts)[a] in ts
    ensures forall a, b :: 0 <= a < b < |Keep(ts)| ==> FirstPos(ts, Keep(ts)[a]) < FirstPos(ts, Keep(ts)[b])
    decreases |ts|
  {
    KeepShape(ts);
    if |ts| > 0 {
      var p := ts[..|ts| - 1];
      var v := ts[|ts| - 1];
      var kept := Keep(p);
      var r := Keep(ts);
      KeepOrder(p);
      KeepShape(p);
      assert ts == p + [v];
      forall a | 0 <= a < |kept|
        ensures FirstPos(ts, kept[a]) == FirstPos(p, kept[a])
      {
        FirstPosAppend(p, v, kept[a]);
      }
      if r != kept {
        assert v !in p;
        assert FirstPos(ts, v) == |p|;
      }
    }
  }

  /* ------------------------------------------------------- NormalizeRequired */

  /** NormalizeRequired: the trimmed value, or an error carrying `message` when that is empty. */
  function NormalizeRequired(value: string, message: string): (r: Result<string, string>)
    ensures r.Ok? <==> !IsBlank(value)
    ensures r.Ok? ==> r.value != "" && r.value == TrimSpace(value)
    ensures r.Err? ==> r.error == message
  {
    var trimmed := TrimSpace(value);
    if trimmed == "" then Err(message) else Ok(trimmed)
  }

  /** Normalizing a normalized value gives it back. */
  lemma NormalizeRequiredIdempotent(value: string, message: string)
    requires NormalizeRequired(value, message).Ok?
    ensures NormalizeRequired(NormalizeRequired(value, message).value, message) == NormalizeRequired(value, message)
  {
    TrimSpaceIdempotent(value);
  }

  /* ---------------------------------------------------------- ValidateBlocks */

  /** A content block as the JSON body carries it; absent fields are None. */
  datatype Block = Block(typ: string, text: Option<string>, url: Option<string>, assetId: Option<string>,
                         caption: Option<string>, title: Option<string>)

  /** The raw `content` field: absent or empty, not a JSON array of blocks (with the decoder's message), or decoded. */
  datatype RawContent = NoContent | Malformed(reason: string) | Decoded(blocks: seq<Block>)

  const MediaMessage: string := "Încărcarea fișierului pentru blocurile media este obligatorie."
  const FormulaMessage: string := "Formula nu poate fi goală."

  /** The block types the validator accepts. */
  predicate KnownType(t: string) {
    t == "TEXT" || t == "LINK" || t == "IMAGE" || t == "PDF" || t == "FORMULA"
  }

  /** The type a block is judged by: trimmed and upper-cased. */
  function TypeOf(b: Block): string {
    Upper(TrimSpace(b.typ))
  }

  /** A field that is present and not blank. */
  predicate Filled(field: Option<string>) {
    field.Some? && !IsBlank(field.value)
  }

  /** A block the validator returns: a known type with the field that type needs present and non-empty. */
  predicate WellFormed(b: Block) {
    && KnownType(b.typ)
    && (b.typ == "TEXT" || b.typ == "FORMULA" ==> b.text.Some? && b.text.value != "")
    && (b.typ == "LINK" ==> b.url.Some? && b.url.value != "" && b.title.Some?)
    && (b.typ == "IMAGE" || b.typ == "PDF" ==> b.assetId.Some? && b.assetId.value != "")
  }

  /** One block: Ok(None) when it is dropped, Ok(Some(cleaned)) when it is kept, Err(message) when it fails the call. */
  function CleanBlock(b: Block): (r: Result<Option<Block>, string>)
    ensures r.Err? ==> r.error == MediaMessage || r.error == FormulaMessage
    ensures r.Ok? && r.value.Some? ==> WellFormed(r.value.value)
  {
    var t := TypeOf(b);
    if t == "TEXT" then
      if b.text.Some? && TrimSpace(b.text.value) != "" then
        Ok(Some(Block("TEXT", Some(TrimSpace(b.text.value)), None, None, None, b.title)))
      else Ok(None)
    else if t == "LINK" then
      if b.url.Some? && TrimSpace(b.url.value) != "" then
        Ok(Some(Block("LINK", None, Some(TrimSpace(b.url.value)), None, None, if b.title.None? then Some("Link") else b.title)))
      else Ok(None)
    else if t == "IMAGE" || t == "PDF" then
      if b.assetId.None? || TrimSpace(b.assetId.value) == "" then Err(MediaMessage)
      else Ok(Some(Block(t, None, None, Some(TrimSpace(b.assetId.value)), b.caption, b.title)))
    else if t == "FORMULA" then
      if b.text.None? || TrimSpace(b.text.value) == "" then Err(FormulaMessage)
      else Ok(Some(Block("FORMULA", Some(TrimSpace(b.text.value)), None, None, None, b.title)))
    else Ok(None)
  }

  /**
   * The rules for one block: only a media block without an asset id and a
   * formula without text fail; a block of an unknown type is dropped, and so
   * is a text or link block whose text or URL is missing or blank; a kept
   * block has the judged type.
   */
  lemma CleanBlockRules(b: Block)
    ensures CleanBlock(b).Err? <==> ((TypeOf(b) == "IMAGE" || TypeOf(b) == "PDF") && !Filled(b.assetId))
                                    || (TypeOf(b) == "FORMULA" && !Filled(b.text))
    ensures CleanBlock(b).Ok? && CleanBlock(b).value.Some? ==> CleanBlock(b).value.value.typ == TypeOf(b)
    ensures !KnownType(TypeOf(b)) ==> CleanBlock(b) == Ok(None)
    ensures TypeOf(b) == "TEXT" ==> (CleanBlock(b).Ok? && (CleanBlock(b).value.Some? <==> Filled(b.text)))
    ensures TypeOf(b) == "LINK" ==> (CleanBlock(b).Ok? && (CleanBlock(b).value.Some? <==> Filled(b.url)))
    ensures TypeOf(b) == "LINK" && b.title.None? && Filled(b.url) ==> CleanBlock(b).value.value.title == Some("Link")
  {
  }

  /** The loop of ValidateBlocks after reading `bs`: the kept blocks, or the first failure. */
  function Validated(bs: seq<Block>): (r: Result<seq<Block>, string>)
    decreases |bs|
  {
    if |bs| == 0 then Ok([])
    else match Validated(bs[..|bs| - 1])
      case Err(m) => Err(m)
      case Ok(kept) =>
        match CleanBlock(bs[|bs| - 1])
        case Err(m) => Err(m)
        case Ok(None) => Ok(kept)
        case Ok(Some(x)) => Ok(kept + [x])
  }

  /** ValidateBlocks: no content gives no blocks, a decoding failure its message, otherwise the loop. */
  function ValidateSpec(raw: RawContent): (r: Result<seq<Block>, string>)
    ensures raw.NoContent? ==> r == Ok([])
    ensures raw.Malformed? ==> r == Err(raw.reason)
  {
    match raw
    case NoContent => Ok([])
    case Malformed(reason) => Err(reason)
    case Decoded(bs) => Validated(bs)
  }

  /** The first failure ends the loop: reading further blocks does not change it. */
  lemma {:induction false} ValidatedErrStays(bs: seq<Block>, m: nat)
    requires m <= |bs| && Validated(bs[..m]).Err?
    ensures Validated(bs) == Validated(bs[..m])
    decreases |bs|
  {
    if |bs| > m {
      var p := bs[..|bs| - 1];
      assert p[..m] == bs[..m];
      ValidatedErrStays(p, m);
    } else {
      assert bs[..m] == bs;
    }
  }

  /** ValidateBlocks: the loop over the decoded blocks, returning at the first failure. */
  method ValidateBlocks(raw: RawContent) returns (r: Result<seq<Block>, string>)
    ensures r == ValidateSpec(raw)
  {
    if raw.NoContent? {
      return Ok([]);
    }
    if raw.Malformed? {
      return Err(raw.reason);
    }
    var blocks := raw.blocks;
    var cleaned: seq<Block> := [];
    for i := 0 to |blocks|
      invariant Validated(blocks[..i]) == Ok(cleaned)
    {
      assert blocks[..i + 1][..i] == blocks[..i];
      var c := CleanBlock(blocks[i]);
      if c.Err? {
        ValidatedErrStays(blocks, i + 1);
        return Err(c.error);
      }
      if c.value.Some? {
        cleaned := cleaned + [c.value.value];
      }
    }
    assert blocks[..|blocks|] == blocks;
    return Ok(cleaned);
  }

  /**
   * The call fails exactly when some block fails, with the message of the
   * first failing block; otherwise every returned block is well formed and
   * there are no more of them than input blocks.
   */
  lemma {:induction false} ValidatedShape(bs: seq<Block>)
    ensures Validated(bs).Err? <==> exists i :: 0 <= i < |bs| && CleanBlock(bs[i]).Err?
    ensures Validated(bs).Err? ==> exists i :: 0 <= i < |bs| && CleanBlock(bs[i]).Err?
                                              && Validated(bs).error == CleanBlock(bs[i]).error
                                              && forall j :: 0 <= j < i ==> CleanBlock(bs[j]).Ok?
    ensures Validated(bs).Ok? ==> |Validated(bs).value| <= |bs|
    ensures Validated(bs).Ok? ==> forall k :: 0 <= k < |Validated(bs).value| ==> WellFormed(Validated(bs).value[k])
  {
    ValidatedFails(bs);
    ValidatedKept(bs);
  }

  /** The failure half of ValidatedShape: the call fails exactly at the first failing block. */
  lemma ValidatedFails(bs: seq<Block>)
    ensures Validated(bs).Err? <==> exists i :: 0 <= i < |bs| && CleanBlock(bs[i]).Err?
    ensures Validated(bs).Err? ==> exists i :: 0 <= i < |bs| && CleanBlock(bs[i]).Err?
                                              && Validated(bs).error == CleanBlock(bs[i]).error
                                              && forall j :: 0 <= j < i ==> CleanBlock(bs[j]).Ok?
  {
    ValidatedOkAll(bs);
    ValidatedFirstErr(bs);
  }

  /** A call that succeeds met no failing block. */
  lemma {:induction false} ValidatedOkAll(bs: seq<Block>)
    ensures Validated(bs).Ok? ==> forall i :: 0 <= i < |bs| ==> CleanBlock(bs[i]).Ok?
    decreases |bs|
  {
    if |bs| > 0 {
      var p := bs[..|bs| - 1];
      ValidatedOkAll(p);
      assert forall i :: 0 <= i < |p| ==> p[i] == bs[i];
    }
  }

  /** A call that fails reports the first failing block's message. */
  lemma {:induction false} ValidatedFirstErr(bs: seq<Block>)
    ensures Validated(bs).Err? ==> exists i :: 0 <= i < |bs| && CleanBlock(bs[i]).Err?
                                              && Validated(bs).error == CleanBlock(bs[i]).error
                                              && forall j :: 0 <= j < i ==> CleanBlock(bs[j]).Ok?
    decreases |bs|
  {
    if |bs| > 0 {
      var n := |bs| - 1;
      var p := bs[..n];
      assert forall i :: 0 <= i < n ==> p[i] == bs[i];
      if Validated(p).Err? {
        ValidatedFirstErr(p);
        var i :| 0 <= i < n && CleanBlock(p[i]).Err? && Validated(p).error == CleanBlock(p[i]).error
                 && forall j :: 0 <= j < i ==> CleanBlock(p[j]).Ok?;
        assert CleanBlock(bs[i]).Err? && forall j :: 0 <= j < i ==> CleanBlock(bs[j]).Ok?;
      } else {
        ValidatedOkAll(p);
      }
    }
  }

  /** The success half of ValidatedShape: no more blocks than given, each well formed. */
  lemma {:induction false} ValidatedKept(bs: seq<Block>)
    ensures Validated(bs).Ok? ==> |Validated(bs).value| <= |bs|
    ensures Validated(bs).Ok? ==> forall k :: 0 <= k < |Validated(bs).value| ==> WellFormed(Validated(bs).value[k])
    decreases |bs|
  {
    if |bs| > 0 {
      ValidatedKept(bs[..|bs| - 1]);
    }
  }

  /* --------------------------------------------------------- CleanSearchTerm */

  /** The text after a leading run of `\s` characters. */
  function DropPerlSpaces(s: string): (r: string)
    ensures |r| <= |s| && r == s[|s| - |r|..]
    ensures r == [] || !IsPerlSpace(r[0])
    ensures s != [] && !IsPerlSpace(s[|s| - 1]) ==> r != [] && r[|r| - 1] == s[|s| - 1]
    decreases |s|
  {
    if |s| > 0 && IsPerlSpace(s[0]) then DropPerlSpaces(s[1..]) else s
  }

  /** regexp `\s+` replaced by " ": every maximal run of `\s` characters becomes one space. */
  function Collapse(s: string): (r: string)
    ensures r == [] <==> s == []
    ensures s != [] && !IsPerlSpace(s[0]) ==> r[0] == s[0]
    ensures s != [] && !IsPerlSpace(s[|s| - 1]) ==> r[|r| - 1] == s[|s| - 1]
    decreases |s|
  {
    if |s| == 0 then ""
    else if IsPerlSpace(s[0]) then " " + Collapse(DropPerlSpaces(s[1..]))
    else [s[0]] + Collapse(s[1..])
  }

  /** A collapsed text: its only `\s` character is ' ', never two in a row. */
  predicate Collapsed(r: string) {
    && (forall i :: 0 <= i < |r| ==> IsPerlSpace(r[i]) ==> r[i] == ' ')
    && (forall i :: 0 <= i < |r| - 1 ==> !(r[i] == ' ' && r[i + 1] == ' '))
  }

  /** Collapsing leaves no `\s` character but single spaces. */
  lemma {:induction false} CollapseCollapsed(s: string)
    ensures Collapsed(Collapse(s))
    decreases |s|
  {
    if |s| > 0 {
      var head, c;
      if IsPerlSpace(s[0]) {
        var rest := DropPerlSpaces(s[1..]);
        CollapseCollapsed(rest);
        head, c := ' ', Collapse(rest);
        assert c != [] ==> c[0] != ' ';
      } else {
        CollapseCollapsed(s[1..]);
        head, c := s[0], Collapse(s[1..]);
      }
      assert [head] + c == Collapse(s);
      ConsCollapsed(head, c);
    }
  }

  /** Putting a character in front of a collapsed text keeps it collapsed, unless it makes a `\s` run. */
  lemma ConsCollapsed(head: char, c: string)
    requires Collapsed(c)
    requires IsPerlSpace(head) ==> head == ' '
    requires head == ' ' ==> c == [] || c[0] != ' '
    ensures Collapsed([head] + c)
  {
    var r := [head] + c;
    assert forall i :: 0 < i < |r| ==> r[i] == c[i - 1];
  }

  /** A collapsed text is left unchanged. */
  lemma {:induction false} CollapseFixed(s: string)
    requires Collapsed(s)
    ensures Collapse(s) == s
    decreases |s|
  {
    if |s| > 0 {
      assert Collapsed(s[1..]) by {
        assert forall i :: 0 <= i < |s| - 1 ==> s[1..][i] == s[i + 1];
      }
      if IsPerlSpace(s[0]) {
        assert s[0] == ' ';
        assert DropPerlSpaces(s[1..]) == s[1..];
      }
      CollapseFixed(s[1..]);
    }
  }

  /** CleanSearchTerm: trimmed, then every run of `\s` replaced by one space. */
  function CleanSearchTerm(term: string): (r: string)
    ensures r == "" <==> IsBlank(term)
  {
    Collapse(TrimSpace(term))
  }

  /** The cleaned term has no white space at either end and no run of `\s`, and cleaning it again changes nothing. */
  lemma CleanSearchTermIdempotent(term: string)
    ensures IsTrimmed(CleanSearchTerm(term)) && Collapsed(CleanSearchTerm(term))
    ensures CleanSearchTerm(CleanSearchTerm(term)) == CleanSearchTerm(term)
  {
    var t := TrimSpace(term);
    var c := Collapse(t);
    TrimSpaceEnds(term);
    CollapseCollapsed(t);
    TrimmedFixed(c);
    CollapseFixed(c);
  }
}

=== FILE: role_groups.dfy ===
/**
 * The group service (internal/services/groups.go): one SYSTEM group per role
 * code, created on demand, and the memberships that tie users to the groups
 * of their roles; plus the plain create, update, delete and membership
 * statements the group handlers call.
 *
 * `uuid.NewString()` is the parameter `uuids`: the k-th id drawn is
 * `uuids(k)`. An insert whose id is already a key fails with Conflict.
 */
module RoleGroups {
  import opened Wrappers
  import opened Text
  import opened Store

  /** roleCodes, in the order EnsureRoleGroups visits them. */
  const RoleCodeList: seq<string> := ["ADMIN", "TEACHER", "STUDENT"]

  /** The name of the group of a role code. */
  function RoleGroupName(code: string): (name: string)
    ensures name == "Role: " + code
    ensures HasPrefix(name, "Role: ") && name[6..] == code
  {
    "Role: " + code
  }

  /** The row ensureRoleGroup inserts for a role code. */
  function RoleGroup(code: string): (g: Group)
    ensures g.name == RoleGroupName(code) && g.visibility == "SYSTEM"
    ensures g.description == Some("System generated group for role " + code)
    ensures g.grade.None? && g.year.None?
  {
    Group(RoleGroupName(code), Some("System generated group for role " + code), None, None, "SYSTEM")
  }

  /** Different role codes name different groups. */
  lemma RoleGroupNameInjective(a: string, b: string)
    requires RoleGroupName(a) == RoleGroupName(b)
    ensures a == b
  {
    assert a == RoleGroupName(a)[6..];
  }

  /** ensureRoleGroup: inserts the role group only when no group of that name exists. */
  method EnsureRoleGroup(db: Db, code: string, newId: string) returns (err: Option<DbError>)
    modifies db`groups
    ensures Named(old(db.groups), RoleGroupName(code)) ==> err == None && db.groups == old(db.groups)
    ensures !Named(old(db.groups), RoleGroupName(code)) && newId in old(db.groups)
            ==> err == Some(Conflict) && db.groups == old(db.groups)
    ensures !Named(old(db.groups), RoleGroupName(code)) && newId !in old(db.groups)
            ==> err == None && db.groups == old(db.groups)[newId := RoleGroup(code)]
    ensures err.None? ==> Named(db.groups, RoleGroupName(code))
  {
    var name := RoleGroupName(code);
    var found := exists id :: id in db.groups && db.groups[id].name == name;
    if found {
      return None;
    }
    if newId in db.groups {
      return Some(Conflict);
    }
    db.groups := db.groups[newId := RoleGroup(code)];
    assert db.groups[newId].name == name;
    return None;
  }

  /** Some group is called `name`. */
  ghost predicate Named(groups: map<string, Group>, name: string) {
    exists id :: id in groups && groups[id].name == name
  }

  /** The groups of the first `n` role codes exist. */
  ghost predicate RoleGroupsExist(groups: map<string, Group>, n: nat)
    requires n <= |RoleCodeList|
  {
    forall j :: 0 <= j < n ==> Named(groups, RoleGroupName(RoleCodeList[j]))
  }

  /** Every group of `before` is in `after`, unchanged. */
  ghost predicate GroupsKept(before: map<string, Group>, after: map<string, Group>) {
    forall id :: id in before ==> id in after && after[id] == before[id]
  }

  /** Every group of `after` that is not in `before` is the SYSTEM group of one of the role codes. */
  ghost predicate OnlyRoleGroupsAdded(before: map<string, Group>, after: map<string, Group>) {
    forall id :: id in after && id !in before ==> exists j :: 0 <= j < |RoleCodeList| && after[id] == RoleGroup(RoleCodeList[j])
  }

  /**
   * EnsureRoleGroups: ensureRoleGroup for ADMIN, TEACHER and STUDENT in
   * turn, returning the first error without handling the codes after it.
   * When every role group already exists nothing changes, so a second call
   * never changes what the first one left.
   */
  method EnsureRoleGroups(db: Db, uuids: nat -> string) returns (err: Option<DbError>)
    modifies db`groups
    ensures GroupsKept(old(db.groups), db.groups)
    ensures OnlyRoleGroupsAdded(old(db.groups), db.groups)
    ensures err.None? ==> RoleGroupsExist(db.groups, |RoleCodeList|)
    ensures err.Some? ==> err == Some(Conflict)
    ensures RoleGroupsExist(old(db.groups), |RoleCodeList|) ==> err == None && db.groups == old(db.groups)
  {
    err := None;
    for i := 0 to |RoleCodeList|
      invariant err == None
      invariant GroupsKept(old(db.groups), db.groups)
      invariant OnlyRoleGroupsAdded(old(db.groups), db.groups)
      invariant RoleGroupsExist(db.groups, i)
      invariant RoleGroupsExist(old(db.groups), |RoleCodeList|) ==> db.groups == old(db.groups)
    {
      ghost var before := db.groups;
      err := EnsureRoleGroup(db, RoleCodeList[i], uuids(i));
      if err.Some? {
        return;
      }
      if db.groups != before {
        RoleGroupAdded(old(db.groups), before, uuids(i), i);
      }
      forall j | 0 <= j < i
        ensures Named(db.groups, RoleGroupName(RoleCodeList[j]))
      {
        NamedGroupKept(before, db.groups, RoleGroupName(RoleCodeList[j]));
      }
    }
  }

  /** Inserting a role group under a new id keeps both table invariants of EnsureRoleGroups. */
  lemma RoleGroupAdded(start: map<string, Group>, before: map<string, Group>, id: string, i: nat)
    requires GroupsKept(start, before) && OnlyRoleGroupsAdded(start, before)
    requires id !in before && i < |RoleCodeList|
    ensures GroupsKept(start, before[id := RoleGroup(RoleCodeList[i])])
    ensures OnlyRoleGroupsAdded(start, before[id := RoleGroup(RoleCodeList[i])])
  {
    var after := before[id := RoleGroup(RoleCodeList[i])];
    forall k | k in after && k !in start
      ensures exists j :: 0 <= j < |RoleCodeList| && after[k] == RoleGroup(RoleCodeList[j])
    {
      if k == id {
        assert after[k] == RoleGroup(RoleCodeList[i]);
      }
    }
  }

  /** A group name present before is present after, when the groups before are kept. */
  lemma NamedGroupKept(before: map<string, Group>, after: map<string, Group>, name: string)
    requires GroupsKept(before, after)
    requires Named(before, name)
    ensures Named(after, name)
  {
    var id :| id in before && before[id].name == name;
    assert after[id].name == name;
  }

  /* ------------------------------------------------------------ memberships */

  /** The user is a member of some group named after the role code. */
  ghost predicate InRoleGroup(groups: map<string, Group>, members: map<(string, string), string>,
                              userId: string, code: string) {
    exists gid :: gid in groups && groups[gid].name == RoleGroupName(code) && (gid, userId) in members
  }

  /** Every membership of `before` is in `after` with the same member role. */
  ghost predicate MembersKept(before: map<(string, string), string>, after: map<(string, string), string>) {
    forall k :: k in before ==> k in after && after[k] == before[k]
  }

  /** Every membership of `after` that is not in `before` belongs to `userId`. */
  ghost predicate OnlyAddedFor(before: map<(string, string), string>, after: map<(string, string), string>, userId: string) {
    forall k :: k in after && k !in before ==> k.1 == userId
  }

  /**
   * ensureMembership: the role code is upper-cased; without a group of that
   * role the lookup fails (NoRows); otherwise a membership with that member
   * role is inserted unless the user is already in the group, whose existing
   * member role is then left as it is.
   */
  method EnsureMembership(db: Db, userId: string, roleCode: string) returns (err: Option<DbError>)
    modifies db`members
    ensures !Named(db.groups, RoleGroupName(Upper(roleCode))) ==> err == Some(NoRows) && db.members == old(db.members)
    ensures Named(db.groups, RoleGroupName(Upper(roleCode))) ==>
              && err == None
              && exists gid :: gid in db.groups && db.groups[gid].name == RoleGroupName(Upper(roleCode))
                               && db.members == (if (gid, userId) in old(db.members) then old(db.members)
                                                 else old(db.members)[(gid, userId) := Upper(roleCode)])
    ensures err.None? ==> InRoleGroup(db.groups, db.members, userId, Upper(roleCode))
    ensures MembersKept(old(db.members), db.members) && OnlyAddedFor(old(db.members), db.members, userId)
  {
    var code := Upper(roleCode);
    var name := RoleGroupName(code);
    if !exists id :: id in db.groups && db.groups[id].name == name {
      return Some(NoRows);
    }
    var groupId :| groupId in db.groups && db.groups[groupId].name == name;
    if (groupId, userId) in db.members {
      return None;
    }
    db.members := db.members[(groupId, userId) := code];
    return None;
  }

  /**
   * EnsureUserMemberships: ensureMembership for each role code of the user,
   * stopping at the first error. The query has no ORDER BY, so the codes are
   * taken in any order.
   */
  method EnsureUserMemberships(db: Db, userId: string) returns (err: Option<DbError>)
    modifies db`members
    ensures err.None? ==> forall c :: c in RoleCodes(db.roles, db.userRoles, userId) ==> InRoleGroup(db.groups, db.members, userId, Upper(c))
    ensures err.Some? ==> err == Some(NoRows)
    ensures MembersKept(old(db.members), db.members) && OnlyAddedFor(old(db.members), db.members, userId)
  {
    var rest := RoleCodes(db.roles, db.userRoles, userId);
    err := None;
    while rest != {}
      invariant rest <= RoleCodes(db.roles, db.userRoles, userId)
      invariant err == None
      invariant forall c :: c in RoleCodes(db.roles, db.userRoles, userId) && c !in rest ==> InRoleGroup(db.groups, db.members, userId, Upper(c))
      invariant MembersKept(old(db.members), db.members) && OnlyAddedFor(old(db.members), db.members, userId)
      decreases |rest|
    {
      var code :| code in rest;
      ghost var before := db.members;
      err := EnsureMembership(db, userId, code);
      if err.Some? {
        return;
      }
      forall c | c in RoleCodes(db.roles, db.userRoles, userId) && c !in rest
        ensures InRoleGroup(db.groups, db.members, userId, Upper(c))
      {
        InRoleGroupKept(db.groups, before, db.members, userId, Upper(c));
      }
      rest := rest - {code};
    }
  }

  /** Memberships that are kept keep the user in the role group. */
  lemma InRoleGroupKept(groups: map<string, Group>, before: map<(string, string), string>,
                        after: map<(string, string), string>, userId: string, code: string)
    requires MembersKept(before, after) && InRoleGroup(groups, before, userId, code)
    ensures InRoleGroup(groups, after, userId, code)
  {
    var gid :| gid in groups && groups[gid].name == RoleGroupName(code) && (gid, userId) in before;
    assert (gid, userId) in after;
  }

  /** The exported EnsureMembership: the same statement for one role. */
  method EnsureMembershipFor(db: Db, userId: string, roleCode: string) returns (err: Option<DbError>)
    modifies db`members
    ensures err.None? <==> Named(db.groups, RoleGroupName(Upper(roleCode)))
    ensures err.None? ==> InRoleGroup(db.groups, db.members, userId, Upper(roleCode))
    ensures MembersKept(old(db.members), db.members) && OnlyAddedFor(old(db.members), db.members, userId)
  {
    err := EnsureMembership(db, userId, roleCode);
  }

  /* ------------------------------------------------------------ plain statements */

  /** CreateGroup: a PRIVATE group with the trimmed name, under a fresh id. */
  method CreateGroup(db: Db, name: string, grade: Option<int>, year: Option<int>, newId: string)
    returns (id: string, err: Option<DbError>)
    modifies db`groups
    ensures id == newId
    ensures newId in old(db.groups) ==> err == Some(Conflict) && db.groups == old(db.groups)
    ensures newId !in old(db.groups) ==>
              err == None && db.groups == old(db.groups)[newId := Group(TrimSpace(name), None, grade, year, "PRIVATE")]
  {
    id := newId;
    if newId in db.groups {
      return id, Some(Conflict);
    }
    db.groups := db.groups[newId := Group(TrimSpace(name), None, grade, year, "PRIVATE")];
    err := None;
  }

  /** The row UpdateGroup writes: the name only when one is given, grade and year always, even when null. */
  function UpdatedGroup(g: Group, name: Option<string>, grade: Option<int>, year: Option<int>): (r: Group)
    ensures name.None? ==> r.name == g.name
    ensures name.Some? ==> r.name == name.value
    ensures r.grade == grade && r.year == year
    ensures r.description == g.description && r.visibility == g.visibility
  {
    g.(name := name.GetOr(g.name), grade := grade, year := year)
  }

  /** UpdateGroup: rewrites the row of the id, if there is one. */
  method UpdateGroup(db: Db, groupId: string, name: Option<string>, grade: Option<int>, year: Option<int>)
    modifies db`groups
    ensures groupId in old(db.groups) ==> db.groups == old(db.groups)[groupId := UpdatedGroup(old(db.groups)[groupId], name, grade, year)]
    ensures groupId !in old(db.groups) ==> db.groups == old(db.groups)
  {
    if groupId in db.groups {
      db.groups := db.groups[groupId := UpdatedGroup(db.groups[groupId], name, grade, year)];
    }
  }

  /** DeleteGroup: removes the row of the id. */
  method DeleteGroup(db: Db, groupId: string)
    modifies db`groups
    ensures db.groups == old(db.groups) - {groupId}
  {
    db.groups := db.groups - {groupId};
  }

  /** AddMember: an upsert; afterwards the pair is present with the upper-cased role, whatever it had before. */
  method AddMember(db: Db, groupId: string, userId: string, role: string)
    modifies db`members
    ensures db.members == old(db.members)[(groupId, userId) := Upper(role)]
  {
    db.members := db.members[(groupId, userId) := Upper(role)];
  }

  /** RemoveMember: deletes only the pair. */
  method RemoveMember(db: Db, groupId: string, userId: string)
    modifies db`members
    ensures db.members == old(db.members) - {(groupId, userId)}
  {
    db.members := db.members - {(groupId, userId)};
  }
}

=== FILE: router.dfy ===
/**
 * The server's token configuration and its route table: which middleware
 * chain guards each endpoint, and what such a chain decides for a request.
 */
module Routes {
  import opened Wrappers
  import opened Text
  import opened Tokens
  import opened AuthMiddleware
  import Config

  /** NewServer's TokenService: the configured secret and issuer, the lifetimes in seconds. */
  function NewServer(cfg: Config.Cfg): (ts: TokenService)
    ensures ts.secret == cfg.jwtSecret && ts.issuer == cfg.jwtIssuer
    ensures ts.accessTtl == cfg.accessTtlSeconds && ts.refreshTtl == cfg.refreshTtlSeconds
  {
    TokenService(cfg.jwtSecret, cfg.jwtIssuer, cfg.accessTtlSeconds, cfg.refreshTtlSeconds)
  }

  /** With the default configuration, access tokens live four hours and refresh tokens fourteen days. */
  lemma DefaultLifetimes(databaseUrl: string, jwtSecret: string)
    requires databaseUrl != "" && IsTrimmed(databaseUrl) && jwtSecret != "" && IsTrimmed(jwtSecret)
    ensures var cfg := Config.Load(map["DATABASE_URL" := databaseUrl, "JWT_SECRET" := jwtSecret]);
            cfg.Ok? && NewServer(cfg.value) == TokenService(jwtSecret, "fizicamd", 4 * 60 * 60, 14 * 24 * 60 * 60)
  {
    Config.LoadDefaults(databaseUrl, jwtSecret);
  }

  /** A middleware of the table: WithAuth, RequireRole or RequireAnyRole. */
  datatype Guard = Authenticate | RoleGate(role: string) | AnyRoleGate(roles: seq<string>)

  /** One endpoint: method, full pattern, handler name, and its middleware chain in order. */
  datatype Route = Route(verb: string, pattern: string, handler: string, guards: seq<Guard>)

  /** A handler registered below a mount point, with middleware of its own (chi's With). */
  datatype Endpoint = Endpoint(verb: string, path: string, handler: string, extra: seq<Guard>)

  /** The routes of one chi.Route block: every endpoint is prefixed and guarded by the block's middleware first. */
  function Mount(prefix: string, guards: seq<Guard>, endpoints: seq<Endpoint>): (routes: seq<Route>)
    ensures |routes| == |endpoints|
    ensures forall i :: 0 <= i < |routes| ==>
              HasPrefix(routes[i].pattern, prefix)
              && |guards| <= |routes[i].guards| && routes[i].guards[..|guards|] == guards
              && routes[i].verb == endpoints[i].verb && routes[i].handler == endpoints[i].handler
  {
    seq(|endpoints|, i requires 0 <= i < |endpoints| =>
      Route(endpoints[i].verb, prefix + endpoints[i].path, endpoints[i].handler, guards + endpoints[i].extra))
  }

  function E(verb: string, path: string, handler: string): Endpoint {
    Endpoint(verb, path, handler, [])
  }

  const AuthGuards: seq<Guard> := [Authenticate]
  const AdminGuards: seq<Guard> := [Authenticate, RoleGate("ADMIN")]
  const TeacherGuards: seq<Guard> := [Authenticate, AnyRoleGate(["TEACHER", "ADMIN"])]
  const StudentGuards: seq<Guard> := [Authenticate, RoleGate("STUDENT")]

  const AuthRoutes: seq<Route> := Mount("/api/auth", [], [
    E("POST", "/register", "Register"), E("POST", "/login", "Login"),
    E("POST", "/refresh", "Refresh"), E("POST", "/logout", "Logout")])

  const MeRoutes: seq<Route> := Mount("/api/me", AuthGuards, [
    E("GET", "/", "Me"), E("GET", "/profile", "Me"), E("PUT", "/profile", "UpdateProfile"),
    E("DELETE", "/", "DeleteAccount"), E("PUT", "/password", "ChangePassword"), E("POST", "/ping", "Ping")])

  const AdminRoutes: seq<Route> := Mount("/api/admin", AdminGuards, [
    E("GET", "/metrics/history", "MetricsHistory"),
    E("GET", "/users/", "ListUsers"), E("POST", "/users/", "CreateUser"),
    E("PUT", "/users/{userId}", "UpdateUser"), E("DELETE", "/users/{userId}", "DeleteUser"),
    E("POST", "/users/{userId}/roles", "AssignRole"), E("DELETE", "/users/{userId}/roles/{role}", "RemoveRole"),
    E("POST", "/groups/", "AdminCreateGroup"), E("PUT", "/groups/{groupId}", "AdminUpdateGroup"),
    E("DELETE", "/groups/{groupId}", "AdminDeleteGroup"), E("POST", "/groups/{groupId}/members", "AdminAddMember"),
    E("DELETE", "/groups/{groupId}/members/{userId}", "AdminRemoveMember"), E("GET", "/groups/{groupId}", "AdminGetGroup")])

  const TeacherRoutes: seq<Route> := Mount("/api/teacher", TeacherGuards, [
    E("GET", "/resources/", "TeacherListResources"), E("POST", "/resources/", "CreateResource"),
    E("GET", "/resources/{resourceId}", "TeacherResourceDetail"), E("PUT", "/resources/{resourceId}", "UpdateResource"),
    E("DELETE", "/resources/{resourceId}", "DeleteResource"),
    E("GET", "/resource-categories/", "ListCategories"), E("POST", "/resource-categories/", "CreateCategory"),
    E("PUT", "/resource-categories/{code}", "UpdateCategory"), E("DELETE", "/resource-categories/{code}", "DeleteCategory"),
    E("PUT", "/resource-categories/groups/{groupLabel}", "UpdateGroupLabel"),
    E("GET", "/groups/", "TeacherGroups"), E("GET", "/groups/{groupId}", "TeacherGetGroup"),
    E("PUT", "/groups/{groupId}", "TeacherUpdateGroup"), E("POST", "/groups/{groupId}/members", "TeacherAddMember"),
    E("DELETE", "/groups/{groupId}/members/{userId}", "TeacherRemoveMember")])

  const StudentRoutes: seq<Route> := Mount("/api/student/groups", StudentGuards, [
    E("GET", "/", "StudentGroups"), E("GET", "/{groupId}", "StudentGetGroup")])

  const PublicRoutes: seq<Route> := Mount("/api/public", [], [
    E("GET", "/search", "PublicSearch"), E("POST", "/visits", "TrackVisit"), E("GET", "/visits/count", "VisitCount"),
    E("GET", "/resources/categories", "PublicCategories"), E("GET", "/resources/", "PublicResources"),
    E("GET", "/resources/{slug}", "PublicResourceDetail")])

  const MediaRoutes: seq<Route> := Mount("/api/media", AuthGuards, [
    E("POST", "/uploads/avatar", "UploadAvatar"),
    Endpoint("POST", "/uploads/resource", "UploadResource", [AnyRoleGate(["TEACHER", "ADMIN"])]),
    E("GET", "/assets/{assetId}/content", "MediaContent")])

  const SocketRoutes: seq<Route> := Mount("", [], [E("GET", "/ws/metrics", "MetricsSocket")])

  /** The route table of Router. */
  const Table: seq<Route> :=
    AuthRoutes + MeRoutes + AdminRoutes + TeacherRoutes + StudentRoutes + PublicRoutes + MediaRoutes + SocketRoutes

  /** The middleware chain of the route for a method and pattern, if there is one. */
  function GuardsOf(routes: seq<Route>, verb: string, pattern: string): (r: Option<seq<Guard>>)
    ensures r.Some? ==> exists i :: 0 <= i < |routes| && routes[i].verb == verb && routes[i].pattern == pattern
                                    && routes[i].guards == r.value
    decreases |routes|
  {
    if |routes| == 0 then None
    else if routes[0].verb == verb && routes[0].pattern == pattern then Some(routes[0].guards)
    else
      var r := GuardsOf(routes[1..], verb, pattern);
      assert forall i :: 1 <= i < |routes| ==> routes[i] == routes[1..][i - 1];
      r
  }

  /** The result of running a chain: the handler is reached with the context, or a middleware answered. */
  datatype Outcome = Served(ctx: Option<Identity>) | Refused(status: int)

  /**
   * Runs a middleware chain in order; the first middleware that answers ends
   * the request. `auth` is WithAuth's decision for the request,
   * AuthGate(ts, header, now, verify), used where the chain authenticates.
   */
  function Admit(guards: seq<Guard>, auth: Gate, ctx: Option<Identity>): (o: Outcome)
    requires auth.Reject? ==> auth.status == 401
    ensures o.Refused? ==> o.status == 401 || o.status == 403
    ensures Authenticate !in guards ==> o.Served? ==> o.ctx == ctx
    decreases |guards|
  {
    if |guards| == 0 then Served(ctx)
    else
      assert forall g :: g in guards[1..] ==> g in guards;
      match guards[0]
      case Authenticate =>
        (match auth
         case Reject(s) => Refused(s)
         case Pass(id) => Admit(guards[1..], auth, Some(id)))
      case RoleGate(role) =>
        if RequireRole(role, ctx) == Allow then Admit(guards[1..], auth, ctx) else Refused(403)
      case AnyRoleGate(roles) =>
        if HasAnyRole(CurrentRoles(ctx), roles) then Admit(guards[1..], auth, ctx) else Refused(403)
  }

  /** The auth and public endpoints and the metrics socket have no middleware: every request reaches them. */
  lemma OpenRoutes(auth: Gate)
    requires auth.Reject? ==> auth.status == 401
    ensures forall r :: r in AuthRoutes + PublicRoutes + SocketRoutes ==> r.guards == []
    ensures Admit([], auth, None) == Served(None)
  {
  }

  /** The groups, with their middleware prefix. */
  lemma GroupGuards()
    ensures forall r :: r in MeRoutes ==> r.guards == AuthGuards
    ensures forall r :: r in AdminRoutes ==> r.guards == AdminGuards
    ensures forall r :: r in TeacherRoutes ==> r.guards == TeacherGuards
    ensures forall r :: r in StudentRoutes ==> r.guards == StudentGuards
    ensures forall r :: r in MediaRoutes ==> r.guards[..1] == AuthGuards
  {
  }

  /** Media uploads: a resource upload needs TEACHER or ADMIN on top of the token, an avatar upload does not. */
  lemma MediaUploads()
    ensures GuardsOf(MediaRoutes, "POST", "/api/media" + "/uploads/resource")
            == Some([Authenticate, AnyRoleGate(["TEACHER", "ADMIN"])])
    ensures GuardsOf(MediaRoutes, "POST", "/api/media" + "/uploads/avatar") == Some(AuthGuards)
  {
    var avatar, resource := "/api/media" + "/uploads/avatar", "/api/media" + "/uploads/resource";
    assert MediaRoutes[0].pattern == avatar && MediaRoutes[1].pattern == resource;
    assert |avatar| != |resource|;
    assert MediaRoutes[0].verb == "POST" && MediaRoutes[0].guards == AuthGuards + [];
    assert MediaRoutes[1].verb == "POST" && MediaRoutes[1].guards == AuthGuards + [AnyRoleGate(["TEACHER", "ADMIN"])];
    assert MediaRoutes[1..][0] == MediaRoutes[1];
    assert AuthGuards + [] == AuthGuards;
    assert AuthGuards + [AnyRoleGate(["TEACHER", "ADMIN"])] == [Authenticate, AnyRoleGate(["TEACHER", "ADMIN"])];
    assert |MediaRoutes| == 3;
    assert GuardsOf(MediaRoutes, "POST", avatar) == Some(MediaRoutes[0].guards);
    assert GuardsOf(MediaRoutes, "POST", resource) == GuardsOf(MediaRoutes[1..], "POST", resource);
    assert GuardsOf(MediaRoutes[1..], "POST", resource) == Some(MediaRoutes[1].guards);
  }

  /** A chain that checks the token first passes exactly the requests WithAuth passes, then applies its role gate. */
  lemma RoleChain(role: string, auth: Gate)
    requires auth.Reject? ==> auth.status == 401
    ensures Admit([Authenticate, RoleGate(role)], auth, None)
            == if auth.Reject? then Refused(401)
               else if HasRole(auth.id.roles, role) then Served(Some(auth.id))
               else Refused(403)
  {
    var chain := [Authenticate, RoleGate(role)];
    assert chain[1..] == [RoleGate(role)];
    assert [RoleGate(role)][1..] == [];
    if auth.Pass? {
      assert Admit(chain, auth, None) == Admit([RoleGate(role)], auth, Some(auth.id));
      if HasRole(auth.id.roles, role) {
        assert Admit([RoleGate(role)], auth, Some(auth.id)) == Admit([], auth, Some(auth.id));
      }
    }
  }

  /** An administrator who is not also a student is refused the student routes with 403, but reaches the others. */
  lemma AdminIsNotStudent(auth: Gate)
    requires auth.Pass? && auth.id.roles == ["ADMIN"]
    ensures Admit(StudentGuards, auth, None) == Refused(403)
    ensures Admit(AdminGuards, auth, None) == Served(Some(auth.id))
    ensures Admit(TeacherGuards, auth, None) == Served(Some(auth.id))
  {
    RoleChain("STUDENT", auth);
    RoleChain("ADMIN", auth);
    assert Upper(auth.id.roles[0]) == Upper("ADMIN");
    assert HasAnyRole(["ADMIN"], ["TEACHER", "ADMIN"]) by {
      assert Upper(["ADMIN"][0]) == Upper(["TEACHER", "ADMIN"][1]);
    }
    var any := AnyRoleGate(["TEACHER", "ADMIN"]);
    assert TeacherGuards[1..] == [any];
    assert [any][1..] == [];
    assert Admit(TeacherGuards, auth, None) == Admit([any], auth, Some(auth.id));
    assert Admit([any], auth, Some(auth.id)) == Admit([], auth, Some(auth.id));
  }

  /** A role gate with no WithAuth before it has no roles to look at and always answers 403. */
  lemma RoleGateNeedsAuth(guard: Guard, rest: seq<Guard>, auth: Gate)
    requires auth.Reject? ==> auth.status == 401
    requires guard.RoleGate? || guard.AnyRoleGate?
    ensures Admit([guard] + rest, auth, None) == Refused(403)
  {
    assert ([guard] + rest)[0] == guard;
  }
}

=== FILE: seqs.dfy ===
/**
 * Listings without repeats: the rows a query returns list each row of the
 * table once, so a listing has as many rows as the set of ids it lists.
 */
module Seqs {
  /** No element occurs twice. */
  predicate Distinct<T(==)>(s: seq<T>) {
    forall i, j :: 0 <= i < j < |s| ==> s[i] != s[j]
  }

  /** Dropping the last element keeps a listing without repeats, and the last element is not among the others. */
  lemma DistinctInit<T>(s: seq<T>)
    requires |s| > 0
    ensures Distinct(s) ==> Distinct(s[..|s| - 1]) && s[|s| - 1] !in s[..|s| - 1]
  {
    assert forall k :: 0 <= k < |s| - 1 ==> s[..|s| - 1][k] == s[k];
  }

  /** A listing without repeats of exactly the elements of `t` has |t| entries. */
  lemma {:induction false} DistinctCount<T>(s: seq<T>, t: set<T>)
    requires Distinct(s)
    requires forall x :: x in s <==> x in t
    ensures |s| == |t|
    decreases |s|
  {
    if |s| == 0 {
      assert t == {};
    } else {
      var last := s[|s| - 1];
      var init := s[..|s| - 1];
      DistinctInit(s);
      assert forall x :: x in s <==> x in init || x == last;
      DistinctCount(init, t - {last});
    }
  }
}

=== FILE: store.dfy ===
/**
 * The PostgreSQL tables the handlers read and write, as one object whose
 * fields are the tables. A table is a map keyed by its primary key (or a set
 * when the row is nothing but its key); the columns the core never reads or
 * writes (creation and update timestamps, JSON metadata, row ids of link
 * tables) are not carried.
 *
 * A query that selects by a column other than the key (an e-mail, a name, a
 * slug) may match several rows, and SQL then returns them in no particular
 * order; the methods that model such a query choose one of the matches.
 */
module Store {
  import opened Wrappers
  import opened Text
  import opened Dates
  import opened ResourceText

  /** A row of `users`. Times are Unix seconds. */
  datatype User = User(email: string, passwordHash: string, status: string,
                       lastLoginAt: Option<int>, lastSeenAt: Option<int>)

  /** A row of `user_profiles`, keyed by the user id: every column may be NULL. */
  datatype Profile = Profile(firstName: Option<string>, lastName: Option<string>, birthDate: Option<Day>,
                             gender: Option<string>, phone: Option<string>, school: Option<string>,
                             gradeLevel: Option<string>, bio: Option<string>, avatarId: Option<string>)

  /** The row `INSERT INTO user_profiles (user_id, …)` creates when it names no profile column. */
  const BlankProfile: Profile := Profile(None, None, None, None, None, None, None, None, None)

  /** A row of `groups`. */
  datatype Group = Group(name: string, description: Option<string>, grade: Option<int>, year: Option<int>,
                         visibility: string)

  /** A row of `resource_categories`, keyed by its code. */
  datatype Category = Category(labelText: string, groupLabel: string, sortOrder: int, groupOrder: int)

  /** A row of `resource_entries`. */
  datatype Resource = Resource(categoryCode: string, authorId: string, title: string, slug: string, summary: string,
                               avatarId: Option<string>, tags: seq<string>, content: seq<Block>,
                               status: string, publishedAt: Option<int>)

  /** A row of `site_visits`. */
  datatype Visit = Visit(ip: Option<string>, userAgent: Option<string>, path: Option<string>, referrer: Option<string>)

  /** An e-mail as the handlers compare and store it: trimmed and lower-cased. */
  function NormalEmail(raw: string): (e: string)
    ensures Lower(e) == e
  {
    LowerIdempotent(TrimSpace(raw));
    Lower(TrimSpace(raw))
  }

  /** The users row `id` is one that `WHERE lower(email) = $1` selects. */
  predicate EmailOwner(users: map<string, User>, email: string, id: string) {
    id in users && Lower(users[id].email) == email
  }

  /** The role codes `SELECT r.code FROM roles r JOIN user_roles ur ON ur.role_id = r.id WHERE ur.user_id = $1` returns. */
  function RoleCodes(roles: map<string, string>, userRoles: set<(string, string)>, userId: string): (codes: set<string>)
    ensures forall c :: c in codes <==> c in roles && (userId, roles[c]) in userRoles
  {
    set c | c in roles && (userId, roles[c]) in userRoles
  }

  /** Why a statement failed, where the model can tell: a `Get` matched no row, or an insert reused a key. */
  datatype DbError = NoRows | Conflict

  class Db {
    /** `users` by id. */
    var users: map<string, User>
    /** `user_profiles` by user id. */
    var profiles: map<string, Profile>
    /** `roles`: the id of each role code. */
    var roles: map<string, string>
    /** `user_roles`: (user id, role id) links. */
    var userRoles: set<(string, string)>
    /** `groups` by id. */
    var groups: map<string, Group>
    /** `group_members`: the member role of each (group id, user id) pair; every row is ACTIVE. */
    var members: map<(string, string), string>
    /** `resource_categories` by code. */
    var categories: map<string, Category>
    /** `resource_entries` by id. */
    var resources: map<string, Resource>
    /** `site_visits`, in insertion order. */
    var visits: seq<Visit>

    /** An empty database. */
    constructor ()
      ensures users == map[] && profiles == map[] && roles == map[] && userRoles == {}
      ensures groups == map[] && members == map[] && categories == map[] && resources == map[] && visits == []
    {
      users := map[];
      profiles := map[];
      roles := map[];
      userRoles := {};
      groups := map[];
      members := map[];
      categories := map[];
      resources := map[];
      visits := [];
    }

    /** `EXISTS(SELECT 1 FROM users WHERE lower(email) = $1)`. */
    ghost predicate EmailTaken(email: string)
      reads this`users
    {
      exists id :: EmailOwner(users, email, id)
    }
  }

  /* ------------------------------------------------------------ ORDER BY code */

  /** Strictly ascending in byte order, hence without repetitions. */
  predicate Ascending(s: seq<string>) {
    forall i, j :: 0 <= i < j < |s| ==> Less(s[i], s[j])
  }

  /** `s` with `c` inserted at its place in the order. */
  function InsertAscending(s: seq<string>, c: string): (r: seq<string>)
    requires Ascending(s) && c !in s
    ensures Ascending(r)
    ensures |r| == |s| + 1
    ensures forall x :: x in r <==> x in s || x == c
    decreases |s|
  {
    if |s| == 0 then [c]
    else if Less(c, s[0]) then
      LessAfterHead(s, c);
      [c] + s
    else
      LessTotal(c, s[0]);
      var rest := InsertAscending(s[1..], c);
      assert forall x :: x in s <==> x == s[0] || x in s[1..];
      assert forall k :: 0 <= k < |rest| ==> Less(s[0], rest[k]) by {
        forall k | 0 <= k < |rest|
          ensures Less(s[0], rest[k])
        {
          if rest[k] != c {
            assert rest[k] in s[1..];
            var m :| 0 <= m < |s| - 1 && s[1..][m] == rest[k];
            assert s[m + 1] == rest[k];
          }
        }
      }
      [s[0]] + rest
  }

  /** A value below the head of an ascending sequence is below all of it. */
  lemma LessAfterHead(s: seq<string>, c: string)
    requires Ascending(s) && |s| > 0 && Less(c, s[0])
    ensures Ascending([c] + s)
  {
    forall j | 1 <= j < |s|
      ensures Less(c, s[j])
    {
      LessTransitive(c, s[0], s[j]);
    }
  }

  /** The codes of a set in ascending order: the only ascending listing of exactly those codes (AscendingUnique). */
  ghost function SortedCodes(codes: set<string>): (s: seq<string>)
    ensures Ascending(s)
    ensures |s| == |codes|
    ensures forall c :: c in s <==> c in codes
  {
    if codes == {} then []
    else
      var c :| c in codes;
      InsertAscending(SortedCodes(codes - {c}), c)
  }

  /** Two ascending listings of the same codes are the same listing. */
  lemma {:induction false} AscendingUnique(s: seq<string>, t: seq<string>)
    requires Ascending(s) && Ascending(t)
    requires forall x :: x in s <==> x in t
    ensures s == t
    decreases |s|
  {
    if |s| == 0 {
      if |t| > 0 {
        HeadListed(t);
        assert false;
      }
    } else {
      assert s[0] in t && t[0] in s;
      AscendingHeadLeast(s, t[0]);
      AscendingHeadLeast(t, s[0]);
      if s[0] != t[0] {
        LessAsymmetric(s[0], t[0]);
      }
      forall x
        ensures x in s[1..] <==> x in t[1..]
      {
        AscendingTail(s, x);
        AscendingTail(t, x);
      }
      AscendingUnique(s[1..], t[1..]);
    }
  }

  /** A non-empty listing holds its head. */
  lemma HeadListed(t: seq<string>)
    requires |t| > 0
    ensures t[0] in t
  {
  }

  /** The tail of an ascending listing holds every code but the head. */
  lemma AscendingTail(s: seq<string>, x: string)
    requires Ascending(s) && |s| > 0
    ensures x in s[1..] <==> x in s && x != s[0]
  {
    if x in s[1..] {
      var k :| 0 <= k < |s| - 1 && s[1..][k] == x;
      assert s[k + 1] == x;
      LessIrreflexive(s[0]);
    }
    if x in s && x != s[0] {
      var k :| 0 <= k < |s| && s[k] == x;
      assert s[1..][k - 1] == x;
    }
  }

  /**
   * The rows of a role-code query under `ORDER BY r.code`: the codes of the
   * set in ascending order. SQL gives the rows in no order before sorting;
   * the loop takes them in any order.
   */
  method SortCodes(codes: set<string>) returns (sorted: seq<string>)
    ensures sorted == SortedCodes(codes)
  {
    sorted := [];
    var rest := codes;
    while rest != {}
      invariant rest <= codes
      invariant Ascending(sorted)
      invariant forall c :: c in sorted <==> c in codes && c !in rest
      invariant |sorted| + |rest| == |codes|
      decreases |rest|
    {
      var c :| c in rest;
      sorted := InsertAscending(sorted, c);
      rest := rest - {c};
    }
    AscendingUnique(sorted, SortedCodes(codes));
  }

  /** The first code of an ascending listing is the least of them all. */
  lemma AscendingHeadLeast(s: seq<string>, c: string)
    requires Ascending(s) && c in s
    ensures LessEq(s[0], c)
  {
  }
}

=== FILE: teacher_resources.dfy ===
/**
 * The teacher's resource endpoints: listing, detail, create, update and
 * delete of resource entries.
 *
 * A caller with the ADMIN role manages every entry; any other caller manages
 * only the entries it authored, and an entry it does not own reads as
 * missing (404). The publish state and its date move together: an entry
 * carries a publication date exactly when its status is PUBLISHED, and the
 * date of a published entry is kept across updates.
 *
 * Slug resolution asks whether a slug is taken through `probe`, which
 * stands for the `EXISTS` query on resource_entries; the current time and
 * the new entry id are parameters.
 */
module TeacherResources {
  import opened Wrappers
  import opened Seqs
  import opened Text
  import opened Store
  import opened Replies
  import opened ResourceText
  import opened ResourceHelpers
  import opened AuthMiddleware
  import Media

  const Published: string := "PUBLISHED"

  /** The create and update body. */
  datatype ResourceRequest = ResourceRequest(categoryCode: string, title: string, summary: string,
                                             avatarId: Option<string>, tags: seq<string>, blocks: RawContent,
                                             status: string)

  /** ResourceCardDTO. Publication times are Unix seconds. */
  datatype CardView = CardView(id: string, title: string, slug: string, summary: string,
                               category: Option<CategoryDto>, avatarUrl: Option<string>, tags: seq<string>,
                               authorName: string, publishedAt: Option<int>, status: string)

  /** ResourceDetailDTO. */
  datatype DetailView = DetailView(id: string, title: string, slug: string, summary: string,
                                   category: Option<CategoryDto>, avatarUrl: Option<string>,
                                   avatarAssetId: Option<string>, tags: seq<string>, authorName: string,
                                   publishedAt: Option<int>, status: string, blocks: seq<Block>)

  /* ------------------------------------------------------------ ownership */

  /** The caller may manage the entry: ADMIN, or the entry's author. */
  predicate CanManage(roles: seq<string>, callerId: string, entry: Resource) {
    HasRole(roles, "ADMIN") || entry.authorId == callerId
  }

  /** The entries the list shows, in the order of `ordered` (the ids by created_at, newest first). */
  function Listed(resources: map<string, Resource>, ordered: seq<string>, callerId: string, roles: seq<string>)
    : (ids: seq<string>)
    ensures |ids| <= |ordered|
    ensures forall id :: id in ids <==> id in ordered && id in resources && CanManage(roles, callerId, resources[id])
    ensures Distinct(ordered) ==> Distinct(ids)
    decreases |ordered|
  {
    if |ordered| == 0 then []
    else
      var rest := Listed(resources, ordered[..|ordered| - 1], callerId, roles);
      var id := ordered[|ordered| - 1];
      DistinctInit(ordered);
      assert forall x :: x in ordered <==> x in ordered[..|ordered| - 1] || x == id;
      if id in resources && CanManage(roles, callerId, resources[id]) then rest + [id] else rest
  }

  /** Without ADMIN, the list holds exactly the caller's own entries. */
  lemma ListedOwnOnly(resources: map<string, Resource>, ordered: seq<string>, callerId: string, roles: seq<string>)
    requires !HasRole(roles, "ADMIN")
    ensures forall id :: (id in Listed(resources, ordered, callerId, roles)
                          <==> id in ordered && id in resources && resources[id].authorId == callerId)
  {
  }

  /** With ADMIN, the list holds every entry. */
  lemma ListedAll(resources: map<string, Resource>, ordered: seq<string>, callerId: string, roles: seq<string>)
    requires HasRole(roles, "ADMIN")
    ensures forall id :: id in Listed(resources, ordered, callerId, roles) <==> id in ordered && id in resources
  {
  }

  /* ------------------------------------------------------------ views */

  /** The public address of an optional avatar asset. */
  function AvatarUrl(avatarId: Option<string>): (url: Option<string>)
    ensures url.Some? <==> avatarId.Some?
    ensures url.Some? ==> |url.value| >= |Media.AssetPrefix| + |Media.AssetSuffix|
                          && Media.AssetIdOf(url.value) == avatarId.value
  {
    if avatarId.None? then None
    else
      Media.AssetUrlRoundTrip(avatarId.value);
      Some(Media.BuildAssetUrl(avatarId.value))
  }

  /** The card of a stored entry. */
  function CardOf(db: Db, id: string): (card: CardView)
    reads db`categories, db`users, db`profiles, db`resources
    requires id in db.resources
    ensures card.id == id && card.slug == db.resources[id].slug && card.status == db.resources[id].status
    ensures card.publishedAt == db.resources[id].publishedAt
    ensures card.category == FetchCategory(db.categories, db.resources[id].categoryCode)
    ensures card.authorName == AuthorDisplayName(db.users, db.profiles, db.resources[id].authorId)
  {
    var e := db.resources[id];
    CardView(id, e.title, e.slug, e.summary, FetchCategory(db.categories, e.categoryCode), AvatarUrl(e.avatarId),
             e.tags, AuthorDisplayName(db.users, db.profiles, e.authorId), e.publishedAt, e.status)
  }

  /** The detail of a stored entry, the author's name given. */
  function DetailOf(categories: map<string, Category>, id: string, e: Resource, authorName: string): (d: DetailView)
    ensures d.id == id && d.slug == e.slug && d.title == e.title && d.summary == e.summary
    ensures d.status == e.status && d.publishedAt == e.publishedAt && d.blocks == e.content && d.tags == e.tags
    ensures d.avatarAssetId == e.avatarId && d.category == FetchCategory(categories, e.categoryCode)
    ensures d.authorName == authorName
  {
    DetailView(id, e.title, e.slug, e.summary, FetchCategory(categories, e.categoryCode), AvatarUrl(e.avatarId),
               e.avatarId, e.tags, authorName, e.publishedAt, e.status, e.content)
  }

  /** The loop of TeacherListResources: one card per listed id. */
  method Cards(db: Db, ids: seq<string>) returns (items: seq<CardView>)
    requires forall k :: 0 <= k < |ids| ==> ids[k] in db.resources
    ensures |items| == |ids|
    ensures forall k :: 0 <= k < |ids| ==> items[k] == CardOf(db, ids[k])
  {
    items := [];
    for k := 0 to |ids|
      invariant |items| == k
      invariant forall m :: 0 <= m < k ==> items[m] == CardOf(db, ids[m])
    {
      items := items + [CardOf(db, ids[k])];
    }
  }

  /**
   * TeacherListResources: the cards of the entries the caller manages, newest
   * first, each entry once. `ordered` is the table's ids as `ORDER BY
   * created_at DESC` returns them: each entry once.
   */
  method TeacherListResources(db: Db, callerId: string, roles: seq<string>, ordered: seq<string>)
    returns (reply: Reply<seq<CardView>>)
    requires Distinct(ordered)
    requires forall id :: id in ordered <==> id in db.resources
    ensures reply.Done? && reply.status == 200
    ensures |reply.body| == |set id | id in db.resources && CanManage(roles, callerId, db.resources[id])|
    ensures forall id :: id in Listed(db.resources, ordered, callerId, roles) <==>
                         id in db.resources && CanManage(roles, callerId, db.resources[id])
    ensures Distinct(Listed(db.resources, ordered, callerId, roles))
    ensures |reply.body| == |Listed(db.resources, ordered, callerId, roles)|
    ensures forall k :: 0 <= k < |reply.body| ==>
              var id := Listed(db.resources, ordered, callerId, roles)[k];
              id in db.resources && CanManage(roles, callerId, db.resources[id]) && reply.body[k] == CardOf(db, id)
  {
    var ids := Listed(db.resources, ordered, callerId, roles);
    DistinctCount(ids, set id | id in db.resources && CanManage(roles, callerId, db.resources[id]));
    assert forall k :: 0 <= k < |ids| ==> ids[k] in ids;
    var items := Cards(db, ids);
    return Done(200, items);
  }

  /** TeacherResourceDetail: 404 for an unknown id; otherwise the entry with its author's name (no ownership check). */
  method TeacherResourceDetail(db: Db, resourceId: string) returns (reply: Reply<DetailView>)
    ensures resourceId !in db.resources <==> reply == Failure(404, ResourceNotFound)
    ensures resourceId in db.resources ==>
              var e := db.resources[resourceId];
              reply == Done(200, DetailOf(db.categories, resourceId, e, AuthorDisplayName(db.users, db.profiles, e.authorId)))
  {
    if resourceId !in db.resources {
      return Failure(404, ResourceNotFound);
    }
    var e := db.resources[resourceId];
    return Done(200, DetailOf(db.categories, resourceId, e, AuthorDisplayName(db.users, db.profiles, e.authorId)));
  }

  /* ------------------------------------------------------------ validation */

  /** The checked fields of a request: trimmed texts and validated blocks. */
  datatype Fields = Fields(categoryCode: string, title: string, summary: string, blocks: seq<Block>)

  /**
   * The checks create and update share, in their order: a blank category
   * code, title or summary is 400; an unknown category is 400; a block
   * error is 400 with the validator's message.
   */
  function CheckFields(categories: map<string, Category>, req: ResourceRequest): (r: Result<Fields, Message>)
    ensures IsBlank(req.categoryCode) || IsBlank(req.title) || IsBlank(req.summary) ==> r == Err(TitleRequired)
    ensures r.Ok? <==> && !IsBlank(req.categoryCode) && !IsBlank(req.title) && !IsBlank(req.summary)
                       && TrimSpace(req.categoryCode) in categories && ValidateSpec(req.blocks).Ok?
    ensures r.Err? && r != Err(TitleRequired) ==>
              r == Err(CategoryUnknown) || (ValidateSpec(req.blocks).Err? && r == Err(Raw(ValidateSpec(req.blocks).error)))
    ensures r.Ok? ==> && r.value.categoryCode == TrimSpace(req.categoryCode) && r.value.categoryCode in categories
                      && r.value.title == TrimSpace(req.title) && r.value.title != ""
                      && r.value.summary == TrimSpace(req.summary) && r.value.summary != ""
                      && r.value.blocks == ValidateSpec(req.blocks).value
  {
    var code, title, summary := TrimSpace(req.categoryCode), TrimSpace(req.title), TrimSpace(req.summary);
    if code == "" || title == "" || summary == "" then Err(TitleRequired)
    else if code !in categories then Err(CategoryUnknown)
    else match ValidateSpec(req.blocks)
      case Err(e) => Err(Raw(e))
      case Ok(blocks) => Ok(Fields(code, title, summary, blocks))
  }

  /** The checks as the handlers run them, with the block loop. */
  method Check(db: Db, req: ResourceRequest) returns (r: Result<Fields, Message>)
    ensures r == CheckFields(db.categories, req)
  {
    var code, title, summary := TrimSpace(req.categoryCode), TrimSpace(req.title), TrimSpace(req.summary);
    if code == "" || title == "" || summary == "" {
      return Err(TitleRequired);
    }
    if code !in db.categories {
      return Err(CategoryUnknown);
    }
    var blocks := ValidateBlocks(req.blocks);
    if blocks.Err? {
      return Err(Raw(blocks.error));
    }
    return Ok(Fields(code, title, summary, blocks.value));
  }

  /* ------------------------------------------------------------ publish state */

  /** A row whose publication date is present exactly when its status is PUBLISHED. */
  predicate PublishConsistent(e: Resource) {
    e.publishedAt.Some? <==> e.status == Published
  }

  /** The status of a new entry: the requested one, PUBLISHED when none is given. */
  function StatusOnCreate(requested: string): (status: string)
    ensures requested == "" ==> status == Published
    ensures requested != "" ==> status == requested
  {
    if requested == "" then Published else requested
  }

  /** The publication date of a new entry: now when it is published, none otherwise. */
  function PublishedOnCreate(status: string, now: int): (at: Option<int>)
    ensures at.Some? <==> status == Published
    ensures at.Some? ==> at.value == now
  {
    if status == Published then Some(now) else None
  }

  /** The status after an update: the requested one, the stored one when none is given. */
  function StatusOnUpdate(requested: string, stored: string): (status: string)
    ensures requested == "" ==> status == stored
    ensures requested != "" ==> status == requested
  {
    if requested == "" then stored else requested
  }

  /** The publication date after an update: a published entry keeps its date or gets now; any other status has none. */
  function PublishedOnUpdate(status: string, stored: Option<int>, now: int): (at: Option<int>)
    ensures at.Some? <==> status == Published
    ensures status == Published && stored.Some? ==> at == stored
    ensures status == Published && stored.None? ==> at == Some(now)
  {
    if status == Published then (if stored.None? then Some(now) else stored) else None
  }

  /** The row CreateResource inserts. */
  function CreatedEntry(f: Fields, authorId: string, slug: string, req: ResourceRequest, tags: seq<string>, now: int)
    : (e: Resource)
    ensures PublishConsistent(e)
    ensures e.authorId == authorId && e.slug == slug && e.status == StatusOnCreate(req.status)
    ensures e.categoryCode == f.categoryCode && e.title == f.title && e.summary == f.summary && e.content == f.blocks
  {
    var status := StatusOnCreate(req.status);
    Resource(f.categoryCode, authorId, f.title, slug, f.summary, req.avatarId, tags, f.blocks, status,
             PublishedOnCreate(status, now))
  }

  /** The row UpdateResource writes over `old`: author and slug stay. */
  function UpdatedEntry(stored: Resource, f: Fields, req: ResourceRequest, tags: seq<string>, now: int) : (e: Resource)
    ensures PublishConsistent(e)
    ensures e.authorId == stored.authorId && e.slug == stored.slug
    ensures e.status == StatusOnUpdate(req.status, stored.status)
    ensures e.categoryCode == f.categoryCode && e.title == f.title && e.summary == f.summary && e.content == f.blocks
  {
    var status := StatusOnUpdate(req.status, stored.status);
    Resource(f.categoryCode, stored.authorId, f.title, stored.slug, f.summary, req.avatarId, tags, f.blocks, status,
             PublishedOnUpdate(status, stored.publishedAt, now))
  }

  /** An update that leaves a consistent, published entry published keeps its original publication date. */
  lemma RepublishKeepsDate(stored: Resource, f: Fields, req: ResourceRequest, tags: seq<string>, now: int)
    requires PublishConsistent(stored) && stored.status == Published
    requires req.status == "" || req.status == Published
    ensures UpdatedEntry(stored, f, req, tags, now).publishedAt == stored.publishedAt
  {
  }

  /** Unpublishing clears the date, and publishing again dates the entry anew. */
  lemma UnpublishThenPublish(stored: Resource, f: Fields, draft: ResourceRequest, again: ResourceRequest,
                             tags: seq<string>, t1: int, t2: int)
    requires draft.status != "" && draft.status != Published
    requires again.status == Published
    ensures UpdatedEntry(stored, f, draft, tags, t1).publishedAt.None?
    ensures UpdatedEntry(UpdatedEntry(stored, f, draft, tags, t1), f, again, tags, t2).publishedAt == Some(t2)
  {
  }

  /** Every entry of the table is PublishConsistent. */
  ghost predicate AllConsistent(resources: map<string, Resource>) {
    forall id :: id in resources ==> PublishConsistent(resources[id])
  }

  /** The slugs in use. */
  function SlugsOf(resources: map<string, Resource>): (slugs: set<string>)
    ensures forall id :: id in resources ==> resources[id].slug in slugs
    ensures forall s :: s in slugs ==> exists id :: id in resources && resources[id].slug == s
  {
    set id | id in resources :: resources[id].slug
  }

  /** `probe` answers the slug query on the table: taken or not, or None when the query fails. */
  ghost predicate SlugProbe(resources: map<string, Resource>, probe: string -> Option<bool>) {
    forall c :: probe(c).Some? ==> (probe(c).value <==> c in SlugsOf(resources))
  }

  /* ------------------------------------------------------------ create, update, delete */

  /**
   * CreateResource: after the shared checks, the entry is inserted under a
   * slug no other entry uses, authored by the caller, with its status
   * defaulting to PUBLISHED; a failed slug query or a reused id is 500.
   * `newId` is the entry's uuid; `slugFallback` is the separate uuid Slugify
   * draws for a title without letters or digits.
   */
  method CreateResource(db: Db, callerId: string, req: ResourceRequest, now: int, newId: string,
                        slugFallback: string, isAlnum: char -> bool, probe: string -> Option<bool>)
    returns (reply: Reply<DetailView>)
    modifies db`resources
    requires SlugProbe(db.resources, probe)
    ensures CheckFields(db.categories, req).Err? ==>
              reply == Failure(400, CheckFields(db.categories, req).error) && db.resources == old(db.resources)
    ensures reply.Failure? ==> db.resources == old(db.resources)
    ensures reply.Failure? && CheckFields(db.categories, req).Ok? ==> reply == Failure(500, InternalError)
    ensures CheckFields(db.categories, req).Ok? ==>
              var base := SlugOf(CheckFields(db.categories, req).value.title, isAlnum, slugFallback);
              && (reply.Done? ==> FirstFree(base, probe, Some(reply.body.slug)))
              && (reply.Failure? ==> FirstFree(base, probe, None) || newId in old(db.resources))
    ensures reply.Done? ==>
              && CheckFields(db.categories, req).Ok?
              && newId !in old(db.resources)
              && reply.status == 200 && reply.body.id == newId
              && reply.body.slug !in SlugsOf(old(db.resources))
              && db.resources == old(db.resources)[newId := CreatedEntry(CheckFields(db.categories, req).value, callerId,
                                                                           reply.body.slug, req, Keep(Trimmed(req.tags)), now)]
              && reply.body == DetailOf(db.categories, newId, db.resources[newId], AuthorDisplayName(db.users, db.profiles, callerId))
    ensures AllConsistent(old(db.resources)) ==> AllConsistent(db.resources)
  {
    var fields := Check(db, req);
    if fields.Err? {
      return Failure(400, fields.error);
    }
    var tags := CleanTags(req.tags);
    var slug := ResolveResourceSlug(fields.value.title, isAlnum, slugFallback, probe, SlugsOf(db.resources));
    if slug.None? {
      return Failure(500, InternalError);
    }
    if newId in db.resources {
      return Failure(500, InternalError);
    }
    var entry := CreatedEntry(fields.value, callerId, slug.value, req, tags, now);
    db.resources := db.resources[newId := entry];
    return Done(200, DetailOf(db.categories, newId, entry, AuthorDisplayName(db.users, db.profiles, callerId)));
  }

  /**
   * UpdateResource: 404 for an unknown id and for an entry the caller may not
   * manage; then the shared checks; otherwise the entry is rewritten with
   * its author and slug kept. The reply names the caller as the author.
   */
  method UpdateResource(db: Db, callerId: string, roles: seq<string>, resourceId: string, req: ResourceRequest, now: int)
    returns (reply: Reply<DetailView>)
    modifies db`resources
    ensures resourceId !in old(db.resources) ==> reply == Failure(404, ResourceNotFound)
    ensures resourceId in old(db.resources) && !CanManage(roles, callerId, old(db.resources)[resourceId]) ==>
              reply == Failure(404, ResourceGone)
    ensures (resourceId in old(db.resources) && CanManage(roles, callerId, old(db.resources)[resourceId])
             && CheckFields(db.categories, req).Err?) ==> reply == Failure(400, CheckFields(db.categories, req).error)
    ensures reply.Failure? ==> db.resources == old(db.resources)
    ensures reply.Done? <==> && resourceId in old(db.resources) && CanManage(roles, callerId, old(db.resources)[resourceId])
                             && CheckFields(db.categories, req).Ok?
    ensures reply.Done? ==>
              && db.resources == old(db.resources)[resourceId := UpdatedEntry(old(db.resources)[resourceId],
                                                                              CheckFields(db.categories, req).value, req,
                                                                              Keep(Trimmed(req.tags)), now)]
              && reply == Done(200, DetailOf(db.categories, resourceId, db.resources[resourceId],
                                             AuthorDisplayName(db.users, db.profiles, callerId)))
    ensures AllConsistent(old(db.resources)) ==> AllConsistent(db.resources)
  {
    if resourceId !in db.resources {
      return Failure(404, ResourceNotFound);
    }
    var stored := db.resources[resourceId];
    if !CanManage(roles, callerId, stored) {
      return Failure(404, ResourceGone);
    }
    var fields := Check(db, req);
    if fields.Err? {
      return Failure(400, fields.error);
    }
    var tags := CleanTags(req.tags);
    var entry := UpdatedEntry(stored, fields.value, req, tags, now);
    db.resources := db.resources[resourceId := entry];
    return Done(200, DetailOf(db.categories, resourceId, entry, AuthorDisplayName(db.users, db.profiles, callerId)));
  }

  /** DeleteResource: 404 for an unknown id and for an entry the caller may not manage; otherwise the row goes and 204. */
  method DeleteResource(db: Db, callerId: string, roles: seq<string>, resourceId: string) returns (reply: Reply<Empty>)
    modifies db`resources
    ensures resourceId !in old(db.resources) ==> reply == Failure(404, ResourceNotFound)
    ensures resourceId in old(db.resources) && !CanManage(roles, callerId, old(db.resources)[resourceId]) ==>
              reply == Failure(404, ResourceGone)
    ensures reply.Failure? ==> db.resources == old(db.resources)
    ensures reply.Done? <==> resourceId in old(db.resources) && CanManage(roles, callerId, old(db.resources)[resourceId])
    ensures reply.Done? ==> reply == Done(204, Empty) && db.resources == old(db.resources) - {resourceId}
  {
    if resourceId !in db.resources {
      return Failure(404, ResourceNotFound);
    }
    if !CanManage(roles, callerId, db.resources[resourceId]) {
      return Failure(404, ResourceGone);
    }
    db.resources := db.resources - {resourceId};
    return Done(204, Empty);
  }

  /** A caller without ADMIN never changes another author's entry: update and delete both leave it as it was. */
  lemma OthersEntriesUntouched(roles: seq<string>, callerId: string, entry: Resource)
    requires !HasRole(roles, "ADMIN") && entry.authorId != callerId
    ensures !CanManage(roles, callerId, entry)
  {
  }
}

=== FILE: text.dfy ===
/**
 * The string primitives the Go code calls from the `strings` and `unicode`
 * packages: whitespace trimming, ASCII case mapping, prefixes, splitting on a
 * separator and byte-wise ordering; and the `nullIfEmpty` helper that both
 * the HTTP and the migrations packages define for nullable text columns.
 */
module Text {
  import opened Wrappers

  /** unicode.IsSpace: the Latin-1 spaces plus the other White_Space code points. */
  predicate IsSpace(c: char) {
    || c == '\t' || c == '\n' || c == '\U{000B}' || c == '\U{000C}' || c == '\r' || c == ' '
    || c == '\U{0085}' || c == '\U{00A0}' || c == '\U{1680}'
    || ('\U{2000}' <= c <= '\U{200A}')
    || c == '\U{2028}' || c == '\U{2029}' || c == '\U{202F}' || c == '\U{205F}' || c == '\U{3000}'
  }

  /** The class `\s` of Go's regexp package (RE2's Perl class): [\t\n\f\r ]. */
  predicate IsPerlSpace(c: char) {
    c == '\t' || c == '\n' || c == '\U{000C}' || c == '\r' || c == ' '
  }

  predicate AllSpace(s: string) {
    forall i :: 0 <= i < |s| ==> IsSpace(s[i])
  }

  /** strings.TrimLeft with unicode.IsSpace: the longest suffix that does not start with a space. */
  function TrimLeft(s: string): (r: string)
    ensures |r| <= |s|
    decreases |s|
  {
    if |s| > 0 && IsSpace(s[0]) then TrimLeft(s[1..]) else s
  }

  /** TrimLeft removes a run of spaces and stops at the first other character. */
  lemma {:induction false} TrimLeftShape(s: string)
    ensures var r := TrimLeft(s);
            && r == s[|s| - |r|..]
            && (r == [] || !IsSpace(r[0]))
            && AllSpace(s[..|s| - |r|])
    decreases |s|
  {
    if |s| > 0 && IsSpace(s[0]) {
      TrimLeftShape(s[1..]);
      var r := TrimLeft(s);
      assert s[1..][..|s| - 1 - |r|] == s[1..|s| - |r|];
    }
  }

  /** strings.TrimRight with unicode.IsSpace: the longest prefix that does not end with a space. */
  function TrimRight(s: string): (r: string)
    ensures |r| <= |s|
    decreases |s|
  {
    if |s| > 0 && IsSpace(s[|s| - 1]) then TrimRight(s[..|s| - 1]) else s
  }

  /** TrimRight removes a run of trailing spaces and stops at the last other character. */
  lemma {:induction false} TrimRightShape(s: string)
    ensures var r := TrimRight(s);
            && r == s[..|r|]
            && (r == [] || !IsSpace(r[|r| - 1]))
            && AllSpace(s[|r|..])
    decreases |s|
  {
    if |s| > 0 && IsSpace(s[|s| - 1]) {
      TrimRightShape(s[..|s| - 1]);
    }
  }

  /** strings.TrimSpace. */
  function TrimSpace(s: string): string {
    TrimRight(TrimLeft(s))
  }

  /** `strings.TrimSpace(s) == ""`, the Go code's test for a blank value. */
  predicate IsBlank(s: string) {
    TrimSpace(s) == ""
  }

  lemma TrimLeftNoSpace(s: string)
    requires s == [] || !IsSpace(s[0])
    ensures TrimLeft(s) == s
  {
  }

  lemma TrimRightNoSpace(s: string)
    requires s == [] || !IsSpace(s[|s| - 1])
    ensures TrimRight(s) == s
  {
  }

  /** A value with no white space at either end. */
  predicate IsTrimmed(s: string) {
    s == [] || (!IsSpace(s[0]) && !IsSpace(s[|s| - 1]))
  }

  /** Trimming leaves a trimmed value unchanged. */
  lemma TrimmedFixed(s: string)
    requires IsTrimmed(s)
    ensures TrimSpace(s) == s
  {
    TrimLeftNoSpace(s);
    TrimRightNoSpace(s);
  }

  /** Trimming never leaves a space at either end. */
  lemma TrimSpaceEnds(s: string)
    ensures IsTrimmed(TrimSpace(s))
  {
    var l := TrimLeft(s);
    var t := TrimRight(l);
    TrimLeftShape(s);
    TrimRightShape(l);
    if t != [] {
      assert t[0] == l[0];
    }
  }

  /** Trimming twice is trimming once. */
  lemma TrimSpaceIdempotent(s: string)
    ensures TrimSpace(TrimSpace(s)) == TrimSpace(s)
  {
    TrimSpaceEnds(s);
    TrimmedFixed(TrimSpace(s));
  }

  /** A value is blank exactly when every character is a space. */
  lemma BlankIffAllSpace(s: string)
    ensures IsBlank(s) <==> AllSpace(s)
  {
    var l := TrimLeft(s);
    var k := |s| - |l|;
    TrimLeftShape(s);
    TrimRightShape(l);
    if IsBlank(s) {
      assert AllSpace(l[0..]);
      assert l[0..] == l;
      assert l == [];
      assert s[..k] == s;
    }
  }

  /** A trimmed value is a contiguous piece of the original. */
  lemma TrimSpaceIsInfix(s: string)
    ensures exists i, j :: 0 <= i <= j <= |s| && TrimSpace(s) == s[i..j]
  {
    var l := TrimLeft(s);
    var t := TrimRight(l);
    var i := |s| - |l|;
    TrimLeftShape(s);
    TrimRightShape(l);
    assert t == s[i..i + |t|];
  }

  /** ASCII upper-casing of one character. */
  function UpperChar(c: char): char {
    if 'a' <= c <= 'z' then (c as int - 32) as char else c
  }

  /** ASCII lower-casing of one character. */
  function LowerChar(c: char): char {
    if 'A' <= c <= 'Z' then (c as int + 32) as char else c
  }

  /** strings.ToUpper, restricted to the ASCII letters. */
  function Upper(s: string): (r: string)
    ensures |r| == |s|
  {
    seq(|s|, i requires 0 <= i < |s| => UpperChar(s[i]))
  }

  /** strings.ToLower, restricted to the ASCII letters. */
  function Lower(s: string): (r: string)
    ensures |r| == |s|
  {
    seq(|s|, i requires 0 <= i < |s| => LowerChar(s[i]))
  }

  lemma UpperIdempotent(s: string)
    ensures Upper(Upper(s)) == Upper(s)
  {
  }

  lemma LowerIdempotent(s: string)
    ensures Lower(Lower(s)) == Lower(s)
  {
  }

  lemma UpperAppend(a: string, b: string)
    ensures Upper(a + b) == Upper(a) + Upper(b)
  {
  }

  /** strings.EqualFold for the ASCII letters. */
  predicate EqualFold(a: string, b: string) {
    Upper(a) == Upper(b)
  }

  /** strings.HasPrefix. */
  predicate HasPrefix(s: string, p: string) {
    |p| <= |s| && s[..|p|] == p
  }

  /** strings.HasSuffix. */
  predicate HasSuffix(s: string, p: string) {
    |p| <= |s| && s[|s| - |p|..] == p
  }

  /** strings.TrimPrefix. */
  function TrimPrefix(s: string, p: string): (r: string)
    ensures HasPrefix(s, p) ==> s == p + r
    ensures !HasPrefix(s, p) ==> r == s
  {
    if HasPrefix(s, p) then s[|p|..] else s
  }

  /** strings.Split with a one-character separator: the pieces between separators, at least one. */
  function Split(s: string, sep: char): (parts: seq<string>)
    ensures |parts| >= 1
    decreases |s|
  {
    if |s| == 0 then [""]
    else
      var rest := Split(s[1..], sep);
      if s[0] == sep then [""] + rest else [[s[0]] + rest[0]] + rest[1..]
  }

  /** strings.Join with a one-character separator. */
  function Join(parts: seq<string>, sep: char): string
    requires |parts| >= 1
    decreases |parts|
  {
    if |parts| == 1 then parts[0] else parts[0] + [sep] + Join(parts[1..], sep)
  }

  /** No piece of a split contains the separator. */
  lemma {:induction false} SplitPartsFree(s: string, sep: char)
    ensures forall k :: 0 <= k < |Split(s, sep)| ==> sep !in Split(s, sep)[k]
    decreases |s|
  {
    if |s| > 0 {
      SplitPartsFree(s[1..], sep);
    }
  }

  /** Joining the pieces of a split gives back the original string. */
  lemma {:induction false} JoinSplit(s: string, sep: char)
    ensures Join(Split(s, sep), sep) == s
    decreases |s|
  {
    if |s| > 0 {
      var rest := Split(s[1..], sep);
      JoinSplit(s[1..], sep);
      if s[0] != sep {
        if |rest| > 1 {
          calc {
            Join(Split(s, sep), sep);
            [s[0]] + rest[0] + [sep] + Join(rest[1..], sep);
            [s[0]] + Join(rest, sep);
          }
        }
      }
    }
  }

  /** A string without the separator splits into itself. */
  lemma {:induction false} SplitNoSeparator(s: string, sep: char)
    requires sep !in s
    ensures Split(s, sep) == [s]
    decreases |s|
  {
    if |s| > 0 {
      SplitNoSeparator(s[1..], sep);
      assert [s[0]] + s[1..] == s;
    }
  }

  /** Splitting `a + sep + b` where `a` has no separator yields `a` followed by the pieces of `b`. */
  lemma {:induction false} SplitAfterPiece(a: string, sep: char, b: string)
    requires sep !in a
    ensures Split(a + [sep] + b, sep) == [a] + Split(b, sep)
    decreases |a|
  {
    if |a| == 0 {
      assert a + [sep] + b == [sep] + b;
      assert ([sep] + b)[1..] == b;
    } else {
      assert (a + [sep] + b)[1..] == a[1..] + [sep] + b;
      SplitAfterPiece(a[1..], sep, b);
      assert [a[0]] + a[1..] == a;
    }
  }

  /** Splitting the join of separator-free pieces gives back the pieces. */
  lemma {:induction false} SplitJoin(parts: seq<string>, sep: char)
    requires |parts| >= 1
    requires forall k :: 0 <= k < |parts| ==> sep !in parts[k]
    ensures Split(Join(parts, sep), sep) == parts
    decreases |parts|
  {
    if |parts| == 1 {
      SplitNoSeparator(parts[0], sep);
    } else {
      SplitJoin(parts[1..], sep);
      SplitAfterPiece(parts[0], sep, Join(parts[1..], sep));
      assert parts == [parts[0]] + parts[1..];
    }
  }

  /** The index of the first occurrence of `c` in `s`. */
  function IndexOf(s: string, c: char): (r: Option<nat>)
    ensures r.None? <==> c !in s
    ensures r.Some? ==> r.value < |s| && s[r.value] == c && c !in s[..r.value]
    ensures r.Some? ==> forall j :: 0 <= j < r.value ==> s[j] != c
    decreases |s|
  {
    if |s| == 0 then None
    else if s[0] == c then Some(0)
    else match IndexOf(s[1..], c)
      case None => None
      case Some(i) => assert s[..i + 1] == [s[0]] + s[1..][..i]; Some(i + 1)
  }

  /** The index of the first occurrence of the non-empty `pat` in `s`. */
  function IndexOfString(s: string, pat: string): (r: Option<nat>)
    requires |pat| > 0
    ensures r.Some? ==> r.value + |pat| <= |s| && s[r.value..r.value + |pat|] == pat
    ensures r.Some? ==> forall k :: 0 <= k < r.value ==> !HasPrefix(s[k..], pat)
    ensures r.None? ==> forall k :: 0 <= k <= |s| ==> !HasPrefix(s[k..], pat)
    decreases |s|
  {
    if |s| < |pat| then None
    else if HasPrefix(s, pat) then Some(0)
    else match IndexOfString(s[1..], pat)
      case None => assert forall k :: 1 <= k <= |s| ==> s[k..] == s[1..][k - 1..]; None
      case Some(i) =>
        assert forall k :: 1 <= k <= i ==> s[k..] == s[1..][k - 1..];
        Some(i + 1)
  }

  /** strings.Cut with a one-character separator: the text before and after the first separator. */
  function Cut(s: string, sep: char): (r: Option<(string, string)>)
    ensures r.None? <==> sep !in s
    ensures r.Some? ==> sep !in r.value.0 && s == r.value.0 + [sep] + r.value.1
  {
    match IndexOf(s, sep)
    case None => None
    case Some(i) => Some((s[..i], s[i + 1..]))
  }

  /** Cutting at the first separator of `k + sep + v`, where `k` has none, gives `k` and `v`. */
  lemma CutAfterKey(k: string, sep: char, v: string)
    requires sep !in k
    ensures Cut(k + [sep] + v, sep) == Some((k, v))
  {
    var s := k + [sep] + v;
    assert s[|k|] == sep;
    assert forall j | 0 <= j < |k| :: s[j] == k[j];
    assert s[..|k|] == k && s[|k| + 1..] == v;
  }

  /** Byte-wise order of Go strings (UTF-8 byte order equals code point order): strict "less than". */
  predicate Less(a: string, b: string)
    decreases |a|
  {
    if |a| == 0 then |b| > 0
    else if |b| == 0 then false
    else if a[0] != b[0] then a[0] < b[0]
    else Less(a[1..], b[1..])
  }

  predicate LessEq(a: string, b: string) {
    a == b || Less(a, b)
  }

  lemma {:induction false} LessIrreflexive(a: string)
    ensures !Less(a, a)
    decreases |a|
  {
    if |a| > 0 {
      LessIrreflexive(a[1..]);
    }
  }

  lemma {:induction false} LessTransitive(a: string, b: string, c: string)
    requires Less(a, b) && Less(b, c)
    ensures Less(a, c)
    decreases |a|
  {
    if |a| > 0 && |b| > 0 && |c| > 0 && a[0] == b[0] && b[0] == c[0] {
      LessTransitive(a[1..], b[1..], c[1..]);
    }
  }

  lemma {:induction false} LessTotal(a: string, b: string)
    ensures Less(a, b) || a == b || Less(b, a)
    decreases |a|
  {
    if |a| > 0 && |b| > 0 && a[0] == b[0] {
      LessTotal(a[1..], b[1..]);
      if a[1..] == b[1..] {
        assert a == [a[0]] + a[1..] && b == [b[0]] + b[1..];
      }
    }
  }

  lemma LessAsymmetric(a: string, b: string)
    requires Less(a, b)
    ensures !Less(b, a)
  {
    if Less(b, a) {
      LessTransitive(a, b, a);
      LessIrreflexive(a);
    }
  }

  /** nullIfEmpty: NULL for a blank value, otherwise the value as given, untrimmed. */
  function NullIfEmpty(value: string): (r: Option<string>)
    ensures r.None? <==> IsBlank(value)
    ensures r.Some? ==> r.value == value
  {
    if TrimSpace(value) == "" then None else Some(value)
  }
}

=== FILE: tokens.dfy ===
/**
 * The JSON Web Tokens of TokenService (RFC 7519, signed with HS256 as in
 * section 3.2 of RFC 7518) through golang-jwt v5: the claim sets of access and
 * refresh tokens and the claim checks ParseToken applies after the signature.
 *
 * Signing (SignedString) and the signature/structure check of
 * jwt.ParseWithClaims are parameters: `Signer` and `Verifier`. `Sound` states
 * what the model relies on about them: a token signed with a secret verifies
 * with that secret and gives back the claims that were signed. Times are
 * whole Unix seconds.
 */
module Tokens {
  import opened Wrappers
  import opened Text

  /** A JSON claim value as jwt.MapClaims holds it after decoding. */
  datatype Claim = CStr(s: string) | CNum(n: int) | CBool(b: bool) | CNull | CList(items: seq<Claim>)

  type Claims = map<string, Claim>

  /** TokenService: the HMAC secret, the issuer and the two lifetimes in seconds. */
  datatype TokenService = TokenService(secret: string, issuer: string, accessTtl: int, refreshTtl: int)

  /** token.SignedString(secret) for the given claims; None stands for its error. */
  type Signer = (string, Claims) -> Option<string>

  /** The signature and structure check of jwt.ParseWithClaims with the given secret; None when it fails. */
  type Verifier = (string, string) -> Option<Claims>

  /** A token produced by `sign` with a secret passes `verify` with that secret and carries the signed claims. */
  ghost predicate Sound(sign: Signer, verify: Verifier) {
    forall secret: string, c: Claims :: sign(secret, c).Some? ==> verify(sign(secret, c).value, secret) == Some(c)
  }

  /** A `[]string` claim: a JSON array of strings. */
  function StringList(items: seq<string>): (c: Claim)
    ensures c.CList? && |c.items| == |items|
    ensures forall i :: 0 <= i < |items| ==> c.items[i] == CStr(items[i])
  {
    CList(seq(|items|, i requires 0 <= i < |items| => CStr(items[i])))
  }

  /** The claims of an access token issued at `now`. */
  function AccessClaims(ts: TokenService, userId: string, email: string, roles: seq<string>, now: int): (c: Claims)
    ensures c.Keys == {"iss", "sub", "typ", "email", "roles", "iat", "exp"}
    ensures c["typ"] == CStr("access") && c["iss"] == CStr(ts.issuer)
    ensures c["sub"] == CStr(userId) && c["email"] == CStr(email)
    ensures c["exp"] == CNum(now + ts.accessTtl) && c["iat"] == CNum(now)
    ensures c["roles"] == StringList(roles)
  {
    map["iss" := CStr(ts.issuer), "sub" := CStr(userId), "typ" := CStr("access"), "email" := CStr(email),
        "roles" := StringList(roles), "iat" := CNum(now), "exp" := CNum(now + ts.accessTtl)]
  }

  /** The claims of a refresh token issued at `now`: no email and no roles. */
  function RefreshClaims(ts: TokenService, userId: string, now: int): (c: Claims)
    ensures c.Keys == {"iss", "sub", "typ", "iat", "exp"}
    ensures "email" !in c && "roles" !in c
    ensures c["typ"] == CStr("refresh") && c["iss"] == CStr(ts.issuer) && c["sub"] == CStr(userId)
    ensures c["exp"] == CNum(now + ts.refreshTtl) && c["iat"] == CNum(now)
  {
    map["iss" := CStr(ts.issuer), "sub" := CStr(userId), "typ" := CStr("refresh"),
        "iat" := CNum(now), "exp" := CNum(now + ts.refreshTtl)]
  }

  /** What CreateAccessToken returns: the signed token (None on a signing error) and its expiry. */
  datatype Issued = Issued(token: Option<string>, expiresAt: int)

  /** CreateAccessToken: signs the access claims; the expiry returned is the `exp` claim. */
  function CreateAccessToken(ts: TokenService, userId: string, email: string, roles: seq<string>, now: int, sign: Signer): (r: Issued)
    ensures r.expiresAt == now + ts.accessTtl
    ensures CNum(r.expiresAt) == AccessClaims(ts, userId, email, roles, now)["exp"]
  {
    Issued(sign(ts.secret, AccessClaims(ts, userId, email, roles, now)), now + ts.accessTtl)
  }

  /** CreateRefreshToken: signs the refresh claims. */
  function CreateRefreshToken(ts: TokenService, userId: string, now: int, sign: Signer): (r: Option<string>)
    ensures r == sign(ts.secret, RefreshClaims(ts, userId, now))
  {
    sign(ts.secret, RefreshClaims(ts, userId, now))
  }

  /**
   * The registered time claims as the v5 validator checks them with no leeway:
   * a present `exp` must be a number later than now, a present `nbf` a number
   * not later than now; a claim of another JSON type is an error; `iat` is not
   * checked.
   */
  predicate TimeValid(c: Claims, now: int) {
    && ("exp" in c ==> c["exp"].CNum? && now < c["exp"].n)
    && ("nbf" in c ==> c["nbf"].CNum? && now >= c["nbf"].n)
  }

  /** jwt.WithIssuer: with a non-empty expected issuer the `iss` claim must be that string. */
  predicate IssuerValid(c: Claims, issuer: string) {
    issuer != "" ==> "iss" in c && c["iss"] == CStr(issuer)
  }

  /** ParseToken: the claims of a token whose signature verifies and whose time and issuer claims are valid. */
  function ParseToken(ts: TokenService, token: string, now: int, verify: Verifier): (r: Option<Claims>)
    ensures r.Some? <==> verify(token, ts.secret).Some? && TimeValid(verify(token, ts.secret).value, now)
                         && IssuerValid(verify(token, ts.secret).value, ts.issuer)
    ensures r.Some? ==> r == verify(token, ts.secret)
  {
    match verify(token, ts.secret)
    case None => None
    case Some(c) => if TimeValid(c, now) && IssuerValid(c, ts.issuer) then Some(c) else None
  }

  /** An access token signed by the service parses back to its claims at any time before its expiry. */
  lemma AccessTokenParses(ts: TokenService, userId: string, email: string, roles: seq<string>, now: int, t: int,
                          sign: Signer, verify: Verifier)
    requires Sound(sign, verify)
    requires CreateAccessToken(ts, userId, email, roles, now, sign).token.Some?
    requires t < CreateAccessToken(ts, userId, email, roles, now, sign).expiresAt
    ensures ParseToken(ts, CreateAccessToken(ts, userId, email, roles, now, sign).token.value, t, verify)
            == Some(AccessClaims(ts, userId, email, roles, now))
  {
    var c := AccessClaims(ts, userId, email, roles, now);
    assert verify(sign(ts.secret, c).value, ts.secret) == Some(c);
  }

  /** A refresh token parses back to its claims before its expiry as well: ParseToken does not look at `typ`. */
  lemma RefreshTokenParses(ts: TokenService, userId: string, now: int, t: int, sign: Signer, verify: Verifier)
    requires Sound(sign, verify)
    requires CreateRefreshToken(ts, userId, now, sign).Some?
    requires t < now + ts.refreshTtl
    ensures ParseToken(ts, CreateRefreshToken(ts, userId, now, sign).value, t, verify) == Some(RefreshClaims(ts, userId, now))
  {
    var c := RefreshClaims(ts, userId, now);
    assert verify(sign(ts.secret, c).value, ts.secret) == Some(c);
  }

  /** From its expiry on, a token of the service no longer parses. */
  lemma ExpiredTokenRejected(ts: TokenService, userId: string, email: string, roles: seq<string>, now: int, t: int,
                             sign: Signer, verify: Verifier)
    requires Sound(sign, verify)
    requires CreateAccessToken(ts, userId, email, roles, now, sign).token.Some?
    requires t >= CreateAccessToken(ts, userId, email, roles, now, sign).expiresAt
    ensures ParseToken(ts, CreateAccessToken(ts, userId, email, roles, now, sign).token.value, t, verify) == None
  {
    var c := AccessClaims(ts, userId, email, roles, now);
    assert verify(sign(ts.secret, c).value, ts.secret) == Some(c);
  }

  /** Claims issued by a service with a different non-empty issuer are rejected. */
  lemma ForeignIssuerRejected(ts: TokenService, other: TokenService, userId: string, now: int, t: int,
                              sign: Signer, verify: Verifier)
    requires Sound(sign, verify)
    requires ts.issuer != "" && other.issuer != ts.issuer && other.secret == ts.secret
    requires CreateRefreshToken(other, userId, now, sign).Some?
    ensures ParseToken(ts, CreateRefreshToken(other, userId, now, sign).value, t, verify) == None
  {
    var c := RefreshClaims(other, userId, now);
    assert verify(sign(ts.secret, c).value, ts.secret) == Some(c);
  }
}

=== FILE: user_dto.dfy ===
/**
 * The user view the auth and profile handlers answer with: the users row,
 * the LEFT-JOINed profile row and the user's role codes in `ORDER BY code`
 * order, projected into a UserDTO.
 */
module UserDtos {
  import opened Wrappers
  import opened Text
  import opened Dates
  import opened Store
  import opened Media

  datatype ProfileDto = ProfileDto(firstName: Option<string>, lastName: Option<string>, birthDate: Option<string>,
                                   gender: Option<string>, phone: Option<string>, school: Option<string>,
                                   gradeLevel: Option<string>, bio: Option<string>, avatarUrl: Option<string>)

  datatype UserDto = UserDto(id: string, email: string, status: string, role: string, roles: seq<string>,
                             profile: Option<ProfileDto>, lastLoginAt: Option<int>)

  /** The role a user is shown with: the first listed code, or STUDENT for a user without roles. */
  function PrimaryRole(roles: seq<string>): (r: string)
    ensures |roles| == 0 ==> r == "STUDENT"
    ensures |roles| > 0 ==> r in roles
  {
    if |roles| > 0 then roles[0] else "STUDENT"
  }

  /** Over an ascending listing, the primary role is the least code the user holds. */
  lemma PrimaryRoleLeast(roles: seq<string>)
    requires Ascending(roles) && |roles| > 0
    ensures forall c :: c in roles ==> LessEq(PrimaryRole(roles), c)
  {
    forall c | c in roles
      ensures LessEq(PrimaryRole(roles), c)
    {
      AscendingHeadLeast(roles, c);
    }
  }

  /** The profile columns the join yields: the user's row, or all NULL when there is none. */
  function ProfileRow(profiles: map<string, Profile>, userId: string): (p: Profile)
    ensures userId !in profiles ==> p == BlankProfile
  {
    if userId in profiles then profiles[userId] else BlankProfile
  }

  /** Some profile column is non-NULL. */
  predicate AnyColumn(p: Profile) {
    p.firstName.Some? || p.lastName.Some? || p.phone.Some? || p.school.Some? || p.gradeLevel.Some?
    || p.bio.Some? || p.avatarId.Some? || p.gender.Some? || p.birthDate.Some?
  }

  /**
   * The profile part of the DTO: present iff some column is non-NULL; the
   * birth date rendered as YYYY-MM-DD and the avatar as its asset address.
   */
  function ProfileView(p: Profile): (r: Option<ProfileDto>)
    ensures r.Some? <==> AnyColumn(p)
    ensures r.None? <==> p == BlankProfile
    ensures r.Some? ==> && r.value.firstName == p.firstName && r.value.lastName == p.lastName
                        && r.value.gender == p.gender && r.value.phone == p.phone && r.value.school == p.school
                        && r.value.gradeLevel == p.gradeLevel && r.value.bio == p.bio
    ensures r.Some? ==> (r.value.birthDate.Some? <==> p.birthDate.Some?)
    ensures r.Some? ==> (r.value.avatarUrl.Some? <==> p.avatarId.Some?)
  {
    if !AnyColumn(p) then None
    else
      var birth := if p.birthDate.Some? then Some(FormatDate(p.birthDate.value)) else None;
      var avatar := if p.avatarId.Some? then Some(BuildAssetUrl(p.avatarId.value)) else None;
      Some(ProfileDto(p.firstName, p.lastName, birth, p.gender, p.phone, p.school, p.gradeLevel, p.bio, avatar))
  }

  /** The rendered birth date parses back to the stored one, and the avatar address names the stored asset. */
  lemma ProfileViewReadsBack(p: Profile)
    requires AnyColumn(p)
    ensures var v := ProfileView(p).value;
            && (p.birthDate.Some? ==> ParseDate(v.birthDate.value) == Some(p.birthDate.value))
            && (p.avatarId.Some? ==> AssetIdOf(v.avatarUrl.value) == p.avatarId.value)
  {
    if p.birthDate.Some? {
      FormatThenParse(p.birthDate.value);
    }
    if p.avatarId.Some? {
      AssetUrlRoundTrip(p.avatarId.value);
    }
  }

  /** The DTO of a users row, its profile columns and its listed role codes. */
  function UserDtoOf(userId: string, u: User, p: Profile, roles: seq<string>): (d: UserDto)
    ensures d.id == userId && d.email == u.email && d.status == u.status && d.lastLoginAt == u.lastLoginAt
    ensures d.roles == roles && d.role == PrimaryRole(roles)
    ensures d.profile == ProfileView(p)
  {
    UserDto(userId, u.email, u.status, PrimaryRole(roles), roles, ProfileView(p), u.lastLoginAt)
  }

  /**
   * buildUserDTO: NoRows for an unknown user; otherwise the projection of the
   * user's row, profile row and role codes listed in ascending order.
   */
  method BuildUserDto(db: Db, userId: string) returns (r: Result<UserDto, DbError>)
    ensures userId !in db.users ==> r == Err(NoRows)
    ensures userId in db.users ==> r.Ok?
    ensures r.Ok? ==> && r.value.roles == SortedCodes(RoleCodes(db.roles, db.userRoles, userId))
                      && r.value == UserDtoOf(userId, db.users[userId], ProfileRow(db.profiles, userId), r.value.roles)
  {
    if userId !in db.users {
      return Err(NoRows);
    }
    var roles := SortCodes(RoleCodes(db.roles, db.userRoles, userId));
    return Ok(UserDtoOf(userId, db.users[userId], ProfileRow(db.profiles, userId), roles));
  }
}

=== FILE: users.dfy ===
/** The two timestamp updates on `users` the handlers perform. */
module Users {
  import opened Wrappers
  import opened Store

  /** SetLastLogin: last_login_at and last_seen_at become `now` on the user's row, if there is one. */
  method SetLastLogin(db: Db, userId: string, now: int)
    modifies db`users
    ensures userId in old(db.users) ==>
              db.users == old(db.users)[userId := old(db.users)[userId].(lastLoginAt := Some(now), lastSeenAt := Some(now))]
    ensures userId !in old(db.users) ==> db.users == old(db.users)
  {
    if userId in db.users {
      db.users := db.users[userId := db.users[userId].(lastLoginAt := Some(now), lastSeenAt := Some(now))];
    }
  }

  /** TouchLastSeen: last_seen_at becomes `now` on the user's row, if there is one. */
  method TouchLastSeen(db: Db, userId: string, now: int)
    modifies db`users
    ensures userId in old(db.users) ==> db.users == old(db.users)[userId := old(db.users)[userId].(lastSeenAt := Some(now))]
    ensures userId !in old(db.users) ==> db.users == old(db.users)
  {
    if userId in db.users {
      db.users := db.users[userId := db.users[userId].(lastSeenAt := Some(now))];
    }
  }
}

=== FILE: wrappers.dfy ===
/** Failure-carrying values shared by every module of the model. */
module Wrappers {

  /** A value that may be absent: a Go nil or a missing row. */
  datatype Option<+T> = None | Some(value: T) {
    function GetOr(default: T): T {
      match this
      case Some(v) => v
      case None => default
    }
  }

  /** A value or the error that prevented it: Go's `(T, error)` pair. */
  datatype Result<+T, +E> = Ok(value: T) | Err(error: E)
}
